=== FILE: README.md ===
# invest-ai portfolio calculator core, modelled in Dafny

This project models the calculation core of invest-ai, a calculator for Chinese stock and fund portfolios. A user's ledger is a list of BUY, SELL and DIVIDEND transactions. From that ledger the core computes:

- realized and unrealized gains under first-in-first-out (FIFO) lot matching;
- the current value and cost basis of every code;
- annual returns (start value, end value, new investments, withdrawals, dividends, net gain, return rate);
- XIRR, the annualised internal rate of return of the cash flows.

The core also validates and filters ledgers. Smaller parts model the Chinese trading calendar, the caches and status records around a calculation, and the conversion of a code to its exchange-suffixed Tushare form.

Modules follow the source files:

| module | file | source |
|---|---|---|
| `Models` | models.dfy | `models/__init__.py`: transactions, purchase lots, the FIFO queue, results |
| `Fifo` | fifo.dfy | `calculation/fifo.py` |
| `Positions` | positions.dfy | the per-code FIFO replay written out inline in `calculation/history.py` and `calculation/annual.py` |
| `History` | history.dfy | `calculation/history.py` |
| `Annual` | annual.dfy | `calculation/annual.py` |
| `Xirr` | xirr.dfy | `calculation/xirr.py` |
| `Engine` | engine.dfy | `calculation/engine.py` |
| `Validator` | validator.dfy | `transaction/validator.py` |
| `TransactionFilter` | filter.dfy | `transaction/filter.py` |
| `TransactionModels` | tx_models.dfy | `transaction/models.py` |
| `TradingDays` | trading_days.dfy | `market/trading_days.py` |
| `CalculationModels` | calc_models.dfy | `calculation/models.py` |
| `MarketModels` | market_models.dfy | `market/models.py` |
| `StockClient` | stock_client.dfy | `_convert_to_tushare_code` in `market/stock_client.py` |
| `Dates`, `Text`, `Seqs`, `Wrappers` | dates.dfy, text.dfy, seqs.dfy, wrappers.dfy | Python's `datetime.date` ordinals, string methods, sorting and filtering, `None` and raised errors |

Representation choices:

- Dates are proleptic-Gregorian day ordinals, as `date.toordinal()` gives them. Weekday, year and month follow the standard library's ordinal-to-date algorithm.
- Quantities, prices and amounts are `real`. Every operation the core applies to them is exact on reals.
- A raised `ValueError` is a `Failure` of a `Result`, and `None` is `Option.None`.
- The `async` methods are pure functions; nothing in them awaits anything.
- Python sets of codes are visited in first-occurrence order. Every total over them is a sum of reals and does not depend on the order. Where the source returns a list built in set order (individual results, for instance), the model uses first-occurrence order.
- "Today" and the wall clock are parameters. So are the current and snapshot prices, the holiday table, and the XIRR present-value function with its derivative.
- XIRR: Dafny has no real-exponent power, so the solver is modelled with the present-value function as a parameter. What is proved are the guards, the sentinel results, the clamping of every Newton iterate into [-0.99, 10], and the bisection bracket invariant. Together these give the bound that a returned rate always lies in [-99, 1000] percent.

Behaviour kept as the code has it:

- The annual net gain is `(end value + withdrawals + realized gains) − (start value + new investments)`, as `calculation/annual.py:67` computes it. The comment above that line leaves out the realized gains. In the worked year (buy 1000 at 20, buy 1000 at 25, sell 1500 for 40500, year-end price 25.50) this gives 16250. The end value is 12750 and the capital gain is 8000 (`Annual.ScenarioAnnualReturns`).
- The annual capital gain includes gains from pre-year sales, because the year-end replay runs over pre-year and in-year transactions together.
- A lot is added for every DIVIDEND, cash dividends of quantity 0 included.
- In an allocation, a fully consumed lot is recorded with its remaining quantity set to 0.
- Sales are applied in input order. A sale whose allocation fails is skipped.
- `FifoQueue.sell_shares` empties the lots it reaches before it raises, so a failed sale is not all-or-nothing.
- The year-start search begins on January 2 and never returns January 1. This is harmless only when the holiday table is in use and lists January 1. A `holidays.CountryHoliday("CN")` built without years may be empty, and so falsy, until its first lookup fills it. In that state `self.cn_holidays and ...` skips the table, and then a weekday January 1 would be a trading day that the search cannot return.

## Model

| member | source | states |
|---|---|---|
| Models.GetInvestmentType | src/invest_ai/models/__init__.py:93-99 | a code starting with "5" or "1" is a fund, every other code (the empty one included) is a stock |
| Models.SortByDate | src/invest_ai/models/__init__.py:131-135 | the result is a date-ordered permutation of the transactions |
| Models.GetCodes | src/invest_ai/models/__init__.py:137-139 | a code is in the set exactly when some transaction carries it |
| Models.CodesInOrder | src/invest_ai/models/__init__.py:137-139 | the codes listed once each, and exactly the codes of `GetCodes` |
| Models.EarliestDate | src/invest_ai/models/__init__.py:141-146 | the minimum date: it occurs in the list and no date is earlier |
| Models.LatestDate | src/invest_ai/models/__init__.py:141-146 | the maximum date: it occurs in the list and no date is later |
| Models.GetDateRange | src/invest_ai/models/__init__.py:141-146 | none for an empty list; otherwise a pair of dates that occur in the list and bound every date |
| Models.FilterByCode | src/invest_ai/models/__init__.py:148-151 | an order-keeping subsequence holding exactly the transactions with that code |
| Models.FilterByYear | src/invest_ai/models/__init__.py:153-161 | an order-keeping subsequence holding exactly the transactions dated in that year |
| Models.AddPurchase | src/invest_ai/models/__init__.py:284-287 | the queue stays date-sorted and keeps its code; a lot no earlier than every held lot goes at the back |
| Models.AddPurchaseKeepsLots | src/invest_ai/models/__init__.py:284-287 | the new lots are the old ones plus the purchase, and the stable sort keeps the lots of each date in arrival order |
| Models.GetAverageCost | src/invest_ai/models/__init__.py:340-345 | zero for an empty holding, otherwise the average times the quantity gives back the cost basis |
| Models.UpdateTotalQuantity | src/invest_ai/models/__init__.py:347-349 | keeps, in order, exactly the lots with shares left, each lot with shares left as many times as it occurred and an emptied lot not at all |
| Models.UpdateKeepsTotals | src/invest_ai/models/__init__.py:332-349 | with no negative lot, dropping the emptied lots leaves the held quantity and the cost basis unchanged |
| Models.GetNextPurchase | src/invest_ai/models/__init__.py:356-366 | none exactly when the queue has no inventory, otherwise a lot of the queue |
| Models.HeldIsTotalOfOpenLots | src/invest_ai/models/__init__.py:332-338 | the held quantity and cost are the totals over the lots with shares left |
| Models.HeldIsTotalWhenNonNegative | src/invest_ai/models/__init__.py:332-338 | with no negative lot, they are the totals over all lots, as `get_total_quantity` and `get_total_cost_basis` compute |
| Models.HasInventoryIffHeldPositive | src/invest_ai/models/__init__.py:363-366 | some lot has shares left exactly when the held quantity is positive |
| Models.GainFrom | src/invest_ai/models/__init__.py:308-321 | the record carries the sold quantity, the lot's date and unit price, the sale price and gain = quantity × (sale price − unit price) |
| Models.SellFrom | src/invest_ai/models/__init__.py:296-323 | a sale makes at most one record per lot |
| Models.SellWholeLot | src/invest_ai/models/__init__.py:300-302 | a lot no larger than what is left to sell is sold whole and popped |
| Models.SellPartOfLot | src/invest_ai/models/__init__.py:303-306 | a larger lot is reduced by the rest of the sale and the loop stops there |
| Models.SellFromStep | src/invest_ai/models/__init__.py:296-323 | one turn of the loop appends its record and leaves the rest of the run unchanged |
| Models.SellFromRecords | src/invest_ai/models/__init__.py:296-323 | the i-th record comes from the i-th lot, at the sale price |
| Models.SellFromShortfall | src/invest_ai/models/__init__.py:296-328 | something is left unsold only after the queue is emptied, and then the shortfall is the request minus all shares held |
| Models.SellFromConservation | src/invest_ai/models/__init__.py:296-328 | with no negative lot, the sale falls short exactly when fewer shares are held than requested, and otherwise removes exactly the requested quantity |
| Models.SellOutcome | src/invest_ai/models/__init__.py:289-330 | the sale as a whole: nothing happens for a non-positive request; a full sale's records add up to the request; a short sale empties the queue |
| Models.SellLoop | src/invest_ai/models/__init__.py:296-323 | the imperative loop computes the same sale as the recursive definition |
| Models.SellShares | src/invest_ai/models/__init__.py:289-330 | the queue left and, on success, the records are exactly those of the front-first sale `Models.SellFrom` (whole lots popped, the first larger lot split); it fails exactly when the lots hold less than requested, leaving the queue emptied; otherwise the records add up to the request, pair up with the front lots, and the queue loses exactly the sold quantity |
| Models.GetQuantity | src/invest_ai/models/__init__.py:389-391 | the stored quantity of a code, 0 for an unknown code |
| Models.GetCostBasis | src/invest_ai/models/__init__.py:393-395 | the stored cost basis of a code, 0 for an unknown code |
| Fifo.ToLot | src/invest_ai/calculation/fifo.py:40-58 | a BUY opens a lot at its unit price, a DIVIDEND opens a lot at price 0; both with everything remaining |
| Fifo.LotsOf | src/invest_ai/calculation/fifo.py:39-60 | one untouched lot per BUY or DIVIDEND, SELLs skipped |
| Fifo.LotsOfCons | src/invest_ai/calculation/fifo.py:39-60 | a leading transaction contributes its lot, if any, ahead of the rest |
| Fifo.LotsOfPair | src/invest_ai/calculation/fifo.py:39-60 | two share-adding transactions give their two lots in order |
| Fifo.LotsOfDates | src/invest_ai/calculation/fifo.py:39-60 | every lot is dated no earlier than a bound on the transaction dates |
| Fifo.LotsOfSorted | src/invest_ai/calculation/fifo.py:36-60 | date-sorted transactions give date-sorted lots |
| Fifo.AddLotAppends | src/invest_ai/calculation/fifo.py:39-60 | adding the lot of a transaction no earlier than the queue appends it at the back |
| Fifo.BuildQueueAppends | src/invest_ai/calculation/fifo.py:39-60 | folding date-sorted transactions into a sorted queue appends their lots in order |
| Fifo.FirstOtherCode | src/invest_ai/calculation/fifo.py:26-32 | none exactly when every transaction has the code; otherwise a different code that occurs |
| Fifo.ProcessFifoQueue | src/invest_ai/calculation/fifo.py:18-62 | fails exactly on an empty list or on mixed codes; otherwise the queue has the first code and holds the lots of the date-sorted transactions |
| Fifo.BuildFromEmpty | src/invest_ai/calculation/fifo.py:34-60 | the queue built from sorted transactions holds exactly their lots |
| Fifo.BuiltQueueLots | src/invest_ai/calculation/fifo.py:18-62 | a built queue is date-sorted, has one untouched lot per BUY or DIVIDEND |
| Fifo.DrawFifo | src/invest_ai/calculation/fifo.py:94-125 | the allocation loop keeps one working lot per lot |
| Fifo.DrawFifoSucceeds | src/invest_ai/calculation/fifo.py:94-101 | for a positive sale, the loop finishes exactly when the lots hold enough shares |
| Fifo.DrawFifoConservation | src/invest_ai/calculation/fifo.py:104-125 | the working lots lose exactly the sold quantity, and the allocated cost is the cost they lose |
| Fifo.DrawFifoOrder | src/invest_ai/calculation/fifo.py:94-125 | lots keep their dates and prices and are drawn from the front: a lot is touched only after every earlier one is exhausted |
| Fifo.DrawFifoAllocatedEntries | src/invest_ai/calculation/fifo.py:104-125 | every allocated entry but the last is a lot set to 0 remaining, and a positive sale allocates at least one |
| Fifo.AddAllIsSortBy | src/invest_ai/calculation/fifo.py:84-91 | adding lots one by one is a stable sort by date of the lots appended |
| Fifo.WorkingQueueFacts | src/invest_ai/calculation/fifo.py:80-91 | the working copy is the queue stably sorted, with the same held quantity and cost |
| Fifo.AllocateCost | src/invest_ai/calculation/fifo.py:64-138 | a non-SELL fails first, then an empty inventory; otherwise succeeds exactly when the sale is non-positive or covered, the error reporting what was requested and available |
| Fifo.AllocatedQueue | src/invest_ai/calculation/fifo.py:127-138 | the remaining queue is sorted, holds only open lots, has lost exactly the sold quantity, and the cost basis is the cost it lost |
| Fifo.DrawFacts | src/invest_ai/calculation/fifo.py:94-125 | the draw succeeds exactly when nothing is to be sold or enough is held; it removes the sold quantity and its cost |
| Fifo.RemainingQueueFacts | src/invest_ai/calculation/fifo.py:127-131 | the remaining queue is the open working lots in order, holding all their shares and cost |
| Fifo.SellingEverythingEmptiesQueue | src/invest_ai/calculation/fifo.py:64-138 | selling exactly the held quantity succeeds and leaves no lot |
| Fifo.CalculateRealizedGain | src/invest_ai/calculation/fifo.py:140-151 | succeeds exactly for a SELL, and then gain plus cost basis is the sale amount |
| Fifo.ReplaySales | src/invest_ai/calculation/fifo.py:172-186 | one result per sale |
| Fifo.ReplayConservesShares | src/invest_ai/calculation/fifo.py:172-186 | the final queue holds the starting shares minus those the successful sales sold |
| Fifo.ProcessMultipleSales | src/invest_ai/calculation/fifo.py:153-186 | fails only when the starting queue cannot be built; one result per SELL, and the final queue holds the starting shares less what was sold |
| Fifo.ReplaySalesAsWritten | src/invest_ai/calculation/fifo.py:172-186 | as written, the run fails exactly when some sale's allocation fails, because the fallback result lacks its code |
| Fifo.ProcessMultipleSalesAsWritten | src/invest_ai/calculation/fifo.py:153-186 | as written, fails exactly when the start fails or some sale fails, and agrees with the corrected version otherwise |
| Fifo.OversoldLedgerStart | src/invest_ai/calculation/fifo.py:157-170 | the example ledger (buy 10, sell 20) starts from a ten-share queue with one sale |
| Fifo.OversoldSaleFails | src/invest_ai/calculation/fifo.py:94-101 | its sale asks for 20 shares with 10 available |
| Fifo.OversoldLedgerFailsAsWritten | src/invest_ai/calculation/fifo.py:174-184 | as written the ledger fails; corrected it gives one empty result and keeps the ten shares |
| Fifo.GetRemainingInventoryValue | src/invest_ai/calculation/fifo.py:188-202 | the sum of the remaining quantities of the open lots (not a value: prices are unused), never negative, and the held quantity when no lot is negative |
| Fifo.IndexOrderedUnique | src/invest_ai/calculation/fifo.py:204-228 | two issue lists in strictly increasing index order with the same members are the same list |
| Fifo.ValidateFifoProcessing | src/invest_ai/calculation/fifo.py:204-228 | reports exactly the SELLs after which the date-sorted running position is negative, in order, each with its 1-based index, code, date and position |
| Positions.PositiveWorth | src/invest_ai/calculation/annual.py:139-140 | a holding that is not positive, or is priced at 0, counts nothing; at a non-negative price it never counts a negative amount |
| Positions.PositiveWorthBump | src/invest_ai/calculation/annual.py:139-140 | a positive holding's worth rises by shares × d when the price rises by d; a non-positive one stays 0 |
| Positions.PositionTxs | src/invest_ai/calculation/history.py:160-165 | exactly the BUYs and positive-quantity DIVIDENDs of the code, in input order |
| Positions.CodeSells | src/invest_ai/calculation/history.py:168 | exactly the SELLs of the code, in input order |
| Positions.OpeningQueue | src/invest_ai/calculation/history.py:160-170 | no queue exactly when the code has no position-opening transaction, otherwise a queue for that code |
| Positions.OpeningQueueBuilt | src/invest_ai/calculation/history.py:170 | the opening queue is what `process_fifo_queue` builds from the position transactions, which cannot fail there |
| Positions.OpeningQueueOfSorted | src/invest_ai/calculation/history.py:170 | for date-sorted position transactions the queue holds their lots in input order |
| Positions.NoTransactionsNoPosition | src/invest_ai/calculation/history.py:155-158 | a code without transactions has neither position transactions nor sells |
| Positions.FinalQueue | src/invest_ai/calculation/history.py:160-179 | present exactly when the opening queue is, and then it is the opening queue after replaying the code's sells |
| Positions.ReplayGainsSingle | src/invest_ai/calculation/history.py:234-243 | one allocatable sale moves to its remaining queue and realizes its amount less its cost basis |
| Positions.ReplayGainsQueue | src/invest_ai/calculation/history.py:234-243 | the gains loop leaves the same queue as the position loop of `calculate_code_current_value` |
| Positions.AllocationCostLeavesQueue | src/invest_ai/calculation/history.py:236-241 | the cost basis of an allocation is the cost that leaves the queue |
| Positions.RealizedIsProceedsLessCost | src/invest_ai/calculation/history.py:231-243 | realized gain is the proceeds of the allocated sales less the cost that left the queue |
| Positions.LotsOfQuantity | src/invest_ai/calculation/fifo.py:39-60 | the lots hold the total quantity of the share-adding transactions |
| Positions.LotsOfNonNegative | src/invest_ai/calculation/fifo.py:39-60 | non-negative quantities give no negative lot |
| Positions.OpeningHeld | src/invest_ai/calculation/history.py:160-170 | the opening queue holds the total quantity of the position transactions, with no negative lot |
| Positions.ReplayKeepsNonNegative | src/invest_ai/calculation/history.py:173-179 | replaying sales never makes a lot negative |
| Positions.ReplayLeavesNetShares | src/invest_ai/calculation/history.py:173-182 | after the replay the queue holds the opening shares less those sold, and its cost basis is that of its open lots |
| Positions.FinalQueueNetShares | src/invest_ai/calculation/history.py:160-182 | a code's remaining shares are its position quantities less what its allocatable sells sold |
| Positions.SumOverCodesIsTotal | src/invest_ai/calculation/history.py:136-145 | summing a per-code total over the distinct codes of the transactions equals summing over all transactions |
| History.TotalInvestedAdds | src/invest_ai/calculation/history.py:123-129 | total invested and dividend income add up over concatenated lists |
| History.TotalInvestedSingle | src/invest_ai/calculation/history.py:123-129 | one transaction contributes its amount exactly when it is a BUY |
| History.CodeCurrentValue | src/invest_ai/calculation/history.py:147-189 | 0 without position transactions or without a price; otherwise the shares left after the replay times the price |
| History.CodeGains | src/invest_ai/calculation/history.py:208-258 | (0, 0) without position transactions; unrealized 0 without a price; realized is the gains loop's total |
| History.CodeSellsAreSells | src/invest_ai/calculation/history.py:228 | the sells replayed are all SELL transactions |
| History.GainsAgreeWithValue | src/invest_ai/calculation/history.py:245-254 | unrealized gain is the code's current value less the remaining cost basis |
| History.TotalGainIsProceedsPlusValueLessCost | src/invest_ai/calculation/history.py:231-258 | realized plus unrealized gain is the proceeds of the allocated sells plus the current value less the opening cost |
| History.ListXirr | src/invest_ai/calculation/history.py:45-59 | the return rate of the list's cash flows lies in the clamp range [-99, 1000] |
| History.TransactionsAreCashKinds | src/invest_ai/calculation/history.py:46-49 | every transaction's cash flow is of a kind the XIRR builder keeps |
| History.CodeResult | src/invest_ai/calculation/history.py:284-337 | fails exactly when the code has no transaction; otherwise total gain = realized + unrealized, cost basis = total invested = the code's BUY amounts, and value and gains are the per-code ones |
| History.CodeHasTransactions | src/invest_ai/models/__init__.py:137-151 | a code taken from the list has transactions of its own |
| History.CodesOfListHaveTransactions | src/invest_ai/calculation/history.py:269-282 | every code of the list can be asked for its result |
| History.CodesHaveTransactions | src/invest_ai/calculation/history.py:269-282 | the distinct codes of the list all have transactions |
| History.ResultsFor | src/invest_ai/calculation/history.py:269-282 | one result per code |
| History.ResultsForCodes | src/invest_ai/calculation/history.py:269-282 | the i-th result is for the i-th code |
| History.LabelsCoverCodes | src/invest_ai/calculation/history.py:269-282 | results labelled by the codes in order cover exactly the code set |
| History.ResultForCodeAt | src/invest_ai/calculation/history.py:269-282 | the i-th result of the loop is the i-th code's own `calculate_code_result` |
| History.ResultsForAreCodeResults | src/invest_ai/calculation/history.py:269-282 | every result of the loop is its code's own `calculate_code_result` |
| History.CalculateIndividualResults | src/invest_ai/calculation/history.py:269-282 | one result per distinct code, in order, each the code's own `calculate_code_result`, and a code has a result exactly when the list holds it |
| History.ResultsForCons | src/invest_ai/calculation/history.py:269-282 | the results are the first code's result followed by those of the rest |
| History.ValueOverResults | src/invest_ai/calculation/history.py:131-145 | the per-code current values add up to the portfolio current value |
| History.RealizedOverResults | src/invest_ai/calculation/history.py:191-206 | the per-code realized gains add up to the portfolio realized gain |
| History.UnrealizedOverResults | src/invest_ai/calculation/history.py:191-206 | the per-code unrealized gains add up to the portfolio unrealized gain |
| History.InvestedOverResults | src/invest_ai/calculation/history.py:297-299 | the per-code amounts invested add up to the BUY amounts over the codes |
| History.CalculateCompleteHistory | src/invest_ai/calculation/history.py:23-80 | fails exactly on an empty list; otherwise no code, the transaction count, the first transaction's type, first and last dates that occur and bound every date; invested = Σ BUY amounts, dividend income = Σ DIVIDEND amounts, current value and realized/unrealized gains those of the portfolio calculators, investments the per-code results, total gain = realized + unrealized, and the return rate the list's XIRR, in the clamp range |
| History.CompleteHistoryMatchesInvestments | src/invest_ai/calculation/history.py:23-80 | the portfolio's invested amount, current value, realized and unrealized gains are the sums over its per-code results |
| History.CalculateSingleInvestmentHistory | src/invest_ai/calculation/history.py:82-115 | fails exactly when the code has no transaction; otherwise the complete history of the code's transactions, labelled with the code |
| History.CalculatePortfolioHistory | src/invest_ai/calculation/history.py:117-121 | fails exactly on an empty list; otherwise a history without a code |
| Annual.SnapshotPrices | src/invest_ai/calculation/annual.py:41-43 | no table, an empty table or a missing key gives no prices; otherwise the named snapshot |
| Annual.StartWorth | src/invest_ai/calculation/annual.py:133-140 | a code adds nothing without a price or without a positive holding; with a price and a positive holding it adds shares left × price; never a negative amount when prices are non-negative |
| Annual.StartOver | src/invest_ai/calculation/annual.py:106-142 | positions hold exactly the codes with a position-opening transaction, each with its shares left after the sales; the value is non-negative for non-negative prices |
| Annual.CalculateYearStartValue | src/invest_ai/calculation/annual.py:91-142 | 0 and no positions without pre-year transactions; otherwise positions for exactly the codes with a position, each with the shares left, and a non-negative value for non-negative prices |
| Annual.StartOverFrame | src/invest_ai/calculation/annual.py:133-140 | the year-start loop's value depends only on the prices of the codes with a positive holding |
| Annual.StartWorthBump | src/invest_ai/calculation/annual.py:137-140 | a price higher by d raises one code's year-start worth by shares left × d when the holding is positive, and by nothing otherwise |
| Annual.StartOverBump | src/invest_ai/calculation/annual.py:106-142 | raising one code's price by d, all others equal, raises the loop's value by that code's positive position × d |
| Annual.NoPricesStartZero | src/invest_ai/calculation/annual.py:137-140 | with no year-start prices the loop's value is 0 |
| Annual.YearStartValueFrame | src/invest_ai/calculation/annual.py:91-142 | the year-start value depends only on the prices of the codes whose position is positive |
| Annual.YearStartValueBump | src/invest_ai/calculation/annual.py:91-142 | raising one code's price by d raises the year-start value by its positive position × d; with the frame and the empty-table value 0 this fixes the value as Σ position × price over the positive, priced positions |
| Annual.EndResultFor | src/invest_ai/calculation/annual.py:172-251 | the code's result has total gain = realized + unrealized, cost basis = total invested = the code's BUY amounts, and return = total gain as a percent of cost basis (0 when that is not positive) |
| Annual.EndResultFromReplay | src/invest_ai/calculation/annual.py:185-214 | value and realized gain are those of replaying the code's sells over its opening queue, the value being 0 without a year-end price |
| Annual.EndOver | src/invest_ai/calculation/annual.py:172-254 | at most one result per code |
| Annual.EndOverValueTotal | src/invest_ai/calculation/annual.py:253 | the running value total is the sum of the results' values |
| Annual.EndOverRealizedTotal | src/invest_ai/calculation/annual.py:254 | the running realized total is the sum of the results' realized gains |
| Annual.EndOverConsistent | src/invest_ai/calculation/annual.py:216-251 | every result has its total gain, cost basis and return in agreement |
| Annual.EndOverCodes | src/invest_ai/calculation/annual.py:172-185 | a code has a result exactly when it has a position-opening transaction |
| Annual.EndOverResults | src/invest_ai/calculation/annual.py:172-251 | every result of the year-end loop is the year-end result of its own code, which has a position |
| Annual.CalculateYearEndPerformance | src/invest_ai/calculation/annual.py:152-260 | over pre-year and in-year transactions together: one result per distinct code with a position, each consistent and each equal to that code's year-end result at the given prices, and totals that are the sums over the results |
| Annual.EndResultMatchesHistory | src/invest_ai/calculation/annual.py:172-251 | a code's year-end value and realized gain equal the history calculator's; so does unrealized gain when priced, while unpriced it is minus the remaining cost rather than 0 |
| Annual.CalculateAnnualReturns | src/invest_ai/calculation/annual.py:24-89 | start value from the year-start snapshot, end value and capital gain from the year-end snapshot, net gain + start + new investments = end + withdrawals + realized gains, return as a percent of start + new investments, dividends of the year, start 0 without pre-year transactions |
| Annual.CalculatePortfolioAnnualReturns | src/invest_ai/calculation/annual.py:282-293 | the annual result labelled with no code |
| Annual.NoPricesNoValues | src/invest_ai/calculation/annual.py:41-43 | without price snapshots, start and end values are 0 |
| Annual.ScenarioPositions | src/invest_ai/calculation/annual.py:179-182 | in the worked year (buy 1000 at 20, buy 1000 at 25, sell 1500 at 27) both buys open lots |
| Annual.ScenarioSells | src/invest_ai/calculation/annual.py:188-190 | and the sale is the code's only SELL |
| Annual.ScenarioOpening | src/invest_ai/calculation/annual.py:179-185 | the opening queue is the two whole lots in date order |
| Annual.ScenarioDraw | src/invest_ai/calculation/fifo.py:94-125 | the allocation takes all of the first lot and 500 of the second, at a cost of 32500 |
| Annual.ScenarioSale | src/invest_ai/calculation/fifo.py:64-138 | the sale succeeds with cost basis 32500, leaving 500 shares of the second lot |
| Annual.ScenarioCodes | src/invest_ai/models/__init__.py:137-139 | the worked year has one code |
| Annual.ScenarioReplay | src/invest_ai/calculation/annual.py:193-203 | the gains loop realizes 40500 − 32500 = 8000 |
| Annual.ScenarioEndResult | src/invest_ai/calculation/annual.py:172-251 | the code's year-end value is 12750 at 25.50 and its realized gain 8000 |
| Annual.ScenarioYearEnd | src/invest_ai/calculation/annual.py:152-260 | the year-end totals are 12750 and 8000 |
| Annual.ScenarioFlows | src/invest_ai/calculation/annual.py:144-150 | 45000 invested, 40500 withdrawn, no dividend |
| Annual.ScenarioAnnualReturns | src/invest_ai/calculation/annual.py:24-89 | start 0, capital gain 8000, end value 12750, dividends 0, and net gain 16250 because realized gains are added to the withdrawals |
| Xirr.Clamp | src/invest_ai/calculation/xirr.py:93 | the result lies in [-0.99, 10], equals an in-range input, and is the nearer bound otherwise |
| Xirr.YearsFrom | src/invest_ai/calculation/xirr.py:59-62 | each flow's offset is its days since the start over 365 |
| Xirr.YearsFromEarliestNonNegative | src/invest_ai/calculation/xirr.py:54-62 | after sorting by date, measured from the first date, no offset is negative |
| Xirr.Newton | src/invest_ai/calculation/xirr.py:79-98 | a converged Newton–Raphson rate lies in the clamp range |
| Xirr.NewtonConverged | src/invest_ai/calculation/xirr.py:82-96 | a converged rate is the clamped Newton step from some rate with a non-flat derivative, and differs from it by less than the tolerance |
| Xirr.Bisect | src/invest_ai/calculation/xirr.py:119-131 | the bisection result stays inside its bracket |
| Xirr.BisectKeepsSignChange | src/invest_ai/calculation/xirr.py:119-131 | starting from a sign change, the result is a near-root or the midpoint of a sub-bracket that still has a sign change |
| Xirr.BisectionXirr | src/invest_ai/calculation/xirr.py:104-131 | 0 when the NPV has the same sign at both ends of [-0.99, 10]; otherwise a near-root or the midpoint of a sign-changing sub-bracket; always within the range |
| Xirr.Amounts | src/invest_ai/calculation/xirr.py:63 | the amounts of the flows, in order |
| Xirr.CalculateXirr | src/invest_ai/calculation/xirr.py:10-101 | 0 for fewer than two flows, for fewer than two non-zero flows, or without both an outflow and an inflow; always a percentage in [-99, 1000] |
| Xirr.Xirr | src/invest_ai/calculation/xirr.py:10-14 | with the default iteration count and tolerance: within [-99, 1000], and 0 with fewer than two non-zero flows |
| Xirr.FilterDropsZeroFlow | src/invest_ai/calculation/xirr.py:44 | inserting a zero flow anywhere leaves the non-zero flows unchanged |
| Xirr.ZeroFlowIgnored | src/invest_ai/calculation/xirr.py:40-101 | inserting a zero flow anywhere never changes the rate |
| Xirr.ToCashFlow | src/invest_ai/calculation/xirr.py:161-167 | a BUY becomes an outflow of its amount, a SELL or DIVIDEND an inflow, on the same date |
| Xirr.TxCashFlows | src/invest_ai/calculation/xirr.py:161-167 | at most one flow per transaction |
| Xirr.TxCashFlowsAreMapped | src/invest_ai/calculation/xirr.py:161-167 | the flows are the BUY, SELL and DIVIDEND transactions, in order, each converted; other kinds are dropped |
| Xirr.BuildAnnualCashflows | src/invest_ai/calculation/xirr.py:134-173 | an opening outflow only for a positive start value, the converted transactions in order, a closing inflow only for a positive end value |
| Xirr.BuildHistoryCashflows | src/invest_ai/calculation/xirr.py:176-204 | the converted transactions in order, then a closing inflow only for a positive current value |
| Xirr.AnnualWithoutOpeningIsHistory | src/invest_ai/calculation/xirr.py:134-204 | without a positive start value, the annual flows are the history flows ending with the end value |
| Engine.Header | src/invest_ai/calculation/engine.py:109-118 | "no transactions" appears exactly when both lists are empty (and then first), "year out of range" exactly when the year is outside 1990–2030 |
| Engine.Wrap | src/invest_ai/calculation/engine.py:128-131 | one message per position issue, in order |
| Engine.ValidateCalculationInputs | src/invest_ai/calculation/engine.py:102-133 | the input messages come first under the same conditions, followed by exactly the negative-position reports of the joined, date-sorted lists, each once and in increasing index order (walk order); by `Engine.IssueTailDetermined` this fixes the list |
| Engine.HeaderThenIssues | src/invest_ai/calculation/engine.py:109-133 | appending the position issues keeps the input messages as a prefix, then holds the issues one for one, in their order |
| Engine.IssuesAfterMembers | src/invest_ai/calculation/engine.py:128-131 | after a header without position issues, the unwrapped tail holds exactly the list's position issues |
| Engine.IssueTailDetermined | src/invest_ai/calculation/engine.py:102-133 | two message lists with the same header, then the same position issues in increasing index order, are equal |
| Engine.GetYearEndHoldings | src/invest_ai/calculation/engine.py:79-100 | without a code (or with an empty one) true exactly when either list is non-empty; with a code true exactly when some transaction of either list has it |
| Engine.CalculatePortfolioAnnualReturns | src/invest_ai/calculation/engine.py:43-53 | an annual result with no code for the year, whose net gain balances the year's flows, with start and end values 0 when no prices are given |
| Engine.CalculatePortfolioHistory | src/invest_ai/calculation/engine.py:71-77 | fails exactly on an empty list; otherwise a history without a code whose total gain is realized + unrealized |
| Engine.PortfolioHistoryWithoutPrices | src/invest_ai/calculation/engine.py:71-77 | with no prices given the portfolio's current value is 0 |
| Validator.CodeCheck | src/invest_ai/transaction/validator.py:54-75 | no error exactly for an accepted code; "not numeric or alphabetic" exactly for a code that is neither; a length error exactly for a digit code that is not six digits or five starting with "0"; an international warning exactly for an alphabetic code; at most one of each |
| Validator.NonStandardLengthNeverWarned | src/invest_ai/transaction/validator.py:71-75 | the non-standard-length warning is never produced: the branch is unreachable after the length check |
| Validator.FieldCheck | src/invest_ai/transaction/validator.py:81-129 | no error exactly when the fields are acceptable; for BUY and SELL one error per non-positive quantity, unit price and total; for a DIVIDEND at most the one "empty dividend" error |
| Validator.RangeWarnings | src/invest_ai/transaction/validator.py:131-152 | a high-price warning exactly above 10000, a low-price warning exactly below 0.01 for a non-dividend, a large-quantity warning exactly above 1000000 |
| Validator.ValidateSingleTransaction | src/invest_ai/transaction/validator.py:46-161 | valid exactly when there is no error, that is exactly when code and fields are acceptable; a future-date warning exactly for a date after today; the errors are those of the code and field checks |
| Validator.FindDuplicates | src/invest_ai/transaction/validator.py:205-220 | reports each transaction whose full key (code, date, type, quantity, price, total) occurred earlier |
| Validator.NoReportsIffDistinct | src/invest_ai/transaction/validator.py:205-220 | no duplicate is reported exactly when all keys are distinct |
| Validator.FindUnsorted | src/invest_ai/transaction/validator.py:222-232 | reports each transaction dated before its predecessor |
| Validator.NoUnsortedIffSorted | src/invest_ai/transaction/validator.py:222-232 | nothing is reported in a prefix exactly when that prefix is date-sorted |
| Validator.SortedListHasNoUnsorted | src/invest_ai/transaction/validator.py:222-232 | nothing is reported exactly when the list is date-sorted |
| Validator.InvalidCodes | src/invest_ai/transaction/validator.py:234-264 | each code once, and exactly the codes of the list that are neither digits nor letters, or digits of a non-domestic length up to six |
| Validator.RejectedCodesFailSingleCheck | src/invest_ai/transaction/validator.py:54-75 | every code the cross-transaction check rejects also gets one error from the single-transaction check |
| Validator.CheckCodePosition | src/invest_ai/transaction/validator.py:280-303 | the reports of walking the date-sorted transactions with a running holding |
| Validator.HoldingReportsAreOverSold | src/invest_ai/transaction/validator.py:290-301 | a report is made exactly for each SELL after which the holding (BUYs and stock dividends in, SELLs out) is below −0.01 |
| Validator.CheckLogicalConsistency | src/invest_ai/transaction/validator.py:266-278 | the position reports of every code in turn |
| Validator.LogicalIssueSource | src/invest_ai/transaction/validator.py:266-278 | every report comes from the position check of one of the codes |
| Validator.ValidateTransactionConsistency | src/invest_ai/transaction/validator.py:163-203 | valid exactly when there is no error; duplicates are only warnings; a valid list is date-sorted and has no rejected code |
| Validator.PerTransactionErrors | src/invest_ai/transaction/validator.py:29-33 | one error list per transaction, numbered from 1, empty exactly for an acceptable transaction |
| Validator.PerTransactionWarnings | src/invest_ai/transaction/validator.py:29-33 | one warning list per transaction, those of its own check |
| Validator.CollectSingleChecks | src/invest_ai/transaction/validator.py:29-33 | the loop collects the per-transaction errors and, separately, the per-transaction warnings, each in list order |
| Validator.NoSingleErrorsIffAllAcceptable | src/invest_ai/transaction/validator.py:29-33 | no per-transaction error exactly when every transaction is acceptable |
| Validator.ValidateTransactions | src/invest_ai/transaction/validator.py:19-44 | an empty list is invalid with the single "no transactions" error; otherwise the errors are the per-transaction ones then the consistency ones, the warnings are the per-transaction ones then the duplicate reports, and the list is valid exactly when every transaction is acceptable and the list is consistent |
| Validator.IsReasonableStockCode | src/invest_ai/transaction/validator.py:305-322 | exactly six digits starting with 6, 0, 3, 8 or 4 |
| Validator.IsReasonableFundCode | src/invest_ai/transaction/validator.py:324-351 | exactly six digits starting with one of the listed fund prefixes |
| Validator.ReasonableFundCodeIsFund | src/invest_ai/transaction/validator.py:324-351 | a reasonable fund code is classified as a fund by the transaction model |
| TransactionFilter.Keep | src/invest_ai/transaction/filter.py:55-93 | one comprehension keeps, in order, exactly the transactions meeting its condition |
| TransactionFilter.FilterTransactions | src/invest_ai/transaction/filter.py:20-53 | an order-keeping subsequence holding exactly the transactions the set criteria select (unset or falsy criteria select everything), and the whole list when no criterion is set |
| TransactionFilter.KeepThenAll | src/invest_ai/transaction/filter.py:26-51 | one filter followed by the rest is the same as all of them in one pass |
| TransactionFilter.AllOfNothing | src/invest_ai/transaction/filter.py:20-53 | with no filter applied the list is returned as it is |
| TransactionFilter.StepsAreSinglePass | src/invest_ai/transaction/filter.py:26-51 | applying the filters one after another keeps exactly the transactions meeting all of them, in order |
| TransactionFilter.SelectsIsMeetsAll | src/invest_ai/transaction/filter.py:26-51 | a transaction is selected by the criteria exactly when it meets every filter they switch on |
| TransactionFilter.SelectsIffAllSteps | src/invest_ai/transaction/filter.py:26-51 | the chained filters keep exactly the selected transactions |
| TransactionFilter.MatchingIsFilter | src/invest_ai/transaction/filter.py:20-53 | the selection keeps order, holds exactly the selected transactions and is everything without criteria |
| TransactionFilter.FilterTransactionsIdempotent | src/invest_ai/transaction/filter.py:20-53 | filtering twice by the same criteria is filtering once |
| TransactionFilter.MatchingIdempotent | src/invest_ai/transaction/filter.py:20-53 | selecting twice is selecting once |
| TransactionFilter.StricterKeepsLess | src/invest_ai/transaction/filter.py:20-53 | criteria that select fewer transactions give a subsequence of the looser result |
| TransactionFilter.StricterMatchesLess | src/invest_ai/transaction/filter.py:20-53 | the same, for the selection itself |
| TransactionFilter.GetBuyTransactions | src/invest_ai/transaction/filter.py:122-129 | exactly the BUYs, in order |
| TransactionFilter.GetSellTransactions | src/invest_ai/transaction/filter.py:131-138 | exactly the SELLs, in order |
| TransactionFilter.GetDividendTransactions | src/invest_ai/transaction/filter.py:140-147 | exactly the DIVIDENDs, in order |
| TransactionFilter.KindsPartition | src/invest_ai/transaction/filter.py:122-147 | the BUYs, SELLs and DIVIDENDs together number the whole list |
| TransactionFilter.GetTransactionsInDateRange | src/invest_ai/transaction/filter.py:149-159 | exactly the transactions from January 1 of the start year to December 31 of the end year, in order; the same list as the `filter_transactions` chain run with only that date step |
| TransactionFilter.GetPreYearTransactions | src/invest_ai/transaction/filter.py:161-168 | exactly the transactions dated in an earlier year, in order; the same list as the `filter_transactions` chain run with only that date step |
| TransactionFilter.KeepEquivalent | src/invest_ai/transaction/filter.py:55-93 | two conditions that agree on the list keep the same transactions |
| TransactionFilter.KeepNone | src/invest_ai/transaction/filter.py:55-93 | a condition no transaction meets keeps nothing |
| TransactionFilter.BetweenSplits | src/invest_ai/transaction/filter.py:83-87 | on a date-sorted list, two adjacent inclusive ranges together keep what their union keeps |
| TransactionFilter.YearStartBeforeYearEnd | src/invest_ai/transaction/filter.py:153-154 | January 1 of a year is no later than its December 31 |
| TransactionFilter.YearStartMonotone | src/invest_ai/transaction/filter.py:153 | a later year starts no earlier |
| TransactionFilter.RangesJoin | src/invest_ai/transaction/filter.py:83-87 | on a date-sorted list, a range ending on a day and one starting the next day join to the whole range |
| TransactionFilter.YearBounds | src/invest_ai/transaction/filter.py:153-154 | the day after December 31 of a year is January 1 of the next, and the range bounds are ordered |
| TransactionFilter.YearRangesJoin | src/invest_ai/transaction/filter.py:149-159 | on a date-sorted list, the year ranges first..mid and mid+1..last join to first..last |
| TransactionFilter.KeyedAs | src/invest_ai/transaction/filter.py:95-120 | exactly the transactions with the given key |
| TransactionFilter.KeyedAsSnoc | src/invest_ai/transaction/filter.py:101-105 | a new transaction goes to the end of its own key's list only |
| TransactionFilter.GroupKeys | src/invest_ai/transaction/filter.py:95-120 | a key has a group exactly when some transaction has it |
| TransactionFilter.GroupsAreKeyed | src/invest_ai/transaction/filter.py:95-120 | each group is the transactions with its key, in order |
| TransactionFilter.AbsentKeyNothingKeyed | src/invest_ai/transaction/filter.py:95-120 | a key without a group has no transaction |
| TransactionFilter.GroupBy | src/invest_ai/transaction/filter.py:95-120 | the loop builds a group for exactly the keys present, each holding its transactions in order |
| TransactionFilter.KeyedByCodeIsFilterByCode | src/invest_ai/transaction/filter.py:109-120 | the group of a code is the list filtered by that code |
| TransactionFilter.KeyedByYearIsFilterByYear | src/invest_ai/transaction/filter.py:95-107 | the group of a year is the list filtered by that year |
| TransactionFilter.GetTransactionsByCode | src/invest_ai/transaction/filter.py:109-120 | keyed by exactly the codes present, each with the list filtered by it |
| TransactionFilter.GetTransactionsByYear | src/invest_ai/transaction/filter.py:95-107 | keyed by exactly the years present, each with the list filtered by it; the year argument is unused |
| TransactionFilter.GetTransactionsForCalculation | src/invest_ai/transaction/filter.py:170-208 | "all" holds exactly the transactions of the type (and of the zero-filled code when one is given); "year" and "pre_year" exist exactly for a non-zero year and before-year, are subsequences of "all", and hold exactly the transactions of "all" dated in that year, or in earlier years; each list is the one `filter_transactions` gives for its criteria (type and code; plus the year; plus the before-year) |
| TransactionFilter.MatchingEquivalent | src/invest_ai/transaction/filter.py:20-53 | criteria that select the same transactions give the same list |
| TransactionFilter.YearAndPreYearDisjoint | src/invest_ai/transaction/filter.py:193-206 | asked with the same year, the year list and the pre-year list share no transaction |
| TransactionModels.NetCashFlowIsSignedSum | src/invest_ai/transaction/models.py:55-60 | the net cash flow (sells and dividends in, buys out) is the sum of the signed transaction amounts |
| TransactionModels.CodeCountIsDistinctCodes | src/invest_ai/transaction/models.py:72-74 | the code count is the number of distinct codes |
| TransactionModels.AccumulateTotals | src/invest_ai/transaction/models.py:35-46 | the loop's three running totals are the BUY, SELL and DIVIDEND amounts |
| TransactionModels.AccumulateCodesAndDates | src/invest_ai/transaction/models.py:35-51 | the loop collects exactly the codes present, and the smallest and largest dates, both of which occur |
| TransactionModels.CalculateStats | src/invest_ai/transaction/models.py:11-74 | the empty summary for an empty list; otherwise the count, the per-kind totals, a net cash flow equal to the signed sum, exactly the codes present, the date range, and first and last dates that bound every date |
| TransactionModels.NewSnapshot | src/invest_ai/transaction/models.py:80-85 | a new snapshot holds no transaction and reports 0 position and 0 cost for every code |
| TransactionModels.Store | src/invest_ai/transaction/models.py:94-108 | setting a dictionary entry changes only that key, and a new key is appended to the insertion order |
| TransactionModels.AddTransaction | src/invest_ai/transaction/models.py:87-108 | the transaction is appended; its code's position moves by +quantity for a BUY or stock dividend and −quantity for a SELL, its cost grows by the amount of a BUY, and no other code changes |
| TransactionModels.Build | src/invest_ai/transaction/models.py:87-108 | adding the transactions one by one keeps the snapshot well formed and records them all in order |
| TransactionModels.GetPositions | src/invest_ai/transaction/models.py:114-116 | exactly the codes with a positive position, with that position |
| TransactionModels.HasPosition | src/invest_ai/transaction/models.py:118-120 | true exactly when the code is among the positive positions |
| TransactionModels.HeldWorth | src/invest_ai/transaction/models.py:124-127 | a code contributes nothing unless its position is positive, and never a negative amount at a non-negative price |
| TransactionModels.HeldWorthBump | src/invest_ai/transaction/models.py:124-127 | raising a code's price by d raises its worth by its positive position times d |
| TransactionModels.ValueOver | src/invest_ai/transaction/models.py:122-128 | never negative for non-negative prices, and 0 without prices |
| TransactionModels.ValueOverFrame | src/invest_ai/transaction/models.py:122-128 | the sum over codes depends only on the prices of the positively held codes listed |
| TransactionModels.ValueOverBump | src/invest_ai/transaction/models.py:122-128 | raising one listed code's price by d raises the sum by that code's position times d when it is held, and leaves it unchanged otherwise |
| TransactionModels.GetTotalPositionsValue | src/invest_ai/transaction/models.py:122-128 | the value of the positive positions at the given prices (0 for an unpriced code): never negative for non-negative prices, 0 without prices |
| TransactionModels.PositionsValueFrame | src/invest_ai/transaction/models.py:122-128 | the portfolio value depends only on the prices of the codes with a positive position |
| TransactionModels.PositionsValueBump | src/invest_ai/transaction/models.py:122-128 | the value is linear in each price: raising one code's price by d adds its positive position times d; with the empty-table case this fixes the value as the sum of position × price |
| TransactionModels.SingleBuySnapshot | src/invest_ai/transaction/models.py:87-112 | after a single buy the snapshot lists just that code, holding the bought quantity |
| TransactionModels.SingleBuyValue | src/invest_ai/transaction/models.py:122-128 | a single buy of a positive quantity is worth that quantity times its code's price |
| TransactionModels.AddTransactionTotalCost | src/invest_ai/transaction/models.py:87-136 | adding a transaction raises the total cost basis by its amount exactly when it is a BUY |
| TransactionModels.BuildTracksPosition | src/invest_ai/transaction/models.py:87-112 | after adding a list, a code's position is the signed quantity sum of its transactions |
| TransactionModels.BuildTracksCost | src/invest_ai/transaction/models.py:87-132 | after adding a list, a code's cost basis is the total of its BUY amounts |
| TransactionModels.BuildTotalCostIsInvested | src/invest_ai/transaction/models.py:134-136 | after adding a list, the total cost basis is the total of all BUY amounts |
| TradingDays.TradingDayAmongThree | src/invest_ai/market/trading_days.py:29-39 | among any three consecutive holiday-free days at least one is a trading day, since a weekend lasts only two days |
| TradingDays.GetPreviousTradingDay | src/invest_ai/market/trading_days.py:41-53 | the answer is the latest trading day among the `max_days_back` days before the target with none between it and the target, or, when the window holds none, the day before the window; with a window of three holiday-free days the answer always trades |
| TradingDays.GetNextTradingDay | src/invest_ai/market/trading_days.py:55-67 | the answer is the earliest trading day among the `max_days_forward` days after the target with none in between, or the day after the window when it holds none; a window of three holiday-free days always yields a trading day |
| TradingDays.GetNearestTradingDay | src/invest_ai/market/trading_days.py:69-79 | a trading target is returned unchanged; otherwise the answer lies in the five-day window on the preferred side, with no trading day between it and the target, and trades unless the window holds none |
| TradingDays.TradingDatesBetween | src/invest_ai/market/trading_days.py:81-91 | the list holds only trading days within the bounds, in strictly ascending order, misses none of them, and is no longer than the span |
| TradingDays.GetTradingDatesBetween | src/invest_ai/market/trading_days.py:81-91 | a date is listed exactly when it lies within the bounds and trades; a reversed range gives an empty list |
| TradingDays.CountTradingDaysBetween | src/invest_ai/market/trading_days.py:108-110 | the count is the length of the listed trading dates and never exceeds the number of days in the span |
| TradingDays.CountStep | src/invest_ai/market/trading_days.py:81-91 | extending the range by one day adds one to the count exactly when that day trades |
| TradingDays.CountBetweenIsLength | src/invest_ai/market/trading_days.py:108-110 | the count of listed trading dates equals the day-by-day tally of trading days in the range |
| TradingDays.HolidayFreeWeekHasFiveTradingDays | src/invest_ai/market/trading_days.py:29-39 | any seven consecutive holiday-free days hold exactly five trading days |
| TradingDays.EarlyJanuary2023 | src/invest_ai/market/trading_days.py:29-39 | with no holidays, 2023-01-03 trades, the weekend of January 7 and 8 does not, and the week from January 2 to January 8 holds five trading days |
| TradingDays.GetTradingDaysInYear | src/invest_ai/market/trading_days.py:93-97 | a date is listed exactly when it falls between January 1 and December 31 of the year and trades |
| TradingDays.GetTradingDaysInMonth | src/invest_ai/market/trading_days.py:99-106 | a date is listed exactly when it falls between the first and last day of the month and trades, December ending on December 31 |
| TradingDays.GetYearStartTradingDay | src/invest_ai/market/trading_days.py:112-115 | the answer lies after January 1 within the five-day window, with no trading day between January 1 and it, and trades unless the window holds none |
| TradingDays.GetYearEndTradingDay | src/invest_ai/market/trading_days.py:117-120 | as written: the answer lies strictly before December 31 within the five-day window, with no trading day between it and December 30, so December 31 is never returned |
| TradingDays.YearEnd2024Trades | src/invest_ai/market/trading_days.py:117-120 | December 31, 2024 is a Tuesday and trades when it is not a holiday, so the as-written year-end search misses it |
| TradingDays.GetLastTradingDayOfYear | src/invest_ai/market/trading_days.py:117-120 | corrected: December 31 is returned whenever it trades; otherwise the answer is the closest trading day before it within the window, with no trading day after it up to December 31 |
| CalculationModels.NewContext | src/invest_ai/calculation/models.py:69-84 | a new context is pending, created on the given day, not completed, without an error message, and keeps the type, year, code and calculation kind it was given |
| CalculationModels.MarkInProgress | src/invest_ai/calculation/models.py:86-88 | only the status changes, to in progress |
| CalculationModels.MarkCompleted | src/invest_ai/calculation/models.py:90-93 | the context is completed on the given day; the creation day and any error message are kept |
| CalculationModels.MarkFailed | src/invest_ai/calculation/models.py:95-99 | the context is failed on the given day and carries the given message; the creation day is kept |
| CalculationModels.IsComplete | src/invest_ai/calculation/models.py:101-104 | complete exactly when completed or failed |
| CalculationModels.DurationDays | src/invest_ai/calculation/models.py:106-111 | a duration exists exactly when a completion day is recorded, and then creation day plus duration is the completion day |
| CalculationModels.ContextLifecycle | src/invest_ai/calculation/models.py:69-111 | a new or running context is incomplete with no duration; completing or failing it makes it complete with the days since creation as duration, and completion leaves no error message |
| CalculationModels.CancelledIsNotComplete | src/invest_ai/calculation/models.py:101-104 | a cancelled context is never complete |
| CalculationModels.Find | src/invest_ai/calculation/models.py:127-129 | a price is found exactly when some entry has the date, and the price found is such an entry |
| CalculationModels.Upsert | src/invest_ai/calculation/models.py:121-125 | after assignment the date finds the new price, every other date finds what it found before, and the list grows by one exactly when the date was new |
| CalculationModels.UpsertKeepsDistinct | src/invest_ai/calculation/models.py:121-125 | assignment keeps each date at most once per code |
| CalculationModels.GetPriceData | src/invest_ai/calculation/models.py:127-129 | an unknown code gives nothing; for a known code a price is given exactly when one is stored under that date, and it is the stored one carrying that date |
| CalculationModels.AddPriceData | src/invest_ai/calculation/models.py:121-125 | the cache stays well formed, the code and date now give the added price, every other code and date gives what it gave before, and the code joins the keys |
| CalculationModels.AddOverwrites | src/invest_ai/calculation/models.py:121-125 | a second price for the same code and date replaces the first |
| CalculationModels.Latest | src/invest_ai/calculation/models.py:131-135 | the chosen entry is among the code's prices and no price has a later date |
| CalculationModels.GetLatestPriceData | src/invest_ai/calculation/models.py:131-135 | nothing exactly when the code is unknown or has no prices; otherwise a cached price whose date is at least every cached date of the code |
| CalculationModels.FindDistinct | src/invest_ai/calculation/models.py:127-129 | in a list with distinct dates each entry is what its own date finds |
| CalculationModels.LatestAfterAddingLater | src/invest_ai/calculation/models.py:121-135 | adding a price later than every cached price of the code makes it the latest |
| CalculationModels.Clear | src/invest_ai/calculation/models.py:137-139 | after clearing, no code and date gives a price |
| CalculationModels.SizeAfterAdd | src/invest_ai/calculation/models.py:141-143 | adding a price grows the size by one when the code and date were new and leaves it unchanged when a price is replaced |
| CalculationModels.ClearedSizeIsZero | src/invest_ai/calculation/models.py:137-143 | an empty or cleared cache has size zero |
| CalculationModels.AddRequiredDate | src/invest_ai/calculation/models.py:34-36 | the date is appended to the code's list, which starts empty for a new code; other codes' lists and the current-price set are unchanged |
| CalculationModels.AddYearEndPriceRequirement | src/invest_ai/calculation/models.py:28-36 | the code's list gains the date `get_year_end_trading_day` answers: a day from December 30 back through the search window, with no trading day after it up to December 30, that trades unless the window holds none (then the window's far end); a trading December 31 is never the date |
| CalculationModels.AddYearStartPriceRequirement | src/invest_ai/calculation/models.py:38-46 | the code's list gains the date `get_year_start_trading_day` answers: a day from January 2 on within the search window, with no trading day between January 2 and it, that trades unless the window holds none (then the window's far end) |
| CalculationModels.AddCurrentPriceRequirement | src/invest_ai/calculation/models.py:48-50 | the code joins the current-price set and the date lists are unchanged |
| CalculationModels.GetUniqueDates | src/invest_ai/calculation/models.py:52-57 | every date any code requires is among the unique dates |
| CalculationModels.UniqueDatesAreRequired | src/invest_ai/calculation/models.py:52-57 | every unique date is required by some code |
| CalculationModels.GetRequiredCodes | src/invest_ai/calculation/models.py:59-63 | a code is required exactly when it has a date list or needs a current price |
| CalculationModels.AddRequiredDateEffect | src/invest_ai/calculation/models.py:28-63 | requiring a date adds exactly that date to the unique dates and exactly that code to the required codes |
| CalculationModels.AddCurrentEffect | src/invest_ai/calculation/models.py:48-63 | a current-price requirement adds exactly the code to the required codes and no date |
| CalculationModels.Truncate | src/invest_ai/calculation/models.py:171 | `int()` on a float truncates toward zero: within one below a non-negative value, within one above a negative one |
| CalculationModels.StartTiming | src/invest_ai/calculation/models.py:159-163 | the start time is the clock reading; the recorded times are kept |
| CalculationModels.EndTiming | src/invest_ai/calculation/models.py:165-171 | the end time is the clock reading; with a nonzero start the calculation time is the whole milliseconds elapsed, otherwise it is unchanged; the other counters are kept |
| CalculationModels.TotalTimeMs | src/invest_ai/calculation/models.py:173-176 | the total less the fetch time is the calculation time |
| CalculationModels.CacheHitRate | src/invest_ai/calculation/models.py:178-182 | with requests, rate times requests equals hits (so between 0 and 1 for counts); without requests the rate is 0.0 |
| CalculationModels.TimedRun | src/invest_ai/calculation/models.py:159-176 | starting at a nonzero time and ending later leaves the total at the fetch time plus the truncated elapsed milliseconds, which are not negative |
| CalculationModels.EndWithoutStart | src/invest_ai/calculation/models.py:165-176 | ending without a start leaves the total time unchanged |
| MarketModels.IsoTextNoUnderscore | src/invest_ai/market/models.py:18-20 | the ISO text of a date never contains an underscore, so it cannot blur the boundaries of a cache key |
| MarketModels.FirstUnderscoreOf | src/invest_ai/market/models.py:18-20 | in a key part joined by "_" to the rest, the first underscore is right after an underscore-free part |
| MarketModels.SplitAtFirst | src/invest_ai/market/models.py:18-20 | two joins with underscore-free heads are equal only when heads and tails are equal |
| MarketModels.JoinKeyInjective | src/invest_ai/market/models.py:18-20 | with underscore-free code and date text, equal keys come from equal code, date text and source |
| MarketModels.KeyDeterminesParts | src/invest_ai/market/models.py:18-20 | with underscore-free codes, two cache keys are equal only when code, date and source agree |
| MarketModels.NewCache | src/invest_ai/market/models.py:11-16 | a new cache is empty and keeps the given time to live |
| MarketModels.GetKey | src/invest_ai/market/models.py:24-34 | a fresh entry is returned and the cache is kept; an expired entry gives nothing and is removed, nothing else changing; a missing key gives nothing |
| MarketModels.Get | src/invest_ai/market/models.py:22-34 | the same three cases for the key built from code, date and source |
| MarketModels.SetKey | src/invest_ai/market/models.py:38-41 | the key now holds the data stamped with the clock reading; every other key is unchanged |
| MarketModels.Set | src/invest_ai/market/models.py:36-41 | the key built from code, date and source now holds the stamped data; every other key and the time to live are unchanged |
| MarketModels.Clear | src/invest_ai/market/models.py:43-45 | no entries remain and the time to live is kept |
| MarketModels.Size | src/invest_ai/market/models.py:47-49 | the size is the number of keys |
| MarketModels.GetAfterSetWithinTtl | src/invest_ai/market/models.py:22-41 | reading back within the time to live returns the data just stored |
| MarketModels.GetAfterExpiry | src/invest_ai/market/models.py:22-41 | reading back once the time to live has passed gives nothing, removes the key, and leaves the size one less than before the write when the key existed then, the same otherwise |
| MarketModels.KeyExpires | src/invest_ai/market/models.py:24-41 | the same expiry behaviour for a raw key |
| MarketModels.SizeAfterSet | src/invest_ai/market/models.py:36-49 | storing under a new key grows the size by one; overwriting leaves it unchanged |
| MarketModels.AddSuccess | src/invest_ai/market/models.py:82-85 | one more success, one more for that source, other sources and counters unchanged |
| MarketModels.AddFailure | src/invest_ai/market/models.py:87-89 | one more failure; the successes and per-source counts are unchanged |
| MarketModels.SetTotalCodes | src/invest_ai/market/models.py:91-93 | the expected total becomes the count; request counters are kept |
| MarketModels.AddMissingDates | src/invest_ai/market/models.py:95-97 | the missing-date count grows by the given count; request counters are kept |
| MarketModels.SuccessRate | src/invest_ai/market/models.py:99-103 | with requests, rate times requests equals successes (between 0 and 1 for counts); without requests the rate is 0.0 |
| MarketModels.Completeness | src/invest_ai/market/models.py:105-112 | with a positive total, completeness times total equals successes (between 0 and 1 while successes do not exceed it); otherwise 0.0 |
| MarketModels.ReplayCounts | src/invest_ai/market/models.py:82-103 | after any sequence of recordings the successes, failures and per-source counts equal the number of such recordings, and the success rate lies between 0 and 1 |
| MarketModels.NewPriceQuery | src/invest_ai/market/models.py:149-168 | the codes are sorted and the dates ascending, each a permutation of what was given |
| MarketModels.QueryRequestsEveryPair | src/invest_ai/market/models.py:170-173 | the request total is the number of codes times the number of dates given, sorting neither adding nor dropping any |
| StockClient.ExchangeOf | src/invest_ai/market/stock_client.py:162-180 | Shanghai exactly for a leading "6", Beijing exactly for a leading "8" or "4", Shenzhen otherwise (including the fallback) |
| StockClient.ConvertToTushareCode | src/invest_ai/market/stock_client.py:162-180 | the code zero-filled to six characters followed by the three-character suffix of its exchange |
| StockClient.SplitTushareCode | src/invest_ai/market/stock_client.py:162-180 | splits a suffixed code into its body and a three-character suffix that join back to it |
| StockClient.SplitRecoversCode | src/invest_ai/market/stock_client.py:162-180 | splitting a converted code gives back the padded code and its exchange's suffix |
| StockClient.SuffixInjective | src/invest_ai/market/stock_client.py:172-180 | two exchanges share a suffix only when they are the same |
| StockClient.SixDigitCodeKept | src/invest_ai/market/stock_client.py:162-180 | a six-digit code is kept and only gains its suffix |
| StockClient.ShortCodeIsShenzhen | src/invest_ai/market/stock_client.py:162-180 | an unsigned code shorter than six characters is padded with zeros and so always lands on Shenzhen |
| StockClient.ConversionExamples | src/invest_ai/market/stock_client.py:162-180 | "600000" becomes "600000.SH", "1" becomes "000001.SZ", "430047" becomes "430047.BJ" |

## Left out

- Loading, saving and rendering of ledgers (YAML loader, reports, command line) are outside the calculation core and are not part of this model.
- Price fetching is not modelled: the market clients, the Tushare and fund services, and retries and time-outs. Prices reach the model as maps from code to price. Of `market/stock_client.py` only `_convert_to_tushare_code` is modelled.
- The holidays package is a parameter `Holidays` (a predicate on dates). When the package is missing the source falls back to weekends only; that corresponds to passing `TradingDays.NoHolidays`. The module-level singleton and its convenience wrappers (`market/trading_days.py:123-152`) only forward to the methods modelled here.
- `date.today()`, `time.time()` and `datetime.now()` are parameters (`today`, `now`) of the operations that read them.
- The NPV function of XIRR and its derivative are parameters. Real-exponent powers are not available in Dafny, so the rate a given ledger yields is not computed.
- Xirr.Newton: its own contract only bounds a converged rate to the clamp range. The Newton step relation is stated by `Xirr.NewtonConverged`.
- Xirr.Bisect: its own contract only keeps the result in the bracket. The sign-change invariant is stated by `Xirr.BisectKeepsSignChange`.
- Xirr.TxCashFlows: its own contract only bounds the length. The sign mapping is stated by `Xirr.TxCashFlowsAreMapped`.
- Annual.EndOver: its own contract only bounds the number of results. Totals, consistency and codes are stated by `Annual.EndOverValueTotal`, `Annual.EndOverRealizedTotal`, `Annual.EndOverConsistent` and `Annual.EndOverCodes`.
- Fifo.ReplaySales: its own contract gives only one result per sale. Share conservation is stated by `Fifo.ReplayConservesShares`.
- Fifo.DrawFifo: its own contract keeps only the lot count. Success, conservation and order are stated by `Fifo.DrawFifoSucceeds`, `Fifo.DrawFifoConservation` and `Fifo.DrawFifoOrder`.
- Models.SellFrom: its own contract bounds only the record count. Records, shortfall and conservation are stated by `Models.SellFromRecords`, `Models.SellFromShortfall` and `Models.SellFromConservation`.
- TransactionModels.ValueOver: its own contract gives only sign and emptiness. The value itself is stated by `TransactionModels.ValueOverFrame` and `TransactionModels.ValueOverBump`, and for the whole portfolio by `TransactionModels.PositionsValueFrame`, `TransactionModels.PositionsValueBump` and `TransactionModels.SingleBuyValue`.
- Transaction dates are always present. The loader requires them and every path of the core compares them. The `if tx.date` and `if tx.transaction_date` guards, and the `(None, None)` date range they would produce, are therefore not modelled.
- `FifoQueue.sell_shares` mutates the queue in place and then raises. The model returns the emptied queue together with the failure instead (`Models.SellShares`).
- Floating-point rounding is not modelled: amounts are exact reals. `int()` on a float is modelled as truncation toward zero (`CalculationModels.Truncate`).
- Python string methods are modelled on ASCII only. `isdigit` and `isalpha` also accept other Unicode digits and letters.
- Some `except Exception` branches catch errors the modelled code cannot raise once dates are present and fields are typed: the "Validation error" report in `transaction/validator.py:154-155` and the catch-all of the consistency check. They are not modelled.
- `calculation/engine.py` methods `calculate_annual_returns`, `calculate_complete_history` and `calculate_single_investment_history` forward their arguments unchanged to the calculators. The calculators' own members (`Annual.CalculateAnnualReturns`, `History.CalculateCompleteHistory`, `History.CalculateSingleInvestmentHistory`) stand for them.
- `MarketDataRequirement.historical_prices_needed` is never written or read by the core. It is kept as a field only.
- `PriceFetcherConfig` and `InvestmentInfo` (`market/models.py:52-68`, `115-143`) only hold configuration values and render strings. They have no behaviour to model.
- A filter `date_range` whose start or end is `None` (`models/__init__.py:182` allows `tuple[date | None, date | None]`) is not representable: `TransactionFilter.FilterCriteria.dateRange` holds two dates. In the source such a range reaches `start_date <= tx.date <= end_date` (`transaction/filter.py:47-51`, `83-87`) and raises a `TypeError` on the first transaction.
- `get_trading_days_in_month` raises for a month outside 1–12 because `date()` rejects it. The model requires a valid month (`TradingDays.GetTradingDaysInMonth`).
- The `self.cn_holidays and ...` truthiness test of `is_trading_day` (market/trading_days.py:36) is not modelled separately. The model assumes that the table passed in as `holidays` is the one the test lets through. A table that is missing, or empty and so falsy, is modelled as `TradingDays.NoHolidays`. A `holidays.CountryHoliday("CN")` built without years may be empty until its first lookup, so the first call may see no holidays at all. The model does not track that lazy filling, which is state inside the holidays library.

## Findings

| source | as written | input that shows it | evidently intended | confidence | as-written member | corrected member |
|---|---|---|---|---|---|---|
| src/invest_ai/calculation/fifo.py:179-184 | when a sale's allocation fails, the fallback `FifoResult` is built without its required `code` field, so constructing it raises and the whole run fails | buy 10 shares, then sell 20 (`Fifo.OversoldLedgerStart`, `Fifo.OversoldSaleFails`, `Fifo.OversoldLedgerFailsAsWritten`) | record an empty result for the failed sale and carry the queue forward unchanged, as the comment and the fallback record show | not executed | Fifo.ProcessMultipleSalesAsWritten | Fifo.ProcessMultipleSales |
| src/invest_ai/market/trading_days.py:117-120 | `get_year_end_trading_day` calls `get_previous_trading_day(date(year, 12, 31))`, which starts looking on December 30, so December 31 is never returned | year 2024 without a holiday on December 31: that day is a Tuesday and trades (`TradingDays.YearEnd2024Trades`), yet the search answers December 30 | the last trading day of the year, which is December 31 whenever it trades, as the method's docstring says | not executed | TradingDays.GetYearEndTradingDay | TradingDays.GetLastTradingDayOfYear |

=== FILE: annual.dfy ===
/**
 * Annual returns (calculation/annual.py): the value of the positions held
 * at the start of a year, the value and realized gains at its end, the
 * year's new investments, withdrawals and dividends, and the net gain and
 * Modified-Dietz-style return built from them. Price snapshots are maps
 * from code to price under the keys "year_start" and "year_end".
 */
module Annual {
  import opened Wrappers
  import opened Seqs
  import opened Models
  import opened Fifo
  import opened Positions
  import History

  type Prices = map<string, real>

  /** The `prices` argument: snapshot name ↦ (code ↦ price). */
  type PriceTable = map<string, map<string, real>>

  const YearStartKey: string := "year_start"
  const YearEndKey: string := "year_end"

  /**
   * `prices or {"year_start": {}, "year_end": {}}` followed by
   * `.get(key, {})`: a missing or empty table, or a missing key, gives no
   * prices.
   */
  function SnapshotPrices(prices: Option<PriceTable>, key: string): (r: Prices)
    ensures prices.None? ==> r == map[]
    ensures prices.Some? && key in prices.value ==> r == prices.value[key]
    ensures prices.Some? && key !in prices.value ==> r == map[]
  {
    var table := match prices
      case None => map[YearStartKey := map[], YearEndKey := map[]]
      case Some(t) => if |t| == 0 then map[YearStartKey := map[], YearEndKey := map[]] else t;
    if key in table then table[key] else map[]
  }

  /** `calculate_new_investments`: Σ total amount of the year's BUY transactions. */
  function CalculateNewInvestments(yearTxs: seq<Transaction>): real {
    History.CalculateTotalInvested(yearTxs)
  }

  /** `calculate_withdrawals`: Σ total amount of the year's SELL transactions. */
  function CalculateWithdrawals(yearTxs: seq<Transaction>): real {
    Sum(Filter(yearTxs, IsSellTx), TxAmount)
  }

  /** `calculate_dividend_income`: Σ total amount of the year's DIVIDEND transactions. */
  function CalculateDividendIncome(yearTxs: seq<Transaction>): real {
    History.CalculateDividendIncome(yearTxs)
  }

  // ---------------------------------------------------------------------------
  // calculate_year_start_value
  // ---------------------------------------------------------------------------

  /** The year-start value and the shares held per code. */
  datatype StartValue = StartValue(currentValue: real, positions: map<string, real>)

  /** The shares a code holds after its sales, when it has a position-opening transaction. */
  function SharesLeft(txs: seq<Transaction>, code: string): real
    requires OpeningQueue(txs, code).Some?
  {
    GetTotalQuantity(FinalQueue(txs, code).value)
  }

  /** What one code adds to the year-start value: only a positive holding with a price counts. */
  function StartWorth(txs: seq<Transaction>, code: string, prices: Prices): (v: real)
    requires OpeningQueue(txs, code).Some?
    ensures code !in prices || SharesLeft(txs, code) <= 0.0 ==> v == 0.0
    ensures code in prices && SharesLeft(txs, code) > 0.0 ==> v == Worth(SharesLeft(txs, code), prices[code])
    ensures v == PositiveWorth(SharesLeft(txs, code), Lookup(prices, code))
    ensures (forall c :: c in prices ==> prices[c] >= 0.0) ==> v >= 0.0
  {
    var shares := SharesLeft(txs, code);
    if code in prices && shares > 0.0 then
      assert (forall c :: c in prices ==> prices[c] >= 0.0) ==> Worth(shares, prices[code]) >= 0.0 by {
        if forall c :: c in prices ==> prices[c] >= 0.0 {
          WorthNonNegative(shares, prices[code]);
        }
      }
      Worth(shares, prices[code])
    else 0.0
  }

  /** The year-start loop over `codes`; codes without a position-opening transaction are skipped. */
  function StartOver(txs: seq<Transaction>, codes: seq<string>, prices: Prices): (r: StartValue)
    ensures forall c :: c in r.positions <==> c in codes && OpeningQueue(txs, c).Some?
    ensures forall c :: c in r.positions ==> r.positions[c] == SharesLeft(txs, c)
    ensures (forall c :: c in prices ==> prices[c] >= 0.0) ==> r.currentValue >= 0.0
    decreases |codes|
  {
    if |codes| == 0 then StartValue(0.0, map[])
    else
      var code := codes[0];
      var rest := StartOver(txs, codes[1..], prices);
      match OpeningQueue(txs, code)
      case None => rest
      case Some(_) =>
        StartValue(StartWorth(txs, code, prices) + rest.currentValue, rest.positions[code := SharesLeft(txs, code)])
  }

  /** The year-start loop's value depends only on the prices of the codes it finds positively held. */
  lemma {:induction false} StartOverFrame(txs: seq<Transaction>, codes: seq<string>, p1: Prices, p2: Prices)
    requires forall c :: c in codes && OpeningQueue(txs, c).Some? && SharesLeft(txs, c) > 0.0
                         ==> Lookup(p1, c) == Lookup(p2, c)
    ensures StartOver(txs, codes, p1).currentValue == StartOver(txs, codes, p2).currentValue
    decreases |codes|
  {
    if |codes| > 0 {
      assert forall c :: c in codes[1..] ==> c in codes;
      StartOverFrame(txs, codes[1..], p1, p2);
    }
  }

  /** One code's year-start worth moves by its positive holding times the change of its price. */
  lemma StartWorthBump(txs: seq<Transaction>, code: string, p1: Prices, p2: Prices, d: real)
    requires OpeningQueue(txs, code).Some?
    requires Lookup(p2, code) == Lookup(p1, code) + d
    ensures StartWorth(txs, code, p2)
         == StartWorth(txs, code, p1) + PositiveWorth(SharesLeft(txs, code), d)
  {
    PositiveWorthShift(SharesLeft(txs, code), Lookup(p1, code), Lookup(p2, code), d,
                       StartWorth(txs, code, p1), StartWorth(txs, code, p2));
  }

  /**
   * Raising one code's year-start price by `d` (all others equal) raises the
   * loop's value by the code's positive holding times `d`, and by nothing
   * when the code is not listed, has no position or holds nothing.
   */
  lemma {:induction false} StartOverBump(txs: seq<Transaction>, codes: seq<string>, p1: Prices, p2: Prices,
                                         key: string, d: real)
    requires NoDuplicates(codes)
    requires Lookup(p2, key) == Lookup(p1, key) + d
    requires forall c :: c != key ==> Lookup(p2, c) == Lookup(p1, c)
    ensures var r := StartOver(txs, codes, p1);
            StartOver(txs, codes, p2).currentValue
              == r.currentValue + (if key in r.positions then PositiveWorth(r.positions[key], d) else 0.0)
    decreases |codes|
  {
    if |codes| > 0 {
      NoDuplicatesTail(codes);
      StartOverBump(txs, codes[1..], p1, p2, key, d);
      if OpeningQueue(txs, codes[0]).Some? {
        if codes[0] == key {
          StartWorthBump(txs, key, p1, p2, d);
        } else {
          assert StartWorth(txs, codes[0], p2) == StartWorth(txs, codes[0], p1);
        }
      }
    }
  }

  /**
   * `calculate_year_start_value`: 0 and no positions without pre-year
   * transactions; otherwise Σ over codes of the shares left × the
   * year-start price, counting a code only when it has a price and holds
   * a positive quantity.
   */
  function CalculateYearStartValue(preYear: seq<Transaction>, prices: Prices): (r: StartValue)
    ensures |preYear| == 0 ==> r == StartValue(0.0, map[])
    ensures forall c :: c in r.positions <==> c in GetCodes(preYear) && OpeningQueue(preYear, c).Some?
    ensures forall c :: c in r.positions ==> r.positions[c] == SharesLeft(preYear, c)
    ensures (forall c :: c in prices ==> prices[c] >= 0.0) ==> r.currentValue >= 0.0
  {
    if |preYear| == 0 then StartValue(0.0, map[])
    else StartOver(preYear, CodesInOrder(preYear), prices)
  }

  /** The year-start value depends only on the year-start prices of the codes held in a positive quantity. */
  lemma YearStartValueFrame(preYear: seq<Transaction>, p1: Prices, p2: Prices)
    requires var r := CalculateYearStartValue(preYear, p1);
             forall c :: c in r.positions && r.positions[c] > 0.0 ==> Lookup(p1, c) == Lookup(p2, c)
    ensures CalculateYearStartValue(preYear, p1).currentValue == CalculateYearStartValue(preYear, p2).currentValue
  {
    if |preYear| > 0 {
      StartOverFrame(preYear, CodesInOrder(preYear), p1, p2);
    }
  }

  /**
   * The year-start value is linear in each price: raising one code's price
   * by `d` adds its positive holding times `d`. With `YearStartValueFrame`
   * and the empty price table (value 0, `NoPricesStartZero`) this fixes the
   * value as Σ shares left × price over the positively held, priced codes.
   */
  lemma YearStartValueBump(preYear: seq<Transaction>, p1: Prices, p2: Prices, code: string, d: real)
    requires Lookup(p2, code) == Lookup(p1, code) + d
    requires forall c :: c != code ==> Lookup(p2, c) == Lookup(p1, c)
    ensures var r := CalculateYearStartValue(preYear, p1);
            CalculateYearStartValue(preYear, p2).currentValue
              == r.currentValue + (if code in r.positions then PositiveWorth(r.positions[code], d) else 0.0)
  {
    if |preYear| > 0 {
      StartOverBump(preYear, CodesInOrder(preYear), p1, p2, code, d);
    }
  }


  // ---------------------------------------------------------------------------
  // calculate_year_end_performance
  // ---------------------------------------------------------------------------

  /** The year-end totals and the per-code results. */
  datatype EndPerformance = EndPerformance(currentValue: real, realizedGains: real, individualResults: seq<CalculationResult>)

  /** A per-code result whose total gain and return rate follow from its parts. */
  predicate ConsistentResult(r: CalculationResult) {
    && r.totalGain == r.realizedGain + r.unrealizedGain
    && r.costBasis == r.totalInvested
    && r.returnRate == PercentOf(r.totalGain, r.costBasis)
  }

  /**
   * One code's year-end result: gains from all its sales (pre-year ones
   * included) replayed in input order, value at the year-end price (0
   * without one), unrealized gain as value less remaining cost, cost basis
   * as Σ BUY amounts, and a simple return on that cost basis.
   */
  function EndResultFor(all: seq<Transaction>, code: string, prices: Prices): (r: CalculationResult)
    requires OpeningQueue(all, code).Some?
    ensures r.code == code
    ensures ConsistentResult(r)
    ensures r.costBasis == History.CalculateTotalInvested(FilterByCode(all, code))
  {
    var q := OpeningQueue(all, code).value;
    var replay := ReplayGains(CodeSells(all, code), q);
    var value := if code in prices then Worth(GetTotalQuantity(replay.queue), prices[code]) else 0.0;
    var unrealized := value - GetTotalCostBasis(replay.queue);
    var costBasis := History.CalculateTotalInvested(FilterByCode(all, code));
    var totalGain := replay.realized + unrealized;
    var codeTxs := FilterByCode(all, code);
    assert |codeTxs| > 0 by {
      if |codeTxs| == 0 {
        NoTransactionsNoPosition(all, code);
      }
    }
    CalculationResult(code, codeTxs[0].GetInvestmentType(), replay.realized, unrealized, totalGain, costBasis,
                      PercentOf(totalGain, costBasis), value, costBasis)
  }

  /** A code's year-end value and realized gain come from replaying its sales over its opening queue. */
  lemma EndResultFromReplay(all: seq<Transaction>, code: string, prices: Prices, left: FifoQueue, realized: real)
    requires OpeningQueue(all, code).Some?
    requires ReplayGains(CodeSells(all, code), OpeningQueue(all, code).value) == Replay(left, realized)
    ensures EndResultFor(all, code, prices).realizedGain == realized
    ensures EndResultFor(all, code, prices).currentValue
         == if code in prices then Worth(GetTotalQuantity(left), prices[code]) else 0.0
  {
  }

  function ResultValue(r: CalculationResult): real { r.currentValue }
  function ResultRealized(r: CalculationResult): real { r.realizedGain }
  function ResultCode(r: CalculationResult): string { r.code }

  /** The year-end loop over `codes`; codes without a position-opening transaction are skipped. */
  function EndOver(all: seq<Transaction>, codes: seq<string>, prices: Prices): (r: EndPerformance)
    ensures |r.individualResults| <= |codes|
    decreases |codes|
  {
    if |codes| == 0 then EndPerformance(0.0, 0.0, [])
    else
      var code := codes[0];
      var rest := EndOver(all, codes[1..], prices);
      match OpeningQueue(all, code)
      case None => rest
      case Some(_) =>
        var result := EndResultFor(all, code, prices);
        EndPerformance(result.currentValue + rest.currentValue, result.realizedGain + rest.realizedGains,
                       [result] + rest.individualResults)
  }

  /** The running value total is the sum of the results' values. */
  lemma {:induction false} EndOverValueTotal(all: seq<Transaction>, codes: seq<string>, prices: Prices)
    ensures var r := EndOver(all, codes, prices);
            r.currentValue == Sum(r.individualResults, ResultValue)
    decreases |codes|
  {
    if |codes| > 0 {
      EndOverValueTotal(all, codes[1..], prices);
      if OpeningQueue(all, codes[0]).Some? {
        SumCons(EndResultFor(all, codes[0], prices), EndOver(all, codes[1..], prices).individualResults, ResultValue);
      }
    }
  }

  /** The running realized total is the sum of the results' realized gains. */
  lemma {:induction false} EndOverRealizedTotal(all: seq<Transaction>, codes: seq<string>, prices: Prices)
    ensures var r := EndOver(all, codes, prices);
            r.realizedGains == Sum(r.individualResults, ResultRealized)
    decreases |codes|
  {
    if |codes| > 0 {
      EndOverRealizedTotal(all, codes[1..], prices);
      if OpeningQueue(all, codes[0]).Some? {
        SumCons(EndResultFor(all, codes[0], prices), EndOver(all, codes[1..], prices).individualResults, ResultRealized);
      }
    }
  }

  /** Every result of a list is consistent, checked head first. */
  predicate AllConsistent(rs: seq<CalculationResult>)
    decreases |rs|
  {
    |rs| == 0 || (ConsistentResult(rs[0]) && AllConsistent(rs[1..]))
  }

  lemma {:induction false} AllConsistentEach(rs: seq<CalculationResult>)
    requires AllConsistent(rs)
    ensures forall i :: 0 <= i < |rs| ==> ConsistentResult(rs[i])
    decreases |rs|
  {
    if |rs| > 0 {
      AllConsistentEach(rs[1..]);
      forall i | 1 <= i < |rs| ensures ConsistentResult(rs[i]) {
        assert rs[i] == rs[1..][i - 1];
      }
    }
  }

  /** Every result of the year-end loop has its gains, cost and rate in agreement. */
  lemma {:induction false} EndOverConsistent(all: seq<Transaction>, codes: seq<string>, prices: Prices)
    ensures AllConsistent(EndOver(all, codes, prices).individualResults)
    decreases |codes|
  {
    if |codes| > 0 {
      EndOverConsistent(all, codes[1..], prices);
      if OpeningQueue(all, codes[0]).Some? {
        var result := EndResultFor(all, codes[0], prices);
        var rest := EndOver(all, codes[1..], prices).individualResults;
        assert ([result] + rest)[1..] == rest;
      }
    }
  }

  /** The year-end loop yields a result for exactly the codes with a position-opening transaction. */
  lemma {:induction false} EndOverCodes(all: seq<Transaction>, codes: seq<string>, prices: Prices)
    ensures forall c :: c in Map(EndOver(all, codes, prices).individualResults, ResultCode) <==>
              c in codes && OpeningQueue(all, c).Some?
    decreases |codes|
  {
    if |codes| > 0 {
      EndOverCodes(all, codes[1..], prices);
      var rest := EndOver(all, codes[1..], prices).individualResults;
      if OpeningQueue(all, codes[0]).Some? {
        MapCons(EndResultFor(all, codes[0], prices), rest, ResultCode);
      }
    }
  }

  /** A result is the year-end result of its own code, which has a position. */
  predicate IsEndResult(all: seq<Transaction>, prices: Prices, r: CalculationResult) {
    OpeningQueue(all, r.code).Some? && r == EndResultFor(all, r.code, prices)
  }

  /** Every result of the year-end loop is its code's year-end result. */
  lemma {:induction false} EndOverResults(all: seq<Transaction>, codes: seq<string>, prices: Prices)
    ensures Every(EndOver(all, codes, prices).individualResults, r => IsEndResult(all, prices, r))
    decreases |codes|
  {
    if |codes| > 0 {
      EndOverResults(all, codes[1..], prices);
      if OpeningQueue(all, codes[0]).Some? {
        var result := EndResultFor(all, codes[0], prices);
        var rest := EndOver(all, codes[1..], prices).individualResults;
        assert ([result] + rest)[1..] == rest;
      }
    }
  }

  /**
   * `calculate_year_end_performance`: over the pre-year and in-year
   * transactions together, one result per code with a position, and the
   * totals of their values and realized gains.
   */
  function CalculateYearEndPerformance(preYear: seq<Transaction>, yearTxs: seq<Transaction>, prices: Prices)
    : (r: EndPerformance)
    ensures r.currentValue == Sum(r.individualResults, ResultValue)
    ensures r.realizedGains == Sum(r.individualResults, ResultRealized)
    ensures forall i :: 0 <= i < |r.individualResults| ==> ConsistentResult(r.individualResults[i])
    ensures forall c :: c in Map(r.individualResults, ResultCode) <==>
              c in GetCodes(preYear + yearTxs) && OpeningQueue(preYear + yearTxs, c).Some?
    ensures NoDuplicates(Map(r.individualResults, ResultCode))
    ensures forall i :: 0 <= i < |r.individualResults| ==>
              (OpeningQueue(preYear + yearTxs, r.individualResults[i].code).Some?
               && r.individualResults[i] == EndResultFor(preYear + yearTxs, r.individualResults[i].code, prices))
  {
    var all := preYear + yearTxs;
    EndOverResults(all, CodesInOrder(all), prices);
    EveryEach(EndOver(all, CodesInOrder(all), prices).individualResults, r => IsEndResult(all, prices, r));
    EndOverValueTotal(all, CodesInOrder(all), prices);
    EndOverRealizedTotal(all, CodesInOrder(all), prices);
    EndOverConsistent(all, CodesInOrder(all), prices);
    AllConsistentEach(EndOver(all, CodesInOrder(all), prices).individualResults);
    EndOverCodes(all, CodesInOrder(all), prices);
    EndOverDistinct(all, CodesInOrder(all), prices);
    EndOver(all, CodesInOrder(all), prices)
  }

  lemma {:induction false} EndOverDistinct(all: seq<Transaction>, codes: seq<string>, prices: Prices)
    requires NoDuplicates(codes)
    ensures NoDuplicates(Map(EndOver(all, codes, prices).individualResults, ResultCode))
    decreases |codes|
  {
    if |codes| > 0 {
      var rest := EndOver(all, codes[1..], prices).individualResults;
      EndOverDistinct(all, codes[1..], prices);
      EndOverCodes(all, codes[1..], prices);
      assert codes[0] !in codes[1..];
      if OpeningQueue(all, codes[0]).Some? {
        MapCons(EndResultFor(all, codes[0], prices), rest, ResultCode);
        NoDuplicatesCons(codes[0], Map(rest, ResultCode));
      }
    }
  }

  /** Over a single code with a position, the year-end totals are that code's result. */
  lemma EndOverSingle(all: seq<Transaction>, code: string, prices: Prices)
    requires OpeningQueue(all, code).Some?
    ensures EndOver(all, [code], prices).currentValue == EndResultFor(all, code, prices).currentValue
    ensures EndOver(all, [code], prices).realizedGains == EndResultFor(all, code, prices).realizedGain
  {
    assert [code][1..] == [];
  }

  /**
   * A code's year-end value and realized gain are what the history
   * calculator gives for the same list; so is its unrealized gain when it
   * has a price, while without one the annual figure is minus the cost of
   * what is left rather than 0.
   */
  lemma EndResultMatchesHistory(all: seq<Transaction>, code: string, prices: Prices)
    requires OpeningQueue(all, code).Some?
    ensures EndResultFor(all, code, prices).currentValue == History.CodeCurrentValue(all, code, prices)
    ensures EndResultFor(all, code, prices).realizedGain == History.CodeGains(all, code, prices).0
    ensures code in prices ==> EndResultFor(all, code, prices).unrealizedGain == History.CodeGains(all, code, prices).1
    ensures code !in prices ==>
              EndResultFor(all, code, prices).unrealizedGain == -GetTotalCostBasis(FinalQueue(all, code).value)
  {
    var q := OpeningQueue(all, code).value;
    History.CodeSellsAreSells(all, code);
    ReplayGainsQueue(CodeSells(all, code), q);
    assert |FilterByCode(all, code)| > 0 by {
      if |FilterByCode(all, code)| == 0 {
        NoTransactionsNoPosition(all, code);
      }
    }
  }

  // ---------------------------------------------------------------------------
  // calculate_annual_returns
  // ---------------------------------------------------------------------------

  /**
   * `calculate_annual_returns`. The net gain adds the realized gains to
   * the withdrawals, as the source does; the return rate divides it by
   * the start value plus new investments when that is positive. `code` is
   * only a label: the lists are not filtered by it.
   */
  function CalculateAnnualReturns(preYear: seq<Transaction>, yearTxs: seq<Transaction>, year: int,
                                  code: Option<string>, prices: Option<PriceTable>): (r: AnnualResult)
    ensures r.year == year && r.code == code
    ensures r.startValue == CalculateYearStartValue(preYear, SnapshotPrices(prices, YearStartKey)).currentValue
    ensures r.endValue == CalculateYearEndPerformance(preYear, yearTxs, SnapshotPrices(prices, YearEndKey)).currentValue
    ensures r.capitalGain == CalculateYearEndPerformance(preYear, yearTxs, SnapshotPrices(prices, YearEndKey)).realizedGains
    ensures r.netGain + r.startValue + CalculateNewInvestments(yearTxs)
         == r.endValue + CalculateWithdrawals(yearTxs) + r.capitalGain
    ensures r.returnRate == PercentOf(r.netGain, r.startValue + CalculateNewInvestments(yearTxs))
    ensures r.dividends == CalculateDividendIncome(yearTxs)
    ensures |preYear| == 0 ==> r.startValue == 0.0
  {
    var startPrices := SnapshotPrices(prices, YearStartKey);
    var endPrices := SnapshotPrices(prices, YearEndKey);
    var start := CalculateYearStartValue(preYear, startPrices);
    var end := CalculateYearEndPerformance(preYear, yearTxs, endPrices);
    var newInvestments := CalculateNewInvestments(yearTxs);
    var withdrawals := CalculateWithdrawals(yearTxs);
    var netGain := (end.currentValue + withdrawals + end.realizedGains) - (start.currentValue + newInvestments);
    var returnRate := PercentOf(netGain, start.currentValue + newInvestments);
    AnnualResult(year, code, start.currentValue, end.currentValue, netGain, returnRate,
                 CalculateDividendIncome(yearTxs), end.realizedGains)
  }

  /** `calculate_portfolio_annual_returns`: the same computation labelled with no code. */
  function CalculatePortfolioAnnualReturns(preYear: seq<Transaction>, yearTxs: seq<Transaction>, year: int,
                                           prices: Option<PriceTable>): (r: AnnualResult)
    ensures r.code.None?
    ensures r == CalculateAnnualReturns(preYear, yearTxs, year, None, prices)
  {
    CalculateAnnualReturns(preYear, yearTxs, year, None, prices)
  }

  /** Without price snapshots nothing is valued: start and end values are 0. */
  lemma NoPricesNoValues(preYear: seq<Transaction>, yearTxs: seq<Transaction>, year: int, code: Option<string>)
    ensures CalculateAnnualReturns(preYear, yearTxs, year, code, None).startValue == 0.0
    ensures CalculateAnnualReturns(preYear, yearTxs, year, code, None).endValue == 0.0
  {
    var all := preYear + yearTxs;
    NoPricesStartZero(preYear, CodesInOrder(preYear));
    NoPricesEndZero(all, CodesInOrder(all));
  }

  lemma {:induction false} NoPricesStartZero(txs: seq<Transaction>, codes: seq<string>)
    ensures StartOver(txs, codes, map[]).currentValue == 0.0
    decreases |codes|
  {
    if |codes| > 0 {
      NoPricesStartZero(txs, codes[1..]);
    }
  }

  lemma {:induction false} NoPricesEndZero(all: seq<Transaction>, codes: seq<string>)
    ensures EndOver(all, codes, map[]).currentValue == 0.0
    decreases |codes|
  {
    if |codes| > 0 {
      NoPricesEndZero(all, codes[1..]);
    }
  }

  // ---------------------------------------------------------------------------
  // A worked year: two buys and a partial sale in 2024
  // ---------------------------------------------------------------------------

  const ScenarioCode: string := "000001"

  /** 1000 shares at 20 on 2024-01-15, 1000 at 25 on 2024-06-15, 1500 sold at 27 on 2024-10-15. */
  function ScenarioYear(): seq<Transaction> {
    [Transaction(ScenarioCode, 738900, Buy, 1000.0, 20.0, 20000.0, None),
     Transaction(ScenarioCode, 739052, Buy, 1000.0, 25.0, 25000.0, None),
     Transaction(ScenarioCode, 739174, Sell, 1500.0, 27.0, 40500.0, None)]
  }

  /** No year-start prices; a year-end price of 25.50. */
  function ScenarioPrices(): PriceTable {
    map[YearStartKey := map[], YearEndKey := map[ScenarioCode := 25.5]]
  }

  /** The queue both buys open: two whole lots in date order. */
  function ScenarioQueue(): FifoQueue {
    FifoQueue(ScenarioCode, [Purchase(738900, 1000.0, 20.0, 1000.0), Purchase(739052, 1000.0, 25.0, 1000.0)])
  }

  /** What is left after the sale: half of the second lot. */
  function ScenarioLeft(): FifoQueue {
    FifoQueue(ScenarioCode, [Purchase(739052, 1000.0, 25.0, 500.0)])
  }

  /** Both transactions are of the one code. */
  lemma ScenarioOneCode()
    ensures FilterByCode(ScenarioYear(), ScenarioCode) == ScenarioYear()
  {
  }

  /** Both buys open lots; the sale is the code's only SELL. */
  lemma ScenarioPositions()
    ensures PositionTxs(ScenarioYear(), ScenarioCode) == [ScenarioYear()[0], ScenarioYear()[1]]
  {
    ScenarioOneCode();
  }

  lemma ScenarioSells()
    ensures CodeSells(ScenarioYear(), ScenarioCode) == [ScenarioYear()[2]]
  {
    ScenarioOneCode();
  }

  lemma ScenarioOpening()
    ensures OpeningQueue(ScenarioYear(), ScenarioCode) == Some(ScenarioQueue())
  {
    var txs := ScenarioYear();
    ScenarioPositions();
    var opening := [txs[0], txs[1]];
    assert SortedBy(opening, TxDate);
    OpeningQueueOfSorted(txs, ScenarioCode);
    LotsOfPair(txs[0], txs[1]);
  }

  /** The allocation loop over the two lots: all of the first, then 500 of the second. */
  lemma ScenarioDraw()
    ensures var d := DrawFifo(ScenarioQueue().purchases, 1500.0);
            && d.Some?
            && d.value.cost == 32500.0
            && d.value.rest == [ScenarioQueue().purchases[0].(remaining := 0.0)] + ScenarioLeft().purchases
  {
    var first := Purchase(738900, 1000.0, 20.0, 1000.0);
    var second := Purchase(739052, 1000.0, 25.0, 1000.0);
    var half := second.(remaining := 500.0);
    assert ScenarioQueue().purchases == [first, second];
    assert [first, second][1..] == [second] && [second][1..] == [];
    var tail := DrawFifo([second], 500.0);
    assert tail.Some? && tail.value.cost == 12500.0;
    assert tail.value.rest == [half];
    var d := DrawFifo([first, second], 1500.0);
    assert d.Some? && d.value.cost == 32500.0;
    assert d.value.rest == [first.(remaining := 0.0)] + [half];
  }

  /** The sale takes the whole first lot and 500 shares of the second: a cost of 32500. */
  lemma ScenarioSale()
    ensures AllocateCost(ScenarioYear()[2], ScenarioQueue()).Success?
    ensures AllocateCost(ScenarioYear()[2], ScenarioQueue()).value.costBasis == 32500.0
    ensures AllocateCost(ScenarioYear()[2], ScenarioQueue()).value.remainingQueue == ScenarioLeft()
  {
    var q := ScenarioQueue();
    var lots := q.purchases;
    assert lots[0].remaining > 0.0;
    assert SortedBy(lots, LotDate);
    WorkingQueueFacts(q);
    SortByOfSorted(lots, LotDate);
    ScenarioDraw();
    RemainingQueueFacts(lots, 1500.0, ScenarioCode);
    var rest := DrawFifo(lots, 1500.0).value.rest;
    assert rest[1..] == ScenarioLeft().purchases;
    assert ScenarioLeft().purchases[1..] == [];
    assert Filter(rest, IsOpen) == ScenarioLeft().purchases;
  }

  /** One code only, so the year-end loop visits it alone. */
  lemma ScenarioCodes()
    ensures CodesInOrder(ScenarioYear()) == [ScenarioCode]
  {
    var c := ScenarioCode;
    assert Map(ScenarioYear(), TxCode) == [c, c, c];
    assert [c, c, c][..2] == [c, c] && [c, c][..1] == [c] && [c][..0] == [];
    assert Distinct([c]) == [c];
    assert Distinct([c, c]) == [c];
    assert Distinct([c, c, c]) == [c];
  }

  /** The realized-gain loop over the one sale: 40500 − 32500, leaving half of the second lot. */
  lemma ScenarioReplay()
    ensures ReplayGains([ScenarioYear()[2]], ScenarioQueue()) == Replay(ScenarioLeft(), 8000.0)
  {
    var sell := ScenarioYear()[2];
    ScenarioSale();
    ReplayGainsSingle(sell, ScenarioQueue());
  }

  /** The 500 shares left are worth 12750 at 25.50. */
  lemma ScenarioLeftWorth()
    ensures Worth(GetTotalQuantity(ScenarioLeft()), 25.5) == 12750.0
  {
    assert GetTotalQuantity(ScenarioLeft()) == 500.0;
  }

  /** The code's year-end result: 500 shares worth 12750, and 40500 − 32500 realized. */
  lemma ScenarioEndResult()
    ensures EndResultFor(ScenarioYear(), ScenarioCode, map[ScenarioCode := 25.5]).currentValue == 12750.0
    ensures EndResultFor(ScenarioYear(), ScenarioCode, map[ScenarioCode := 25.5]).realizedGain == 8000.0
  {
    ScenarioOpening();
    ScenarioSells();
    ScenarioReplay();
    EndResultFromReplay(ScenarioYear(), ScenarioCode, map[ScenarioCode := 25.5], ScenarioLeft(), 8000.0);
    ScenarioLeftWorth();
  }

  lemma ScenarioYearEnd()
    ensures var r := EndOver(ScenarioYear(), [ScenarioCode], map[ScenarioCode := 25.5]);
            r.currentValue == 12750.0 && r.realizedGains == 8000.0
  {
    ScenarioOpening();
    ScenarioEndResult();
    EndOverSingle(ScenarioYear(), ScenarioCode, map[ScenarioCode := 25.5]);
  }

  /** The year's cash flows: 45000 invested, 40500 withdrawn, no dividend. */
  lemma ScenarioFlows()
    ensures CalculateNewInvestments(ScenarioYear()) == 45000.0
    ensures CalculateWithdrawals(ScenarioYear()) == 40500.0
    ensures CalculateDividendIncome(ScenarioYear()) == 0.0
  {
    var txs := ScenarioYear();
    assert Filter(txs, IsBuyTx) == [txs[0], txs[1]];
    assert Sum([txs[1]], TxAmount) == 25000.0;
    assert Sum([txs[0], txs[1]], TxAmount) == 45000.0;
    assert Filter(txs, IsSellTx) == [txs[2]];
    assert Sum([txs[2]], TxAmount) == 40500.0;
    assert Filter(txs, History.IsDividendTx) == [];
  }

  /**
   * The year's figures as the code computes them: capital gain 8000 and
   * end value 12750, and a net gain of 16250 because the realized gain is
   * counted on top of the 40500 withdrawn.
   */
  lemma ScenarioAnnualReturns()
    ensures var r := CalculateAnnualReturns([], ScenarioYear(), 2024, Some(ScenarioCode), Some(ScenarioPrices()));
            && r.startValue == 0.0
            && r.capitalGain == 8000.0
            && r.endValue == 12750.0
            && r.netGain == 16250.0
            && r.dividends == 0.0
  {
    assert SnapshotPrices(Some(ScenarioPrices()), YearEndKey) == map[ScenarioCode := 25.5];
    assert [] + ScenarioYear() == ScenarioYear();
    ScenarioCodes();
    ScenarioYearEnd();
    ScenarioFlows();
  }
}

=== FILE: calc_models.dfy ===
/**
 * Records used around a calculation (calculation/models.py): the status
 * life cycle of a calculation context, the per-calculation price cache,
 * the set of market data a calculation needs, and derived timing and
 * cache figures.
 *
 * "Today" and the wall clock are parameters of the operations that read
 * them.
 */
module CalculationModels {
  import opened Wrappers
  import opened Seqs
  import opened Models
  import Dates
  import TradingDays

  /** `CalculationStatus`. */
  datatype CalculationStatus = Pending | InProgress | Completed | Failed | Cancelled

  // ---------------------------------------------------------------------
  // Calculation context
  // ---------------------------------------------------------------------

  datatype CalculationContext = CalculationContext(
    investmentType: InvestmentType,
    year: Option<int>,
    specificCode: Option<string>,
    calculationType: string,
    status: CalculationStatus,
    createdAt: Dates.Date,
    completedAt: Option<Dates.Date>,
    errorMessage: Option<string>)

  /** A new context: pending, created `today`, not completed, no error. */
  function NewContext(investmentType: InvestmentType, year: Option<int>, specificCode: Option<string>,
                      calculationType: string, today: Dates.Date): (c: CalculationContext)
    ensures c.status == Pending && c.createdAt == today
    ensures c.completedAt.None? && c.errorMessage.None?
    ensures c.investmentType == investmentType && c.year == year && c.specificCode == specificCode
    ensures c.calculationType == calculationType
  {
    CalculationContext(investmentType, year, specificCode, calculationType, Pending, today, None, None)
  }

  /** `mark_in_progress`: only the status changes. */
  function MarkInProgress(c: CalculationContext): (r: CalculationContext)
    ensures r.status == InProgress
    ensures r == c.(status := InProgress)
  {
    c.(status := InProgress)
  }

  /** `mark_completed`: completed `today`; the error message is kept. */
  function MarkCompleted(c: CalculationContext, today: Dates.Date): (r: CalculationContext)
    ensures r.status == Completed && r.completedAt == Some(today)
    ensures r.errorMessage == c.errorMessage && r.createdAt == c.createdAt
  {
    c.(status := Completed, completedAt := Some(today))
  }

  /** `mark_failed`: failed `today` with the given message. */
  function MarkFailed(c: CalculationContext, errorMessage: string, today: Dates.Date): (r: CalculationContext)
    ensures r.status == Failed && r.completedAt == Some(today) && r.errorMessage == Some(errorMessage)
    ensures r.createdAt == c.createdAt
  {
    c.(status := Failed, errorMessage := Some(errorMessage), completedAt := Some(today))
  }

  /** `is_complete`: completed or failed; cancelled does not count. */
  function IsComplete(c: CalculationContext): (r: bool)
    ensures r <==> c.status == Completed || c.status == Failed
  {
    c.status in [Completed, Failed]
  }

  /**
   * `duration_days`: whole days from creation to completion, none until
   * completed. A date is always truthy, so any completion date counts.
   */
  function DurationDays(c: CalculationContext): (r: Option<int>)
    ensures r.Some? <==> c.completedAt.Some?
    ensures r.Some? ==> c.createdAt + r.value == c.completedAt.value
  {
    match c.completedAt
    case Some(done) => Some(done - c.createdAt)
    case None => None
  }

  /**
   * The life cycle: a new or running context is not complete and has no
   * duration; completing or failing it makes it complete with the days
   * elapsed since creation as its duration.
   */
  lemma ContextLifecycle(investmentType: InvestmentType, year: Option<int>, code: Option<string>,
                         kind: string, created: Dates.Date, finished: Dates.Date, message: string)
    ensures var c := NewContext(investmentType, year, code, kind, created);
            && !IsComplete(c) && DurationDays(c).None?
            && !IsComplete(MarkInProgress(c)) && DurationDays(MarkInProgress(c)).None?
            && IsComplete(MarkCompleted(MarkInProgress(c), finished))
            && DurationDays(MarkCompleted(MarkInProgress(c), finished)) == Some(finished - created)
            && MarkCompleted(MarkInProgress(c), finished).errorMessage.None?
            && IsComplete(MarkFailed(MarkInProgress(c), message, finished))
            && DurationDays(MarkFailed(MarkInProgress(c), message, finished)) == Some(finished - created)
  {
  }

  /** A cancelled context is not complete, whatever else it records. */
  lemma CancelledIsNotComplete(c: CalculationContext)
    requires c.status == Cancelled
    ensures !IsComplete(c)
  {
  }

  // ---------------------------------------------------------------------
  // Price cache
  // ---------------------------------------------------------------------

  /**
   * One code's prices in the order their dates were first added, each
   * date at most once: the inner dictionary date → price.
   */
  type Entries = seq<PriceData>

  function EntryDate(p: PriceData): Dates.Date {
    p.priceDate
  }

  predicate DistinctDates(es: Entries) {
    forall i, j :: 0 <= i < j < |es| ==> es[i].priceDate != es[j].priceDate
  }

  /** The price stored under `date`, if any. */
  function Find(es: Entries, date: Dates.Date): (r: Option<PriceData>)
    ensures r.Some? <==> exists i :: 0 <= i < |es| && es[i].priceDate == date
    ensures r.Some? ==> r.value in es && r.value.priceDate == date
    decreases |es|
  {
    if |es| == 0 then None
    else if es[0].priceDate == date then Some(es[0])
    else
      var r := Find(es[1..], date);
      assert forall i :: 1 <= i < |es| ==> es[i] == es[1..][i - 1];
      r
  }

  /** Dictionary assignment: replaces the price of the same date in place, or appends. */
  function Upsert(es: Entries, p: PriceData): (r: Entries)
    ensures Find(r, p.priceDate) == Some(p)
    ensures forall d :: d != p.priceDate ==> Find(r, d) == Find(es, d)
    ensures |r| == |es| + (if Find(es, p.priceDate).Some? then 0 else 1)
    decreases |es|
  {
    if |es| == 0 then [p]
    else if es[0].priceDate == p.priceDate then [p] + es[1..]
    else
      var rest := Upsert(es[1..], p);
      var r := [es[0]] + rest;
      assert r[1..] == rest;
      r
  }

  lemma TailDistinct(es: Entries)
    requires |es| > 0 && DistinctDates(es)
    ensures DistinctDates(es[1..])
  {
    forall i, j | 0 <= i < j < |es[1..]| ensures es[1..][i].priceDate != es[1..][j].priceDate {
      assert es[i + 1].priceDate != es[j + 1].priceDate;
    }
  }

  /** Assignment keeps the dates distinct. */
  lemma {:induction false} UpsertKeepsDistinct(es: Entries, p: PriceData)
    requires DistinctDates(es)
    ensures DistinctDates(Upsert(es, p))
    decreases |es|
  {
    var r := Upsert(es, p);
    if |es| > 0 && es[0].priceDate != p.priceDate {
      TailDistinct(es);
      UpsertKeepsDistinct(es[1..], p);
      var rest := Upsert(es[1..], p);
      assert r == [es[0]] + rest;
      forall j | 0 < j < |r| ensures r[0].priceDate != r[j].priceDate {
        var d := rest[j - 1].priceDate;
        assert Find(rest, d).Some?;
        if d != p.priceDate {
          assert Find(es[1..], d).Some?;
          var k :| 0 <= k < |es[1..]| && es[1..][k].priceDate == d;
          assert es[k + 1].priceDate == d;
        }
      }
      forall i, j | 0 <= i < j < |r| ensures r[i].priceDate != r[j].priceDate {
        if i > 0 {
          assert r[i] == rest[i - 1] && r[j] == rest[j - 1];
        }
      }
    } else if |es| > 0 {
      assert r == [p] + es[1..];
      forall i, j | 0 <= i < j < |r| ensures r[i].priceDate != r[j].priceDate {
        assert es[i].priceDate != es[j].priceDate;
      }
    }
  }

  /** The entry with the latest date; `max` over the dictionary's items keyed by date. */
  function Latest(es: Entries): (r: PriceData)
    requires |es| > 0
    ensures r in es
    ensures forall i :: 0 <= i < |es| ==> es[i].priceDate <= r.priceDate
    decreases |es|
  {
    if |es| == 1 then es[0]
    else
      var rest := Latest(es[1..]);
      assert forall i :: 1 <= i < |es| ==> es[i] == es[1..][i - 1];
      if es[0].priceDate >= rest.priceDate then es[0] else rest
  }

  /**
   * `PriceDataCache`: code → (date → price). `codes` lists the codes in
   * the order they were first added, as the dictionary keeps them.
   */
  datatype PriceDataCache = PriceDataCache(cache: map<string, Entries>, codes: seq<string>)

  const EmptyCache := PriceDataCache(map[], [])

  /** The code list is exactly the dictionary's keys, each once; dates are keys too. */
  ghost predicate CacheWellFormed(c: PriceDataCache) {
    && NoDuplicates(c.codes)
    && (forall code :: code in c.cache <==> code in c.codes)
    && (forall code :: code in c.cache ==> DistinctDates(c.cache[code]))
  }

  /** `get_price_data`: the price stored for the code and date, if any. */
  function GetPriceData(c: PriceDataCache, code: string, date: Dates.Date): (r: Option<PriceData>)
    ensures code !in c.cache ==> r.None?
    ensures code in c.cache ==> (r.Some? <==> exists i :: 0 <= i < |c.cache[code]| && c.cache[code][i].priceDate == date)
    ensures r.Some? ==> r.value in c.cache[code] && r.value.priceDate == date
  {
    if code in c.cache then Find(c.cache[code], date) else None
  }

  /** `add_price_data`: stores the price under `code` and its own date, replacing any earlier one. */
  function AddPriceData(c: PriceDataCache, code: string, price: PriceData): (r: PriceDataCache)
    requires CacheWellFormed(c)
    ensures CacheWellFormed(r)
    ensures GetPriceData(r, code, price.priceDate) == Some(price)
    ensures forall k, d :: k != code || d != price.priceDate ==> GetPriceData(r, k, d) == GetPriceData(c, k, d)
    ensures r.cache.Keys == c.cache.Keys + {code}
  {
    var entries := if code in c.cache then c.cache[code] else [];
    var codes := if code in c.cache then c.codes else c.codes + [code];
    assert code !in c.cache ==> NoDuplicates(codes) by {
      if code !in c.cache {
        forall i, j | 0 <= i < j < |codes| ensures codes[i] != codes[j] {
          if j == |c.codes| {
            assert codes[i] in c.codes;
          }
        }
      }
    }
    UpsertKeepsDistinct(entries, price);
    PriceDataCache(c.cache[code := Upsert(entries, price)], codes)
  }

  /** Adding a second price for the same code and date replaces the first. */
  lemma AddOverwrites(c: PriceDataCache, code: string, first: PriceData, second: PriceData)
    requires CacheWellFormed(c)
    requires first.priceDate == second.priceDate
    ensures GetPriceData(AddPriceData(AddPriceData(c, code, first), code, second), code, first.priceDate)
         == Some(second)
  {
  }

  /**
   * `get_latest_price_data`: the price with the latest date for the code;
   * none when the code is unknown or has no prices.
   */
  function GetLatestPriceData(c: PriceDataCache, code: string): (r: Option<PriceData>)
    ensures r.None? <==> code !in c.cache || |c.cache[code]| == 0
    ensures r.Some? ==> GetPriceData(c, code, r.value.priceDate) == Some(r.value) || !DistinctDates(c.cache[code])
    ensures r.Some? ==> forall d :: GetPriceData(c, code, d).Some? ==> d <= r.value.priceDate
  {
    if code !in c.cache || |c.cache[code]| == 0 then None
    else
      var es := c.cache[code];
      var latest := Latest(es);
      assert DistinctDates(es) ==> Find(es, latest.priceDate) == Some(latest) by {
        if DistinctDates(es) {
          FindDistinct(es, latest);
        }
      }
      Some(latest)
  }

  /** In a list with distinct dates, an entry is what its date finds. */
  lemma {:induction false} FindDistinct(es: Entries, p: PriceData)
    requires DistinctDates(es) && p in es
    ensures Find(es, p.priceDate) == Some(p)
    decreases |es|
  {
    if es[0] != p {
      assert p in es[1..] by {
        var i :| 0 <= i < |es| && es[i] == p;
        assert es[1..][i - 1] == p;
      }
      assert DistinctDates(es[1..]) by {
        forall i, j | 0 <= i < j < |es[1..]| ensures es[1..][i].priceDate != es[1..][j].priceDate {
          assert es[i + 1].priceDate != es[j + 1].priceDate;
        }
      }
      FindDistinct(es[1..], p);
      assert es[0].priceDate != p.priceDate by {
        var i :| 0 <= i < |es| && es[i] == p;
      }
    }
  }

  /** Adding a price later than every cached one for the code makes it the latest. */
  lemma LatestAfterAddingLater(c: PriceDataCache, code: string, price: PriceData)
    requires CacheWellFormed(c)
    requires forall d :: GetPriceData(c, code, d).Some? ==> d < price.priceDate
    ensures GetLatestPriceData(AddPriceData(c, code, price), code) == Some(price)
  {
    var r := AddPriceData(c, code, price);
    var latest := GetLatestPriceData(r, code);
    assert latest.Some?;
    assert GetPriceData(r, code, latest.value.priceDate) == Some(latest.value);
  }

  /** `clear`: nothing cached. */
  function Clear(c: PriceDataCache): (r: PriceDataCache)
    ensures CacheWellFormed(r)
    ensures forall code, d :: GetPriceData(r, code, d).None?
  {
    EmptyCache
  }

  /** The number of prices cached under the listed codes. */
  function SizeOver(cache: map<string, Entries>, codes: seq<string>): nat
    decreases |codes|
  {
    if |codes| == 0 then 0
    else (if codes[0] in cache then |cache[codes[0]]| else 0) + SizeOver(cache, codes[1..])
  }

  /** `size`: the number of (code, date) entries. */
  function Size(c: PriceDataCache): nat {
    SizeOver(c.cache, c.codes)
  }

  lemma {:induction false} SizeOverSnoc(cache: map<string, Entries>, codes: seq<string>, code: string)
    ensures SizeOver(cache, codes + [code]) == SizeOver(cache, codes) + (if code in cache then |cache[code]| else 0)
    decreases |codes|
  {
    if |codes| == 0 {
      assert codes + [code] == [code];
      assert [code][1..] == [];
    } else {
      SizeOverSnoc(cache, codes[1..], code);
      assert (codes + [code])[1..] == codes[1..] + [code];
    }
  }

  /** Entries of codes outside the list do not enter its size. */
  lemma {:induction false} SizeOverFrame(cache: map<string, Entries>, cache': map<string, Entries>, codes: seq<string>)
    requires forall k :: k in codes ==> (k in cache <==> k in cache') && (k in cache ==> |cache[k]| == |cache'[k]|)
    ensures SizeOver(cache, codes) == SizeOver(cache', codes)
    decreases |codes|
  {
    if |codes| > 0 {
      assert forall k :: k in codes[1..] ==> k in codes;
      SizeOverFrame(cache, cache', codes[1..]);
    }
  }

  /** Growing one listed code's entries by `n` grows the size by `n`. */
  lemma {:induction false} SizeOverBump(cache: map<string, Entries>, cache': map<string, Entries>,
                                        codes: seq<string>, code: string, n: nat)
    requires NoDuplicates(codes) && code in codes
    requires code in cache && code in cache' && |cache'[code]| == |cache[code]| + n
    requires forall k :: k != code ==> (k in cache <==> k in cache') && (k in cache ==> |cache[k]| == |cache'[k]|)
    ensures SizeOver(cache', codes) == SizeOver(cache, codes) + n
    decreases |codes|
  {
    NoDuplicatesTail(codes);
    if codes[0] == code {
      SizeOverFrame(cache, cache', codes[1..]);
    } else {
      assert code in codes[1..] by {
        var j :| 0 <= j < |codes| && codes[j] == code;
        assert codes[1..][j - 1] == code;
      }
      SizeOverBump(cache, cache', codes[1..], code, n);
    }
  }

  /**
   * The size counts (code, date) pairs: adding a price for a pair not yet
   * cached adds one entry, replacing one adds none.
   */
  lemma SizeAfterAdd(c: PriceDataCache, code: string, price: PriceData)
    requires CacheWellFormed(c)
    ensures Size(AddPriceData(c, code, price))
         == Size(c) + (if GetPriceData(c, code, price.priceDate).Some? then 0 else 1)
  {
    var r := AddPriceData(c, code, price);
    if code in c.cache {
      SizeOverBump(c.cache, r.cache, c.codes, code,
                   if Find(c.cache[code], price.priceDate).Some? then 0 else 1);
    } else {
      SizeOverSnoc(r.cache, c.codes, code);
      SizeOverFrame(c.cache, r.cache, c.codes);
    }
  }

  /** An empty or cleared cache has size 0. */
  lemma ClearedSizeIsZero(c: PriceDataCache)
    ensures Size(Clear(c)) == 0
    ensures Size(EmptyCache) == 0
  {
  }

  // ---------------------------------------------------------------------
  // Market data requirements
  // ---------------------------------------------------------------------

  /**
   * `MarketDataRequirement`: the dates each code needs a price for, the
   * codes that need a current price, and the (unused) historical set.
   */
  datatype MarketDataRequirement = MarketDataRequirement(
    requiredDates: map<string, seq<Dates.Date>>,
    currentPricesNeeded: set<string>,
    historicalPricesNeeded: set<string>)

  const NoRequirements := MarketDataRequirement(map[], {}, {})

  /** Appends `date` to the code's date list, starting the list when needed. */
  function AddRequiredDate(req: MarketDataRequirement, code: string, date: Dates.Date): (r: MarketDataRequirement)
    ensures code in r.requiredDates
    ensures r.requiredDates[code] == (if code in req.requiredDates then req.requiredDates[code] else []) + [date]
    ensures forall k :: k != code ==> (k in r.requiredDates <==> k in req.requiredDates)
    ensures forall k :: k != code && k in req.requiredDates ==> r.requiredDates[k] == req.requiredDates[k]
    ensures r.currentPricesNeeded == req.currentPricesNeeded
  {
    var dates := if code in req.requiredDates then req.requiredDates[code] else [];
    req.(requiredDates := req.requiredDates[code := dates + [date]])
  }

  /**
   * `add_year_end_price_requirement`: requires the code's price on the
   * year-end trading day as `get_year_end_trading_day` finds it: the
   * latest trading day searched for back from December 30, so a trading
   * December 31 is never the required date.
   */
  method AddYearEndPriceRequirement(holidays: TradingDays.Holidays, req: MarketDataRequirement, code: string, year: int)
    returns (r: MarketDataRequirement)
    ensures exists d :: Dates.YearEnd(year) - TradingDays.DefaultSearchDays - 1 <= d < Dates.YearEnd(year)
                        && TradingDays.NoTradingDayIn(holidays, d + 1, Dates.YearEnd(year) - 1)
                        && (TradingDays.IsTradingDay(holidays, d) || d == Dates.YearEnd(year) - TradingDays.DefaultSearchDays - 1)
                        && r == AddRequiredDate(req, code, d)
  {
    var d := TradingDays.GetYearEndTradingDay(holidays, year);
    r := AddRequiredDate(req, code, d);
  }

  /**
   * `add_year_start_price_requirement`: requires the code's price on the
   * year-start trading day, the first trading day searched for forward
   * from January 2.
   */
  method AddYearStartPriceRequirement(holidays: TradingDays.Holidays, req: MarketDataRequirement, code: string, year: int)
    returns (r: MarketDataRequirement)
    ensures exists d :: Dates.YearStart(year) < d <= Dates.YearStart(year) + TradingDays.DefaultSearchDays + 1
                        && TradingDays.NoTradingDayIn(holidays, Dates.YearStart(year) + 1, d - 1)
                        && (TradingDays.IsTradingDay(holidays, d) || d == Dates.YearStart(year) + TradingDays.DefaultSearchDays + 1)
                        && r == AddRequiredDate(req, code, d)
  {
    var d := TradingDays.GetYearStartTradingDay(holidays, year);
    r := AddRequiredDate(req, code, d);
  }

  /** `add_current_price_requirement`: the code needs a current price. */
  function AddCurrentPriceRequirement(req: MarketDataRequirement, code: string): (r: MarketDataRequirement)
    ensures r.currentPricesNeeded == req.currentPricesNeeded + {code}
    ensures r.requiredDates == req.requiredDates
  {
    req.(currentPricesNeeded := req.currentPricesNeeded + {code})
  }

  /** `get_unique_dates`: every date any code needs. */
  function GetUniqueDates(req: MarketDataRequirement): (r: set<Dates.Date>)
    ensures forall code, d :: code in req.requiredDates && d in req.requiredDates[code] ==> d in r
  {
    set code, d | code in req.requiredDates && d in req.requiredDates[code] :: d
  }

  /** `get_required_codes`: the codes with dates and the codes needing a current price. */
  function GetRequiredCodes(req: MarketDataRequirement): (r: set<string>)
    ensures forall code :: code in r <==> code in req.requiredDates || code in req.currentPricesNeeded
  {
    req.requiredDates.Keys + req.currentPricesNeeded
  }

  /** Every unique date is needed by some code. */
  lemma UniqueDatesAreRequired(req: MarketDataRequirement, d: Dates.Date)
    requires d in GetUniqueDates(req)
    ensures exists code :: code in req.requiredDates && d in req.requiredDates[code]
  {
  }

  /** Requiring a date adds exactly that date to the unique dates and the code to the required codes. */
  lemma AddRequiredDateEffect(req: MarketDataRequirement, code: string, date: Dates.Date)
    ensures GetUniqueDates(AddRequiredDate(req, code, date)) == GetUniqueDates(req) + {date}
    ensures GetRequiredCodes(AddRequiredDate(req, code, date)) == GetRequiredCodes(req) + {code}
  {
    var r := AddRequiredDate(req, code, date);
    forall d | d in GetUniqueDates(r) ensures d in GetUniqueDates(req) + {date} {
      var k :| k in r.requiredDates && d in r.requiredDates[k];
      if k != code {
        assert d in req.requiredDates[k];
      } else if d != date {
        assert d in req.requiredDates[code];
      }
    }
    assert date in r.requiredDates[code];
  }

  /** A current-price requirement adds the code and no date. */
  lemma AddCurrentEffect(req: MarketDataRequirement, code: string)
    ensures GetUniqueDates(AddCurrentPriceRequirement(req, code)) == GetUniqueDates(req)
    ensures GetRequiredCodes(AddCurrentPriceRequirement(req, code)) == GetRequiredCodes(req) + {code}
  {
  }

  // ---------------------------------------------------------------------
  // Performance metrics
  // ---------------------------------------------------------------------

  datatype PerformanceMetrics = PerformanceMetrics(
    apiCallsMade: int,
    cacheHits: int,
    cacheMisses: int,
    calculationTimeMs: int,
    dataFetchTimeMs: int,
    startTime: Option<real>,
    endTime: Option<real>)

  const NewMetrics := PerformanceMetrics(0, 0, 0, 0, 0, None, None)

  /** Python's `int(x)` on a float: truncation toward zero. */
  function Truncate(x: real): (r: int)
    ensures 0.0 <= x ==> r as real <= x < r as real + 1.0
    ensures x < 0.0 ==> r as real - 1.0 < x <= r as real
  {
    if x >= 0.0 then x.Floor else -((-x).Floor)
  }

  /** `start_timing` with the clock reading `now`. */
  function StartTiming(m: PerformanceMetrics, now: real): (r: PerformanceMetrics)
    ensures r.startTime == Some(now)
    ensures r.calculationTimeMs == m.calculationTimeMs && r.dataFetchTimeMs == m.dataFetchTimeMs
  {
    m.(startTime := Some(now))
  }

  /**
   * `end_timing` with the clock reading `now`: records the end and, when
   * a start time is set and truthy (not 0.0), the whole milliseconds
   * elapsed, truncated toward zero.
   */
  function EndTiming(m: PerformanceMetrics, now: real): (r: PerformanceMetrics)
    ensures r.endTime == Some(now)
    ensures m.startTime.Some? && m.startTime.value != 0.0 && m.startTime.value <= now ==>
              r.calculationTimeMs as real <= (now - m.startTime.value) * 1000.0 < r.calculationTimeMs as real + 1.0
    ensures m.startTime.None? || m.startTime == Some(0.0) ==> r.calculationTimeMs == m.calculationTimeMs
    ensures r.dataFetchTimeMs == m.dataFetchTimeMs && r.cacheHits == m.cacheHits && r.cacheMisses == m.cacheMisses
  {
    var ended := m.(endTime := Some(now));
    if m.startTime.Some? && m.startTime.value != 0.0 then
      ended.(calculationTimeMs := Truncate((now - m.startTime.value) * 1000.0))
    else ended
  }

  /** `total_time_ms`: calculation plus data-fetch time. */
  function TotalTimeMs(m: PerformanceMetrics): (r: int)
    ensures r - m.dataFetchTimeMs == m.calculationTimeMs
  {
    m.calculationTimeMs + m.dataFetchTimeMs
  }

  /** `cache_hit_rate`: hits over requests, 0.0 without requests. */
  function CacheHitRate(m: PerformanceMetrics): (r: real)
    ensures m.cacheHits + m.cacheMisses > 0 ==> r * (m.cacheHits + m.cacheMisses) as real == m.cacheHits as real
    ensures m.cacheHits + m.cacheMisses <= 0 ==> r == 0.0
    ensures 0 <= m.cacheHits && 0 <= m.cacheMisses ==> 0.0 <= r <= 1.0
  {
    var total := m.cacheHits + m.cacheMisses;
    if total > 0 then m.cacheHits as real / total as real else 0.0
  }

  /**
   * A timed run: starting at a nonzero `t0` and ending at a later `t1`
   * leaves the total time at the fetch time plus the truncated
   * milliseconds elapsed.
   */
  lemma TimedRun(m: PerformanceMetrics, t0: real, t1: real)
    requires t0 != 0.0 && t0 <= t1
    ensures var r := EndTiming(StartTiming(m, t0), t1);
            TotalTimeMs(r) == Truncate((t1 - t0) * 1000.0) + m.dataFetchTimeMs
            && 0 <= r.calculationTimeMs
  {
  }

  /** Ending without a start leaves the recorded time untouched. */
  lemma EndWithoutStart(m: PerformanceMetrics, now: real)
    requires m.startTime.None?
    ensures TotalTimeMs(EndTiming(m, now)) == TotalTimeMs(m)
  {
  }
}

=== FILE: dates.dfy ===
/**
 * Calendar dates as proleptic-Gregorian day ordinals, the representation
 * behind Python's `datetime.date` (`date.toordinal()`: 0001-01-01 is day 1).
 * Date arithmetic (`d ± timedelta(days=k)`, `(d1 - d2).days`) is integer
 * arithmetic on ordinals; year, month and day follow the standard
 * library's ordinal-to-date algorithm.
 */
module Dates {
  import Text

  type Date = int

  /** 1-based calendar fields of a date. */
  datatype Ymd = Ymd(year: int, month: int, day: int)

  predicate IsLeap(year: int) {
    year % 4 == 0 && (year % 100 != 0 || year % 400 == 0)
  }

  /** Days in `month` of a common year. */
  function DaysInMonthCommon(month: int): int
    requires 1 <= month <= 12
  {
    if month == 2 then 28
    else if month == 4 || month == 6 || month == 9 || month == 11 then 30
    else 31
  }

  /** Days before the first of `month` in a common year. */
  function DaysBeforeMonthCommon(month: int): int
    requires 1 <= month <= 12
  {
    if month == 1 then 0 else DaysBeforeMonthCommon(month - 1) + DaysInMonthCommon(month - 1)
  }

  function DaysBeforeYear(year: int): int {
    var y := year - 1;
    y * 365 + y / 4 - y / 100 + y / 400
  }

  function DaysBeforeMonth(year: int, month: int): int
    requires 1 <= month <= 12
  {
    DaysBeforeMonthCommon(month) + (if month > 2 && IsLeap(year) then 1 else 0)
  }

  function DaysInMonth(year: int, month: int): int
    requires 1 <= month <= 12
  {
    if month == 2 && IsLeap(year) then 29 else DaysInMonthCommon(month)
  }

  /** `date(year, month, day).toordinal()`. */
  function FromYmd(year: int, month: int, day: int): Date
    requires 1 <= month <= 12
  {
    DaysBeforeYear(year) + DaysBeforeMonth(year, month) + day
  }

  /** `date.fromordinal(n)`: calendar fields of an ordinal. */
  function ToYmd(n: Date): Ymd {
    var n0 := n - 1;
    var n400 := n0 / 146097;
    var r400 := n0 % 146097;
    var n100 := r400 / 36524;
    var r100 := r400 % 36524;
    var n4 := r100 / 1461;
    var r4 := r100 % 1461;
    var n1 := r4 / 365;
    var r1 := r4 % 365;
    var year := n400 * 400 + 1 + n100 * 100 + n4 * 4 + n1;
    if n1 == 4 || n100 == 4 then Ymd(year - 1, 12, 31)
    else
      var leap := n1 == 3 && (n4 != 24 || n100 == 3);
      var month := (r1 + 50) / 32;
      var preceding := DaysBeforeMonthCommon(month) + (if month > 2 && leap then 1 else 0);
      if preceding > r1 then
        var m := month - 1;
        var p := preceding - (DaysInMonthCommon(m) + (if m == 2 && leap then 1 else 0));
        Ymd(year, m, r1 - p + 1)
      else Ymd(year, month, r1 - preceding + 1)
  }

  function YearOf(d: Date): int {
    ToYmd(d).year
  }

  /** `date.weekday()`: Monday is 0, Sunday is 6. */
  function Weekday(d: Date): (w: int)
    ensures 0 <= w < 7
  {
    (d + 6) % 7
  }

  /** January 1 of `year`. */
  function YearStart(year: int): Date {
    FromYmd(year, 1, 1)
  }

  /** December 31 of `year`. */
  function YearEnd(year: int): Date {
    FromYmd(year, 12, 31)
  }

  /** The last day of `month` in `year`, as `date(year, month + 1, 1) - timedelta(days=1)`. */
  function MonthEnd(year: int, month: int): Date
    requires 1 <= month <= 12
  {
    if month == 12 then FromYmd(year + 1, 1, 1) - 1 else FromYmd(year, month + 1, 1) - 1
  }

  /** A common year has 334 days before December. */
  lemma DaysBeforeDecember()
    ensures DaysBeforeMonthCommon(12) == 334
  {
    assert DaysBeforeMonthCommon(2) == 31;
    assert DaysBeforeMonthCommon(4) == 90;
    assert DaysBeforeMonthCommon(6) == 151;
    assert DaysBeforeMonthCommon(8) == 212;
    assert DaysBeforeMonthCommon(10) == 273;
  }

  /** One more day crosses a multiple of 4, 100 or 400 exactly when it lands on one. */
  lemma DivStep4(z: int)
    ensures (z + 1) / 4 - z / 4 == if (z + 1) % 4 == 0 then 1 else 0
  {
  }

  lemma DivStep100(z: int)
    ensures (z + 1) / 100 - z / 100 == if (z + 1) % 100 == 0 then 1 else 0
  {
  }

  lemma DivStep400(z: int)
    ensures (z + 1) / 400 - z / 400 == if (z + 1) % 400 == 0 then 1 else 0
  {
  }

  /** Each year is 366 days long when it is a leap year and 365 days otherwise. */
  lemma YearLength(year: int)
    ensures DaysBeforeYear(year + 1) - DaysBeforeYear(year) == if IsLeap(year) then 366 else 365
  {
    var z := year - 1;
    DivStep4(z);
    DivStep100(z);
    DivStep400(z);
    assert DaysBeforeYear(year) == z * 365 + z / 4 - z / 100 + z / 400;
    assert DaysBeforeYear(year + 1) == (z + 1) * 365 + (z + 1) / 4 - (z + 1) / 100 + (z + 1) / 400;
  }

  lemma YearEndIsDayBeforeNextYear(year: int)
    ensures YearEnd(year) + 1 == YearStart(year + 1)
  {
    DaysBeforeDecember();
    YearLength(year);
  }

  /** `str(d)`: the ISO form `YYYY-MM-DD` (years below 1000 zero-padded). */
  function IsoText(d: Date): string {
    var f := ToYmd(d);
    Pad(f.year, 4) + "-" + Pad(f.month, 2) + "-" + Pad(f.day, 2)
  }

  function Pad(n: int, width: nat): string {
    if n < 0 then "-" + Text.ZFill(Text.NatToString(-n), width) else Text.ZFill(Text.NatToString(n), width)
  }
}

=== FILE: engine.dfy ===
/**
 * The calculation engine (calculation/engine.py): input validation for an
 * annual calculation, the year-end holdings check, and the delegations to
 * the annual and history calculators with their argument defaults.
 */
module Engine {
  import opened Wrappers
  import opened Seqs
  import opened Models
  import opened Fifo
  import Annual
  import History
  import Xirr

  const MinYear: int := 1990
  const MaxYear: int := 2030

  /** The messages `validate_calculation_inputs` collects. */
  datatype InputError =
    | NoTransactionsProvided
    | YearOutOfRange
    | FifoIssue(issue: PositionIssue)

  predicate YearInRange(year: int) {
    MinYear <= year <= MaxYear
  }

  /** The messages about the inputs themselves, before any position issue. */
  function Header(preYear: seq<Transaction>, yearTxs: seq<Transaction>, year: int): (r: seq<InputError>)
    ensures NoTransactionsProvided in r <==> |preYear| == 0 && |yearTxs| == 0
    ensures YearOutOfRange in r <==> year < MinYear || year > MaxYear
    ensures |preYear| == 0 && |yearTxs| == 0 ==> r[0] == NoTransactionsProvided
    ensures forall i :: 0 <= i < |r| ==> !r[i].FifoIssue?
  {
    (if |preYear| == 0 && |yearTxs| == 0 then [NoTransactionsProvided] else [])
    + (if YearInRange(year) then [] else [YearOutOfRange])
  }

  function AsInputError(e: PositionIssue): InputError {
    FifoIssue(e)
  }

  /** The position issues as messages, in order. */
  function Wrap(issues: seq<PositionIssue>): (r: seq<InputError>)
    ensures |r| == |issues|
    ensures forall i :: 0 <= i < |r| ==> r[i] == FifoIssue(issues[i])
    ensures forall e :: FifoIssue(e) in r <==> e in issues
  {
    var r := Map(issues, AsInputError);
    assert forall e :: e in issues ==> FifoIssue(e) in r by {
      forall e | e in issues ensures FifoIssue(e) in r {
        var i :| 0 <= i < |issues| && issues[i] == e;
        assert r[i] == FifoIssue(e);
      }
    }
    r
  }

  /**
   * `validate_calculation_inputs`: "no transactions" when both lists are
   * empty, a range error for a year outside 1990–2030, then every
   * negative-position issue found in the two lists together, in order.
   */
  method ValidateCalculationInputs(preYear: seq<Transaction>, yearTxs: seq<Transaction>, year: int)
    returns (errors: seq<InputError>)
    ensures NoTransactionsProvided in errors <==> |preYear| == 0 && |yearTxs| == 0
    ensures YearOutOfRange in errors <==> year < MinYear || year > MaxYear
    ensures |preYear| == 0 && |yearTxs| == 0 ==> errors == Header(preYear, yearTxs, year)
    ensures var s := SortByDate(preYear + yearTxs);
            forall e :: FifoIssue(e) in errors <==> exists i :: 0 <= i < |s| && IsNegativeAt(s, i, e)
    ensures errors[..|Header(preYear, yearTxs, year)|] == Header(preYear, yearTxs, year)
    ensures forall i :: |Header(preYear, yearTxs, year)| <= i < |errors| ==> errors[i].FifoIssue?
    ensures forall a, b :: |Header(preYear, yearTxs, year)| <= a < b < |errors| ==>
              errors[a].issue.index < errors[b].issue.index
  {
    var header := Header(preYear, yearTxs, year);
    var issues := ValidateFifoProcessing(preYear + yearTxs);
    errors := header + Wrap(issues);
    HeaderThenIssues(header, issues);
  }

  /** The header messages, then one message per position issue. */
  lemma HeaderThenIssues(header: seq<InputError>, issues: seq<PositionIssue>)
    requires forall i :: 0 <= i < |header| ==> !header[i].FifoIssue?
    ensures var errors := header + Wrap(issues);
            && errors[..|header|] == header
            && (forall i :: |header| <= i < |errors| ==> errors[i].FifoIssue?)
            && |errors| == |header| + |issues|
            && (forall i :: |header| <= i < |errors| ==> errors[i] == FifoIssue(issues[i - |header|]))
            && (forall e :: FifoIssue(e) in errors <==> e in issues)
            && (forall x: InputError :: x in header ==> x in errors)
            && (forall x: InputError :: !x.FifoIssue? ==> (x in errors <==> x in header))
  {
    var errors := header + Wrap(issues);
    assert errors[..|header|] == header;
  }

  /** The position issues after the first `h` messages, unwrapped. */
  function IssuesAfter(errors: seq<InputError>, h: nat): (r: seq<PositionIssue>)
    requires h <= |errors|
    requires forall i :: h <= i < |errors| ==> errors[i].FifoIssue?
    ensures |r| == |errors| - h
    ensures forall i :: 0 <= i < |r| ==> errors[h + i] == FifoIssue(r[i])
  {
    seq(|errors| - h, i requires 0 <= i < |errors| - h => errors[h + i].issue)
  }

  /** After a header without position issues, the unwrapped tail holds exactly the list's position issues. */
  lemma IssuesAfterMembers(header: seq<InputError>, errors: seq<InputError>)
    requires forall i :: 0 <= i < |header| ==> !header[i].FifoIssue?
    requires |header| <= |errors| && errors[..|header|] == header
    requires forall i :: |header| <= i < |errors| ==> errors[i].FifoIssue?
    ensures forall e :: e in IssuesAfter(errors, |header|) <==> FifoIssue(e) in errors
  {
    var h := |header|;
    var r := IssuesAfter(errors, h);
    assert forall k :: 0 <= k < h ==> errors[k] == errors[..h][k];
    forall e | FifoIssue(e) in errors ensures e in r {
      var j :| 0 <= j < |errors| && errors[j] == FifoIssue(e);
      assert j >= h;
      assert r[j - h] == e;
    }
  }

  /**
   * Two message lists that both start with the same header and then list
   * position issues in increasing index order, with the same issues, are
   * the same list: the ensures of `ValidateCalculationInputs` fix its result.
   */
  lemma IssueTailDetermined(header: seq<InputError>, x: seq<InputError>, y: seq<InputError>)
    requires forall i :: 0 <= i < |header| ==> !header[i].FifoIssue?
    requires |header| <= |x| && x[..|header|] == header
    requires |header| <= |y| && y[..|header|] == header
    requires forall i :: |header| <= i < |x| ==> x[i].FifoIssue?
    requires forall i :: |header| <= i < |y| ==> y[i].FifoIssue?
    requires forall a, b :: |header| <= a < b < |x| ==> x[a].issue.index < x[b].issue.index
    requires forall a, b :: |header| <= a < b < |y| ==> y[a].issue.index < y[b].issue.index
    requires forall e :: FifoIssue(e) in x <==> FifoIssue(e) in y
    ensures x == y
  {
    var h := |header|;
    var ix, iy := IssuesAfter(x, h), IssuesAfter(y, h);
    IssuesAfterMembers(header, x);
    IssuesAfterMembers(header, y);
    assert IndexOrdered(ix) by {
      forall a, b | 0 <= a < b < |ix| ensures ix[a].index < ix[b].index {
        assert x[h + a].issue.index < x[h + b].issue.index;
      }
    }
    assert IndexOrdered(iy) by {
      forall a, b | 0 <= a < b < |iy| ensures iy[a].index < iy[b].index {
        assert y[h + a].issue.index < y[h + b].issue.index;
      }
    }
    IndexOrderedUnique(ix, iy);
    forall i | 0 <= i < |x| ensures x[i] == y[i] {
      if i < h {
        assert x[i] == x[..h][i] && y[i] == y[..h][i];
      } else {
        assert x[h + (i - h)] == FifoIssue(ix[i - h]);
      }
    }
  }

  /**
   * `get_year_end_holdings`: whether any transaction remains once the two
   * lists are joined and, when a non-empty code is given, filtered by it.
   * An empty code string is falsy and filters nothing.
   */
  function GetYearEndHoldings(preYear: seq<Transaction>, yearTxs: seq<Transaction>, year: int, code: Option<string>)
    : (r: bool)
    ensures code.None? || code == Some("") ==> (r <==> |preYear| > 0 || |yearTxs| > 0)
    ensures code.Some? && code.value != "" ==>
              (r <==> exists t :: (t in preYear || t in yearTxs) && t.code == code.value)
  {
    var all := preYear + yearTxs;
    var kept := if code.Some? && code.value != "" then FilterByCode(all, code.value) else all;
    assert forall t :: t in all <==> t in preYear || t in yearTxs;
    assert code.Some? && code.value != "" && |kept| > 0 ==> kept[0] in kept;
    |kept| > 0
  }

  /** `calculate_portfolio_annual_returns`: the annual calculation with no code. */
  function CalculatePortfolioAnnualReturns(preYear: seq<Transaction>, yearTxs: seq<Transaction>, year: int,
                                           prices: Option<Annual.PriceTable>): (r: AnnualResult)
    ensures r.code.None? && r.year == year
    ensures r.netGain + r.startValue + Annual.CalculateNewInvestments(yearTxs)
         == r.endValue + Annual.CalculateWithdrawals(yearTxs) + r.capitalGain
    ensures prices.None? ==> r.startValue == 0.0 && r.endValue == 0.0
  {
    Annual.NoPricesNoValues(preYear, yearTxs, year, None);
    Annual.CalculatePortfolioAnnualReturns(preYear, yearTxs, year, prices)
  }

  /**
   * `calculate_portfolio_history`: the complete history with an empty
   * price map when none is given.
   */
  function CalculatePortfolioHistory(txs: seq<Transaction>, prices: Option<History.Prices>,
                                     npv: Xirr.RateFunction, deriv: Xirr.RateFunction)
    : (r: Result<HistoryResult, History.HistoryError>)
    ensures r.Failure? <==> |txs| == 0
    ensures r.Success? ==> r.value.code.None?
    ensures r.Success? ==> r.value.totalGain == r.value.realizedGains + r.value.unrealizedGains
  {
    History.CalculatePortfolioHistory(txs, if prices.Some? then prices.value else map[], npv, deriv)
  }

  lemma {:induction false} NoPricesNoCurrentValue(txs: seq<Transaction>, codes: seq<string>)
    ensures History.CurrentValueOver(txs, codes, map[]) == 0.0
    decreases |codes|
  {
    if |codes| > 0 {
      NoPricesNoCurrentValue(txs, codes[1..]);
    }
  }

  /** Without prices nothing is valued: the portfolio's current value is 0. */
  lemma PortfolioHistoryWithoutPrices(txs: seq<Transaction>, npv: Xirr.RateFunction, deriv: Xirr.RateFunction)
    requires |txs| > 0
    ensures CalculatePortfolioHistory(txs, None, npv, deriv).value.currentValue == 0.0
  {
    NoPricesNoCurrentValue(txs, CodesInOrder(txs));
  }
}

=== FILE: fifo.dfy ===
/**
 * The FIFO cost-basis engine (calculation/fifo.py): building a lot queue from
 * transactions, allocating a sale to the oldest lots, realized gain, replaying
 * several sales, and the running-position check.
 */
module Fifo {
  import opened Wrappers
  import opened Seqs
  import opened Models
  import Dates

  datatype FifoError =
    | EmptyTransactions
    | MixedCodes(expected: string, got: string)
    | NotASell(kind: TransactionType)
    | NoInventory
    | InsufficientInventory(requested: real, available: real)

  // ---------------------------------------------------------------------------
  // process_fifo_queue
  // ---------------------------------------------------------------------------

  /** BUY and DIVIDEND transactions open a lot; SELL does not. */
  predicate AddsShares(t: Transaction) {
    t.IsBuy() || t.IsDividend()
  }

  /** The lot a BUY or DIVIDEND opens: a dividend lot carries no cost. */
  function ToLot(t: Transaction): (p: Purchase)
    ensures p.date == t.date && p.quantity == t.quantity && p.remaining == t.quantity
    ensures t.IsDividend() ==> p.unitPrice == 0.0
    ensures !t.IsDividend() ==> p.unitPrice == t.unitPrice
  {
    if t.IsDividend() then Purchase(t.date, t.quantity, 0.0, t.quantity)
    else Purchase(t.date, t.quantity, t.unitPrice, t.quantity)
  }

  /** One iteration of the build loop. */
  function AddLot(q: FifoQueue, t: Transaction): FifoQueue {
    if t.IsBuy() then AddPurchase(q, Purchase(t.date, t.quantity, t.unitPrice, t.quantity))
    else if t.IsDividend() then AddPurchase(q, Purchase(t.date, t.quantity, 0.0, t.quantity))
    else q
  }

  /** The build loop over (already date-sorted) transactions. */
  function BuildQueue(q: FifoQueue, ts: seq<Transaction>): FifoQueue
    decreases |ts|
  {
    if |ts| == 0 then q else BuildQueue(AddLot(q, ts[0]), ts[1..])
  }

  /** Reference: the lots of `ts`, one per BUY or DIVIDEND, in order. */
  function LotsOf(ts: seq<Transaction>): (r: seq<Purchase>)
    ensures |r| == Count(ts, AddsShares)
    ensures forall i :: 0 <= i < |r| ==> r[i].remaining == r[i].quantity
    decreases |ts|
  {
    if |ts| == 0 then []
    else (if AddsShares(ts[0]) then [ToLot(ts[0])] else []) + LotsOf(ts[1..])
  }
  lemma LotsOfCons(t: Transaction, ts: seq<Transaction>)
    ensures LotsOf([t] + ts) == (if AddsShares(t) then [ToLot(t)] else []) + LotsOf(ts)
  {
    assert ([t] + ts)[0] == t && ([t] + ts)[1..] == ts;
  }

  /** Two share-adding transactions open two lots, in order. */
  lemma LotsOfPair(a: Transaction, b: Transaction)
    requires AddsShares(a) && AddsShares(b)
    ensures LotsOf([a, b]) == [ToLot(a), ToLot(b)]
  {
    LotsOfCons(b, []);
    assert [b] + [] == [b];
    LotsOfCons(a, [b]);
    assert [a] + [b] == [a, b];
  }


  lemma {:induction false} LotsOfDates(ts: seq<Transaction>, lo: int)
    requires forall i :: 0 <= i < |ts| ==> lo <= ts[i].date
    ensures forall i :: 0 <= i < |LotsOf(ts)| ==> lo <= LotsOf(ts)[i].date
    decreases |ts|
  {
    if |ts| > 0 {
      LotsOfDates(ts[1..], lo);
      var head: seq<Purchase> := if AddsShares(ts[0]) then [ToLot(ts[0])] else [];
      assert LotsOf(ts) == head + LotsOf(ts[1..]);
      forall i | 0 <= i < |LotsOf(ts)| ensures lo <= LotsOf(ts)[i].date {
        if i >= |head| {
          assert LotsOf(ts)[i] == LotsOf(ts[1..])[i - |head|];
        }
      }
    }
  }

  lemma {:induction false} LotsOfSorted(ts: seq<Transaction>)
    requires SortedBy(ts, TxDate)
    ensures SortedBy(LotsOf(ts), LotDate)
    decreases |ts|
  {
    if |ts| > 0 {
      LotsOfSorted(ts[1..]);
      LotsOfDates(ts[1..], ts[0].date);
      var rest := LotsOf(ts[1..]);
      if AddsShares(ts[0]) {
        assert forall j :: 1 <= j < |[ToLot(ts[0])] + rest| ==> ([ToLot(ts[0])] + rest)[j] == rest[j - 1];
      }
    }
  }

  /** One build step with a transaction no earlier than every lot appends its lot, if any. */
  lemma AddLotAppends(q: FifoQueue, t: Transaction)
    requires SortedBy(q.purchases, LotDate)
    requires forall i :: 0 <= i < |q.purchases| ==> q.purchases[i].date <= t.date
    ensures AddLot(q, t) == FifoQueue(q.code, q.purchases + (if AddsShares(t) then [ToLot(t)] else []))
  {
    if AddsShares(t) {
      assert AddLot(q, t) == AddPurchase(q, ToLot(t));
    } else {
      assert q.purchases + [] == q.purchases;
    }
  }

  /**
   * Adding lots in date order never reorders anything: the build loop appends.
   */
  lemma {:induction false} BuildQueueAppends(q: FifoQueue, ts: seq<Transaction>)
    requires SortedBy(q.purchases, LotDate) && SortedBy(ts, TxDate)
    requires |ts| > 0 ==> forall i :: 0 <= i < |q.purchases| ==> q.purchases[i].date <= ts[0].date
    ensures BuildQueue(q, ts) == FifoQueue(q.code, q.purchases + LotsOf(ts))
    decreases |ts|
  {
    if |ts| == 0 {
      assert q.purchases + [] == q.purchases;
    } else {
      var t := ts[0];
      AddLotAppends(q, t);
      var q' := AddLot(q, t);
      assert forall i :: 0 <= i < |q'.purchases| ==> q'.purchases[i].date <= t.date;
      assert SortedBy(q'.purchases, LotDate);
      assert |ts| > 1 ==> t.date <= ts[1].date;
      BuildQueueAppends(q', ts[1..]);
      assert LotsOf(ts) == (if AddsShares(t) then [ToLot(t)] else []) + LotsOf(ts[1..]);
      assert q.purchases + LotsOf(ts) == q'.purchases + LotsOf(ts[1..]);
    }
  }

  /** The first code different from `code`, if any (the mixed-code check). */
  function FirstOtherCode(txs: seq<Transaction>, code: string): (r: Option<string>)
    ensures r.None? <==> forall i :: 0 <= i < |txs| ==> txs[i].code == code
    ensures r.Some? ==> r.value != code && exists i :: 0 <= i < |txs| && txs[i].code == r.value
    decreases |txs|
  {
    if |txs| == 0 then None
    else if txs[0].code != code then Some(txs[0].code)
    else
      var r := FirstOtherCode(txs[1..], code);
      assert forall i :: 1 <= i < |txs| ==> txs[i] == txs[1..][i - 1];
      r
  }

  /**
   * `process_fifo_queue`: rejects an empty list and a list mixing codes;
   * otherwise one lot per BUY and per DIVIDEND (even of quantity 0), in
   * date order, each with its whole quantity remaining.
   */
  function ProcessFifoQueue(txs: seq<Transaction>): (r: Result<FifoQueue, FifoError>)
    ensures |txs| == 0 <==> r == Failure(EmptyTransactions)
    ensures r.Failure? && r.error.MixedCodes? <==> |txs| > 0 && exists i :: 0 <= i < |txs| && txs[i].code != txs[0].code
    ensures r.Failure? ==> r.error.EmptyTransactions? || r.error.MixedCodes?
    ensures r.Success? ==> r.value.code == txs[0].code
    ensures r.Success? ==> r.value.purchases == LotsOf(SortByDate(txs))
  {
    if |txs| == 0 then Failure(EmptyTransactions)
    else
      var code := txs[0].code;
      match FirstOtherCode(txs, code)
      case Some(other) => Failure(MixedCodes(code, other))
      case None =>
        var sorted := SortByDate(txs);
        BuildFromEmpty(code, sorted);
        Success(BuildQueue(FifoQueue(code, []), sorted))
  }

  /** Building from an empty queue over date-sorted transactions yields their lots in order. */
  lemma BuildFromEmpty(code: string, sorted: seq<Transaction>)
    requires SortedBy(sorted, TxDate)
    ensures BuildQueue(FifoQueue(code, []), sorted) == FifoQueue(code, LotsOf(sorted))
  {
    BuildQueueAppends(FifoQueue(code, []), sorted);
    PrependEmpty(LotsOf(sorted));
  }

  /**
   * The queue built holds one whole lot per BUY and DIVIDEND, in date
   * order.
   */
  lemma BuiltQueueLots(txs: seq<Transaction>)
    requires ProcessFifoQueue(txs).Success?
    ensures var lots := ProcessFifoQueue(txs).value.purchases;
            && SortedBy(lots, LotDate)
            && |lots| == Count(txs, AddsShares)
            && forall i :: 0 <= i < |lots| ==> lots[i].remaining == lots[i].quantity
  {
    LotsOfSorted(SortByDate(txs));
    CountSortBy(txs, TxDate, AddsShares);
  }

  /** Sorting keeps the number of elements that satisfy a predicate. */
  lemma CountSortBy<T>(s: seq<T>, key: T -> int, p: T -> bool)
    ensures Count(SortBy(s, key), p) == Count(s, p)
  {
    var f := (x: T) => if p(x) then 1.0 else 0.0;
    CountIsSum(s, p, f);
    CountIsSum(SortBy(s, key), p, f);
    SumSortBy(s, key, f);
  }

  lemma {:induction false} CountIsSum<T>(s: seq<T>, p: T -> bool, f: T -> real)
    requires forall x :: f(x) == if p(x) then 1.0 else 0.0
    ensures Count(s, p) as real == Sum(s, f)
    decreases |s|
  {
    if |s| > 0 {
      CountIsSum(s[1..], p, f);
    }
  }

  // ---------------------------------------------------------------------------
  // allocate_cost
  // ---------------------------------------------------------------------------

  /** The allocation loop's outcome: the allocated entries, their cost, and the working lots afterwards. */
  datatype Draw = Draw(taken: seq<Purchase>, cost: real, rest: seq<Purchase>)

  /**
   * The allocation loop of `allocate_cost` over the working lots: the first
   * lot with something remaining is taken whole (its entry in the allocated
   * list is that same lot, whose remaining is then set to 0) or split (a new
   * entry carrying the allocated amount). None when the lots run out first.
   */
  function DrawFifo(lots: seq<Purchase>, need: real): (r: Option<Draw>)
    ensures r.Some? ==> |r.value.rest| == |lots|
    decreases |lots|
  {
    if need <= 0.0 then Some(Draw([], 0.0, lots))
    else if |lots| == 0 then None
    else
      var p := lots[0];
      if p.remaining <= 0.0 then
        match DrawFifo(lots[1..], need)
        case None => None
        case Some(d) => Some(Draw(d.taken, d.cost, [p] + d.rest))
      else if p.remaining <= need then
        match DrawFifo(lots[1..], need - p.remaining)
        case None => None
        case Some(d) =>
          Some(Draw([p.(remaining := 0.0)] + d.taken, p.remaining * p.unitPrice + d.cost, [p.(remaining := 0.0)] + d.rest))
      else
        Some(Draw([p.(remaining := need)], need * p.unitPrice, [p.(remaining := p.remaining - need)] + lots[1..]))
  }

  lemma {:induction false} HeldNonNegative(lots: seq<Purchase>)
    ensures Held(lots) >= 0.0
    decreases |lots|
  {
    if |lots| > 0 {
      HeldNonNegative(lots[1..]);
    }
  }

  /** The allocation succeeds exactly when the open lots hold at least the quantity sold. */
  lemma {:induction false} DrawFifoSucceeds(lots: seq<Purchase>, need: real)
    requires need > 0.0
    ensures DrawFifo(lots, need).Some? <==> Held(lots) >= need
    decreases |lots|
  {
    if |lots| > 0 {
      var p := lots[0];
      HeldNonNegative(lots[1..]);
      if p.remaining <= 0.0 {
        DrawFifoSucceeds(lots[1..], need);
      } else if p.remaining < need {
        DrawFifoSucceeds(lots[1..], need - p.remaining);
      }
    }
  }

  /**
   * A successful allocation removes exactly the quantity sold from the open
   * lots, and its cost is what those lots held at cost minus what they still hold.
   */
  lemma {:induction false} DrawFifoConservation(lots: seq<Purchase>, need: real)
    requires need > 0.0 && DrawFifo(lots, need).Some?
    ensures Held(DrawFifo(lots, need).value.rest) == Held(lots) - need
    ensures DrawFifo(lots, need).value.cost == HeldCost(lots) - HeldCost(DrawFifo(lots, need).value.rest)
    decreases |lots|
  {
    var p := lots[0];
    var d := DrawFifo(lots, need).value;
    if p.remaining <= 0.0 {
      DrawFifoConservation(lots[1..], need);
    } else if p.remaining <= need {
      if need - p.remaining > 0.0 {
        DrawFifoConservation(lots[1..], need - p.remaining);
      }
    } else {
      var split := p.(remaining := p.remaining - need);
      assert d.rest == [split] + lots[1..];
      assert LotHeldCost(split) == p.remaining * p.unitPrice - need * p.unitPrice;
    }
  }

  /** `a` and `b` are the same lots up to their remaining quantities. */
  predicate SameLots(a: seq<Purchase>, b: seq<Purchase>) {
    && |a| == |b|
    && forall i :: 0 <= i < |a| ==>
         a[i].date == b[i].date && a[i].quantity == b[i].quantity && a[i].unitPrice == b[i].unitPrice
  }

  /**
   * Only open lots are drawn down, never below zero, and oldest first: a lot
   * is touched only when every earlier open lot has been used up.
   */
  predicate DrawnInOrder(before: seq<Purchase>, after: seq<Purchase>)
    requires |before| == |after|
  {
    && (forall i :: 0 <= i < |before| && after[i] != before[i] ==>
          before[i].remaining > 0.0 && 0.0 <= after[i].remaining < before[i].remaining)
    && (forall i, j :: 0 <= i < j < |before| && after[j] != before[j] && before[i].remaining > 0.0 ==>
          after[i].remaining == 0.0)
  }

  lemma {:induction false} DrawFifoOrder(lots: seq<Purchase>, need: real)
    requires DrawFifo(lots, need).Some?
    ensures SameLots(lots, DrawFifo(lots, need).value.rest)
    ensures DrawnInOrder(lots, DrawFifo(lots, need).value.rest)
    decreases |lots|
  {
    if need > 0.0 {
      var p := lots[0];
      var d := DrawFifo(lots, need).value;
      var tail := lots[1..];
      if p.remaining <= 0.0 || p.remaining <= need {
        var need' := if p.remaining <= 0.0 then need else need - p.remaining;
        DrawFifoOrder(tail, need');
        var sub := DrawFifo(tail, need').value.rest;
        assert d.rest[1..] == sub;
        assert forall i :: 1 <= i < |lots| ==> lots[i] == tail[i - 1] && d.rest[i] == sub[i - 1];
        if p.remaining > 0.0 {
          assert d.rest[0].remaining == 0.0;
        }
      } else {
        assert forall i :: 1 <= i < |lots| ==> d.rest[i] == lots[i];
      }
    }
  }

  /** Every wholly consumed lot appears in the allocated list with remaining 0; only a split entry carries an amount. */
  lemma {:induction false} DrawFifoAllocatedEntries(lots: seq<Purchase>, need: real)
    requires DrawFifo(lots, need).Some?
    ensures var a := DrawFifo(lots, need).value.taken;
            forall i :: 0 <= i < |a| - 1 ==> a[i].remaining == 0.0
    ensures need > 0.0 ==> |DrawFifo(lots, need).value.taken| > 0
    decreases |lots|
  {
    if need > 0.0 {
      var p := lots[0];
      if p.remaining <= 0.0 {
        DrawFifoAllocatedEntries(lots[1..], need);
      } else if p.remaining <= need {
        DrawFifoAllocatedEntries(lots[1..], need - p.remaining);
        var a := DrawFifo(lots[1..], need - p.remaining).value.taken;
        assert forall i :: 1 <= i < |a| + 1 ==> ([p.(remaining := 0.0)] + a)[i] == a[i - 1];
      }
    }
  }

  /** The copy loop: each lot is added with `add_purchase`, which re-sorts. */
  function AddAll(q: FifoQueue, ps: seq<Purchase>): FifoQueue
    decreases |ps|
  {
    if |ps| == 0 then q else AddAll(AddPurchase(q, ps[0]), ps[1..])
  }

  lemma {:induction false} AddAllIsSortBy(q: FifoQueue, ps: seq<Purchase>)
    requires SortedBy(q.purchases, LotDate)
    ensures AddAll(q, ps) == FifoQueue(q.code, SortBy(q.purchases + ps, LotDate))
    decreases |ps|
  {
    if |ps| == 0 {
      SortByOfSorted(q.purchases, LotDate);
      assert q.purchases + ps == q.purchases;
    } else {
      var q' := AddPurchase(q, ps[0]);
      AddAllIsSortBy(q', ps[1..]);
      SortBySortedPrefix(q.purchases + [ps[0]], ps[1..], LotDate);
      AppendHead(q.purchases, ps);
    }
  }

  /** The working queue built by the copy loop is the stably date-sorted input, holding the same. */
  lemma WorkingQueueFacts(q: FifoQueue)
    ensures AddAll(FifoQueue(q.code, []), q.purchases) == FifoQueue(q.code, SortBy(q.purchases, LotDate))
    ensures SortedBy(SortBy(q.purchases, LotDate), LotDate)
    ensures Held(SortBy(q.purchases, LotDate)) == Held(q.purchases)
    ensures HeldCost(SortBy(q.purchases, LotDate)) == HeldCost(q.purchases)
  {
    AddAllIsSortBy(FifoQueue(q.code, []), q.purchases);
    assert [] + q.purchases == q.purchases;
    SortByIsSortedPermutation(q.purchases, LotDate);
    SumSortBy(q.purchases, LotDate, LotHeld);
    SumSortBy(q.purchases, LotDate, LotHeldCost);
  }

  /** The sold quantity, or 0 for a non-positive one (which the loop does not enter). */
  function Sold(quantity: real): real {
    if quantity > 0.0 then quantity else 0.0
  }

  /**
   * `allocate_cost`: rejects a non-SELL transaction, then a queue without any
   * open lot; copies the lots into a fresh date-sorted queue, draws the sale
   * quantity from it oldest first, and returns the allocated entries, their
   * total cost, and a queue of the lots that still hold something. The input
   * queue is a value and is never changed.
   */
  function AllocateCost(sell: Transaction, q: FifoQueue): (r: Result<FifoResult, FifoError>)
    ensures !sell.IsSell() ==> r == Failure(NotASell(sell.kind))
    ensures sell.IsSell() && !HasInventory(q) ==> r == Failure(NoInventory)
    ensures sell.IsSell() && HasInventory(q) ==>
              (r.Success? <==> sell.quantity <= 0.0 || Held(q.purchases) >= sell.quantity)
    ensures r.Failure? && r.error.InsufficientInventory? ==>
              r.error == InsufficientInventory(sell.quantity, Held(q.purchases)) && Held(q.purchases) < sell.quantity
    ensures r.Success? ==> r.value.code == q.code && r.value.remainingQueue.code == q.code
  {
    if !sell.IsSell() then Failure(NotASell(sell.kind))
    else if !HasInventory(q) then Failure(NoInventory)
    else
      var working := AddAll(FifoQueue(q.code, []), q.purchases);
      WorkingQueueFacts(q);
      DrawFacts(working.purchases, sell.quantity);
      match DrawFifo(working.purchases, sell.quantity)
      case None => Failure(InsufficientInventory(sell.quantity, Held(working.purchases)))
      case Some(d) =>
        var remaining := AddAll(FifoQueue(q.code, []), Filter(d.rest, IsOpen));
        RemainingQueueFacts(working.purchases, sell.quantity, q.code);
        Success(FifoResult(q.code, d.taken, d.cost, remaining))
  }

  /**
   * A successful allocation leaves a date-sorted queue of open lots holding
   * what was held less what was sold, and its cost basis is the drop in
   * held cost.
   */
  lemma AllocatedQueue(sell: Transaction, q: FifoQueue)
    requires AllocateCost(sell, q).Success?
    ensures var rq := AllocateCost(sell, q).value.remainingQueue;
            && SortedBy(rq.purchases, LotDate)
            && (forall i :: 0 <= i < |rq.purchases| ==> rq.purchases[i].remaining > 0.0)
            && GetTotalQuantity(rq) == Held(q.purchases) - Sold(sell.quantity)
            && AllocateCost(sell, q).value.costBasis == HeldCost(q.purchases) - GetTotalCostBasis(rq)
  {
    var working := AddAll(FifoQueue(q.code, []), q.purchases);
    WorkingQueueFacts(q);
    DrawFacts(working.purchases, sell.quantity);
    RemainingQueueFacts(working.purchases, sell.quantity, q.code);
  }

  /** The lemmas on `DrawFifo`, in the form `AllocateCost` states them. */
  lemma DrawFacts(lots: seq<Purchase>, need: real)
    ensures DrawFifo(lots, need).Some? <==> need <= 0.0 || Held(lots) >= need
    ensures DrawFifo(lots, need).Some? ==>
              && Held(DrawFifo(lots, need).value.rest) == Held(lots) - Sold(need)
              && DrawFifo(lots, need).value.cost == HeldCost(lots) - HeldCost(DrawFifo(lots, need).value.rest)
  {
    if need > 0.0 {
      DrawFifoSucceeds(lots, need);
      if DrawFifo(lots, need).Some? {
        DrawFifoConservation(lots, need);
      }
    }
  }

  /** The queue of open lots rebuilt after the draw is those lots in order, and holds what the draw left. */
  lemma RemainingQueueFacts(working: seq<Purchase>, need: real, code: string)
    requires SortedBy(working, LotDate) && DrawFifo(working, need).Some?
    ensures var rest := DrawFifo(working, need).value.rest;
            var remaining := AddAll(FifoQueue(code, []), Filter(rest, IsOpen));
            && remaining == FifoQueue(code, Filter(rest, IsOpen))
            && SortedBy(remaining.purchases, LotDate)
            && (forall i :: 0 <= i < |remaining.purchases| ==> remaining.purchases[i].remaining > 0.0)
            && GetTotalQuantity(remaining) == Held(rest)
            && GetTotalCostBasis(remaining) == HeldCost(rest)
  {
    var rest := DrawFifo(working, need).value.rest;
    DrawFifoOrder(working, need);
    assert SortedBy(rest, LotDate) by {
      forall i, j | 0 <= i < j < |rest| ensures rest[i].date <= rest[j].date {
        assert rest[i].date == working[i].date && rest[j].date == working[j].date;
      }
    }
    var open := Filter(rest, IsOpen);
    FilterSortedBy(rest, IsOpen, LotDate);
    AddAllIsSortBy(FifoQueue(code, []), open);
    assert [] + open == open;
    SortByOfSorted(open, LotDate);
    forall i | 0 <= i < |open| ensures open[i].remaining > 0.0 {
      assert open[i] in open;
    }
    HeldIsTotalOfOpenLots(rest);
  }

  /** Selling exactly the quantity held leaves an empty queue. */
  lemma SellingEverythingEmptiesQueue(sell: Transaction, q: FifoQueue)
    requires sell.IsSell() && HasInventory(q) && sell.quantity == Held(q.purchases)
    ensures AllocateCost(sell, q).Success?
    ensures AllocateCost(sell, q).value.remainingQueue.purchases == []
  {
    HasInventoryIffHeldPositive(q.purchases);
    AllocatedQueue(sell, q);
    var rq := AllocateCost(sell, q).value.remainingQueue;
    if rq.purchases != [] {
      SumNonNegative(rq.purchases[1..], LotRemaining);
    }
  }

  // ---------------------------------------------------------------------------
  // calculate_realized_gain
  // ---------------------------------------------------------------------------

  /** `calculate_realized_gain`: the sale's total amount minus the cost basis; SELL only. */
  function CalculateRealizedGain(sell: Transaction, costBasis: real): (r: Result<real, FifoError>)
    ensures r.Success? <==> sell.IsSell()
    ensures r.Failure? ==> r.error == NotASell(sell.kind)
    ensures r.Success? ==> r.value + costBasis == sell.totalAmount
  {
    if !sell.IsSell() then Failure(NotASell(sell.kind)) else Success(sell.totalAmount - costBasis)
  }

  // ---------------------------------------------------------------------------
  // process_multiple_sales
  // ---------------------------------------------------------------------------

  predicate IsBuyTx(t: Transaction) {
    t.IsBuy()
  }

  predicate IsSellTx(t: Transaction) {
    t.IsSell()
  }

  /** The starting queue: the given one, or one built from the BUY transactions. */
  function InitialQueue(txs: seq<Transaction>, initial: Option<FifoQueue>): Result<FifoQueue, FifoError> {
    match initial
    case Some(q) => Success(q)
    case None => ProcessFifoQueue(Filter(txs, IsBuyTx))
  }

  /** The sells, in date order. */
  function SellsInOrder(txs: seq<Transaction>): seq<Transaction> {
    SortByDate(Filter(txs, IsSellTx))
  }

  /**
   * The replay loop with a failed allocation recorded as an empty result
   * that leaves the queue as it was.
   */
  function ReplaySales(sells: seq<Transaction>, q: FifoQueue): (r: (seq<FifoResult>, FifoQueue))
    ensures |r.0| == |sells|
    decreases |sells|
  {
    if |sells| == 0 then ([], q)
    else
      var step := match AllocateCost(sells[0], q)
        case Success(res) => res
        case Failure(_) => FifoResult(q.code, [], 0.0, q);
      var rest := ReplaySales(sells[1..], step.remainingQueue);
      ([step] + rest.0, rest.1)
  }

  /** Sum of the quantities of the sales that allocate successfully in replay order. */
  function SoldQuantity(sells: seq<Transaction>, q: FifoQueue): real
    decreases |sells|
  {
    if |sells| == 0 then 0.0
    else match AllocateCost(sells[0], q)
      case Success(res) => Sold(sells[0].quantity) + SoldQuantity(sells[1..], res.remainingQueue)
      case Failure(_) => SoldQuantity(sells[1..], q)
  }

  /**
   * Replaying sales conserves shares: what is held at the end is what was
   * held at the start minus the quantities of the sales that went through;
   * each failed sale changes nothing.
   */
  lemma {:induction false} ReplayConservesShares(sells: seq<Transaction>, q: FifoQueue)
    ensures Held(ReplaySales(sells, q).1.purchases) == Held(q.purchases) - SoldQuantity(sells, q)
    decreases |sells|
  {
    if |sells| > 0 {
      match AllocateCost(sells[0], q)
      case Success(res) =>
        AllocatedQueue(sells[0], q);
        ReplayConservesShares(sells[1..], res.remainingQueue);
        HeldIsTotalWhenNonNegative(res.remainingQueue.purchases);
      case Failure(_) =>
        ReplayConservesShares(sells[1..], q);
    }
  }

  datatype MultipleSalesError = StartFailed(cause: FifoError) | ResultMissingCode

  /**
   * `process_multiple_sales` with its failure branch as intended: a sale
   * whose allocation fails yields an empty result and the queue carries on
   * unchanged. Fails only when the starting queue cannot be built.
   */
  function ProcessMultipleSales(txs: seq<Transaction>, initial: Option<FifoQueue>)
    : (r: Result<(seq<FifoResult>, FifoQueue), MultipleSalesError>)
    ensures r.Failure? <==> InitialQueue(txs, initial).Failure?
    ensures r.Success? ==> |r.value.0| == |SellsInOrder(txs)|
    ensures r.Success? ==> Held(r.value.1.purchases)
                           == Held(InitialQueue(txs, initial).value.purchases)
                              - SoldQuantity(SellsInOrder(txs), InitialQueue(txs, initial).value)
  {
    match InitialQueue(txs, initial)
    case Failure(e) => Failure(StartFailed(e))
    case Success(q) =>
      ReplayConservesShares(SellsInOrder(txs), q);
      Success(ReplaySales(SellsInOrder(txs), q))
  }

  /** Reference: some sale fails to allocate when the sales are replayed from `q`. */
  predicate SomeSaleFails(sells: seq<Transaction>, q: FifoQueue)
    decreases |sells|
  {
    && |sells| > 0
    && match AllocateCost(sells[0], q)
       case Failure(_) => true
       case Success(res) => SomeSaleFails(sells[1..], res.remainingQueue)
  }

  /**
   * The replay loop as written: the failure branch builds a result record
   * without its required code field, which raises a validation error out of
   * the whole call. When no sale fails it agrees with `ReplaySales`.
   */
  function ReplaySalesAsWritten(sells: seq<Transaction>, q: FifoQueue)
    : (r: Result<(seq<FifoResult>, FifoQueue), MultipleSalesError>)
    ensures r.Failure? <==> SomeSaleFails(sells, q)
    ensures r.Failure? ==> r.error == ResultMissingCode
    ensures r.Success? ==> r.value == ReplaySales(sells, q)
    decreases |sells|
  {
    if |sells| == 0 then Success(([], q))
    else match AllocateCost(sells[0], q)
      case Failure(_) => Failure(ResultMissingCode)
      case Success(res) =>
        match ReplaySalesAsWritten(sells[1..], res.remainingQueue)
        case Failure(e) => Failure(e)
        case Success(v) => Success(([res] + v.0, v.1))
  }

  function ProcessMultipleSalesAsWritten(txs: seq<Transaction>, initial: Option<FifoQueue>)
    : (r: Result<(seq<FifoResult>, FifoQueue), MultipleSalesError>)
    ensures InitialQueue(txs, initial).Failure? ==> r == Failure(StartFailed(InitialQueue(txs, initial).error))
    ensures InitialQueue(txs, initial).Success? ==>
              (r.Failure? <==> SomeSaleFails(SellsInOrder(txs), InitialQueue(txs, initial).value))
    ensures r.Success? ==> r == ProcessMultipleSales(txs, initial)
  {
    match InitialQueue(txs, initial)
    case Failure(e) => Failure(StartFailed(e))
    case Success(q) => ReplaySalesAsWritten(SellsInOrder(txs), q)
  }

  /** A buy of 10 shares and a later sale of 20 for 400. */
  function OversoldLedger(): seq<Transaction> {
    [Transaction("000001", 738000, Buy, 10.0, 10.0, 100.0, None),
     Transaction("000001", 738001, Sell, 20.0, 20.0, 400.0, None)]
  }

  /** The queue the ledger starts from: its single ten-share lot. */
  function OversoldQueue(): FifoQueue {
    FifoQueue("000001", [Purchase(738000, 10.0, 10.0, 10.0)])
  }

  lemma OversoldLedgerStart()
    ensures InitialQueue(OversoldLedger(), None) == Success(OversoldQueue())
    ensures SellsInOrder(OversoldLedger()) == [OversoldLedger()[1]]
  {
    var txs := OversoldLedger();
    var buys := Filter(txs, IsBuyTx);
    assert buys == [txs[0]];
    assert SortByDate(buys) == [txs[0]];
    assert LotsOf([txs[0]]) == [ToLot(txs[0])];
    assert ProcessFifoQueue(buys).Success?;
    assert Filter(txs, IsSellTx) == [txs[1]];
  }

  lemma OversoldSaleFails()
    ensures AllocateCost(OversoldLedger()[1], OversoldQueue()) == Failure(InsufficientInventory(20.0, 10.0))
  {
    var q := OversoldQueue();
    assert Held(q.purchases) == 10.0;
    assert q.purchases[0].remaining > 0.0;
  }

  /**
   * The as-written replay fails on this ledger, whereas the intended
   * behaviour records an empty result and keeps the ten shares.
   */
  lemma OversoldLedgerFailsAsWritten()
    ensures ProcessMultipleSalesAsWritten(OversoldLedger(), None) == Failure(ResultMissingCode)
    ensures ProcessMultipleSales(OversoldLedger(), None).Success?
    ensures var r := ProcessMultipleSales(OversoldLedger(), None).value;
            |r.0| == 1 && r.0[0].allocatedPurchases == [] && r.0[0].costBasis == 0.0
            && GetTotalQuantity(r.1) == 10.0
  {
    OversoldLedgerStart();
    OversoldSaleFails();
    var q := OversoldQueue();
    var sale := OversoldLedger()[1];
    assert [sale][1..] == [] && [sale][0] == sale;
    assert AllocateCost([sale][0], q).Failure?;
    assert ReplaySales([], q) == ([], q);
    var empty := FifoResult(q.code, [], 0.0, q);
    assert [empty] + [] == [empty];
    assert ReplaySales([sale], q) == ([FifoResult(q.code, [], 0.0, q)], q);
    assert ReplaySalesAsWritten([sale], q) == Failure(ResultMissingCode);
  }

  // ---------------------------------------------------------------------------
  // get_remaining_inventory_value, validate_fifo_processing
  // ---------------------------------------------------------------------------

  /**
   * `get_remaining_inventory_value`: despite its name, the sum of the open
   * lots' remaining quantities; the price map is not consulted.
   */
  function GetRemainingInventoryValue(q: FifoQueue, currentPrices: map<string, real>): (r: real)
    ensures r >= 0.0
    ensures r == Sum(Filter(q.purchases, IsOpen), LotRemaining)
    ensures NonNegativeLots(q.purchases) ==> r == GetTotalQuantity(q)
  {
    HeldNonNegative(q.purchases);
    HeldIsTotalOfOpenLots(q.purchases);
    assert NonNegativeLots(q.purchases) ==> Held(q.purchases) == GetTotalQuantity(q) by {
      if NonNegativeLots(q.purchases) {
        HeldIsTotalWhenNonNegative(q.purchases);
      }
    }
    Held(q.purchases)
  }

  /** Signed effect of a transaction on the position: BUY adds, SELL subtracts, others nothing. */
  function PositionDelta(t: Transaction): real {
    if t.IsBuy() then t.quantity else if t.IsSell() then -t.quantity else 0.0
  }

  /** The position after the first `k` transactions of `s`. */
  function PositionAfter(s: seq<Transaction>, k: nat): real
    requires k <= |s|
  {
    Sum(s[..k], PositionDelta)
  }

  /** A negative-position report: 1-based index in date order, code, date and the position reached. */
  datatype PositionIssue = NegativePosition(index: nat, code: string, date: Dates.Date, position: real)

  /** The report for transaction `i` of `s`, when it is a SELL that leaves the position negative. */
  predicate IsNegativeAt(s: seq<Transaction>, i: nat, e: PositionIssue)
    requires i < |s|
  {
    s[i].IsSell() && PositionAfter(s, i + 1) < 0.0
    && e == NegativePosition(i + 1, s[i].code, s[i].date, PositionAfter(s, i + 1))
  }

  /** Issues listed in strictly increasing index order. */
  predicate IndexOrdered(r: seq<PositionIssue>) {
    forall a, b :: 0 <= a < b < |r| ==> r[a].index < r[b].index
  }

  /** Two index-ordered issue lists with the same members are the same list. */
  lemma {:induction false} IndexOrderedUnique(r1: seq<PositionIssue>, r2: seq<PositionIssue>)
    requires IndexOrdered(r1) && IndexOrdered(r2)
    requires forall e :: e in r1 <==> e in r2
    ensures r1 == r2
    decreases |r1| + |r2|
  {
    assert |r1| > 0 ==> r1[0] in r2;
    assert |r2| > 0 ==> r2[0] in r1;
    if |r1| > 0 && |r2| > 0 {
      var j :| 0 <= j < |r2| && r2[j] == r1[0];
      var k :| 0 <= k < |r1| && r1[k] == r2[0];
      assert r1[0].index <= r1[k].index;
      assert r2[0].index <= r2[j].index;
      assert j == 0;
      forall e ensures e in r1[1..] <==> e in r2[1..] {
        if e in r1[1..] {
          var a :| 1 <= a < |r1| && r1[a] == e;
          assert r1[0].index < e.index;
          assert e in r2 && e != r2[0];
        }
        if e in r2[1..] {
          var b :| 1 <= b < |r2| && r2[b] == e;
          assert r2[0].index < e.index;
          assert e in r1 && e != r1[0];
        }
      }
      IndexOrderedUnique(r1[1..], r2[1..]);
      assert r1 == [r1[0]] + r1[1..];
      assert r2 == [r2[0]] + r2[1..];
    }
  }

  /**
   * `validate_fifo_processing`: walks the transactions in date order and
   * reports every SELL after which the position is negative, in order.
   */
  method ValidateFifoProcessing(txs: seq<Transaction>) returns (errors: seq<PositionIssue>)
    ensures var s := SortByDate(txs);
            forall e :: e in errors <==> exists i :: 0 <= i < |s| && IsNegativeAt(s, i, e)
    ensures forall a, b :: 0 <= a < b < |errors| ==> errors[a].index < errors[b].index
    ensures |txs| == 0 ==> errors == []
  {
    var s := SortByDate(txs);
    var position := 0.0;
    errors := [];
    var i := 0;
    while i < |s|
      invariant 0 <= i <= |s|
      invariant position == PositionAfter(s, i)
      invariant forall e :: e in errors <==> exists j :: 0 <= j < i && IsNegativeAt(s, j, e)
      invariant |errors| <= i
      invariant forall a :: 0 <= a < |errors| ==> 1 <= errors[a].index <= i
      invariant forall a, b :: 0 <= a < b < |errors| ==> errors[a].index < errors[b].index
    {
      var t := s[i];
      assert s[..i + 1] == s[..i] + [t];
      SumSnoc(s[..i], t, PositionDelta);
      ghost var before := errors;
      if t.IsBuy() {
        position := position + t.quantity;
      } else if t.IsSell() {
        position := position - t.quantity;
        if position < 0.0 {
          errors := errors + [NegativePosition(i + 1, t.code, t.date, position)];
        }
      }
      assert position == PositionAfter(s, i + 1);
      assert errors == before + (if t.IsSell() && position < 0.0 then [NegativePosition(i + 1, t.code, t.date, position)] else []);
      forall e ensures e in errors <==> exists j :: 0 <= j < i + 1 && IsNegativeAt(s, j, e) {
        if e in errors && e !in before {
          assert IsNegativeAt(s, i, e);
        }
        if IsNegativeAt(s, i, e) {
          assert e in errors;
        }
      }
      i := i + 1;
    }
  }
}

=== FILE: filter.dfy ===
/**
 * Transaction filtering (transaction/filter.py): the criteria filter that
 * applies investment type, code, year, before-year and date-range filters
 * one after the other, the per-type selections, grouping by code and by
 * year, and the three lists prepared for a calculation.
 */
module TransactionFilter {
  import opened Wrappers
  import opened Seqs
  import opened Models
  import Dates
  import Text

  /**
   * `FilterCriteria`. A criterion takes part only when it is truthy: an
   * empty code and year 0 are skipped like a missing one. The two ends of
   * a date range are both present (comparing a date with a missing end
   * raises in the source).
   */
  datatype FilterCriteria = FilterCriteria(
    investmentType: Option<InvestmentType>,
    code: Option<string>,
    year: Option<int>,
    beforeYear: Option<int>,
    dateRange: Option<(Dates.Date, Dates.Date)>)

  const NoCriteria: FilterCriteria := FilterCriteria(None, None, None, None, None)

  /** One list comprehension of the filter. */
  datatype Step =
    | OfType(investmentType: InvestmentType)
    | OfCode(code: string)
    | InYear(year: int)
    | BeforeYear(limit: int)
    | Between(start: Dates.Date, end: Dates.Date)
    | OfKind(kind: TransactionType)

  predicate Meets(t: Transaction, s: Step) {
    match s
    case OfType(ty) => t.GetInvestmentType() == ty
    case OfCode(c) => t.code == Text.ZFill(c, Text.CodeWidth)
    case InYear(y) => Dates.YearOf(t.date) == y
    case BeforeYear(y) => Dates.YearOf(t.date) < y
    case Between(lo, hi) => lo <= t.date <= hi
    case OfKind(k) => t.kind == k
  }

  /** `[tx for tx in transactions if <step>]`. */
  function Keep(txs: seq<Transaction>, s: Step): (r: seq<Transaction>)
    ensures |r| <= |txs|
    ensures forall t :: t in r <==> t in txs && Meets(t, s)
    ensures IsSubsequence(r, txs)
    decreases |txs|
  {
    if |txs| == 0 then []
    else
      var rest := Keep(txs[1..], s);
      if Meets(txs[0], s) then
        assert ([txs[0]] + rest)[1..] == rest;
        [txs[0]] + rest
      else
        SubsequenceCons(rest, txs[0], txs[1..]);
        assert [txs[0]] + txs[1..] == txs;
        rest
  }

  // ---------------------------------------------------------------------------
  // filter_transactions
  // ---------------------------------------------------------------------------

  predicate CodeSet(c: FilterCriteria) {
    c.code.Some? && c.code.value != ""
  }

  predicate YearSet(c: FilterCriteria) {
    c.year.Some? && c.year.value != 0
  }

  predicate BeforeYearSet(c: FilterCriteria) {
    c.beforeYear.Some? && c.beforeYear.value != 0
  }

  /** The steps the criteria switch on, in the order the filter applies them. */
  function Steps(c: FilterCriteria): seq<Step> {
    (if c.investmentType.Some? then [OfType(c.investmentType.value)] else [])
    + (if CodeSet(c) then [OfCode(c.code.value)] else [])
    + (if YearSet(c) then [InYear(c.year.value)] else [])
    + (if BeforeYearSet(c) then [BeforeYear(c.beforeYear.value)] else [])
    + (if c.dateRange.Some? then [Between(c.dateRange.value.0, c.dateRange.value.1)] else [])
  }

  function ApplySteps(txs: seq<Transaction>, steps: seq<Step>): seq<Transaction>
    decreases |steps|
  {
    if |steps| == 0 then txs else ApplySteps(Keep(txs, steps[0]), steps[1..])
  }

  /** Whether a transaction passes every criterion that is switched on. */
  predicate Selects(c: FilterCriteria, t: Transaction) {
    && (c.investmentType.Some? ==> t.GetInvestmentType() == c.investmentType.value)
    && (CodeSet(c) ==> t.code == Text.ZFill(c.code.value, Text.CodeWidth))
    && (YearSet(c) ==> Dates.YearOf(t.date) == c.year.value)
    && (BeforeYearSet(c) ==> Dates.YearOf(t.date) < c.beforeYear.value)
    && (c.dateRange.Some? ==> c.dateRange.value.0 <= t.date <= c.dateRange.value.1)
  }

  /** Reference: one pass keeping the transactions every criterion accepts. */
  function Matching(txs: seq<Transaction>, c: FilterCriteria): (r: seq<Transaction>)
    decreases |txs|
  {
    if |txs| == 0 then []
    else (if Selects(c, txs[0]) then [txs[0]] else []) + Matching(txs[1..], c)
  }

  /**
   * `filter_transactions`: the switched-on filters applied in turn keep,
   * in order and with repetitions, exactly the transactions that pass all
   * of them; with nothing switched on the list comes back unchanged.
   */
  function FilterTransactions(txs: seq<Transaction>, c: FilterCriteria): (r: seq<Transaction>)
    ensures r == Matching(txs, c)
    ensures forall t :: t in r <==> t in txs && Selects(c, t)
    ensures IsSubsequence(r, txs)
    ensures c.investmentType.None? && !CodeSet(c) && !YearSet(c) && !BeforeYearSet(c) && c.dateRange.None?
            ==> r == txs
  {
    StepsAreSinglePass(txs, Steps(c));
    SelectsIffAllSteps(txs, c);
    MatchingIsFilter(txs, c);
    ApplySteps(txs, Steps(c))
  }

  predicate MeetsAll(t: Transaction, steps: seq<Step>) {
    forall s :: s in steps ==> Meets(t, s)
  }

  function AllOf(txs: seq<Transaction>, steps: seq<Step>): seq<Transaction>
    decreases |txs|
  {
    if |txs| == 0 then []
    else (if MeetsAll(txs[0], steps) then [txs[0]] else []) + AllOf(txs[1..], steps)
  }

  lemma {:induction false} KeepThenAll(txs: seq<Transaction>, s: Step, steps: seq<Step>)
    ensures AllOf(Keep(txs, s), steps) == AllOf(txs, [s] + steps)
    decreases |txs|
  {
    if |txs| > 0 {
      KeepThenAll(txs[1..], s, steps);
      var x := txs[0];
      var rest := Keep(txs[1..], s);
      assert MeetsAll(x, [s] + steps) <==> Meets(x, s) && MeetsAll(x, steps);
      if Meets(x, s) {
        var k := [x] + rest;
        assert Keep(txs, s) == k;
        assert k[0] == x && k[1..] == rest;
      } else {
        assert Keep(txs, s) == rest;
      }
    }
  }

  lemma {:induction false} AllOfNothing(txs: seq<Transaction>)
    ensures AllOf(txs, []) == txs
    decreases |txs|
  {
    if |txs| > 0 {
      AllOfNothing(txs[1..]);
      assert [txs[0]] + txs[1..] == txs;
    }
  }

  /** Applying the steps one after another is one pass with their conjunction. */
  lemma {:induction false} StepsAreSinglePass(txs: seq<Transaction>, steps: seq<Step>)
    ensures ApplySteps(txs, steps) == AllOf(txs, steps)
    decreases |steps|
  {
    if |steps| == 0 {
      AllOfNothing(txs);
    } else {
      StepsAreSinglePass(Keep(txs, steps[0]), steps[1..]);
      KeepThenAll(txs, steps[0], steps[1..]);
      assert [steps[0]] + steps[1..] == steps;
    }
  }

  lemma SelectsIsMeetsAll(c: FilterCriteria, t: Transaction)
    ensures Selects(c, t) <==> MeetsAll(t, Steps(c))
  {
    var ss := Steps(c);
    if MeetsAll(t, ss) {
      if c.investmentType.Some? {
        assert OfType(c.investmentType.value) in ss;
      }
      if CodeSet(c) {
        assert OfCode(c.code.value) in ss;
      }
      if YearSet(c) {
        assert InYear(c.year.value) in ss;
      }
      if BeforeYearSet(c) {
        assert BeforeYear(c.beforeYear.value) in ss;
      }
      if c.dateRange.Some? {
        assert Between(c.dateRange.value.0, c.dateRange.value.1) in ss;
      }
    }
  }

  lemma {:induction false} SelectsIffAllSteps(txs: seq<Transaction>, c: FilterCriteria)
    ensures AllOf(txs, Steps(c)) == Matching(txs, c)
    decreases |txs|
  {
    if |txs| > 0 {
      SelectsIffAllSteps(txs[1..], c);
      SelectsIsMeetsAll(c, txs[0]);
    }
  }

  lemma {:induction false} MatchingIsFilter(txs: seq<Transaction>, c: FilterCriteria)
    ensures forall t :: t in Matching(txs, c) <==> t in txs && Selects(c, t)
    ensures IsSubsequence(Matching(txs, c), txs)
    ensures !(c.investmentType.None? && !CodeSet(c) && !YearSet(c) && !BeforeYearSet(c) && c.dateRange.None?)
            || Matching(txs, c) == txs
    decreases |txs|
  {
    if |txs| > 0 {
      MatchingIsFilter(txs[1..], c);
      var rest := Matching(txs[1..], c);
      assert [txs[0]] + txs[1..] == txs;
      if Selects(c, txs[0]) {
        assert Matching(txs, c) == [txs[0]] + rest;
        assert ([txs[0]] + rest)[1..] == rest;
      } else {
        assert Matching(txs, c) == rest;
        SubsequenceCons(rest, txs[0], txs[1..]);
      }
    }
  }

  /** Filtering again with the same criteria removes nothing more. */
  lemma FilterTransactionsIdempotent(txs: seq<Transaction>, c: FilterCriteria)
    ensures FilterTransactions(FilterTransactions(txs, c), c) == FilterTransactions(txs, c)
  {
    MatchingIdempotent(txs, c);
  }

  lemma {:induction false} MatchingIdempotent(txs: seq<Transaction>, c: FilterCriteria)
    ensures Matching(Matching(txs, c), c) == Matching(txs, c)
    decreases |txs|
  {
    if |txs| > 0 {
      MatchingIdempotent(txs[1..], c);
      var rest := Matching(txs[1..], c);
      if Selects(c, txs[0]) {
        var k := [txs[0]] + rest;
        assert Matching(txs, c) == k;
        assert k[0] == txs[0] && k[1..] == rest;
      } else {
        assert Matching(txs, c) == rest;
      }
    }
  }

  /**
   * A stricter set of criteria keeps a subsequence of what a looser one
   * keeps from the same list.
   */
  lemma StricterKeepsLess(txs: seq<Transaction>, strict: FilterCriteria, loose: FilterCriteria)
    requires forall t :: t in txs && Selects(strict, t) ==> Selects(loose, t)
    ensures IsSubsequence(FilterTransactions(txs, strict), FilterTransactions(txs, loose))
  {
    StricterMatchesLess(txs, strict, loose);
  }

  lemma {:induction false} StricterMatchesLess(txs: seq<Transaction>, strict: FilterCriteria, loose: FilterCriteria)
    requires forall t :: t in txs && Selects(strict, t) ==> Selects(loose, t)
    ensures IsSubsequence(Matching(txs, strict), Matching(txs, loose))
    decreases |txs|
  {
    if |txs| > 0 {
      var x := txs[0];
      assert forall t :: t in txs[1..] ==> t in txs;
      StricterMatchesLess(txs[1..], strict, loose);
      var a := Matching(txs[1..], strict);
      var b := Matching(txs[1..], loose);
      if Selects(strict, x) {
        assert Matching(txs, strict) == [x] + a;
        assert Matching(txs, loose) == [x] + b;
        assert ([x] + a)[1..] == a;
        assert ([x] + b)[1..] == b;
      } else if Selects(loose, x) {
        assert Matching(txs, strict) == a;
        assert Matching(txs, loose) == [x] + b;
        SubsequenceCons(a, x, b);
      } else {
        assert Matching(txs, strict) == a;
        assert Matching(txs, loose) == b;
      }
    }
  }

  // ---------------------------------------------------------------------------
  // Selections by kind, date range and year
  // ---------------------------------------------------------------------------

  /** `get_buy_transactions`. */
  function GetBuyTransactions(txs: seq<Transaction>): (r: seq<Transaction>)
    ensures forall t :: t in r <==> t in txs && t.IsBuy()
    ensures IsSubsequence(r, txs)
  {
    Keep(txs, OfKind(Buy))
  }

  /** `get_sell_transactions`. */
  function GetSellTransactions(txs: seq<Transaction>): (r: seq<Transaction>)
    ensures forall t :: t in r <==> t in txs && t.IsSell()
    ensures IsSubsequence(r, txs)
  {
    Keep(txs, OfKind(Sell))
  }

  /** `get_dividend_transactions`. */
  function GetDividendTransactions(txs: seq<Transaction>): (r: seq<Transaction>)
    ensures forall t :: t in r <==> t in txs && t.IsDividend()
    ensures IsSubsequence(r, txs)
  {
    Keep(txs, OfKind(Dividend))
  }

  /** Every transaction is a buy, a sell or a dividend, so the three selections share out the list. */
  lemma {:induction false} KindsPartition(txs: seq<Transaction>)
    ensures |GetBuyTransactions(txs)| + |GetSellTransactions(txs)| + |GetDividendTransactions(txs)| == |txs|
    decreases |txs|
  {
    if |txs| > 0 {
      KindsPartition(txs[1..]);
    }
  }

  /** `get_transactions_in_date_range`: January 1 of the first year through December 31 of the last. */
  function GetTransactionsInDateRange(txs: seq<Transaction>, startYear: int, endYear: int): (r: seq<Transaction>)
    ensures r == AllOf(txs, [Between(Dates.YearStart(startYear), Dates.YearEnd(endYear))])
    ensures forall t :: t in r <==> t in txs && Dates.YearStart(startYear) <= t.date <= Dates.YearEnd(endYear)
    ensures IsSubsequence(r, txs)
  {
    var s := Between(Dates.YearStart(startYear), Dates.YearEnd(endYear));
    KeepThenAll(txs, s, []);
    assert [s] + [] == [s];
    AllOfNothing(Keep(txs, s));
    Keep(txs, s)
  }

  /** `get_pre_year_transactions`. */
  function GetPreYearTransactions(txs: seq<Transaction>, year: int): (r: seq<Transaction>)
    ensures r == AllOf(txs, [BeforeYear(year)])
    ensures forall t :: t in r <==> t in txs && Dates.YearOf(t.date) < year
    ensures IsSubsequence(r, txs)
  {
    KeepThenAll(txs, BeforeYear(year), []);
    assert [BeforeYear(year)] + [] == [BeforeYear(year)];
    AllOfNothing(Keep(txs, BeforeYear(year)));
    Keep(txs, BeforeYear(year))
  }

  lemma {:induction false} KeepEquivalent(txs: seq<Transaction>, a: Step, b: Step)
    requires forall t :: t in txs ==> (Meets(t, a) <==> Meets(t, b))
    ensures Keep(txs, a) == Keep(txs, b)
    decreases |txs|
  {
    if |txs| > 0 {
      assert forall t :: t in txs[1..] ==> t in txs;
      KeepEquivalent(txs[1..], a, b);
    }
  }

  lemma {:induction false} KeepNone(txs: seq<Transaction>, s: Step)
    requires forall t :: t in txs ==> !Meets(t, s)
    ensures Keep(txs, s) == []
    decreases |txs|
  {
    if |txs| > 0 {
      assert forall t :: t in txs[1..] ==> t in txs;
      KeepNone(txs[1..], s);
    }
  }

  /**
   * On a date-sorted list a date range cut in two at `mid` keeps the
   * part up to `mid` followed by the part after it.
   */
  lemma {:induction false} BetweenSplits(txs: seq<Transaction>, lo: Dates.Date, mid: Dates.Date, hi: Dates.Date)
    requires SortedBy(txs, TxDate)
    requires lo <= mid + 1 && mid <= hi
    ensures Keep(txs, Between(lo, mid)) + Keep(txs, Between(mid + 1, hi)) == Keep(txs, Between(lo, hi))
    decreases |txs|
  {
    if |txs| > 0 {
      var x := txs[0];
      if x.date <= mid {
        BetweenSplits(txs[1..], lo, mid, hi);
        if lo <= x.date {
          var a := Keep(txs[1..], Between(lo, mid));
          var b := Keep(txs[1..], Between(mid + 1, hi));
          assert [x] + a + b == [x] + (a + b);
        }
      } else {
        assert forall t :: t in txs ==> t.date > mid by {
          forall t | t in txs ensures t.date > mid {
            var i :| 0 <= i < |txs| && txs[i] == t;
            assert TxDate(txs[0]) <= TxDate(txs[i]);
          }
        }
        KeepNone(txs, Between(lo, mid));
        KeepEquivalent(txs, Between(mid + 1, hi), Between(lo, hi));
      }
    }
  }

  lemma YearStartBeforeYearEnd(year: int)
    ensures Dates.YearStart(year) <= Dates.YearEnd(year)
  {
    Dates.DaysBeforeDecember();
  }

  lemma {:induction false} YearStartMonotone(a: int, b: int)
    requires a <= b
    ensures Dates.YearStart(a) <= Dates.YearStart(b)
    decreases b - a
  {
    if a < b {
      YearStartMonotone(a, b - 1);
      YearStartBeforeYearEnd(b - 1);
      Dates.YearEndIsDayBeforeNextYear(b - 1);
    }
  }

  /** `BetweenSplits` with the second range's first day named on its own. */
  lemma RangesJoin(txs: seq<Transaction>, lo: Dates.Date, mid: Dates.Date, next: Dates.Date, hi: Dates.Date)
    requires SortedBy(txs, TxDate)
    requires lo <= mid + 1 && mid <= hi && next == mid + 1
    ensures Keep(txs, Between(lo, mid)) + Keep(txs, Between(next, hi)) == Keep(txs, Between(lo, hi))
  {
    BetweenSplits(txs, lo, mid, hi);
  }

  /** Years `first`..`mid` end the day before `mid + 1`..`last` begin. */
  lemma YearBounds(first: int, mid: int, last: int)
    requires first <= mid < last
    ensures Dates.YearStart(first) <= Dates.YearEnd(mid) + 1
    ensures Dates.YearEnd(mid) <= Dates.YearEnd(last)
    ensures Dates.YearStart(mid + 1) == Dates.YearEnd(mid) + 1
  {
    Dates.YearEndIsDayBeforeNextYear(mid);
    YearStartMonotone(first, mid + 1);
    YearStartMonotone(mid + 1, last);
    YearStartBeforeYearEnd(last);
  }

  /**
   * On a date-sorted list, the transactions of years `first`..`mid`
   * followed by those of `mid + 1`..`last` are those of `first`..`last`.
   */
  lemma YearRangesJoin(txs: seq<Transaction>, first: int, mid: int, last: int)
    requires SortedBy(txs, TxDate)
    requires first <= mid < last
    ensures GetTransactionsInDateRange(txs, first, mid) + GetTransactionsInDateRange(txs, mid + 1, last)
         == GetTransactionsInDateRange(txs, first, last)
  {
    YearBounds(first, mid, last);
    RangesJoin(txs, Dates.YearStart(first), Dates.YearEnd(mid), Dates.YearStart(mid + 1), Dates.YearEnd(last));
  }

  // ---------------------------------------------------------------------------
  // Grouping
  // ---------------------------------------------------------------------------

  function TxYear(t: Transaction): int {
    Dates.YearOf(t.date)
  }

  /** The transactions whose key is `k`, in order: the list a group ends up holding. */
  function KeyedAs<K(==)>(txs: seq<Transaction>, key: Transaction -> K, k: K): (r: seq<Transaction>)
    ensures forall t :: t in r <==> t in txs && key(t) == k
    decreases |txs|
  {
    if |txs| == 0 then []
    else (if key(txs[0]) == k then [txs[0]] else []) + KeyedAs(txs[1..], key, k)
  }

  lemma {:induction false} KeyedAsSnoc<K>(txs: seq<Transaction>, x: Transaction, key: Transaction -> K, k: K)
    ensures KeyedAs(txs + [x], key, k) == KeyedAs(txs, key, k) + (if key(x) == k then [x] else [])
    decreases |txs|
  {
    if |txs| == 0 {
      assert txs + [x] == [x];
    } else {
      var h := if key(txs[0]) == k then [txs[0]] else [];
      var tail := if key(x) == k then [x] else [];
      assert (txs + [x])[0] == txs[0] && (txs + [x])[1..] == txs[1..] + [x];
      assert KeyedAs(txs + [x], key, k) == h + KeyedAs(txs[1..] + [x], key, k);
      KeyedAsSnoc(txs[1..], x, key, k);
      AppendAssoc(h, KeyedAs(txs[1..], key, k), tail);
    }
  }

  /** The groups after the loop has seen `txs`: the last transaction is appended to its key's group. */
  function Groups<K(==)>(txs: seq<Transaction>, key: Transaction -> K): map<K, seq<Transaction>>
    decreases |txs|
  {
    if |txs| == 0 then map[]
    else
      var g := Groups(txs[..|txs| - 1], key);
      var t := txs[|txs| - 1];
      var k := key(t);
      g[k := (if k in g then g[k] else []) + [t]]
  }

  /** A group exists exactly for each key that occurs. */
  lemma {:induction false} GroupKeys<K>(txs: seq<Transaction>, key: Transaction -> K)
    ensures forall k :: k in Groups(txs, key) <==> exists i :: 0 <= i < |txs| && key(txs[i]) == k
    decreases |txs|
  {
    if |txs| > 0 {
      var init := txs[..|txs| - 1];
      GroupKeys(init, key);
      assert forall i :: 0 <= i < |init| ==> init[i] == txs[i];
    }
  }

  /**
   * Each group holds its key's transactions in ledger order, so every
   * transaction sits in exactly the group of its own key.
   */
  lemma {:induction false} GroupsAreKeyed<K>(txs: seq<Transaction>, key: Transaction -> K)
    ensures forall k :: k in Groups(txs, key) ==> Groups(txs, key)[k] == KeyedAs(txs, key, k)
    decreases |txs|
  {
    if |txs| > 0 {
      var init := txs[..|txs| - 1];
      var t := txs[|txs| - 1];
      GroupsAreKeyed(init, key);
      GroupKeys(init, key);
      assert txs == init + [t];
      forall k | k in Groups(txs, key) ensures Groups(txs, key)[k] == KeyedAs(txs, key, k) {
        KeyedAsSnoc(init, t, key, k);
        if k !in Groups(init, key) {
          AbsentKeyNothingKeyed(init, key, k);
        }
      }
    }
  }

  lemma {:induction false} AbsentKeyNothingKeyed<K>(txs: seq<Transaction>, key: Transaction -> K, k: K)
    requires k !in Groups(txs, key)
    ensures KeyedAs(txs, key, k) == []
    decreases |txs|
  {
    if |txs| > 0 {
      var init := txs[..|txs| - 1];
      var t := txs[|txs| - 1];
      AbsentKeyNothingKeyed(init, key, k);
      KeyedAsSnoc(init, t, key, k);
      assert init + [t] == txs;
    }
  }

  /**
   * The grouping loop of `get_transactions_by_code` and
   * `get_transactions_by_year`.
   */
  method GroupBy<K(==)>(txs: seq<Transaction>, key: Transaction -> K) returns (groups: map<K, seq<Transaction>>)
    ensures forall k :: k in groups <==> exists i :: 0 <= i < |txs| && key(txs[i]) == k
    ensures forall k :: k in groups ==> groups[k] == KeyedAs(txs, key, k)
  {
    groups := map[];
    var i := 0;
    while i < |txs|
      invariant 0 <= i <= |txs|
      invariant groups == Groups(txs[..i], key)
    {
      var t := txs[i];
      var k := key(t);
      var next := txs[..i + 1];
      assert next[..|next| - 1] == txs[..i] && next[|next| - 1] == t;
      assert Groups(next, key) == groups[k := (if k in groups then groups[k] else []) + [t]];
      var group := if k in groups then groups[k] else [];
      groups := groups[k := group + [t]];
      i := i + 1;
    }
    assert txs[..i] == txs;
    GroupKeys(txs, key);
    GroupsAreKeyed(txs, key);
  }

  /** A group under the code key is exactly `filter_by_code` of that code. */
  lemma {:induction false} KeyedByCodeIsFilterByCode(txs: seq<Transaction>, code: string)
    ensures KeyedAs(txs, TxCode, code) == FilterByCode(txs, code)
    decreases |txs|
  {
    if |txs| > 0 {
      KeyedByCodeIsFilterByCode(txs[1..], code);
    }
  }

  /** A group under the year key is exactly `filter_by_year` of that year. */
  lemma {:induction false} KeyedByYearIsFilterByYear(txs: seq<Transaction>, year: int)
    ensures KeyedAs(txs, TxYear, year) == FilterByYear(txs, year)
    decreases |txs|
  {
    if |txs| > 0 {
      KeyedByYearIsFilterByYear(txs[1..], year);
    }
  }

  /** `get_transactions_by_code`: one list per code, each equal to filtering by that code. */
  method GetTransactionsByCode(txs: seq<Transaction>) returns (groups: map<string, seq<Transaction>>)
    ensures groups.Keys == GetCodes(txs)
    ensures forall c :: c in groups ==> groups[c] == FilterByCode(txs, c)
  {
    groups := GroupBy(txs, TxCode);
    forall c | c in groups ensures groups[c] == FilterByCode(txs, c) {
      KeyedByCodeIsFilterByCode(txs, c);
    }
  }

  /**
   * `get_transactions_by_year`: one list per calendar year that occurs,
   * each equal to filtering by that year. The year argument is not used.
   */
  method GetTransactionsByYear(txs: seq<Transaction>, year: int) returns (groups: map<int, seq<Transaction>>)
    ensures forall y :: y in groups <==> exists i :: 0 <= i < |txs| && Dates.YearOf(txs[i].date) == y
    ensures forall y :: y in groups ==> groups[y] == FilterByYear(txs, y)
  {
    groups := GroupBy(txs, TxYear);
    forall y | y in groups ensures groups[y] == FilterByYear(txs, y) {
      KeyedByYearIsFilterByYear(txs, y);
    }
  }

  // ---------------------------------------------------------------------------
  // get_transactions_for_calculation
  // ---------------------------------------------------------------------------

  /** The lists keyed "all", "year" and "pre_year" (the last two only when asked for). */
  datatype CalculationLists = CalculationLists(
    all: seq<Transaction>,
    year: Option<seq<Transaction>>,
    preYear: Option<seq<Transaction>>)

  /**
   * `get_transactions_for_calculation`: the list of the investment type
   * (and of the code, when one is given), plus the same narrowed to the
   * year and to the years before `beforeYear` when those are truthy.
   */
  function GetTransactionsForCalculation(txs: seq<Transaction>, investmentType: InvestmentType, code: Option<string>,
                                         year: Option<int>, beforeYear: Option<int>): (r: CalculationLists)
    ensures r.all == Matching(txs, FilterCriteria(Some(investmentType), code, None, None, None))
    ensures r.year.Some? ==> r.year.value == Matching(txs, FilterCriteria(Some(investmentType), code, year, None, None))
    ensures r.preYear.Some? ==> r.preYear.value == Matching(txs, FilterCriteria(Some(investmentType), code, None, beforeYear, None))
    ensures forall t :: t in r.all <==> t in txs && t.GetInvestmentType() == investmentType
                                        && (code.Some? && code.value != "" ==> t.code == Text.ZFill(code.value, Text.CodeWidth))
    ensures r.year.Some? <==> year.Some? && year.value != 0
    ensures r.preYear.Some? <==> beforeYear.Some? && beforeYear.value != 0
    ensures r.year.Some? ==> IsSubsequence(r.year.value, r.all)
    ensures r.preYear.Some? ==> IsSubsequence(r.preYear.value, r.all)
    ensures r.year.Some? ==> forall t :: t in r.year.value <==> t in r.all && Dates.YearOf(t.date) == year.value
    ensures r.preYear.Some? ==> forall t :: t in r.preYear.value <==> t in r.all && Dates.YearOf(t.date) < beforeYear.value
  {
    var base := FilterCriteria(Some(investmentType), if code.Some? && code.value != "" then code else None,
                               None, None, None);
    var all := FilterTransactions(txs, base);
    MatchingEquivalent(txs, base, FilterCriteria(Some(investmentType), code, None, None, None));
    var yearList :=
      if year.Some? && year.value != 0 then
        var c := FilterCriteria(Some(investmentType), code, year, None, None);
        StricterKeepsLess(txs, c, base);
        Some(FilterTransactions(txs, c))
      else None;
    var preList :=
      if beforeYear.Some? && beforeYear.value != 0 then
        var c := FilterCriteria(Some(investmentType), code, None, beforeYear, None);
        StricterKeepsLess(txs, c, base);
        Some(FilterTransactions(txs, c))
      else None;
    CalculationLists(all, yearList, preList)
  }

  /** Criteria that accept the same transactions select the same list. */
  lemma {:induction false} MatchingEquivalent(txs: seq<Transaction>, c1: FilterCriteria, c2: FilterCriteria)
    requires forall t :: Selects(c1, t) <==> Selects(c2, t)
    ensures Matching(txs, c1) == Matching(txs, c2)
    decreases |txs|
  {
    if |txs| > 0 {
      MatchingEquivalent(txs[1..], c1, c2);
    }
  }

  /** Asked with the same year for both, the year's list and the earlier years' list share nothing. */
  lemma YearAndPreYearDisjoint(txs: seq<Transaction>, investmentType: InvestmentType, code: Option<string>, year: int)
    requires year != 0
    ensures var r := GetTransactionsForCalculation(txs, investmentType, code, Some(year), Some(year));
            forall t :: t in r.year.value ==> t !in r.preYear.value
  {
  }
}

=== FILE: history.dfy ===
/**
 * Lifetime history of a transaction list (calculation/history.py): amounts
 * invested and received, current value and gains per code from the FIFO
 * replay, the portfolio totals over all codes, and an XIRR return rate.
 * Current prices are a map from code to the price of its `PriceData`; a
 * `PriceData` object is always truthy, so a price counts exactly when the
 * code is in the map. The XIRR present-value function and its derivative
 * are parameters (see the Xirr module).
 */
module History {
  import opened Wrappers
  import opened Seqs
  import opened Models
  import opened Fifo
  import opened Positions
  import Xirr
  import Dates

  type Prices = map<string, real>

  datatype HistoryError =
    | NoTransactions
    | NoTransactionsForCode(code: string)

  predicate IsDividendTx(t: Transaction) {
    t.IsDividend()
  }

  /** `calculate_total_invested`: Σ total amount over BUY transactions. */
  function CalculateTotalInvested(txs: seq<Transaction>): real {
    Sum(Filter(txs, IsBuyTx), TxAmount)
  }

  /** `calculate_dividend_income`: Σ total amount over DIVIDEND transactions. */
  function CalculateDividendIncome(txs: seq<Transaction>): real {
    Sum(Filter(txs, IsDividendTx), TxAmount)
  }

  /** Buying more never lowers the amount invested, whatever else is in the list. */
  lemma TotalInvestedAdds(a: seq<Transaction>, b: seq<Transaction>)
    ensures CalculateTotalInvested(a + b) == CalculateTotalInvested(a) + CalculateTotalInvested(b)
    ensures CalculateDividendIncome(a + b) == CalculateDividendIncome(a) + CalculateDividendIncome(b)
  {
    FilterConcat(a, b, IsBuyTx);
    SumConcat(Filter(a, IsBuyTx), Filter(b, IsBuyTx), TxAmount);
    FilterConcat(a, b, IsDividendTx);
    SumConcat(Filter(a, IsDividendTx), Filter(b, IsDividendTx), TxAmount);
  }

  /** A single transaction's contribution to the amount invested. */
  lemma TotalInvestedSingle(t: Transaction)
    ensures CalculateTotalInvested([t]) == if t.IsBuy() then t.totalAmount else 0.0
  {
    assert [t][1..] == [];
    assert Filter([t], IsBuyTx) == if IsBuyTx(t) then [t] else [];
    if IsBuyTx(t) {
      SumCons(t, [], TxAmount);
    }
  }

  // ---------------------------------------------------------------------------
  // Per code
  // ---------------------------------------------------------------------------

  /**
   * `calculate_code_current_value`: the shares left after the replay times
   * the current price; 0 without transactions, without a position-opening
   * transaction, or without a price.
   */
  function CodeCurrentValue(txs: seq<Transaction>, code: string, prices: Prices): (v: real)
    ensures OpeningQueue(txs, code).None? || code !in prices ==> v == 0.0
    ensures OpeningQueue(txs, code).Some? && code in prices ==>
              v == Worth(GetTotalQuantity(FinalQueue(txs, code).value), prices[code])
  {
    if |FilterByCode(txs, code)| == 0 then
      NoTransactionsNoPosition(txs, code);
      0.0
    else
      match FinalQueue(txs, code)
      case None => 0.0
      case Some(q) => if code in prices then Worth(GetTotalQuantity(q), prices[code]) else 0.0
  }

  /**
   * `calculate_code_gains`: realized gains from the sales replayed in input
   * order, and the unrealized gain of what is left at the current price
   * (0 without a price).
   */
  function CodeGains(txs: seq<Transaction>, code: string, prices: Prices): (r: (real, real))
    ensures OpeningQueue(txs, code).None? ==> r == (0.0, 0.0)
    ensures code !in prices ==> r.1 == 0.0
    ensures OpeningQueue(txs, code).Some? ==>
              r.0 == ReplayGains(CodeSells(txs, code), OpeningQueue(txs, code).value).realized
  {
    if |FilterByCode(txs, code)| == 0 then
      NoTransactionsNoPosition(txs, code);
      (0.0, 0.0)
    else
      match OpeningQueue(txs, code)
      case None => (0.0, 0.0)
      case Some(q) =>
        var replay := ReplayGains(CodeSells(txs, code), q);
        var shares := GetTotalQuantity(replay.queue);
        var cost := GetTotalCostBasis(replay.queue);
        if code in prices then (replay.realized, Worth(shares, prices[code]) - cost) else (replay.realized, 0.0)
  }

  lemma CodeSellsAreSells(txs: seq<Transaction>, code: string)
    ensures AllSells(CodeSells(txs, code))
  {
    forall i | 0 <= i < |CodeSells(txs, code)| ensures CodeSells(txs, code)[i].IsSell() {
      assert CodeSells(txs, code)[i] in CodeSells(txs, code);
    }
  }

  /**
   * The gain loop and the value loop see the same position: the unrealized
   * gain is the current value less the cost of what is left.
   */
  lemma GainsAgreeWithValue(txs: seq<Transaction>, code: string, prices: Prices)
    requires OpeningQueue(txs, code).Some? && code in prices
    ensures CodeGains(txs, code, prices).1
         == CodeCurrentValue(txs, code, prices) - GetTotalCostBasis(FinalQueue(txs, code).value)
  {
    CodeSellsAreSells(txs, code);
    ReplayGainsQueue(CodeSells(txs, code), OpeningQueue(txs, code).value);
  }

  /**
   * Total gain of a code with a price, for a ledger without negative BUY
   * quantities: the proceeds of the accepted sales plus the current value,
   * less the cost of every lot opened.
   */
  lemma TotalGainIsProceedsPlusValueLessCost(txs: seq<Transaction>, code: string, prices: Prices)
    requires OpeningQueue(txs, code).Some? && code in prices
    requires forall t :: t in PositionTxs(txs, code) ==> t.quantity >= 0.0
    ensures var q := OpeningQueue(txs, code).value;
            var g := CodeGains(txs, code, prices);
            g.0 + g.1 == Proceeds(CodeSells(txs, code), q) + CodeCurrentValue(txs, code, prices) - HeldCost(q.purchases)
  {
    var q := OpeningQueue(txs, code).value;
    var sells := CodeSells(txs, code);
    CodeSellsAreSells(txs, code);
    GainsAgreeWithValue(txs, code, prices);
    RealizedIsProceedsLessCost(sells, q);
    ReplayGainsQueue(sells, q);
    OpeningHeld(txs, code);
    ReplayKeepsNonNegative(sells, q);
    HeldIsTotalWhenNonNegative(ReplaySales(sells, q).1.purchases);
  }

  // ---------------------------------------------------------------------------
  // XIRR inputs
  // ---------------------------------------------------------------------------

  /** `TransactionType.name`. */
  function TypeName(k: TransactionType): string {
    match k
    case Buy => "BUY"
    case Sell => "SELL"
    case Dividend => "DIVIDEND"
  }

  function ToTxFlow(t: Transaction): Xirr.TxFlow {
    Xirr.TxFlow(t.date, TypeName(t.kind), t.totalAmount)
  }

  /** The XIRR of a transaction list valued at `value` on its last date, as a percentage. */
  function ListXirr(txs: seq<Transaction>, value: real, npv: Xirr.RateFunction, deriv: Xirr.RateFunction): (r: real)
    requires |txs| > 0
    ensures -99.0 <= r <= 1000.0
  {
    var flows := Xirr.BuildHistoryCashflows(Map(txs, ToTxFlow), LatestDate(txs), value);
    Xirr.Xirr(flows, npv, deriv)
  }

  /** Every transaction type moves cash, so the builders drop none of the transactions. */
  lemma TransactionsAreCashKinds(txs: seq<Transaction>)
    ensures Filter(Map(txs, ToTxFlow), Xirr.IsCashKind) == Map(txs, ToTxFlow)
  {
    var flows := Map(txs, ToTxFlow);
    forall i | 0 <= i < |flows| ensures Xirr.IsCashKind(flows[i]) {
      assert flows[i].kind == TypeName(txs[i].kind);
    }
    FilterAll(flows, Xirr.IsCashKind);
  }

  /**
   * `calculate_code_result`: one code's gains, value, amount invested
   * (used as its cost basis) and XIRR; fails when the code has no
   * transactions.
   */
  function CodeResult(txs: seq<Transaction>, code: string, prices: Prices,
                      npv: Xirr.RateFunction, deriv: Xirr.RateFunction): (r: Result<CalculationResult, HistoryError>)
    ensures r.Failure? <==> |FilterByCode(txs, code)| == 0
    ensures r.Failure? ==> r.error == NoTransactionsForCode(code)
    ensures r.Success? ==> r.value.code == code
    ensures r.Success? ==> r.value.totalGain == r.value.realizedGain + r.value.unrealizedGain
    ensures r.Success? ==> r.value.costBasis == r.value.totalInvested == CalculateTotalInvested(FilterByCode(txs, code))
    ensures r.Success? ==> r.value.currentValue == CodeCurrentValue(txs, code, prices)
    ensures r.Success? ==> (r.value.realizedGain, r.value.unrealizedGain) == CodeGains(txs, code, prices)
    ensures r.Success? ==> -99.0 <= r.value.returnRate <= 1000.0
  {
    var codeTxs := FilterByCode(txs, code);
    if |codeTxs| == 0 then Failure(NoTransactionsForCode(code))
    else
      var invested := CalculateTotalInvested(codeTxs);
      var gains := CodeGains(txs, code, prices);
      var value := CodeCurrentValue(txs, code, prices);
      var rate := ListXirr(codeTxs, value, npv, deriv);
      Success(CalculationResult(code, codeTxs[0].GetInvestmentType(), gains.0, gains.1, gains.0 + gains.1,
                                invested, rate, value, invested))
  }

  lemma CodeHasTransactions(txs: seq<Transaction>, code: string)
    requires code in GetCodes(txs)
    ensures |FilterByCode(txs, code)| > 0
  {
    var i :| 0 <= i < |txs| && txs[i].code == code;
    assert txs[i] in FilterByCode(txs, code);
  }

  /** Every one of `codes` has transactions in `txs`. */
  predicate EachHasTransactions(txs: seq<Transaction>, codes: seq<string>)
    decreases |codes|
  {
    |codes| == 0 || (|FilterByCode(txs, codes[0])| > 0 && EachHasTransactions(txs, codes[1..]))
  }

  lemma {:induction false} CodesOfListHaveTransactions(txs: seq<Transaction>, codes: seq<string>)
    requires forall i :: 0 <= i < |codes| ==> codes[i] in GetCodes(txs)
    ensures EachHasTransactions(txs, codes)
    decreases |codes|
  {
    if |codes| > 0 {
      CodeHasTransactions(txs, codes[0]);
      CodesOfListHaveTransactions(txs, codes[1..]);
    }
  }

  lemma CodesHaveTransactions(txs: seq<Transaction>)
    ensures EachHasTransactions(txs, CodesInOrder(txs))
  {
    var codes := CodesInOrder(txs);
    CodesOfListHaveTransactions(txs, codes);
  }

  /** `calculate_individual_results` over the given codes, each of which has transactions. */
  function ResultsFor(txs: seq<Transaction>, codes: seq<string>, prices: Prices,
                      npv: Xirr.RateFunction, deriv: Xirr.RateFunction): (r: seq<CalculationResult>)
    requires EachHasTransactions(txs, codes)
    ensures |r| == |codes|
    decreases |codes|
  {
    if |codes| == 0 then []
    else
      [CodeResult(txs, codes[0], prices, npv, deriv).value] + ResultsFor(txs, codes[1..], prices, npv, deriv)
  }

  /** The results come in the order of the codes, one per code. */
  lemma {:induction false} ResultsForCodes(txs: seq<Transaction>, codes: seq<string>, prices: Prices,
                                           npv: Xirr.RateFunction, deriv: Xirr.RateFunction)
    requires EachHasTransactions(txs, codes)
    ensures forall i :: 0 <= i < |codes| ==> ResultsFor(txs, codes, prices, npv, deriv)[i].code == codes[i]
    decreases |codes|
  {
    if |codes| > 0 {
      ResultsForCodes(txs, codes[1..], prices, npv, deriv);
      ResultsForCons(txs, codes, prices, npv, deriv);
    }
  }

  /** The i-th result is the i-th code's own `calculate_code_result`. */
  lemma {:induction false} ResultForCodeAt(txs: seq<Transaction>, codes: seq<string>, prices: Prices,
                                           npv: Xirr.RateFunction, deriv: Xirr.RateFunction, i: nat)
    requires EachHasTransactions(txs, codes) && i < |codes|
    ensures CodeResult(txs, codes[i], prices, npv, deriv) == Success(ResultsFor(txs, codes, prices, npv, deriv)[i])
    decreases i
  {
    ResultsForCons(txs, codes, prices, npv, deriv);
    if i > 0 {
      var rest := ResultsFor(txs, codes[1..], prices, npv, deriv);
      ResultForCodeAt(txs, codes[1..], prices, npv, deriv, i - 1);
      assert codes[1..][i - 1] == codes[i];
      assert ResultsFor(txs, codes, prices, npv, deriv)[i] == rest[i - 1];
    }
  }

  /** Every result is its code's own `calculate_code_result`. */
  lemma ResultsForAreCodeResults(txs: seq<Transaction>, codes: seq<string>, prices: Prices,
                                 npv: Xirr.RateFunction, deriv: Xirr.RateFunction)
    requires EachHasTransactions(txs, codes)
    ensures forall i :: 0 <= i < |codes| ==>
              CodeResult(txs, codes[i], prices, npv, deriv) == Success(ResultsFor(txs, codes, prices, npv, deriv)[i])
  {
    forall i | 0 <= i < |codes|
      ensures CodeResult(txs, codes[i], prices, npv, deriv) == Success(ResultsFor(txs, codes, prices, npv, deriv)[i])
    {
      ResultForCodeAt(txs, codes, prices, npv, deriv, i);
    }
  }

  /** Results labelled in the order of a list of codes carry exactly the codes of the list. */
  lemma LabelsCoverCodes(r: seq<CalculationResult>, codes: seq<string>, all: set<string>)
    requires |r| == |codes|
    requires forall i :: 0 <= i < |codes| ==> r[i].code == codes[i]
    requires forall c :: c in codes <==> c in all
    ensures forall c :: c in all <==> exists i :: 0 <= i < |r| && r[i].code == c
  {
    forall c | c in all ensures exists i :: 0 <= i < |r| && r[i].code == c {
      var i :| 0 <= i < |codes| && codes[i] == c;
      assert r[i].code == c;
    }
  }

  /** `calculate_individual_results`: one result per code. */
  function CalculateIndividualResults(txs: seq<Transaction>, prices: Prices,
                                      npv: Xirr.RateFunction, deriv: Xirr.RateFunction): (r: seq<CalculationResult>)
    ensures |r| == |CodesInOrder(txs)|
    ensures forall i :: 0 <= i < |r| ==> r[i].code == CodesInOrder(txs)[i]
    ensures forall i :: 0 <= i < |r| ==> CodeResult(txs, r[i].code, prices, npv, deriv) == Success(r[i])
    ensures forall c :: c in GetCodes(txs) <==> exists i :: 0 <= i < |r| && r[i].code == c
  {
    var codes := CodesInOrder(txs);
    CodesHaveTransactions(txs);
    var r := ResultsFor(txs, codes, prices, npv, deriv);
    ResultsForCodes(txs, codes, prices, npv, deriv);
    ResultsForAreCodeResults(txs, codes, prices, npv, deriv);
    LabelsCoverCodes(r, codes, GetCodes(txs));
    r
  }

  // ---------------------------------------------------------------------------
  // Portfolio totals
  // ---------------------------------------------------------------------------

  /** The current-value loop of `calculate_current_value` over `codes`. */
  function CurrentValueOver(txs: seq<Transaction>, codes: seq<string>, prices: Prices): real
    decreases |codes|
  {
    if |codes| == 0 then 0.0 else CodeCurrentValue(txs, codes[0], prices) + CurrentValueOver(txs, codes[1..], prices)
  }

  /** The realized-gain total of the loop of `calculate_gains` over `codes`. */
  function RealizedOver(txs: seq<Transaction>, codes: seq<string>, prices: Prices): real
    decreases |codes|
  {
    if |codes| == 0 then 0.0 else CodeGains(txs, codes[0], prices).0 + RealizedOver(txs, codes[1..], prices)
  }

  /** The unrealized-gain total of the loop of `calculate_gains` over `codes`. */
  function UnrealizedOver(txs: seq<Transaction>, codes: seq<string>, prices: Prices): real
    decreases |codes|
  {
    if |codes| == 0 then 0.0 else CodeGains(txs, codes[0], prices).1 + UnrealizedOver(txs, codes[1..], prices)
  }

  /** `calculate_current_value`. */
  function CalculateCurrentValue(txs: seq<Transaction>, prices: Prices): real {
    CurrentValueOver(txs, CodesInOrder(txs), prices)
  }

  /** `calculate_gains`: (realized, unrealized). */
  function CalculateGains(txs: seq<Transaction>, prices: Prices): (real, real) {
    (RealizedOver(txs, CodesInOrder(txs), prices), UnrealizedOver(txs, CodesInOrder(txs), prices))
  }

  function ResultValue(r: CalculationResult): real { r.currentValue }
  function ResultRealized(r: CalculationResult): real { r.realizedGain }
  function ResultUnrealized(r: CalculationResult): real { r.unrealizedGain }
  function ResultInvested(r: CalculationResult): real { r.totalInvested }

  lemma ResultsForCons(txs: seq<Transaction>, codes: seq<string>, prices: Prices,
                       npv: Xirr.RateFunction, deriv: Xirr.RateFunction)
    requires |codes| > 0
    requires EachHasTransactions(txs, codes)
    ensures CodeResult(txs, codes[0], prices, npv, deriv).Success?
    ensures ResultsFor(txs, codes, prices, npv, deriv)
         == [CodeResult(txs, codes[0], prices, npv, deriv).value] + ResultsFor(txs, codes[1..], prices, npv, deriv)
  {
  }

  /** The current values of the per-code results add up to the portfolio value over the same codes. */
  lemma {:induction false} ValueOverResults(txs: seq<Transaction>, codes: seq<string>, prices: Prices,
                                            npv: Xirr.RateFunction, deriv: Xirr.RateFunction)
    requires EachHasTransactions(txs, codes)
    ensures Sum(ResultsFor(txs, codes, prices, npv, deriv), ResultValue) == CurrentValueOver(txs, codes, prices)
    decreases |codes|
  {
    if |codes| > 0 {
      ValueOverResults(txs, codes[1..], prices, npv, deriv);
      ResultsForCons(txs, codes, prices, npv, deriv);
      SumCons(CodeResult(txs, codes[0], prices, npv, deriv).value, ResultsFor(txs, codes[1..], prices, npv, deriv), ResultValue);
    }
  }

  /** The realized gains of the per-code results add up to the portfolio's realized gains. */
  lemma {:induction false} RealizedOverResults(txs: seq<Transaction>, codes: seq<string>, prices: Prices,
                                               npv: Xirr.RateFunction, deriv: Xirr.RateFunction)
    requires EachHasTransactions(txs, codes)
    ensures Sum(ResultsFor(txs, codes, prices, npv, deriv), ResultRealized) == RealizedOver(txs, codes, prices)
    decreases |codes|
  {
    if |codes| > 0 {
      RealizedOverResults(txs, codes[1..], prices, npv, deriv);
      ResultsForCons(txs, codes, prices, npv, deriv);
      SumCons(CodeResult(txs, codes[0], prices, npv, deriv).value, ResultsFor(txs, codes[1..], prices, npv, deriv), ResultRealized);
    }
  }

  /** The unrealized gains of the per-code results add up to the portfolio's unrealized gains. */
  lemma {:induction false} UnrealizedOverResults(txs: seq<Transaction>, codes: seq<string>, prices: Prices,
                                                 npv: Xirr.RateFunction, deriv: Xirr.RateFunction)
    requires EachHasTransactions(txs, codes)
    ensures Sum(ResultsFor(txs, codes, prices, npv, deriv), ResultUnrealized) == UnrealizedOver(txs, codes, prices)
    decreases |codes|
  {
    if |codes| > 0 {
      UnrealizedOverResults(txs, codes[1..], prices, npv, deriv);
      ResultsForCons(txs, codes, prices, npv, deriv);
      SumCons(CodeResult(txs, codes[0], prices, npv, deriv).value, ResultsFor(txs, codes[1..], prices, npv, deriv), ResultUnrealized);
    }
  }

  /** The amounts invested of the per-code results add up to the per-code BUY sums. */
  lemma {:induction false} InvestedOverResults(txs: seq<Transaction>, codes: seq<string>, prices: Prices,
                                               npv: Xirr.RateFunction, deriv: Xirr.RateFunction)
    requires EachHasTransactions(txs, codes)
    ensures Sum(ResultsFor(txs, codes, prices, npv, deriv), ResultInvested) == SumOverCodes(txs, codes, IsBuyTx, TxAmount)
    decreases |codes|
  {
    if |codes| > 0 {
      InvestedOverResults(txs, codes[1..], prices, npv, deriv);
      ResultsForCons(txs, codes, prices, npv, deriv);
      SumCons(CodeResult(txs, codes[0], prices, npv, deriv).value, ResultsFor(txs, codes[1..], prices, npv, deriv), ResultInvested);
    }
  }

  /**
   * `calculate_complete_history`: portfolio totals, the individual results,
   * the first and last dates, and the XIRR of all flows valued at the last
   * transaction date; fails on an empty list. The investment type is the
   * first transaction's.
   */
  function CalculateCompleteHistory(txs: seq<Transaction>, prices: Prices,
                                    npv: Xirr.RateFunction, deriv: Xirr.RateFunction)
    : (r: Result<HistoryResult, HistoryError>)
    ensures r.Failure? <==> |txs| == 0
    ensures r.Failure? ==> r.error == NoTransactions
    ensures r.Success? ==> r.value.code.None? && r.value.transactionCount == |txs|
    ensures r.Success? ==> r.value.investmentType == txs[0].GetInvestmentType()
    ensures r.Success? ==> forall i :: 0 <= i < |txs| ==>
              r.value.firstInvestment <= txs[i].date <= r.value.lastTransaction
    ensures r.Success? ==> (exists i :: 0 <= i < |txs| && txs[i].date == r.value.firstInvestment)
                           && (exists i :: 0 <= i < |txs| && txs[i].date == r.value.lastTransaction)
    ensures r.Success? ==> r.value.investments == CalculateIndividualResults(txs, prices, npv, deriv)
    ensures r.Success? ==> r.value.totalInvested == Sum(Filter(txs, IsBuyTx), TxAmount)
    ensures r.Success? ==> r.value.dividendIncome == Sum(Filter(txs, IsDividendTx), TxAmount)
    ensures r.Success? ==> r.value.currentValue == CalculateCurrentValue(txs, prices)
    ensures r.Success? ==> (r.value.realizedGains, r.value.unrealizedGains) == CalculateGains(txs, prices)
    ensures r.Success? ==> r.value.totalGain == r.value.realizedGains + r.value.unrealizedGains
    ensures r.Success? ==> r.value.returnRate == ListXirr(txs, r.value.currentValue, npv, deriv)
    ensures r.Success? ==> -99.0 <= r.value.returnRate <= 1000.0
  {
    if |txs| == 0 then Failure(NoTransactions)
    else
      var invested := CalculateTotalInvested(txs);
      var value := CalculateCurrentValue(txs, prices);
      var gains := CalculateGains(txs, prices);
      var dividends := CalculateDividendIncome(txs);
      var rate := ListXirr(txs, value, npv, deriv);
      var investments := CalculateIndividualResults(txs, prices, npv, deriv);
      Success(HistoryResult(None, txs[0].GetInvestmentType(), invested, value, gains.0 + gains.1, rate,
                            dividends, gains.0, gains.1, EarliestDate(txs), LatestDate(txs), |txs|, investments))
  }

  /**
   * The portfolio totals of a complete history agree with its individual
   * results: each total is the sum of that field over the per-code results.
   */
  lemma CompleteHistoryMatchesInvestments(txs: seq<Transaction>, prices: Prices,
                                          npv: Xirr.RateFunction, deriv: Xirr.RateFunction)
    requires |txs| > 0
    ensures var h := CalculateCompleteHistory(txs, prices, npv, deriv).value;
            && h.totalInvested == Sum(h.investments, ResultInvested)
            && h.currentValue == Sum(h.investments, ResultValue)
            && h.realizedGains == Sum(h.investments, ResultRealized)
            && h.unrealizedGains == Sum(h.investments, ResultUnrealized)
  {
    var codes := CodesInOrder(txs);
    CodesHaveTransactions(txs);
    ValueOverResults(txs, codes, prices, npv, deriv);
    RealizedOverResults(txs, codes, prices, npv, deriv);
    UnrealizedOverResults(txs, codes, prices, npv, deriv);
    InvestedOverResults(txs, codes, prices, npv, deriv);
    assert forall i :: 0 <= i < |txs| ==> txs[i].code in codes;
    SumOverCodesIsTotal(txs, codes, IsBuyTx, TxAmount);
  }

  /** `calculate_single_investment_history`: the complete history of one code, labelled with it. */
  function CalculateSingleInvestmentHistory(txs: seq<Transaction>, code: string, prices: Prices,
                                            npv: Xirr.RateFunction, deriv: Xirr.RateFunction)
    : (r: Result<HistoryResult, HistoryError>)
    ensures r.Failure? <==> |FilterByCode(txs, code)| == 0
    ensures r.Failure? ==> r.error == NoTransactionsForCode(code)
    ensures r.Success? ==> r.value.code == Some(code)
    ensures r.Success? ==> r.value == CalculateCompleteHistory(FilterByCode(txs, code), prices, npv, deriv).value.(code := Some(code))
    ensures r.Success? ==> r.value.transactionCount == |FilterByCode(txs, code)|
  {
    var codeTxs := FilterByCode(txs, code);
    if |codeTxs| == 0 then Failure(NoTransactionsForCode(code))
    else
      var h := CalculateCompleteHistory(codeTxs, prices, npv, deriv).value;
      Success(h.(code := Some(code)))
  }

  /** `calculate_portfolio_history`. */
  function CalculatePortfolioHistory(txs: seq<Transaction>, prices: Prices,
                                     npv: Xirr.RateFunction, deriv: Xirr.RateFunction)
    : (r: Result<HistoryResult, HistoryError>)
    ensures r.Failure? <==> |txs| == 0
    ensures r.Success? ==> r.value.code.None?
  {
    CalculateCompleteHistory(txs, prices, npv, deriv)
  }
}

=== FILE: market_models.dfy ===
/**
 * Records of the market-data layer (market/models.py): the time-limited
 * price cache, the request summary with its rates, and a price query
 * that keeps its codes and dates sorted.
 *
 * The clock is a parameter: `now` is the current time in seconds, and a
 * stored timestamp is the `now` of the write.
 */
module MarketModels {
  import opened Wrappers
  import opened Seqs
  import opened Models
  import Dates
  import Text

  // ---------------------------------------------------------------------
  // Cache keys
  // ---------------------------------------------------------------------

  predicate NoUnderscore(s: string) {
    forall i :: 0 <= i < |s| ==> s[i] != '_'
  }

  /** `"{code}_{dateText}_{source}"`. */
  function JoinKey(code: string, dateText: string, source: string): string {
    code + "_" + dateText + "_" + source
  }

  /** `_generate_key`: the code, the date in ISO form and the source, joined by underscores. */
  function GenerateKey(code: string, date: Dates.Date, source: string): string {
    JoinKey(code, Dates.IsoText(date), source)
  }

  lemma ZerosNoUnderscore(n: nat)
    ensures NoUnderscore(Text.Zeros(n))
  {
  }

  lemma ZFillNoUnderscore(s: string, width: nat)
    requires NoUnderscore(s)
    ensures NoUnderscore(Text.ZFill(s, width))
  {
    ZerosNoUnderscore(if |s| >= width then 0 else width - |s|);
  }

  lemma DigitsNoUnderscore(s: string)
    requires forall i :: 0 <= i < |s| ==> Text.IsDigitChar(s[i])
    ensures NoUnderscore(s)
  {
  }

  lemma PadNoUnderscore(n: int, width: nat)
    ensures NoUnderscore(Dates.Pad(n, width))
  {
    var digits := Text.NatToString(if n < 0 then -n else n);
    DigitsNoUnderscore(digits);
    ZFillNoUnderscore(digits, width);
  }

  /** A date's text is digits and dashes. */
  lemma IsoTextNoUnderscore(d: Dates.Date)
    ensures NoUnderscore(Dates.IsoText(d))
  {
    var f := Dates.ToYmd(d);
    PadNoUnderscore(f.year, 4);
    PadNoUnderscore(f.month, 2);
    PadNoUnderscore(f.day, 2);
  }

  /** The position of the first underscore, or the length when there is none. */
  function FirstUnderscore(s: string): (r: nat)
    ensures r <= |s|
    decreases |s|
  {
    if |s| == 0 || s[0] == '_' then 0 else 1 + FirstUnderscore(s[1..])
  }

  lemma {:induction false} FirstUnderscoreOf(a: string, b: string)
    requires NoUnderscore(a)
    ensures FirstUnderscore(a + "_" + b) == |a|
    decreases |a|
  {
    if |a| > 0 {
      assert (a + "_" + b)[1..] == a[1..] + "_" + b;
      FirstUnderscoreOf(a[1..], b);
    }
  }

  /** Splitting at the first separator: the part before it has none. */
  lemma SplitAtFirst(a: string, b: string, x: string, y: string)
    requires NoUnderscore(a) && NoUnderscore(x)
    requires a + "_" + b == x + "_" + y
    ensures a == x && b == y
  {
    FirstUnderscoreOf(a, b);
    FirstUnderscoreOf(x, y);
    var s := a + "_" + b;
    assert a == s[..|a|] == x;
    assert b == s[|a| + 1..] == y;
  }

  /** Joined keys split back into their parts when code and date text have no underscore. */
  lemma JoinKeyInjective(code: string, text: string, source: string, code': string, text': string, source': string)
    requires NoUnderscore(code) && NoUnderscore(code') && NoUnderscore(text) && NoUnderscore(text')
    requires JoinKey(code, text, source) == JoinKey(code', text', source')
    ensures code == code' && text == text' && source == source'
  {
    assert JoinKey(code, text, source) == code + "_" + (text + "_" + source);
    assert JoinKey(code', text', source') == code' + "_" + (text' + "_" + source');
    SplitAtFirst(code, text + "_" + source, code', text' + "_" + source');
    SplitAtFirst(text, source, text', source');
  }

  /**
   * The key determines its parts: for codes without an underscore, equal
   * keys mean the same code, the same date text and the same source.
   */
  lemma KeyDeterminesParts(code: string, date: Dates.Date, source: string,
                           code': string, date': Dates.Date, source': string)
    requires NoUnderscore(code) && NoUnderscore(code')
    requires GenerateKey(code, date, source) == GenerateKey(code', date', source')
    ensures code == code' && Dates.IsoText(date) == Dates.IsoText(date') && source == source'
  {
    IsoTextNoUnderscore(date);
    IsoTextNoUnderscore(date');
    JoinKeyInjective(code, Dates.IsoText(date), source, code', Dates.IsoText(date'), source');
  }

  // ---------------------------------------------------------------------
  // Market data cache
  // ---------------------------------------------------------------------

  const DefaultTtlSeconds: int := 3600

  /** A cached price and the time it was stored. */
  datatype Stamped = Stamped(data: PriceData, timestamp: real)

  datatype MarketDataCache = MarketDataCache(entries: map<string, Stamped>, ttlSeconds: int)

  function NewCache(ttlSeconds: int): (c: MarketDataCache)
    ensures |c.entries| == 0 && c.ttlSeconds == ttlSeconds
  {
    MarketDataCache(map[], ttlSeconds)
  }

  /** An entry stored at `timestamp` is still fresh at `now` when less than the TTL has passed. */
  predicate Fresh(timestamp: real, now: real, ttlSeconds: int) {
    now - timestamp < ttlSeconds as real
  }

  /** What a read returns and the cache after it. */
  datatype Lookup = Lookup(data: Option<PriceData>, cache: MarketDataCache)

  /** A read of the entry under `key`: the stored data when it is fresh; an expired entry is deleted. */
  function GetKey(c: MarketDataCache, key: string, now: real): (r: Lookup)
    ensures key in c.entries && Fresh(c.entries[key].timestamp, now, c.ttlSeconds) ==>
              r.data == Some(c.entries[key].data) && r.cache == c
    ensures key in c.entries && !Fresh(c.entries[key].timestamp, now, c.ttlSeconds) ==>
              r.data.None? && r.cache.entries == c.entries - {key} && r.cache.ttlSeconds == c.ttlSeconds
    ensures key !in c.entries ==> r.data.None? && r.cache == c
  {
    if key in c.entries then
      var entry := c.entries[key];
      if Fresh(entry.timestamp, now, c.ttlSeconds) then Lookup(Some(entry.data), c)
      else Lookup(None, c.(entries := c.entries - {key}))
    else Lookup(None, c)
  }

  /**
   * `get`: the stored data when the entry is fresh; an expired entry is
   * deleted and reads as missing.
   */
  function Get(c: MarketDataCache, code: string, date: Dates.Date, source: string, now: real): (r: Lookup)
    ensures var key := GenerateKey(code, date, source);
            key in c.entries && Fresh(c.entries[key].timestamp, now, c.ttlSeconds) ==>
              r.data == Some(c.entries[key].data) && r.cache == c
    ensures var key := GenerateKey(code, date, source);
            key in c.entries && !Fresh(c.entries[key].timestamp, now, c.ttlSeconds) ==>
              r.data.None? && r.cache.entries == c.entries - {key} && r.cache.ttlSeconds == c.ttlSeconds
    ensures GenerateKey(code, date, source) !in c.entries ==> r.data.None? && r.cache == c
  {
    GetKey(c, GenerateKey(code, date, source), now)
  }

  /** Stores `data` under `key` stamped with `now`. */
  function SetKey(c: MarketDataCache, key: string, data: PriceData, now: real): (r: MarketDataCache)
    ensures key in r.entries && r.entries[key] == Stamped(data, now)
    ensures forall k :: k != key ==> (k in r.entries <==> k in c.entries) && (k in c.entries ==> r.entries[k] == c.entries[k])
    ensures r.ttlSeconds == c.ttlSeconds
  {
    c.(entries := c.entries[key := Stamped(data, now)])
  }

  /** `set`: stores the data stamped with `now`, replacing any entry under the same key. */
  function Set(c: MarketDataCache, code: string, date: Dates.Date, source: string, data: PriceData, now: real)
    : (r: MarketDataCache)
    ensures GenerateKey(code, date, source) in r.entries
    ensures r.entries[GenerateKey(code, date, source)] == Stamped(data, now)
    ensures forall k :: k != GenerateKey(code, date, source) ==>
              (k in r.entries <==> k in c.entries) && (k in c.entries ==> r.entries[k] == c.entries[k])
    ensures r.ttlSeconds == c.ttlSeconds
  {
    SetKey(c, GenerateKey(code, date, source), data, now)
  }

  /** `clear`: no entries; the TTL is kept. */
  function Clear(c: MarketDataCache): (r: MarketDataCache)
    ensures |r.entries| == 0 && r.ttlSeconds == c.ttlSeconds
  {
    c.(entries := map[])
  }

  /** `size`: the number of stored entries. */
  function Size(c: MarketDataCache): (r: nat)
    ensures r == |c.entries.Keys|
  {
    |c.entries|
  }

  /** A read within the TTL of a write returns what was written. */
  lemma GetAfterSetWithinTtl(c: MarketDataCache, code: string, date: Dates.Date, source: string,
                             data: PriceData, written: real, now: real)
    requires now - written < c.ttlSeconds as real
    ensures Get(Set(c, code, date, source, data, written), code, date, source, now).data == Some(data)
  {
  }

  /** A read once the TTL has passed returns nothing and removes the entry. */
  lemma GetAfterExpiry(c: MarketDataCache, code: string, date: Dates.Date, source: string,
                       data: PriceData, written: real, now: real)
    requires now - written >= c.ttlSeconds as real
    ensures var r := Get(Set(c, code, date, source, data, written), code, date, source, now);
            r.data.None? && GenerateKey(code, date, source) !in r.cache.entries
            && Size(r.cache) == Size(c) - (if GenerateKey(code, date, source) in c.entries then 1 else 0)
  {
    KeyExpires(c, GenerateKey(code, date, source), data, written, now);
  }

  lemma KeyExpires(c: MarketDataCache, key: string, data: PriceData, written: real, now: real)
    requires now - written >= c.ttlSeconds as real
    ensures var r := GetKey(SetKey(c, key, data, written), key, now);
            r.data.None? && key !in r.cache.entries && |r.cache.entries.Keys| == |c.entries.Keys| - (if key in c.entries then 1 else 0)
  {
    var s := SetKey(c, key, data, written);
    assert s.entries - {key} == c.entries - {key};
    RemoveSize(c.entries, key);
  }

  /** Removing a key shrinks a map by one exactly when the key was there. */
  lemma RemoveSize(m: map<string, Stamped>, key: string)
    ensures |(m - {key}).Keys| == |m.Keys| - (if key in m then 1 else 0)
  {
    if key in m {
      assert m.Keys == (m - {key}).Keys + {key};
    } else {
      assert (m - {key}).Keys == m.Keys;
    }
  }

  /** A write adds one entry for a new key and none for a key already stored. */
  lemma SizeAfterSet(c: MarketDataCache, code: string, date: Dates.Date, source: string, data: PriceData, now: real)
    ensures Size(Set(c, code, date, source, data, now))
         == Size(c) + (if GenerateKey(code, date, source) in c.entries then 0 else 1)
  {
    var key := GenerateKey(code, date, source);
    var r := Set(c, code, date, source, data, now);
    assert r.entries.Keys == c.entries.Keys + {key};
  }

  // ---------------------------------------------------------------------
  // Market data summary
  // ---------------------------------------------------------------------

  datatype MarketDataSummary = MarketDataSummary(
    dataSources: map<string, int>,
    successfulRequests: int,
    failedRequests: int,
    totalCodes: int,
    missingDates: int)

  const NewSummary := MarketDataSummary(map[], 0, 0, 0, 0)

  function SourceCount(s: MarketDataSummary, source: string): int {
    if source in s.dataSources then s.dataSources[source] else 0
  }

  /** `add_success`: one more success, credited to `source`. */
  function AddSuccess(s: MarketDataSummary, source: string): (r: MarketDataSummary)
    ensures r.successfulRequests == s.successfulRequests + 1
    ensures SourceCount(r, source) == SourceCount(s, source) + 1
    ensures forall other :: other != source ==> SourceCount(r, other) == SourceCount(s, other)
    ensures r.failedRequests == s.failedRequests && r.totalCodes == s.totalCodes && r.missingDates == s.missingDates
  {
    s.(successfulRequests := s.successfulRequests + 1,
       dataSources := s.dataSources[source := SourceCount(s, source) + 1])
  }

  /** `add_failure`: one more failure; no source is credited. */
  function AddFailure(s: MarketDataSummary): (r: MarketDataSummary)
    ensures r.failedRequests == s.failedRequests + 1
    ensures r.dataSources == s.dataSources && r.successfulRequests == s.successfulRequests
  {
    s.(failedRequests := s.failedRequests + 1)
  }

  /** `set_total_codes`. */
  function SetTotalCodes(s: MarketDataSummary, count: int): (r: MarketDataSummary)
    ensures r.totalCodes == count
    ensures r.successfulRequests == s.successfulRequests && r.failedRequests == s.failedRequests
  {
    s.(totalCodes := count)
  }

  /** `add_missing_dates` (the default count is 1). */
  function AddMissingDates(s: MarketDataSummary, count: int): (r: MarketDataSummary)
    ensures r.missingDates == s.missingDates + count
    ensures r.successfulRequests == s.successfulRequests && r.failedRequests == s.failedRequests
  {
    s.(missingDates := s.missingDates + count)
  }

  /** `success_rate`: successes over all requests; 0.0 without requests. */
  function SuccessRate(s: MarketDataSummary): (r: real)
    ensures s.successfulRequests + s.failedRequests > 0 ==>
              r * (s.successfulRequests + s.failedRequests) as real == s.successfulRequests as real
    ensures s.successfulRequests + s.failedRequests <= 0 ==> r == 0.0
    ensures 0 <= s.successfulRequests && 0 <= s.failedRequests ==> 0.0 <= r <= 1.0
  {
    var total := s.successfulRequests + s.failedRequests;
    if total > 0 then s.successfulRequests as real / total as real else 0.0
  }

  /**
   * `completeness`: successes over the expected number of codes; 0.0
   * when that number is not positive. Nothing caps it at 1.
   */
  function Completeness(s: MarketDataSummary): (r: real)
    ensures s.totalCodes > 0 ==> r * s.totalCodes as real == s.successfulRequests as real
    ensures s.totalCodes <= 0 ==> r == 0.0
    ensures 0 <= s.successfulRequests <= s.totalCodes ==> 0.0 <= r <= 1.0
  {
    if s.totalCodes > 0 then s.successfulRequests as real / s.totalCodes as real else 0.0
  }

  /** The summary's recording calls. */
  datatype Event = RecordSuccess(source: string) | RecordFailure | RecordTotalCodes(count: int) | RecordMissingDates(count: int)

  function Apply(s: MarketDataSummary, e: Event): MarketDataSummary {
    match e
    case RecordSuccess(source) => AddSuccess(s, source)
    case RecordFailure => AddFailure(s)
    case RecordTotalCodes(count) => SetTotalCodes(s, count)
    case RecordMissingDates(count) => AddMissingDates(s, count)
  }

  /** The summary after recording `events` in order on a fresh one. */
  function Replay(events: seq<Event>): MarketDataSummary
    decreases |events|
  {
    if |events| == 0 then NewSummary else Apply(Replay(events[..|events| - 1]), events[|events| - 1])
  }

  predicate IsSuccess(e: Event) {
    e.RecordSuccess?
  }

  predicate IsFailure(e: Event) {
    e.RecordFailure?
  }

  function SuccessesFrom(events: seq<Event>, source: string): nat
    decreases |events|
  {
    if |events| == 0 then 0
    else SuccessesFrom(events[..|events| - 1], source)
         + (if events[|events| - 1] == RecordSuccess(source) then 1 else 0)
  }

  function CountOf(events: seq<Event>, p: Event -> bool): nat
    decreases |events|
  {
    if |events| == 0 then 0 else CountOf(events[..|events| - 1], p) + (if p(events[|events| - 1]) then 1 else 0)
  }

  /**
   * The counters count the calls: successes and failures are the numbers
   * of each call, and every source's count is the number of successes
   * credited to it, so the counts are never negative and the success rate
   * lies in [0, 1].
   */
  lemma {:induction false} ReplayCounts(events: seq<Event>)
    ensures Replay(events).successfulRequests == CountOf(events, IsSuccess)
    ensures Replay(events).failedRequests == CountOf(events, IsFailure)
    ensures forall source :: SourceCount(Replay(events), source) == SuccessesFrom(events, source)
    ensures 0.0 <= SuccessRate(Replay(events)) <= 1.0
    decreases |events|
  {
    if |events| > 0 {
      ReplayCounts(events[..|events| - 1]);
    }
  }

  // ---------------------------------------------------------------------
  // Price query
  // ---------------------------------------------------------------------

  datatype PriceQuery = PriceQuery(codes: seq<string>, dates: seq<Dates.Date>, investmentType: InvestmentType)

  function DateKey(d: Dates.Date): int {
    d
  }

  /** The constructor: codes and dates are sorted ascending. */
  function NewPriceQuery(codes: seq<string>, dates: seq<Dates.Date>, investmentType: InvestmentType): (q: PriceQuery)
    ensures Text.StringsSorted(q.codes) && multiset(q.codes) == multiset(codes)
    ensures SortedBy(q.dates, DateKey) && multiset(q.dates) == multiset(dates)
    ensures q.investmentType == investmentType
  {
    Text.SortStringsCorrect(codes);
    SortByIsSortedPermutation(dates, DateKey);
    PriceQuery(Text.SortStrings(codes), SortBy(dates, DateKey), investmentType)
  }

  /** `total_requests`: one request per code and date. */
  function TotalRequests(q: PriceQuery): (r: nat)
    ensures r == |q.codes| * |q.dates|
  {
    |q.codes| * |q.dates|
  }

  /** Sorting keeps every code and date, so a query asks for as many prices as it was given pairs. */
  lemma QueryRequestsEveryPair(codes: seq<string>, dates: seq<Dates.Date>, investmentType: InvestmentType)
    ensures TotalRequests(NewPriceQuery(codes, dates, investmentType)) == |codes| * |dates|
  {
    var q := NewPriceQuery(codes, dates, investmentType);
    assert |multiset(q.codes)| == |multiset(codes)|;
    assert |multiset(q.dates)| == |multiset(dates)|;
  }
}

=== FILE: models.dfy ===
/**
 * Core records of the portfolio calculator: transactions and lists of them,
 * purchase lots, the FIFO queue of lots, and the result records the
 * calculators return (models/__init__.py).
 */
module Models {
  import opened Wrappers
  import opened Seqs
  import Dates
  import Text

  datatype InvestmentType = Stock | Fund

  datatype TransactionType = Buy | Sell | Dividend

  /** A quoted price of a code on a date, with the service it came from. */
  datatype PriceData = PriceData(code: string, priceDate: Dates.Date, priceValue: real, source: string)

  /**
   * One ledger event. `totalAmount` is the cash value of the event; its
   * direction follows from `kind`. `date` is always present (the loader
   * requires it).
   */
  datatype Transaction = Transaction(
    code: string,
    date: Dates.Date,
    kind: TransactionType,
    quantity: real,
    unitPrice: real,
    totalAmount: real,
    dividendType: Option<string>)
  {
    predicate IsBuy() {
      kind == Buy
    }

    predicate IsSell() {
      kind == Sell
    }

    predicate IsDividend() {
      kind == Dividend
    }

    predicate IsCashDividend() {
      IsDividend() && dividendType == Some("cash")
    }

    /** Funds are recognised by a code starting with "5" or "1". */
    function GetInvestmentType(): (t: InvestmentType)
      ensures t == Fund <==> |code| > 0 && (code[0] == '5' || code[0] == '1')
    {
      if Text.StartsWithAnyChar(code, {'5', '1'}) then Fund else Stock
    }
  }

  /** Sort key of a transaction. */
  function TxDate(t: Transaction): int {
    t.date
  }

  function TxCode(t: Transaction): string {
    t.code
  }

  function TxAmount(t: Transaction): real {
    t.totalAmount
  }

  // ---------------------------------------------------------------------------
  // TransactionList helpers (a transaction list is a `seq<Transaction>`)
  // ---------------------------------------------------------------------------

  /** `TransactionList.sort_by_date`: stable sort by date. */
  function SortByDate(txs: seq<Transaction>): (r: seq<Transaction>)
    ensures |r| == |txs|
    ensures SortedBy(r, TxDate)
    ensures multiset(r) == multiset(txs)
  {
    SortByIsSortedPermutation(txs, TxDate);
    SortBy(txs, TxDate)
  }

  /** `TransactionList.get_codes`. */
  function GetCodes(txs: seq<Transaction>): (r: set<string>)
    ensures forall c :: c in r <==> exists i :: 0 <= i < |txs| && txs[i].code == c
  {
    set i | 0 <= i < |txs| :: txs[i].code
  }

  /** The codes of `txs` in first-occurrence order: one iteration order of `get_codes()`. */
  function CodesInOrder(txs: seq<Transaction>): (r: seq<string>)
    ensures NoDuplicates(r)
    ensures forall c :: c in r <==> c in GetCodes(txs)
  {
    var cs := Map(txs, TxCode);
    assert forall c :: c in cs <==> exists i :: 0 <= i < |txs| && txs[i].code == c by {
      forall c | c in cs ensures exists i :: 0 <= i < |txs| && txs[i].code == c {
        var i :| 0 <= i < |cs| && cs[i] == c;
        assert txs[i].code == c;
      }
    }
    Distinct(cs)
  }

  function EarliestDate(txs: seq<Transaction>): (d: Dates.Date)
    requires |txs| > 0
    ensures exists i :: 0 <= i < |txs| && txs[i].date == d
    ensures forall i :: 0 <= i < |txs| ==> d <= txs[i].date
  {
    if |txs| == 1 then txs[0].date
    else
      var rest := EarliestDate(txs[1..]);
      assert forall i :: 1 <= i < |txs| ==> txs[i] == txs[1..][i - 1];
      if txs[0].date <= rest then txs[0].date else rest
  }

  function LatestDate(txs: seq<Transaction>): (d: Dates.Date)
    requires |txs| > 0
    ensures exists i :: 0 <= i < |txs| && txs[i].date == d
    ensures forall i :: 0 <= i < |txs| ==> txs[i].date <= d
  {
    if |txs| == 1 then txs[0].date
    else
      var rest := LatestDate(txs[1..]);
      assert forall i :: 1 <= i < |txs| ==> txs[i] == txs[1..][i - 1];
      if txs[0].date >= rest then txs[0].date else rest
  }

  /** `TransactionList.get_date_range`: earliest and latest date, or none for an empty list. */
  function GetDateRange(txs: seq<Transaction>): (r: Option<(Dates.Date, Dates.Date)>)
    ensures r.None? <==> |txs| == 0
    ensures r.Some? ==> exists i :: 0 <= i < |txs| && txs[i].date == r.value.0
    ensures r.Some? ==> exists i :: 0 <= i < |txs| && txs[i].date == r.value.1
    ensures r.Some? ==> forall i :: 0 <= i < |txs| ==> r.value.0 <= txs[i].date <= r.value.1
  {
    if |txs| == 0 then None else Some((EarliestDate(txs), LatestDate(txs)))
  }

  /** `TransactionList.filter_by_code`. */
  function FilterByCode(txs: seq<Transaction>, code: string): (r: seq<Transaction>)
    ensures forall t :: t in r <==> t in txs && t.code == code
    ensures IsSubsequence(r, txs)
  {
    FilterIsSubsequence(txs, (t: Transaction) => t.code == code);
    Filter(txs, (t: Transaction) => t.code == code)
  }

  /** `TransactionList.filter_by_year`. */
  function FilterByYear(txs: seq<Transaction>, year: int): (r: seq<Transaction>)
    ensures forall t :: t in r <==> t in txs && Dates.YearOf(t.date) == year
    ensures IsSubsequence(r, txs)
  {
    FilterIsSubsequence(txs, (t: Transaction) => Dates.YearOf(t.date) == year);
    Filter(txs, (t: Transaction) => Dates.YearOf(t.date) == year)
  }

  // ---------------------------------------------------------------------------
  // Purchase lots and the FIFO queue
  // ---------------------------------------------------------------------------

  /** One open (or partly consumed) purchase lot. */
  datatype Purchase = Purchase(date: Dates.Date, quantity: real, unitPrice: real, remaining: real) {

    function TotalCost(): real {
      quantity * unitPrice
    }

    function RemainingCost(): real {
      remaining * unitPrice
    }
  }

  function LotDate(p: Purchase): int {
    p.date
  }

  function LotRemaining(p: Purchase): real {
    p.remaining
  }

  function LotRemainingCost(p: Purchase): real {
    p.remaining * p.unitPrice
  }

  /** The part of a lot that can still be sold: its remaining quantity when positive. */
  function LotHeld(p: Purchase): real {
    if p.remaining > 0.0 then p.remaining else 0.0
  }

  function LotHeldCost(p: Purchase): real {
    if p.remaining > 0.0 then p.remaining * p.unitPrice else 0.0
  }

  function Held(lots: seq<Purchase>): real {
    Sum(lots, LotHeld)
  }

  function HeldCost(lots: seq<Purchase>): real {
    Sum(lots, LotHeldCost)
  }

  predicate IsOpen(p: Purchase) {
    p.remaining > 0.0
  }

  predicate NonNegativeLots(lots: seq<Purchase>) {
    forall i :: 0 <= i < |lots| ==> lots[i].remaining >= 0.0
  }

  /** The queue of lots of one instrument. */
  datatype FifoQueue = FifoQueue(code: string, purchases: seq<Purchase>)

  /** What one sale allocation produced (`FifoResult`). */
  datatype FifoResult = FifoResult(
    code: string,
    allocatedPurchases: seq<Purchase>,
    costBasis: real,
    remainingQueue: FifoQueue)

  /** One per-lot record of `FifoQueue.sell_shares`. */
  datatype RealizedGain = RealizedGain(
    quantity: real,
    sellPrice: real,
    costBasis: real,
    proceeds: real,
    gainLoss: real,
    purchaseDate: Dates.Date)

  function GainQuantity(g: RealizedGain): real {
    g.quantity
  }

  datatype SellError = InsufficientShares(requested: real, available: real)

  /** `FifoQueue.add_purchase`: append, then stable re-sort by date. */
  function AddPurchase(q: FifoQueue, p: Purchase): (r: FifoQueue)
    ensures r.code == q.code
    ensures SortedBy(r.purchases, LotDate)
    ensures SortedBy(q.purchases, LotDate) && (forall i :: 0 <= i < |q.purchases| ==> q.purchases[i].date <= p.date)
            ==> r.purchases == q.purchases + [p]
  {
    var lots := q.purchases + [p];
    SortByIsSortedPermutation(lots, LotDate);
    assert SortedBy(q.purchases, LotDate) && (forall i :: 0 <= i < |q.purchases| ==> q.purchases[i].date <= p.date)
           ==> SortBy(lots, LotDate) == lots by {
      if SortedBy(q.purchases, LotDate) && (forall i :: 0 <= i < |q.purchases| ==> q.purchases[i].date <= p.date) {
        SortBySnocMax(q.purchases, p, LotDate);
      }
    }
    FifoQueue(q.code, SortBy(lots, LotDate))
  }

  /**
   * Adding a lot keeps every lot, adds the new one, and keeps the relative
   * order of lots with the same date, the new one last among them.
   */
  lemma AddPurchaseKeepsLots(q: FifoQueue, p: Purchase)
    ensures multiset(AddPurchase(q, p).purchases) == multiset(q.purchases) + multiset{p}
    ensures forall k :: WithKey(AddPurchase(q, p).purchases, LotDate, k) == WithKey(q.purchases + [p], LotDate, k)
  {
    var lots := q.purchases + [p];
    SortByIsSortedPermutation(lots, LotDate);
    forall k ensures WithKey(SortBy(lots, LotDate), LotDate, k) == WithKey(lots, LotDate, k) {
      SortByStable(lots, LotDate, k);
    }
  }

  /** `FifoQueue.get_total_quantity`: Σ remaining over all lots. */
  function GetTotalQuantity(q: FifoQueue): real {
    Sum(q.purchases, LotRemaining)
  }

  /** `FifoQueue.get_total_cost_basis`: Σ remaining × unit price over all lots. */
  function GetTotalCostBasis(q: FifoQueue): real {
    Sum(q.purchases, LotRemainingCost)
  }

  /** `FifoQueue.get_average_cost`: cost ÷ quantity, or 0 for an empty position. */
  function GetAverageCost(q: FifoQueue): (r: real)
    ensures GetTotalQuantity(q) == 0.0 ==> r == 0.0
    ensures GetTotalQuantity(q) != 0.0 ==> r * GetTotalQuantity(q) == GetTotalCostBasis(q)
  {
    var qty := GetTotalQuantity(q);
    if qty == 0.0 then 0.0 else GetTotalCostBasis(q) / qty
  }

  /** `FifoQueue.update_total_quantity`: drops the lots with nothing remaining. */
  function UpdateTotalQuantity(q: FifoQueue): (r: FifoQueue)
    ensures r.code == q.code
    ensures forall p :: p in r.purchases <==> p in q.purchases && p.remaining > 0.0
    ensures forall p :: multiset(r.purchases)[p] == if p.remaining > 0.0 then multiset(q.purchases)[p] else 0
    ensures IsSubsequence(r.purchases, q.purchases)
  {
    FilterIsSubsequence(q.purchases, IsOpen);
    FilterMultiplicity(q.purchases, IsOpen);
    FifoQueue(q.code, Filter(q.purchases, IsOpen))
  }

  /** `FifoQueue.has_inventory`. */
  predicate HasInventory(q: FifoQueue) {
    exists i :: 0 <= i < |q.purchases| && q.purchases[i].remaining > 0.0
  }

  /** `FifoQueue.get_next_purchase`: the first lot with something remaining. */
  function GetNextPurchase(q: FifoQueue): (r: Option<Purchase>)
    ensures r.None? <==> !HasInventory(q)
    ensures r.Some? ==> exists i :: 0 <= i < |q.purchases| && q.purchases[i] == r.value
                          && r.value.remaining > 0.0
                          && forall j :: 0 <= j < i ==> q.purchases[j].remaining <= 0.0
    decreases |q.purchases|
  {
    if |q.purchases| == 0 then None
    else if q.purchases[0].remaining > 0.0 then Some(q.purchases[0])
    else
      var tail := FifoQueue(q.code, q.purchases[1..]);
      assert forall i :: 1 <= i < |q.purchases| ==> q.purchases[i] == tail.purchases[i - 1];
      var r := GetNextPurchase(tail);
      if r.Some? then
        var i :| 0 <= i < |tail.purchases| && tail.purchases[i] == r.value
                 && r.value.remaining > 0.0 && forall j :: 0 <= j < i ==> tail.purchases[j].remaining <= 0.0;
        assert q.purchases[i + 1] == r.value;
        r
      else r
  }

  /** The held quantity of a queue equals its total once non-positive lots are dropped. */
  lemma {:induction false} HeldIsTotalOfOpenLots(lots: seq<Purchase>)
    ensures Held(lots) == Sum(Filter(lots, IsOpen), LotRemaining)
    ensures HeldCost(lots) == Sum(Filter(lots, IsOpen), LotRemainingCost)
    decreases |lots|
  {
    if |lots| > 0 {
      HeldIsTotalOfOpenLots(lots[1..]);
    }
  }

  lemma {:induction false} HeldIsTotalWhenNonNegative(lots: seq<Purchase>)
    requires NonNegativeLots(lots)
    ensures Held(lots) == Sum(lots, LotRemaining)
    ensures HeldCost(lots) == Sum(lots, LotRemainingCost)
    decreases |lots|
  {
    if |lots| > 0 {
      HeldIsTotalWhenNonNegative(lots[1..]);
    }
  }

  /**
   * With no negative lot, dropping the exhausted lots keeps the queue's
   * total quantity and total cost basis.
   */
  lemma UpdateKeepsTotals(q: FifoQueue)
    requires NonNegativeLots(q.purchases)
    ensures GetTotalQuantity(UpdateTotalQuantity(q)) == GetTotalQuantity(q)
    ensures GetTotalCostBasis(UpdateTotalQuantity(q)) == GetTotalCostBasis(q)
  {
    HeldIsTotalOfOpenLots(q.purchases);
    HeldIsTotalWhenNonNegative(q.purchases);
  }

  /** Some lot is open exactly when the held quantity is positive. */
  lemma {:induction false} HasInventoryIffHeldPositive(lots: seq<Purchase>)
    ensures (exists i :: 0 <= i < |lots| && lots[i].remaining > 0.0) <==> Held(lots) > 0.0
    decreases |lots|
  {
    if |lots| > 0 {
      HasInventoryIffHeldPositive(lots[1..]);
      SumNonNegative(lots[1..], LotHeld);
      if exists i :: 0 <= i < |lots[1..]| && lots[1..][i].remaining > 0.0 {
        var i :| 0 <= i < |lots[1..]| && lots[1..][i].remaining > 0.0;
        assert lots[i + 1].remaining > 0.0;
      }
      if exists i :: 0 <= i < |lots| && lots[i].remaining > 0.0 {
        var i :| 0 <= i < |lots| && lots[i].remaining > 0.0;
        if i > 0 {
          assert lots[1..][i - 1].remaining > 0.0;
        }
      }
    }
  }

  // ---------------------------------------------------------------------------
  // FifoQueue.sell_shares
  // ---------------------------------------------------------------------------

  /** `g` records selling part of lot `p` at `sellPrice`: cost, proceeds and gain follow from its quantity. */
  predicate GainMatches(g: RealizedGain, p: Purchase, sellPrice: real) {
    && g.purchaseDate == p.date
    && g.sellPrice == sellPrice
    && g.costBasis == g.quantity * p.unitPrice
    && g.proceeds == g.quantity * sellPrice
    && g.gainLoss == g.proceeds - g.costBasis
  }

  /** The per-lot record for selling `quantity` shares of lot `p` at `sellPrice`. */
  function GainFrom(p: Purchase, quantity: real, sellPrice: real): (g: RealizedGain)
    ensures g.quantity == quantity && GainMatches(g, p, sellPrice)
  {
    RealizedGain(quantity, sellPrice, quantity * p.unitPrice, quantity * sellPrice,
                 quantity * sellPrice - quantity * p.unitPrice, p.date)
  }

  /** Where the sell loop ends: the records made, the lots left, and the quantity still to sell. */
  datatype Sale = Sale(gains: seq<RealizedGain>, rest: seq<Purchase>, unsold: real)

  /**
   * The loop of `FifoQueue.sell_shares` from a given state. A split lot sets
   * the quantity still to sell to 0 and then subtracts what it sold, so the
   * loop ends with a negative `unsold` in that case.
   */
  function SellFrom(lots: seq<Purchase>, toSell: real, sellPrice: real): (s: Sale)
    ensures |s.gains| <= |lots|
    decreases |lots|
  {
    if toSell <= 0.0 || |lots| == 0 then Sale([], lots, toSell)
    else
      var p := lots[0];
      if p.remaining <= toSell then
        var s := SellFrom(lots[1..], toSell - p.remaining, sellPrice);
        Sale([GainFrom(p, p.remaining, sellPrice)] + s.gains, s.rest, s.unsold)
      else
        Sale([GainFrom(p, toSell, sellPrice)], [p.(remaining := p.remaining - toSell)] + lots[1..], 0.0 - toSell)
  }

  /** A lot no larger than what is still to sell is sold whole. */
  lemma SellWholeLot(lots: seq<Purchase>, toSell: real, sellPrice: real)
    requires toSell > 0.0 && |lots| > 0 && lots[0].remaining <= toSell
    ensures var rest := SellFrom(lots[1..], toSell - lots[0].remaining, sellPrice);
            SellFrom(lots, toSell, sellPrice)
            == Sale([GainFrom(lots[0], lots[0].remaining, sellPrice)] + rest.gains, rest.rest, rest.unsold)
  {
  }

  /** A larger lot is split, and nothing more is sold after it. */
  lemma SellPartOfLot(lots: seq<Purchase>, toSell: real, sellPrice: real)
    requires toSell > 0.0 && |lots| > 0 && lots[0].remaining > toSell
    ensures var left := [lots[0].(remaining := lots[0].remaining - toSell)] + lots[1..];
            && SellFrom(lots, toSell, sellPrice) == Sale([GainFrom(lots[0], toSell, sellPrice)], left, 0.0 - toSell)
            && SellFrom(left, 0.0 - toSell, sellPrice) == Sale([], left, 0.0 - toSell)
  {
  }

  /** One turn of the sell loop: the record it makes comes first and the rest of the run is unchanged. */
  lemma SellFromStep(before: Sale, g: RealizedGain, after: Sale, done: seq<RealizedGain>)
    requires before == Sale([g] + after.gains, after.rest, after.unsold)
    ensures done + before.gains == (done + [g]) + after.gains
    ensures before.rest == after.rest && before.unsold == after.unsold
  {
  }

  /** The i-th record of a sale comes from the i-th lot of the queue, at the sale price. */
  lemma {:induction false} SellFromRecords(lots: seq<Purchase>, toSell: real, sellPrice: real)
    ensures var g := SellFrom(lots, toSell, sellPrice).gains;
            forall i :: 0 <= i < |g| ==> GainMatches(g[i], lots[i], sellPrice)
    decreases |lots|
  {
    if toSell > 0.0 && |lots| > 0 && lots[0].remaining <= toSell {
      SellFromRecords(lots[1..], toSell - lots[0].remaining, sellPrice);
      var rest := SellFrom(lots[1..], toSell - lots[0].remaining, sellPrice).gains;
      var g := SellFrom(lots, toSell, sellPrice).gains;
      assert forall i :: 1 <= i < |g| ==> g[i] == rest[i - 1] && lots[i] == lots[1..][i - 1];
    }
  }

  /** The loop stops with something left to sell only after emptying the queue. */
  lemma {:induction false} SellFromShortfall(lots: seq<Purchase>, toSell: real, sellPrice: real)
    ensures SellFrom(lots, toSell, sellPrice).unsold > 0.0 ==> SellFrom(lots, toSell, sellPrice).rest == []
    ensures SellFrom(lots, toSell, sellPrice).unsold > 0.0
            ==> toSell - SellFrom(lots, toSell, sellPrice).unsold == Sum(lots, LotRemaining)
    ensures toSell > 0.0 ==> Sum(SellFrom(lots, toSell, sellPrice).gains, GainQuantity)
                             == toSell - (if SellFrom(lots, toSell, sellPrice).unsold > 0.0 then SellFrom(lots, toSell, sellPrice).unsold else 0.0)
    decreases |lots|
  {
    if toSell > 0.0 && |lots| > 0 && lots[0].remaining <= toSell {
      SellFromShortfall(lots[1..], toSell - lots[0].remaining, sellPrice);
    }
  }

  /**
   * With no negative lot, selling fails exactly when the lots hold less than
   * requested, and a successful sale removes exactly the requested quantity.
   */
  lemma {:induction false} SellFromConservation(lots: seq<Purchase>, toSell: real, sellPrice: real)
    requires NonNegativeLots(lots) && toSell > 0.0
    ensures SellFrom(lots, toSell, sellPrice).unsold > 0.0 <==> Sum(lots, LotRemaining) < toSell
    ensures SellFrom(lots, toSell, sellPrice).unsold <= 0.0
            ==> Sum(SellFrom(lots, toSell, sellPrice).rest, LotRemaining) == Sum(lots, LotRemaining) - toSell
    decreases |lots|
  {
    if |lots| > 0 {
      var p := lots[0];
      if p.remaining <= toSell {
        if toSell - p.remaining > 0.0 {
          SellFromConservation(lots[1..], toSell - p.remaining, sellPrice);
        } else {
          SumNonNegative(lots[1..], LotRemaining);
        }
      } else {
        SumConcat([p.(remaining := p.remaining - toSell)], lots[1..], LotRemaining);
        SumNonNegative(lots[1..], LotRemaining);
      }
    }
  }

  /** What the sell loop's end state says about the sale as a whole. */
  lemma SellOutcome(lots: seq<Purchase>, toSell: real, sellPrice: real)
    ensures var s := SellFrom(lots, toSell, sellPrice);
            && (toSell <= 0.0 ==> s == Sale([], lots, toSell))
            && (s.unsold <= 0.0 && toSell > 0.0 ==> Sum(s.gains, GainQuantity) == toSell)
            && (s.unsold > 0.0 ==> s.rest == [] && toSell - s.unsold == Sum(lots, LotRemaining))
            && (NonNegativeLots(lots) ==> (s.unsold <= 0.0 <==> Sum(lots, LotRemaining) >= toSell))
            && (NonNegativeLots(lots) && s.unsold <= 0.0 && toSell > 0.0
                ==> Sum(s.rest, LotRemaining) == Sum(lots, LotRemaining) - toSell)
  {
    SellFromShortfall(lots, toSell, sellPrice);
    if NonNegativeLots(lots) {
      SumNonNegative(lots, LotRemaining);
      if toSell > 0.0 {
        SellFromConservation(lots, toSell, sellPrice);
      }
    }
  }

  /** The loop of `sell_shares` itself, run on a copy of the lots. */
  method SellLoop(lots0: seq<Purchase>, toSell0: real, sellPrice: real)
    returns (gains: seq<RealizedGain>, lots: seq<Purchase>, toSell: real)
    ensures Sale(gains, lots, toSell) == SellFrom(lots0, toSell0, sellPrice)
  {
    gains, toSell, lots := [], toSell0, lots0;
    ghost var target := SellFrom(lots0, toSell0, sellPrice);
    while toSell > 0.0 && |lots| > 0
      invariant gains + SellFrom(lots, toSell, sellPrice).gains == target.gains
      invariant SellFrom(lots, toSell, sellPrice).rest == target.rest
      invariant SellFrom(lots, toSell, sellPrice).unsold == target.unsold
      decreases |lots| + (if toSell > 0.0 then 1 else 0)
    {
      ghost var before := SellFrom(lots, toSell, sellPrice);
      var p := lots[0];
      var available := p.remaining;
      var fromThis: real;
      if available <= toSell {
        SellWholeLot(lots, toSell, sellPrice);
        fromThis := available;
        lots := lots[1..];
      } else {
        SellPartOfLot(lots, toSell, sellPrice);
        fromThis := toSell;
        lots := [p.(remaining := p.remaining - toSell)] + lots[1..];
        toSell := 0.0;
      }
      var g := GainFrom(p, fromThis, sellPrice);
      toSell := toSell - fromThis;
      SellFromStep(before, g, SellFrom(lots, toSell, sellPrice), gains);
      gains := gains + [g];
    }
    assert SellFrom(lots, toSell, sellPrice) == Sale([], lots, toSell);
  }

  /**
   * `FifoQueue.sell_shares`: sells from the front of the queue, popping each lot
   * it exhausts and splitting the first lot that is larger than what is still
   * to be sold. Each touched lot yields a record with gain = quantity ×
   * (sell price − unit price). The queue is changed in place, so when the
   * inventory runs out the lots popped so far stay popped (the returned queue
   * is then empty) although the call reports failure.
   */
  method SellShares(q: FifoQueue, sellQuantity: real, sellPrice: real)
    returns (after: FifoQueue, r: Result<seq<RealizedGain>, SellError>)
    ensures after.code == q.code
    ensures sellQuantity <= 0.0 ==> after == q && r == Success([])
    ensures after.purchases == SellFrom(q.purchases, sellQuantity, sellPrice).rest
    ensures r.Success? ==> r.value == SellFrom(q.purchases, sellQuantity, sellPrice).gains
    ensures r.Success? && sellQuantity > 0.0 ==> Sum(r.value, GainQuantity) == sellQuantity
    ensures r.Success? ==> |r.value| <= |q.purchases|
    ensures r.Success? ==> forall i :: 0 <= i < |r.value| ==> GainMatches(r.value[i], q.purchases[i], sellPrice)
    ensures r.Failure? ==> after.purchases == [] && sellQuantity > 0.0
                           && r.error == InsufficientShares(sellQuantity, GetTotalQuantity(q))
    ensures NonNegativeLots(q.purchases) ==> (r.Success? <==> GetTotalQuantity(q) >= sellQuantity)
    ensures NonNegativeLots(q.purchases) && r.Success? && sellQuantity > 0.0
            ==> GetTotalQuantity(after) == GetTotalQuantity(q) - sellQuantity
  {
    var gains, lots, toSell := SellLoop(q.purchases, sellQuantity, sellPrice);
    after := FifoQueue(q.code, lots);
    SellOutcome(q.purchases, sellQuantity, sellPrice);
    SellFromRecords(q.purchases, sellQuantity, sellPrice);
    if toSell > 0.0 {
      r := Failure(InsufficientShares(sellQuantity, sellQuantity - toSell));
    } else {
      r := Success(gains);
    }
  }

  /** A code-keyed map read with a default of 0 (`d.get(key, 0)`), as prices and positions are read. */
  function Lookup(m: map<string, real>, key: string): real {
    if key in m then m[key] else 0.0
  }

  // ---------------------------------------------------------------------------
  // Result records
  // ---------------------------------------------------------------------------

  /** One year's outcome (`AnnualResult`); `code` is none for a portfolio. */
  datatype AnnualResult = AnnualResult(
    year: int,
    code: Option<string>,
    startValue: real,
    endValue: real,
    netGain: real,
    returnRate: real,
    dividends: real,
    capitalGain: real)

  /** Per-instrument outcome (`CalculationResult`). */
  datatype CalculationResult = CalculationResult(
    code: string,
    investmentType: InvestmentType,
    realizedGain: real,
    unrealizedGain: real,
    totalGain: real,
    costBasis: real,
    returnRate: real,
    currentValue: real,
    totalInvested: real)

  /** Lifetime outcome (`HistoryResult`); the source's unused start/end date fields are omitted. */
  datatype HistoryResult = HistoryResult(
    code: Option<string>,
    investmentType: InvestmentType,
    totalInvested: real,
    currentValue: real,
    totalGain: real,
    returnRate: real,
    dividendIncome: real,
    realizedGains: real,
    unrealizedGains: real,
    firstInvestment: Dates.Date,
    lastTransaction: Dates.Date,
    transactionCount: nat,
    investments: seq<CalculationResult>)

  /** `HoldingsResult`: per-code quantities and cost bases. */
  datatype HoldingsResult = HoldingsResult(
    hasHoldings: bool,
    quantities: map<string, real>,
    costBasis: map<string, real>)
  {
    /** `get_quantity`: the stored quantity, 0 for an unknown code. */
    function GetQuantity(code: string): (r: real)
      ensures code in quantities ==> r == quantities[code]
      ensures code !in quantities ==> r == 0.0
    {
      if code in quantities then quantities[code] else 0.0
    }

    /** `get_cost_basis`: the stored cost basis, 0 for an unknown code. */
    function GetCostBasis(code: string): (r: real)
      ensures code in costBasis ==> r == costBasis[code]
      ensures code !in costBasis ==> r == 0.0
    {
      if code in costBasis then costBasis[code] else 0.0
    }
  }
}

=== FILE: positions.dfy ===
/**
 * The per-code position replay that the history and annual calculators each
 * spell out inline (calculation/history.py, calculation/annual.py): the
 * position-opening transactions of one code go into a FIFO queue, then that
 * code's SELL transactions are allocated against it in input order, a sale
 * whose allocation raises being skipped.
 */
module Positions {
  import opened Wrappers
  import opened Seqs
  import opened Models
  import opened Fifo

  /** BUY, or DIVIDEND with a positive quantity (a stock dividend adds shares). */
  predicate IsPositionTx(t: Transaction) {
    t.IsBuy() || (t.IsDividend() && t.quantity > 0.0)
  }

  function TxQuantity(t: Transaction): real {
    t.quantity
  }

  /** Market value of a holding: shares × price. */
  function Worth(shares: real, price: real): real {
    shares * price
  }

  lemma WorthNonNegative(shares: real, price: real)
    requires shares >= 0.0 && price >= 0.0
    ensures Worth(shares, price) >= 0.0
  {
  }

  /** The worth of a holding that counts only when it is positive. */
  function PositiveWorth(shares: real, price: real): (v: real)
    ensures shares <= 0.0 || price == 0.0 ==> v == 0.0
    ensures price >= 0.0 ==> v >= 0.0
  {
    if shares > 0.0 then
      assert price >= 0.0 ==> Worth(shares, price) >= 0.0 by {
        if price >= 0.0 {
          WorthNonNegative(shares, price);
        }
      }
      Worth(shares, price)
    else 0.0
  }

  /** A positive holding's worth is linear in the price: a price higher by `d` adds shares × `d`. */
  lemma PositiveWorthBump(shares: real, price: real, d: real)
    ensures PositiveWorth(shares, price + d) == PositiveWorth(shares, price) + (if shares > 0.0 then shares * d else 0.0)
  {
  }

  /** The same, for values already known to be such worths. */
  lemma PositiveWorthShift(shares: real, price: real, price': real, d: real, v: real, v': real)
    requires price' == price + d
    requires v == PositiveWorth(shares, price) && v' == PositiveWorth(shares, price')
    ensures v' == v + PositiveWorth(shares, d)
  {
    PositiveWorthBump(shares, price, d);
  }

  /** `part / base * 100` when the base is positive, else 0: a percentage with a guarded denominator. */
  function PercentOf(part: real, base: real): real {
    if base > 0.0 then part / base * 100.0 else 0.0
  }

  /** The percentage times its positive base is a hundred times the part; over no base it is 0. */
  lemma PercentOfScales(part: real, base: real)
    ensures base > 0.0 ==> PercentOf(part, base) * base == part * 100.0
    ensures base <= 0.0 ==> PercentOf(part, base) == 0.0
  {
  }

  /** The transactions of `code` that open lots. */
  function PositionTxs(txs: seq<Transaction>, code: string): (r: seq<Transaction>)
    ensures forall t :: t in r <==> t in txs && t.code == code && IsPositionTx(t)
  {
    Filter(FilterByCode(txs, code), IsPositionTx)
  }

  /** The SELL transactions of `code`, in input order. */
  function CodeSells(txs: seq<Transaction>, code: string): (r: seq<Transaction>)
    ensures forall t :: t in r <==> t in txs && t.code == code && t.IsSell()
  {
    Filter(FilterByCode(txs, code), IsSellTx)
  }

  /**
   * The queue built from the position-opening transactions of `code`, or
   * none when there are none. The build cannot fail: the list is non-empty
   * and holds a single code.
   */
  function OpeningQueue(txs: seq<Transaction>, code: string): (r: Option<FifoQueue>)
    ensures r.None? <==> |PositionTxs(txs, code)| == 0
    ensures r.Some? ==> r.value.code == code
  {
    var opening := PositionTxs(txs, code);
    if |opening| == 0 then None
    else
      assert opening[0] in opening;
      assert forall i :: 0 <= i < |opening| ==> opening[i].code == opening[0].code by {
        forall i | 0 <= i < |opening| ensures opening[i].code == opening[0].code {
          assert opening[i] in opening;
        }
      }
      var built := ProcessFifoQueue(opening);
      assert built.Success?;
      Some(built.value)
  }

  /** The opening queue is what `process_fifo_queue` builds from the position-opening transactions. */
  lemma OpeningQueueBuilt(txs: seq<Transaction>, code: string)
    requires OpeningQueue(txs, code).Some?
    ensures ProcessFifoQueue(PositionTxs(txs, code)) == Success(OpeningQueue(txs, code).value)
  {
  }

  /** Position-opening transactions already in date order open one lot each, in that order. */
  lemma OpeningQueueOfSorted(txs: seq<Transaction>, code: string)
    requires |PositionTxs(txs, code)| > 0 && SortedBy(PositionTxs(txs, code), TxDate)
    ensures OpeningQueue(txs, code) == Some(FifoQueue(code, LotsOf(PositionTxs(txs, code))))
  {
    OpeningQueueBuilt(txs, code);
    SortByOfSorted(PositionTxs(txs, code), TxDate);
  }

  /** A code without transactions has no position-opening transaction and no sale. */
  lemma NoTransactionsNoPosition(txs: seq<Transaction>, code: string)
    requires |FilterByCode(txs, code)| == 0
    ensures |PositionTxs(txs, code)| == 0 && |CodeSells(txs, code)| == 0
  {
    assert FilterByCode(txs, code) == [];
  }

  /** The position after the sells: the queue the current-value and year-start loops end with. */
  function FinalQueue(txs: seq<Transaction>, code: string): (r: Option<FifoQueue>)
    ensures r.Some? <==> OpeningQueue(txs, code).Some?
    ensures r.Some? ==> r.value == ReplaySales(CodeSells(txs, code), OpeningQueue(txs, code).value).1
  {
    match OpeningQueue(txs, code)
    case None => None
    case Some(q) => Some(ReplaySales(CodeSells(txs, code), q).1)
  }

  // ---------------------------------------------------------------------------
  // The realized-gain loop
  // ---------------------------------------------------------------------------

  datatype Replay = Replay(queue: FifoQueue, realized: real)

  /**
   * The realized-gain loop: each sale is allocated and its gain computed
   * inside one `try`; a sale that raises is skipped and leaves the queue.
   */
  function ReplayGains(sells: seq<Transaction>, q: FifoQueue): (r: Replay)
    decreases |sells|
  {
    if |sells| == 0 then Replay(q, 0.0)
    else match AllocateCost(sells[0], q)
      case Failure(_) => ReplayGains(sells[1..], q)
      case Success(fr) =>
        match CalculateRealizedGain(sells[0], fr.costBasis)
        case Failure(_) => ReplayGains(sells[1..], q)
        case Success(gain) =>
          var rest := ReplayGains(sells[1..], fr.remainingQueue);
          Replay(rest.queue, gain + rest.realized)
  }

  /** The gain loop over a single sale that allocates. */
  lemma ReplayGainsSingle(sell: Transaction, q: FifoQueue)
    requires sell.IsSell() && AllocateCost(sell, q).Success?
    ensures var fr := AllocateCost(sell, q).value;
            ReplayGains([sell], q) == Replay(fr.remainingQueue, sell.totalAmount - fr.costBasis)
  {
    assert [sell][1..] == [];
  }

  /** Sum of the amounts of the sales whose allocation goes through. */
  function Proceeds(sells: seq<Transaction>, q: FifoQueue): real
    decreases |sells|
  {
    if |sells| == 0 then 0.0
    else match AllocateCost(sells[0], q)
      case Success(fr) => sells[0].totalAmount + Proceeds(sells[1..], fr.remainingQueue)
      case Failure(_) => Proceeds(sells[1..], q)
  }

  predicate AllSells(sells: seq<Transaction>) {
    forall i :: 0 <= i < |sells| ==> sells[i].IsSell()
  }

  /** The gain loop and the allocate-only loop end with the same queue. */
  lemma {:induction false} ReplayGainsQueue(sells: seq<Transaction>, q: FifoQueue)
    requires AllSells(sells)
    ensures ReplayGains(sells, q).queue == ReplaySales(sells, q).1
    decreases |sells|
  {
    if |sells| > 0 {
      match AllocateCost(sells[0], q)
      case Failure(_) =>
        ReplayGainsQueue(sells[1..], q);
      case Success(fr) =>
        ReplayGainsQueue(sells[1..], fr.remainingQueue);
    }
  }

  /** A successful allocation draws exactly the held cost that leaves the queue. */
  lemma AllocationCostLeavesQueue(sell: Transaction, q: FifoQueue)
    requires AllocateCost(sell, q).Success?
    ensures AllocateCost(sell, q).value.costBasis
         == HeldCost(q.purchases) - HeldCost(AllocateCost(sell, q).value.remainingQueue.purchases)
  {
    AllocatedQueue(sell, q);
    HeldIsTotalWhenNonNegative(AllocateCost(sell, q).value.remainingQueue.purchases);
  }

  /**
   * Realized gain is proceeds minus the cost that left the queue: the sum
   * of the accepted sales' amounts, less the drop in held cost between the
   * opening and the closing queue.
   */
  lemma {:induction false} RealizedIsProceedsLessCost(sells: seq<Transaction>, q: FifoQueue)
    requires AllSells(sells)
    ensures ReplayGains(sells, q).realized
         == Proceeds(sells, q) - (HeldCost(q.purchases) - HeldCost(ReplayGains(sells, q).queue.purchases))
    decreases |sells|
  {
    if |sells| > 0 {
      var step := AllocateCost(sells[0], q);
      if step.Success? {
        var rq := step.value.remainingQueue;
        AllocationCostLeavesQueue(sells[0], q);
        RealizedIsProceedsLessCost(sells[1..], rq);
      } else {
        RealizedIsProceedsLessCost(sells[1..], q);
      }
    }
  }

  // ---------------------------------------------------------------------------
  // Opening quantities
  // ---------------------------------------------------------------------------

  /** The lots of `ts` hold the quantities of its BUY and DIVIDEND transactions. */
  lemma {:induction false} LotsOfQuantity(ts: seq<Transaction>)
    ensures Sum(LotsOf(ts), LotRemaining) == Sum(Filter(ts, AddsShares), TxQuantity)
    decreases |ts|
  {
    if |ts| > 0 {
      LotsOfQuantity(ts[1..]);
      var head: seq<Purchase> := if AddsShares(ts[0]) then [ToLot(ts[0])] else [];
      SumConcat(head, LotsOf(ts[1..]), LotRemaining);
    }
  }

  lemma {:induction false} LotsOfNonNegative(ts: seq<Transaction>)
    requires forall i :: 0 <= i < |ts| ==> ts[i].quantity >= 0.0
    ensures NonNegativeLots(LotsOf(ts))
    decreases |ts|
  {
    if |ts| > 0 {
      LotsOfNonNegative(ts[1..]);
      var head: seq<Purchase> := if AddsShares(ts[0]) then [ToLot(ts[0])] else [];
      var lots := LotsOf(ts);
      assert lots == head + LotsOf(ts[1..]);
      forall i | 0 <= i < |lots| ensures lots[i].remaining >= 0.0 {
        if i >= |head| {
          assert lots[i] == LotsOf(ts[1..])[i - |head|];
        }
      }
    }
  }

  /**
   * With no negative BUY quantity, the opening queue holds exactly the
   * quantities bought or received as stock dividends.
   */
  lemma OpeningHeld(txs: seq<Transaction>, code: string)
    requires OpeningQueue(txs, code).Some?
    requires forall t :: t in PositionTxs(txs, code) ==> t.quantity >= 0.0
    ensures NonNegativeLots(OpeningQueue(txs, code).value.purchases)
    ensures Held(OpeningQueue(txs, code).value.purchases) == Sum(PositionTxs(txs, code), TxQuantity)
  {
    var opening := PositionTxs(txs, code);
    OpeningQueueBuilt(txs, code);
    var sorted := SortByDate(opening);
    assert forall i :: 0 <= i < |sorted| ==> sorted[i] in opening by {
      forall i | 0 <= i < |sorted| ensures sorted[i] in opening {
        assert sorted[i] in multiset(sorted);
      }
    }
    LotsOfNonNegative(sorted);
    FilterAll(sorted, AddsShares);
    LotsOfQuantity(sorted);
    SumSortBy(opening, TxDate, TxQuantity);
    HeldIsTotalWhenNonNegative(LotsOf(sorted));
  }

  /** Selling from a queue without negative lots never produces one. */
  lemma {:induction false} ReplayKeepsNonNegative(sells: seq<Transaction>, q: FifoQueue)
    requires NonNegativeLots(q.purchases)
    ensures NonNegativeLots(ReplaySales(sells, q).1.purchases)
    decreases |sells|
  {
    if |sells| > 0 {
      var step := AllocateCost(sells[0], q);
      if step.Success? {
        AllocatedQueue(sells[0], q);
        ReplayKeepsNonNegative(sells[1..], step.value.remainingQueue);
      } else {
        ReplayKeepsNonNegative(sells[1..], q);
      }
    }
  }

  /**
   * From a queue without negative lots, the replay leaves the quantity held
   * at the start less the quantities of the sales that went through.
   */
  lemma ReplayLeavesNetShares(sells: seq<Transaction>, q: FifoQueue)
    requires NonNegativeLots(q.purchases)
    ensures GetTotalQuantity(ReplaySales(sells, q).1) == Held(q.purchases) - SoldQuantity(sells, q)
    ensures GetTotalCostBasis(ReplaySales(sells, q).1) == HeldCost(ReplaySales(sells, q).1.purchases)
  {
    ReplayConservesShares(sells, q);
    ReplayKeepsNonNegative(sells, q);
    HeldIsTotalWhenNonNegative(ReplaySales(sells, q).1.purchases);
  }

  /**
   * The position left for a code: the quantities opened less those of the
   * sales that went through (for a ledger without negative BUY quantities).
   */
  lemma FinalQueueNetShares(txs: seq<Transaction>, code: string)
    requires OpeningQueue(txs, code).Some?
    requires forall t :: t in PositionTxs(txs, code) ==> t.quantity >= 0.0
    ensures GetTotalQuantity(FinalQueue(txs, code).value)
         == Sum(PositionTxs(txs, code), TxQuantity) - SoldQuantity(CodeSells(txs, code), OpeningQueue(txs, code).value)
  {
    OpeningHeld(txs, code);
    ReplayLeavesNetShares(CodeSells(txs, code), OpeningQueue(txs, code).value);
  }

  // ---------------------------------------------------------------------------
  // Aggregating over codes
  // ---------------------------------------------------------------------------

  /** Σ over `codes` of the per-code sum of `f` over the transactions satisfying `p`. */
  function SumOverCodes(txs: seq<Transaction>, codes: seq<string>, p: Transaction -> bool, f: Transaction -> real): real
    decreases |codes|
  {
    if |codes| == 0 then 0.0
    else Sum(Filter(FilterByCode(txs, codes[0]), p), f) + SumOverCodes(txs, codes[1..], p, f)
  }

  /** What one transaction contributes across the per-code sums. */
  function Share(t: Transaction, codes: seq<string>, p: Transaction -> bool, f: Transaction -> real): real
    decreases |codes|
  {
    if |codes| == 0 then 0.0
    else (if t.code == codes[0] && p(t) then f(t) else 0.0) + Share(t, codes[1..], p, f)
  }

  lemma FilterByCodeCons(txs: seq<Transaction>, code: string)
    requires |txs| > 0
    ensures FilterByCode(txs, code) == (if txs[0].code == code then [txs[0]] else []) + FilterByCode(txs[1..], code)
  {
  }

  lemma {:induction false} SumOverCodesCons(txs: seq<Transaction>, codes: seq<string>, p: Transaction -> bool,
                                            f: Transaction -> real)
    requires |txs| > 0
    ensures SumOverCodes(txs, codes, p, f) == Share(txs[0], codes, p, f) + SumOverCodes(txs[1..], codes, p, f)
    decreases |codes|
  {
    if |codes| > 0 {
      SumOverCodesCons(txs, codes[1..], p, f);
      var head := if txs[0].code == codes[0] then [txs[0]] else [];
      FilterByCodeCons(txs, codes[0]);
      FilterConcat(head, FilterByCode(txs[1..], codes[0]), p);
      SumConcat(Filter(head, p), Filter(FilterByCode(txs[1..], codes[0]), p), f);
    }
  }

  lemma {:induction false} SumOverCodesEmpty(codes: seq<string>, p: Transaction -> bool, f: Transaction -> real)
    ensures SumOverCodes([], codes, p, f) == 0.0
    decreases |codes|
  {
    if |codes| > 0 {
      SumOverCodesEmpty(codes[1..], p, f);
    }
  }

  /** With distinct codes, a transaction is counted under its own code only. */
  lemma {:induction false} ShareOnce(t: Transaction, codes: seq<string>, p: Transaction -> bool, f: Transaction -> real)
    requires NoDuplicates(codes)
    ensures Share(t, codes, p, f) == if t.code in codes && p(t) then f(t) else 0.0
    decreases |codes|
  {
    if |codes| > 0 {
      ShareOnce(t, codes[1..], p, f);
      if t.code == codes[0] {
        assert t.code !in codes[1..] by {
          forall j | 0 <= j < |codes[1..]| ensures codes[1..][j] != t.code {
            assert codes[j + 1] != codes[0];
          }
        }
      }
    }
  }

  /**
   * Summing per code over a list of distinct codes that covers every
   * transaction gives the overall sum: nothing is lost or counted twice.
   */
  lemma {:induction false} SumOverCodesIsTotal(txs: seq<Transaction>, codes: seq<string>, p: Transaction -> bool,
                                               f: Transaction -> real)
    requires NoDuplicates(codes)
    requires forall i :: 0 <= i < |txs| ==> txs[i].code in codes
    ensures SumOverCodes(txs, codes, p, f) == Sum(Filter(txs, p), f)
    decreases |txs|
  {
    if |txs| == 0 {
      SumOverCodesEmpty(codes, p, f);
    } else {
      SumOverCodesIsTotal(txs[1..], codes, p, f);
      SumOverCodesCons(txs, codes, p, f);
      ShareOnce(txs[0], codes, p, f);
    }
  }
}

=== FILE: seqs.dfy ===
/**
 * Sequence helpers shared by the whole model: sums of real-valued projections,
 * order-preserving filters, first-occurrence de-duplication, and the stable
 * sort by an integer key that Python's `sorted(..., key=...)` and
 * `list.sort(key=...)` perform.
 */
module Seqs {

  // ---------------------------------------------------------------------------
  // Sums
  // ---------------------------------------------------------------------------

  /** Σ f(x) over the elements of `s`, as Python's `sum(f(x) for x in s)`. */
  function Sum<T>(s: seq<T>, f: T -> real): real
    decreases |s|
  {
    if |s| == 0 then 0.0 else f(s[0]) + Sum(s[1..], f)
  }

  lemma {:induction false} SumConcat<T>(a: seq<T>, b: seq<T>, f: T -> real)
    ensures Sum(a + b, f) == Sum(a, f) + Sum(b, f)
    decreases |a|
  {
    if |a| == 0 {
      assert a + b == b;
    } else {
      assert (a + b)[1..] == a[1..] + b;
      SumConcat(a[1..], b, f);
    }
  }

  lemma SumCons<T>(x: T, s: seq<T>, f: T -> real)
    ensures Sum([x] + s, f) == f(x) + Sum(s, f)
  {
    assert ([x] + s)[1..] == s;
  }

  lemma SumSnoc<T>(a: seq<T>, x: T, f: T -> real)
    ensures Sum(a + [x], f) == Sum(a, f) + f(x)
  {
    SumConcat(a, [x], f);
  }

  /** Sums of non-negative terms are non-negative. */
  lemma {:induction false} SumNonNegative<T>(s: seq<T>, f: T -> real)
    requires forall i :: 0 <= i < |s| ==> f(s[i]) >= 0.0
    ensures Sum(s, f) >= 0.0
    decreases |s|
  {
    if |s| > 0 {
      SumNonNegative(s[1..], f);
    }
  }

  // ---------------------------------------------------------------------------
  // Filters
  // ---------------------------------------------------------------------------

  /** The elements of `s` satisfying `p`, in their original order (a list comprehension with `if`). */
  function Filter<T(!new)>(s: seq<T>, p: T -> bool): (r: seq<T>)
    ensures |r| <= |s|
    ensures forall x :: x in r <==> x in s && p(x)
    decreases |s|
  {
    if |s| == 0 then []
    else if p(s[0]) then [s[0]] + Filter(s[1..], p)
    else Filter(s[1..], p)
  }

  lemma {:induction false} FilterConcat<T(!new)>(a: seq<T>, b: seq<T>, p: T -> bool)
    ensures Filter(a + b, p) == Filter(a, p) + Filter(b, p)
    decreases |a|
  {
    if |a| == 0 {
      assert a + b == b;
    } else {
      assert (a + b)[1..] == a[1..] + b;
      FilterConcat(a[1..], b, p);
    }
  }

  /** An element the predicate rejects can be inserted anywhere without changing the filter. */
  lemma {:induction false} FilterSkipsRejected<T(!new)>(s: seq<T>, i: nat, x: T, p: T -> bool)
    requires i <= |s| && !p(x)
    ensures Filter(s[..i] + [x] + s[i..], p) == Filter(s, p)
  {
    var a, b := s[..i], s[i..];
    FilterConcat(a, [x], p);
    assert [x][1..] == [];
    assert Filter(a + [x], p) == Filter(a, p) by {
      assert Filter([x], p) == [];
      assert Filter(a, p) + [] == Filter(a, p);
    }
    FilterConcat(a + [x], b, p);
    FilterConcat(a, b, p);
    assert a + b == s;
  }

  /** Filtering with a predicate that every element meets changes nothing. */
  lemma {:induction false} FilterAll<T(!new)>(s: seq<T>, p: T -> bool)
    requires forall i :: 0 <= i < |s| ==> p(s[i])
    ensures Filter(s, p) == s
    decreases |s|
  {
    if |s| > 0 {
      FilterAll(s[1..], p);
    }
  }

  lemma FilterCons<T(!new)>(x: T, s: seq<T>, p: T -> bool)
    ensures Filter([x] + s, p) == (if p(x) then [x] else []) + Filter(s, p)
  {
    assert ([x] + s)[0] == x && ([x] + s)[1..] == s;
  }

  /** The filter keeps every copy of an element it accepts and none of one it rejects. */
  lemma {:induction false} FilterMultiplicity<T(!new)>(s: seq<T>, p: T -> bool)
    ensures forall x :: multiset(Filter(s, p))[x] == if p(x) then multiset(s)[x] else 0
    decreases |s|
  {
    if |s| > 0 {
      FilterMultiplicity(s[1..], p);
      assert s == [s[0]] + s[1..];
    }
  }

  /** `[f(x) for x in s]`. */
  function Map<T, U>(s: seq<T>, f: T -> U): (r: seq<U>)
    ensures |r| == |s|
    ensures forall i :: 0 <= i < |s| ==> r[i] == f(s[i])
    decreases |s|
  {
    if |s| == 0 then [] else [f(s[0])] + Map(s[1..], f)
  }

  lemma PrependEmpty<T>(s: seq<T>)
    ensures [] + s == s
  {
  }

  lemma AppendAssoc<T>(a: seq<T>, b: seq<T>, c: seq<T>)
    ensures a + (b + c) == (a + b) + c
  {
  }

  /** Moving the head of `s` onto the end of `a`. */
  lemma AppendHead<T>(a: seq<T>, s: seq<T>)
    requires |s| > 0
    ensures (a + [s[0]]) + s[1..] == a + s
  {
    assert s == [s[0]] + s[1..];
  }

  lemma MapCons<T, U>(x: T, s: seq<T>, f: T -> U)
    ensures Map([x] + s, f) == [f(x)] + Map(s, f)
  {
    assert ([x] + s)[1..] == s;
  }

  /**
   * `a` is obtained from `b` by deleting elements (greedy matching from the
   * front decides this exactly).
   */
  predicate IsSubsequence<T(==)>(a: seq<T>, b: seq<T>)
    decreases |b|
  {
    if |a| == 0 then true
    else if |b| == 0 then false
    else if a[0] == b[0] then IsSubsequence(a[1..], b[1..])
    else IsSubsequence(a, b[1..])
  }

  /** A filter keeps an order-preserving selection of its input. */
  lemma {:induction false} FilterIsSubsequence<T(!new)>(s: seq<T>, p: T -> bool)
    ensures IsSubsequence(Filter(s, p), s)
    decreases |s|
  {
    if |s| > 0 {
      FilterIsSubsequence(s[1..], p);
    }
  }

  /** Putting an element in front of the larger list keeps a subsequence one. */
  lemma {:induction false} SubsequenceCons<T>(a: seq<T>, x: T, b: seq<T>)
    requires IsSubsequence(a, b)
    ensures IsSubsequence(a, [x] + b)
    decreases |b|, 1
  {
    assert ([x] + b)[1..] == b;
    if |a| > 0 && a[0] == x {
      SubsequenceTail(a, b);
    }
  }

  /** Dropping the first element of a subsequence leaves a subsequence. */
  lemma {:induction false} SubsequenceTail<T>(a: seq<T>, b: seq<T>)
    requires |a| > 0 && IsSubsequence(a, b)
    ensures IsSubsequence(a[1..], b)
    decreases |b|, 0
  {
    if a[0] == b[0] {
      SubsequenceCons(a[1..], b[0], b[1..]);
    } else {
      SubsequenceTail(a, b[1..]);
      SubsequenceCons(a[1..], b[0], b[1..]);
    }
    assert [b[0]] + b[1..] == b;
  }

  /** Number of elements of `s` satisfying `p`. */
  function Count<T>(s: seq<T>, p: T -> bool): nat
    decreases |s|
  {
    if |s| == 0 then 0 else (if p(s[0]) then 1 else 0) + Count(s[1..], p)
  }

  lemma {:induction false} CountIsFilterLength<T(!new)>(s: seq<T>, p: T -> bool)
    ensures Count(s, p) == |Filter(s, p)|
    decreases |s|
  {
    if |s| > 0 {
      CountIsFilterLength(s[1..], p);
    }
  }

  /** The lists of `ls` joined in order (`list.extend` in a loop). */
  function Flatten<T>(ls: seq<seq<T>>): seq<T>
    decreases |ls|
  {
    if |ls| == 0 then [] else Flatten(ls[..|ls| - 1]) + ls[|ls| - 1]
  }

  /** A joined list is empty exactly when every part is. */
  lemma {:induction false} FlattenEmpty<T>(ls: seq<seq<T>>)
    ensures |Flatten(ls)| == 0 <==> forall i :: 0 <= i < |ls| ==> |ls[i]| == 0
    decreases |ls|
  {
    if |ls| > 0 {
      var init := ls[..|ls| - 1];
      FlattenEmpty(init);
      assert forall i :: 0 <= i < |init| ==> init[i] == ls[i];
    }
  }

  /** Every element meets `p`, checked head first. */
  predicate Every<T>(s: seq<T>, p: T -> bool)
    decreases |s|
  {
    |s| == 0 || (p(s[0]) && Every(s[1..], p))
  }

  lemma {:induction false} EveryEach<T>(s: seq<T>, p: T -> bool)
    requires Every(s, p)
    ensures forall i :: 0 <= i < |s| ==> p(s[i])
    decreases |s|
  {
    if |s| > 0 {
      EveryEach(s[1..], p);
      forall i | 1 <= i < |s| ensures p(s[i]) {
        assert s[i] == s[1..][i - 1];
      }
    }
  }

  // ---------------------------------------------------------------------------
  // Distinct elements in first-occurrence order
  // ---------------------------------------------------------------------------

  predicate NoDuplicates<T(==)>(s: seq<T>) {
    forall i, j :: 0 <= i < j < |s| ==> s[i] != s[j]
  }

  lemma NoDuplicatesCons<T>(x: T, s: seq<T>)
    requires NoDuplicates(s) && x !in s
    ensures NoDuplicates([x] + s)
  {
    var r := [x] + s;
    forall i, j | 0 <= i < j < |r| ensures r[i] != r[j] {
      assert r[j] == s[j - 1];
      if i > 0 {
        assert r[i] == s[i - 1];
      }
    }
  }

  /** The tail of a sequence without repeats has none either, and lacks the head. */
  lemma NoDuplicatesTail<T>(s: seq<T>)
    requires |s| > 0 && NoDuplicates(s)
    ensures NoDuplicates(s[1..]) && s[0] !in s[1..]
  {
    forall i, j | 0 <= i < j < |s[1..]| ensures s[1..][i] != s[1..][j] {
      assert s[i + 1] != s[j + 1];
    }
    forall j | 0 <= j < |s[1..]| ensures s[1..][j] != s[0] {
      assert s[0] != s[j + 1];
    }
  }

  /**
   * The distinct elements of `s` in the order of their first occurrence. The
   * source iterates Python sets of codes; this fixes one iteration order.
   */
  function Distinct<T(==,!new)>(s: seq<T>): (r: seq<T>)
    ensures NoDuplicates(r)
    ensures forall x :: x in r <==> x in s
    ensures |r| <= |s|
    decreases |s|
  {
    if |s| == 0 then []
    else
      var d := Distinct(s[..|s| - 1]);
      assert forall x :: x in s <==> x in s[..|s| - 1] || x == s[|s| - 1] by {
        assert s == s[..|s| - 1] + [s[|s| - 1]];
      }
      if s[|s| - 1] in d then d else d + [s[|s| - 1]]
  }

  // ---------------------------------------------------------------------------
  // Stable sort by an integer key
  // ---------------------------------------------------------------------------

  predicate SortedBy<T>(s: seq<T>, key: T -> int) {
    forall i, j :: 0 <= i < j < |s| ==> key(s[i]) <= key(s[j])
  }

  /** The elements of `s` whose key is `k`, in order. Stability is stated with it. */
  function WithKey<T>(s: seq<T>, key: T -> int, k: int): seq<T>
    decreases |s|
  {
    if |s| == 0 then []
    else if key(s[|s| - 1]) == k then WithKey(s[..|s| - 1], key, k) + [s[|s| - 1]]
    else WithKey(s[..|s| - 1], key, k)
  }

  /** Inserts `x` after every element whose key is at most `x`'s. */
  function Insert<T>(x: T, s: seq<T>, key: T -> int): (r: seq<T>)
    ensures |r| == |s| + 1
    decreases |s|
  {
    if |s| == 0 || key(s[|s| - 1]) <= key(x) then s + [x]
    else Insert(x, s[..|s| - 1], key) + [s[|s| - 1]]
  }

  /**
   * Python's stable `sorted(s, key=key)`: elements are taken left to right and
   * each is inserted after all earlier elements with a key no greater than its own.
   */
  function SortBy<T>(s: seq<T>, key: T -> int): (r: seq<T>)
    ensures |r| == |s|
    decreases |s|
  {
    if |s| == 0 then [] else Insert(s[|s| - 1], SortBy(s[..|s| - 1], key), key)
  }

  lemma {:induction false} InsertBounded<T>(x: T, s: seq<T>, key: T -> int, b: int)
    requires key(x) <= b
    requires forall i :: 0 <= i < |s| ==> key(s[i]) <= b
    ensures forall i :: 0 <= i < |s| + 1 ==> key(Insert(x, s, key)[i]) <= b
    decreases |s|
  {
    if |s| > 0 && key(s[|s| - 1]) > key(x) {
      InsertBounded(x, s[..|s| - 1], key, b);
    }
  }

  lemma {:induction false} InsertSorted<T>(x: T, s: seq<T>, key: T -> int)
    requires SortedBy(s, key)
    ensures SortedBy(Insert(x, s, key), key)
    decreases |s|
  {
    if |s| > 0 && key(s[|s| - 1]) > key(x) {
      var init := s[..|s| - 1];
      InsertSorted(x, init, key);
      InsertBounded(x, init, key, key(s[|s| - 1]));
    }
  }

  lemma {:induction false} InsertMultiset<T>(x: T, s: seq<T>, key: T -> int)
    ensures multiset(Insert(x, s, key)) == multiset(s) + multiset{x}
    decreases |s|
  {
    if |s| > 0 && key(s[|s| - 1]) > key(x) {
      var init := s[..|s| - 1];
      InsertMultiset(x, init, key);
      assert s == init + [s[|s| - 1]];
    }
  }

  /** `SortBy` orders by key and is a permutation. */
  lemma {:induction false} SortByIsSortedPermutation<T>(s: seq<T>, key: T -> int)
    ensures SortedBy(SortBy(s, key), key)
    ensures multiset(SortBy(s, key)) == multiset(s)
    decreases |s|
  {
    if |s| > 0 {
      var init := s[..|s| - 1];
      SortByIsSortedPermutation(init, key);
      InsertSorted(s[|s| - 1], SortBy(init, key), key);
      InsertMultiset(s[|s| - 1], SortBy(init, key), key);
      assert s == init + [s[|s| - 1]];
    }
  }

  lemma {:induction false} WithKeySnoc<T>(s: seq<T>, x: T, key: T -> int, k: int)
    ensures WithKey(s + [x], key, k) == WithKey(s, key, k) + (if key(x) == k then [x] else [])
  {
    assert (s + [x])[..|s + [x]| - 1] == s;
  }

  lemma {:induction false} InsertWithKey<T>(x: T, s: seq<T>, key: T -> int, k: int)
    requires SortedBy(s, key)
    ensures WithKey(Insert(x, s, key), key, k)
         == WithKey(s, key, k) + (if key(x) == k then [x] else [])
    decreases |s|
  {
    if |s| == 0 || key(s[|s| - 1]) <= key(x) {
      WithKeySnoc(s, x, key, k);
    } else {
      var init := s[..|s| - 1];
      var last := s[|s| - 1];
      InsertWithKey(x, init, key, k);
      WithKeySnoc(Insert(x, init, key), last, key, k);
    }
  }

  /**
   * Stability: for every key value, the elements carrying it appear in the
   * result in the same relative order as in the input.
   */
  lemma {:induction false} SortByStable<T>(s: seq<T>, key: T -> int, k: int)
    ensures WithKey(SortBy(s, key), key, k) == WithKey(s, key, k)
    decreases |s|
  {
    if |s| > 0 {
      var init := s[..|s| - 1];
      SortByStable(init, key, k);
      SortByIsSortedPermutation(init, key);
      InsertWithKey(s[|s| - 1], SortBy(init, key), key, k);
    }
  }

  /** Sorting an already sorted sequence leaves it as it is. */
  lemma {:induction false} SortByOfSorted<T>(s: seq<T>, key: T -> int)
    requires SortedBy(s, key)
    ensures SortBy(s, key) == s
    decreases |s|
  {
    if |s| > 0 {
      var init := s[..|s| - 1];
      assert SortedBy(init, key);
      SortByOfSorted(init, key);
      assert s == init + [s[|s| - 1]];
    }
  }

  /** Appending an element whose key is at least every earlier key keeps the sort order unchanged. */
  lemma SortBySnocMax<T>(s: seq<T>, x: T, key: T -> int)
    requires SortedBy(s, key)
    requires forall i :: 0 <= i < |s| ==> key(s[i]) <= key(x)
    ensures SortBy(s + [x], key) == s + [x]
  {
    var t := s + [x];
    assert t[..|t| - 1] == s && t[|t| - 1] == x;
    SortByOfSorted(s, key);
    assert |s| > 0 ==> key(s[|s| - 1]) <= key(x);
  }

  /** The first element of a sorted non-empty sequence has the least key. */
  lemma SortedFirstIsMin<T>(s: seq<T>, key: T -> int)
    requires SortedBy(s, key) && |s| > 0
    ensures forall i :: 0 <= i < |s| ==> key(s[0]) <= key(s[i])
  {
  }
  /** Inserting an element adds its term to the sum. */
  lemma {:induction false} SumInsert<T>(x: T, s: seq<T>, key: T -> int, f: T -> real)
    ensures Sum(Insert(x, s, key), f) == Sum(s, f) + f(x)
    decreases |s|
  {
    if |s| == 0 || key(s[|s| - 1]) <= key(x) {
      SumSnoc(s, x, f);
    } else {
      var init := s[..|s| - 1];
      var last := s[|s| - 1];
      SumInsert(x, init, key, f);
      SumSnoc(Insert(x, init, key), last, f);
      SumSnoc(init, last, f);
      assert s == init + [last];
    }
  }

  /** Sorting does not change a sum. */
  lemma {:induction false} SumSortBy<T>(s: seq<T>, key: T -> int, f: T -> real)
    ensures Sum(SortBy(s, key), f) == Sum(s, f)
    decreases |s|
  {
    if |s| > 0 {
      var init := s[..|s| - 1];
      SumSortBy(init, key, f);
      SumInsert(s[|s| - 1], SortBy(init, key), key, f);
      SumSnoc(init, s[|s| - 1], f);
      assert s == init + [s[|s| - 1]];
    }
  }

  /** Sorting the front part first does not change the result of a stable sort. */
  lemma {:induction false} SortBySortedPrefix<T>(a: seq<T>, b: seq<T>, key: T -> int)
    ensures SortBy(SortBy(a, key) + b, key) == SortBy(a + b, key)
    decreases |b|
  {
    if |b| == 0 {
      SortByIsSortedPermutation(a, key);
      SortByOfSorted(SortBy(a, key), key);
      assert SortBy(a, key) + b == SortBy(a, key);
      assert a + b == a;
    } else {
      var init := b[..|b| - 1];
      var last := b[|b| - 1];
      SortBySortedPrefix(a, init, key);
      assert SortBy(a, key) + b == (SortBy(a, key) + init) + [last];
      assert a + b == (a + init) + [last];
    }
  }

  /** A filter of a sorted sequence is sorted. */
  lemma {:induction false} FilterSortedBy<T(!new)>(s: seq<T>, p: T -> bool, key: T -> int)
    requires SortedBy(s, key)
    ensures SortedBy(Filter(s, p), key)
    decreases |s|
  {
    if |s| > 0 {
      FilterSortedBy(s[1..], p, key);
      var f := Filter(s[1..], p);
      if p(s[0]) {
        forall j | 0 <= j < |f| ensures key(s[0]) <= key(f[j]) {
          assert f[j] in s[1..];
        }
        assert forall j :: 1 <= j < |[s[0]] + f| ==> ([s[0]] + f)[j] == f[j - 1];
      }
    }
  }
}

=== FILE: stock_client.dfy ===
/**
 * The exchange-suffixed form of a stock code that the Tushare service
 * expects (`_convert_to_tushare_code` in market/stock_client.py): the
 * code padded to six characters, then ".SH", ".SZ" or ".BJ" chosen by
 * its first character.
 */
module StockClient {
  import Text

  datatype Exchange = Shanghai | Shenzhen | Beijing

  function Suffix(e: Exchange): (r: string)
    ensures |r| == 3
  {
    match e
    case Shanghai => ".SH"
    case Shenzhen => ".SZ"
    case Beijing => ".BJ"
  }

  /**
   * The exchange of a padded code: "6" is Shanghai; "0", "3" and "2" are
   * Shenzhen; "8" and "4" are Beijing; anything else falls back to
   * Shenzhen.
   */
  function ExchangeOf(padded: string): (e: Exchange)
    ensures e == Shanghai <==> Text.StartsWithAnyChar(padded, {'6'})
    ensures e == Beijing <==> Text.StartsWithAnyChar(padded, {'8', '4'})
  {
    if Text.StartsWithAnyChar(padded, {'6'}) then Shanghai
    else if Text.StartsWithAnyChar(padded, {'0', '3', '2'}) then Shenzhen
    else if Text.StartsWithAnyChar(padded, {'8', '4'}) then Beijing
    else Shenzhen
  }

  /** `_convert_to_tushare_code`. */
  function ConvertToTushareCode(code: string): (r: string)
    ensures |r| == (if |code| >= Text.CodeWidth then |code| else Text.CodeWidth) + 3
    ensures r[..|r| - 3] == Text.ZFill(code, Text.CodeWidth)
    ensures r[|r| - 3..] == Suffix(ExchangeOf(Text.ZFill(code, Text.CodeWidth)))
  {
    var padded := Text.ZFill(code, Text.CodeWidth);
    Text.ZFillLength(code, Text.CodeWidth);
    var r := padded + Suffix(ExchangeOf(padded));
    assert r[..|r| - 3] == padded;
    r
  }

  /** The inverse: dropping the suffix gives back the padded code, and the suffix names its exchange. */
  function SplitTushareCode(tsCode: string): (r: (string, string))
    requires |tsCode| >= 3
    ensures r.0 + r.1 == tsCode && |r.1| == 3
  {
    (tsCode[..|tsCode| - 3], tsCode[|tsCode| - 3..])
  }

  lemma SplitRecoversCode(code: string)
    ensures SplitTushareCode(ConvertToTushareCode(code)).0 == Text.ZFill(code, Text.CodeWidth)
    ensures SplitTushareCode(ConvertToTushareCode(code)).1 == Suffix(ExchangeOf(Text.ZFill(code, Text.CodeWidth)))
  {
  }

  /** Distinct exchanges have distinct suffixes. */
  lemma SuffixInjective(a: Exchange, b: Exchange)
    ensures Suffix(a) == Suffix(b) <==> a == b
  {
    if a != b {
      assert Suffix(a)[1..] != Suffix(b)[1..] by {
        assert Suffix(a)[1] != Suffix(b)[1] || Suffix(a)[2] != Suffix(b)[2];
      }
    }
  }

  /** A six-digit code is kept as it is and only gains a suffix. */
  lemma SixDigitCodeKept(code: string)
    requires |code| == Text.CodeWidth && Text.IsDigits(code)
    ensures ConvertToTushareCode(code) == code + Suffix(ExchangeOf(code))
  {
  }

  /**
   * Padding decides the exchange of short codes: a code of fewer than six
   * characters without a sign gains leading zeros and so lands on
   * Shenzhen, whatever its own first character.
   */
  lemma ShortCodeIsShenzhen(code: string)
    requires |code| < Text.CodeWidth
    requires |code| == 0 || (code[0] != '+' && code[0] != '-')
    ensures ConvertToTushareCode(code)[|ConvertToTushareCode(code)| - 3..] == ".SZ"
  {
    Text.ZFillUnsigned(code, Text.CodeWidth);
    var padded := Text.ZFill(code, Text.CodeWidth);
    assert padded[0] == '0';
  }

  /** "600000" is a Shanghai code; "1" pads to the Shenzhen code "000001". */
  lemma ConversionExamples()
    ensures ConvertToTushareCode("600000") == "600000.SH"
    ensures ConvertToTushareCode("1") == "000001.SZ"
    ensures ConvertToTushareCode("430047") == "430047.BJ"
  {
    assert Text.ZFill("1", Text.CodeWidth) == "000001" by {
      Text.ZFillUnsigned("1", Text.CodeWidth);
      assert Text.Zeros(5) == "00000";
    }
  }
}

=== FILE: text.dfy ===
/**
 * The string operations the source relies on: `str.isdigit`, `str.isalpha`,
 * `str.startswith`, `str.zfill`, decimal rendering of integers and Python's
 * lexicographic string order. Characters are restricted to ASCII here:
 * Python's `isdigit`/`isalpha` also accept other Unicode digits and letters.
 */
module Text {

  /** The width a stock code is zero-padded to (`code.zfill(6)`). */
  const CodeWidth: nat := 6

  predicate IsDigitChar(c: char) {
    '0' <= c <= '9'
  }

  predicate IsAlphaChar(c: char) {
    ('a' <= c <= 'z') || ('A' <= c <= 'Z')
  }

  /** Python's `s.isdigit()`: non-empty and every character a digit. */
  predicate IsDigits(s: string) {
    |s| > 0 && forall i :: 0 <= i < |s| ==> IsDigitChar(s[i])
  }

  /** Python's `s.isalpha()`: non-empty and every character a letter. */
  predicate IsAlpha(s: string) {
    |s| > 0 && forall i :: 0 <= i < |s| ==> IsAlphaChar(s[i])
  }

  predicate StartsWith(s: string, prefix: string) {
    |prefix| <= |s| && s[..|prefix|] == prefix
  }

  /** `s` starts with one of the single characters in `firsts` (`s.startswith(("5", "1"))`). */
  predicate StartsWithAnyChar(s: string, firsts: set<char>) {
    |s| > 0 && s[0] in firsts
  }

  function Zeros(n: nat): (r: string)
    ensures |r| == n
    ensures forall i :: 0 <= i < n ==> r[i] == '0'
  {
    if n == 0 then "" else "0" + Zeros(n - 1)
  }

  /**
   * Python's `s.zfill(width)`: left-pads with '0' to `width` characters; a
   * leading '+' or '-' stays in front of the padding.
   */
  function ZFill(s: string, width: nat): string {
    if |s| >= width then s
    else if |s| > 0 && (s[0] == '+' || s[0] == '-') then [s[0]] + Zeros(width - |s|) + s[1..]
    else Zeros(width - |s|) + s
  }

  lemma ZFillLength(s: string, width: nat)
    ensures |ZFill(s, width)| == if |s| >= width then |s| else width
  {
  }

  /** Without a sign, `zfill` only prepends zeros: the original string is the suffix. */
  lemma ZFillUnsigned(s: string, width: nat)
    requires |s| == 0 || (s[0] != '+' && s[0] != '-')
    ensures ZFill(s, width) == Zeros(if |s| >= width then 0 else width - |s|) + s
  {
  }

  function DigitChar(d: nat): char
    requires d < 10
  {
    "0123456789"[d]
  }

  /** Decimal rendering of a natural number, as Python's `str(n)`. */
  function NatToString(n: nat): (r: string)
    ensures |r| > 0
    ensures forall i :: 0 <= i < |r| ==> IsDigitChar(r[i])
    decreases n
  {
    if n < 10 then [DigitChar(n)] else NatToString(n / 10) + [DigitChar(n % 10)]
  }

  /** Python's `<` on strings: lexicographic by code point, a proper prefix first. */
  predicate LexLess(a: string, b: string)
    decreases |a|
  {
    if |a| == 0 then |b| > 0
    else if |b| == 0 then false
    else if a[0] != b[0] then a[0] < b[0]
    else LexLess(a[1..], b[1..])
  }

  predicate LexLessEq(a: string, b: string) {
    a == b || LexLess(a, b)
  }

  lemma {:induction false} LexLessIrreflexive(a: string)
    ensures !LexLess(a, a)
    decreases |a|
  {
    if |a| > 0 {
      LexLessIrreflexive(a[1..]);
    }
  }

  lemma {:induction false} LexLessTransitive(a: string, b: string, c: string)
    requires LexLess(a, b) && LexLess(b, c)
    ensures LexLess(a, c)
    decreases |a|
  {
    if |a| > 0 && |b| > 0 && |c| > 0 && a[0] == b[0] && b[0] == c[0] {
      LexLessTransitive(a[1..], b[1..], c[1..]);
    }
  }

  lemma {:induction false} LexLessTotal(a: string, b: string)
    ensures a == b || LexLess(a, b) || LexLess(b, a)
    decreases |a|
  {
    if |a| > 0 && |b| > 0 && a[0] == b[0] {
      LexLessTotal(a[1..], b[1..]);
      if a[1..] == b[1..] {
        assert a == [a[0]] + a[1..] && b == [b[0]] + b[1..];
      }
    }
  }

  predicate StringsSorted(s: seq<string>) {
    forall i, j :: 0 <= i < j < |s| ==> LexLessEq(s[i], s[j])
  }

  function InsertString(x: string, s: seq<string>): (r: seq<string>)
    decreases |s|
  {
    if |s| == 0 || LexLessEq(s[|s| - 1], x) then s + [x]
    else InsertString(x, s[..|s| - 1]) + [s[|s| - 1]]
  }

  /** Python's `list.sort()` on a list of strings. */
  function SortStrings(s: seq<string>): (r: seq<string>)
    decreases |s|
  {
    if |s| == 0 then [] else InsertString(s[|s| - 1], SortStrings(s[..|s| - 1]))
  }

  lemma {:induction false} InsertStringBounded(x: string, s: seq<string>, b: string)
    requires LexLessEq(x, b)
    requires forall i :: 0 <= i < |s| ==> LexLessEq(s[i], b)
    ensures forall y :: y in InsertString(x, s) ==> LexLessEq(y, b)
    decreases |s|
  {
    if |s| > 0 && !LexLessEq(s[|s| - 1], x) {
      InsertStringBounded(x, s[..|s| - 1], b);
    }
  }

  /** Appending a string no smaller than any in a sorted list keeps it sorted. */
  lemma AppendMaxKeepsSorted(r: seq<string>, last: string)
    requires StringsSorted(r)
    requires forall y :: y in r ==> LexLessEq(y, last)
    ensures StringsSorted(r + [last])
  {
    var t := r + [last];
    forall i, j | 0 <= i < j < |t| ensures LexLessEq(t[i], t[j]) {
      assert t[i] == r[i];
      if j == |r| {
        assert r[i] in r;
      } else {
        assert t[j] == r[j];
      }
    }
  }

  lemma {:induction false} InsertStringSorted(x: string, s: seq<string>)
    requires StringsSorted(s)
    ensures StringsSorted(InsertString(x, s))
    decreases |s|
  {
    if |s| > 0 && !LexLessEq(s[|s| - 1], x) {
      var init := s[..|s| - 1];
      var last := s[|s| - 1];
      InsertStringSorted(x, init);
      LexLessTotal(x, last);
      forall i | 0 <= i < |init|
        ensures LexLessEq(init[i], last)
      {
        assert s[i] == init[i];
      }
      InsertStringBounded(x, init, last);
      AppendMaxKeepsSorted(InsertString(x, init), last);
    } else if |s| > 0 {
      var last := s[|s| - 1];
      forall i | 0 <= i < |s|
        ensures LexLessEq(s[i], x)
      {
        if i < |s| - 1 && LexLess(s[i], last) && LexLess(last, x) {
          LexLessTransitive(s[i], last, x);
        }
      }
    }
  }

  lemma {:induction false} InsertStringMultiset(x: string, s: seq<string>)
    ensures multiset(InsertString(x, s)) == multiset(s) + multiset{x}
    decreases |s|
  {
    if |s| > 0 && !LexLessEq(s[|s| - 1], x) {
      var init := s[..|s| - 1];
      InsertStringMultiset(x, init);
      assert s == init + [s[|s| - 1]];
    }
  }

  /** `SortStrings` yields the same strings in ascending lexicographic order. */
  lemma {:induction false} SortStringsCorrect(s: seq<string>)
    ensures StringsSorted(SortStrings(s))
    ensures multiset(SortStrings(s)) == multiset(s)
    decreases |s|
  {
    if |s| > 0 {
      var init := s[..|s| - 1];
      SortStringsCorrect(init);
      InsertStringSorted(s[|s| - 1], SortStrings(init));
      InsertStringMultiset(s[|s| - 1], SortStrings(init));
      assert s == init + [s[|s| - 1]];
    }
  }
}

=== FILE: trading_days.dfy ===
/**
 * The Chinese trading calendar (market/trading_days.py): a trading day is
 * a weekday that is not a public holiday; bounded searches backwards and
 * forwards for one, the trading days of a span, a year and a month, and
 * the first and last trading day searched for around a year's ends.
 *
 * The holiday table is a parameter: a predicate telling whether a date is
 * a holiday.
 */
module TradingDays {
  import Dates

  type Holidays = Dates.Date -> bool

  /** How far the searches look when the caller gives no bound. */
  const DefaultSearchDays: int := 5

  /** Saturday and Sunday (`weekday() >= 5`). */
  predicate IsWeekend(d: Dates.Date) {
    Dates.Weekday(d) >= 5
  }

  /** `is_trading_day`: neither a weekend day nor a holiday. */
  predicate IsTradingDay(holidays: Holidays, d: Dates.Date) {
    if IsWeekend(d) then false
    else if holidays(d) then false
    else true
  }

  /** No trading day in `lo`..`hi` (inclusive; vacuous when `lo > hi`). */
  predicate NoTradingDayIn(holidays: Holidays, lo: Dates.Date, hi: Dates.Date) {
    forall d :: lo <= d <= hi ==> !IsTradingDay(holidays, d)
  }

  /** The number of iterations of `range(n)`. */
  function Iterations(n: int): nat {
    if n > 0 then n else 0
  }

  lemma WeekdayNext(d: Dates.Date)
    ensures Dates.Weekday(d + 1) == if Dates.Weekday(d) == 6 then 0 else Dates.Weekday(d) + 1
  {
  }

  /** Of any three consecutive days at least one is a weekday. */
  lemma WeekdayAmongThree(d: Dates.Date)
    ensures !IsWeekend(d) || !IsWeekend(d + 1) || !IsWeekend(d + 2)
  {
    WeekdayNext(d);
    WeekdayNext(d + 1);
  }

  /** Three consecutive days without a holiday hold a trading day. */
  lemma TradingDayAmongThree(holidays: Holidays, d: Dates.Date)
    ensures (forall x :: d <= x <= d + 2 ==> !holidays(x)) ==>
              IsTradingDay(holidays, d) || IsTradingDay(holidays, d + 1) || IsTradingDay(holidays, d + 2)
  {
    WeekdayAmongThree(d);
  }

  /**
   * `get_previous_trading_day`: the latest trading day among the
   * `maxDaysBack` days before `target`; when there is none, the day
   * before the last one looked at.
   */
  method GetPreviousTradingDay(holidays: Holidays, target: Dates.Date, maxDaysBack: int) returns (r: Dates.Date)
    ensures var n := Iterations(maxDaysBack);
            || (IsTradingDay(holidays, r) && target - n <= r < target && NoTradingDayIn(holidays, r + 1, target - 1))
            || (r == target - n - 1 && NoTradingDayIn(holidays, target - n, target - 1))
    ensures maxDaysBack >= 3 && (forall d :: target - 3 <= d < target ==> !holidays(d)) ==> IsTradingDay(holidays, r)
  {
    var n := Iterations(maxDaysBack);
    r := target - 1;
    for i := 0 to n
      invariant r == target - 1 - i
      invariant NoTradingDayIn(holidays, r + 1, target - 1)
    {
      if IsTradingDay(holidays, r) {
        return;
      }
      r := r - 1;
    }
    TradingDayAmongThree(holidays, target - 3);
  }

  /**
   * `get_next_trading_day`: the earliest trading day among the
   * `maxDaysForward` days after `target`; when there is none, the day
   * after the last one looked at.
   */
  method GetNextTradingDay(holidays: Holidays, target: Dates.Date, maxDaysForward: int) returns (r: Dates.Date)
    ensures var n := Iterations(maxDaysForward);
            || (IsTradingDay(holidays, r) && target < r <= target + n && NoTradingDayIn(holidays, target + 1, r - 1))
            || (r == target + n + 1 && NoTradingDayIn(holidays, target + 1, target + n))
    ensures maxDaysForward >= 3 && (forall d :: target < d <= target + 3 ==> !holidays(d)) ==> IsTradingDay(holidays, r)
  {
    var n := Iterations(maxDaysForward);
    r := target + 1;
    for i := 0 to n
      invariant r == target + 1 + i
      invariant NoTradingDayIn(holidays, target + 1, r - 1)
    {
      if IsTradingDay(holidays, r) {
        return;
      }
      r := r + 1;
    }
    TradingDayAmongThree(holidays, target + 1);
  }

  /**
   * `get_nearest_trading_day`: `target` itself when it trades, otherwise
   * the previous or the next trading day (five-day searches) as preferred.
   */
  method GetNearestTradingDay(holidays: Holidays, target: Dates.Date, preferBackward: bool) returns (r: Dates.Date)
    ensures IsTradingDay(holidays, target) ==> r == target
    ensures !IsTradingDay(holidays, target) && preferBackward ==>
              target - DefaultSearchDays - 1 <= r < target && NoTradingDayIn(holidays, r + 1, target - 1)
              && (IsTradingDay(holidays, r) || r == target - DefaultSearchDays - 1)
    ensures !IsTradingDay(holidays, target) && !preferBackward ==>
              target < r <= target + DefaultSearchDays + 1 && NoTradingDayIn(holidays, target + 1, r - 1)
              && (IsTradingDay(holidays, r) || r == target + DefaultSearchDays + 1)
  {
    if IsTradingDay(holidays, target) {
      return target;
    }
    if preferBackward {
      r := GetPreviousTradingDay(holidays, target, DefaultSearchDays);
    } else {
      r := GetNextTradingDay(holidays, target, DefaultSearchDays);
    }
  }

  /** The trading days of `start`..`end` in ascending order. */
  function TradingDatesBetween(holidays: Holidays, start: Dates.Date, end: Dates.Date): (r: seq<Dates.Date>)
    ensures forall i :: 0 <= i < |r| ==> start <= r[i] <= end && IsTradingDay(holidays, r[i])
    ensures forall i, j :: 0 <= i < j < |r| ==> r[i] < r[j]
    ensures forall d :: start <= d <= end && IsTradingDay(holidays, d) ==> d in r
    ensures |r| <= if end < start then 0 else end - start + 1
    decreases end - start
  {
    if end < start then []
    else TradingDatesBetween(holidays, start, end - 1) + (if IsTradingDay(holidays, end) then [end] else [])
  }

  /**
   * `get_trading_dates_between`: walks the days from `start` to `end`
   * collecting the trading days; empty when `start > end`.
   */
  method GetTradingDatesBetween(holidays: Holidays, start: Dates.Date, end: Dates.Date) returns (r: seq<Dates.Date>)
    ensures r == TradingDatesBetween(holidays, start, end)
    ensures forall d :: d in r <==> start <= d <= end && IsTradingDay(holidays, d)
    ensures start > end ==> r == []
  {
    r := [];
    var current := start;
    while current <= end
      invariant start <= current <= end + 1 || (current == start && start > end)
      invariant r == TradingDatesBetween(holidays, start, current - 1)
      decreases end - current
    {
      if IsTradingDay(holidays, current) {
        r := r + [current];
      }
      current := current + 1;
    }
    assert current - 1 == end || start > end;
  }

  /** `count_trading_days_between`: the number of trading days of `start`..`end`. */
  method CountTradingDaysBetween(holidays: Holidays, start: Dates.Date, end: Dates.Date) returns (r: nat)
    ensures r == |TradingDatesBetween(holidays, start, end)|
    ensures r <= if end < start then 0 else end - start + 1
  {
    var dates := GetTradingDatesBetween(holidays, start, end);
    r := |dates|;
  }

  lemma CountStep(holidays: Holidays, start: Dates.Date, end: Dates.Date)
    requires start <= end
    ensures |TradingDatesBetween(holidays, start, end)|
         == |TradingDatesBetween(holidays, start, end - 1)| + (if IsTradingDay(holidays, end) then 1 else 0)
  {
  }

  /** The weekday `j` days after `d`. */
  lemma WeekdayShift(d: Dates.Date, j: int)
    ensures Dates.Weekday(d + j) == (Dates.Weekday(d) + j) % 7
  {
  }

  function Indicator(b: bool): nat {
    if b then 1 else 0
  }

  /** The number of trading days of `start`..`end`, counted one day at a time. */
  function CountBetween(holidays: Holidays, start: Dates.Date, end: Dates.Date): nat
    decreases end - start
  {
    if end < start then 0 else CountBetween(holidays, start, end - 1) + Indicator(IsTradingDay(holidays, end))
  }

  lemma {:induction false} CountBetweenIsLength(holidays: Holidays, start: Dates.Date, end: Dates.Date)
    ensures |TradingDatesBetween(holidays, start, end)| == CountBetween(holidays, start, end)
    decreases end - start
  {
    if start <= end {
      CountBetweenIsLength(holidays, start, end - 1);
      CountStep(holidays, start, end);
    }
  }

  /** A seven-day span counted day by day. */
  lemma WeekCountByDay(holidays: Holidays, start: Dates.Date)
    ensures |TradingDatesBetween(holidays, start, start + 6)|
         == Indicator(IsTradingDay(holidays, start)) + Indicator(IsTradingDay(holidays, start + 1))
          + Indicator(IsTradingDay(holidays, start + 2)) + Indicator(IsTradingDay(holidays, start + 3))
          + Indicator(IsTradingDay(holidays, start + 4)) + Indicator(IsTradingDay(holidays, start + 5))
          + Indicator(IsTradingDay(holidays, start + 6))
  {
    CountBetweenIsLength(holidays, start, start + 6);
    assert CountBetween(holidays, start, start - 1) == 0;
    assert CountBetween(holidays, start, start) == Indicator(IsTradingDay(holidays, start));
    assert CountBetween(holidays, start, start + 1) == CountBetween(holidays, start, start) + Indicator(IsTradingDay(holidays, start + 1));
    assert CountBetween(holidays, start, start + 2) == CountBetween(holidays, start, start + 1) + Indicator(IsTradingDay(holidays, start + 2));
    assert CountBetween(holidays, start, start + 3) == CountBetween(holidays, start, start + 2) + Indicator(IsTradingDay(holidays, start + 3));
    assert CountBetween(holidays, start, start + 4) == CountBetween(holidays, start, start + 3) + Indicator(IsTradingDay(holidays, start + 4));
    assert CountBetween(holidays, start, start + 5) == CountBetween(holidays, start, start + 4) + Indicator(IsTradingDay(holidays, start + 5));
  }

  /** Any seven consecutive days hold exactly five weekdays. */
  lemma FiveWeekdaysInSeven(w: int)
    requires 0 <= w < 7
    ensures Indicator(w % 7 < 5) + Indicator((w + 1) % 7 < 5) + Indicator((w + 2) % 7 < 5)
          + Indicator((w + 3) % 7 < 5) + Indicator((w + 4) % 7 < 5) + Indicator((w + 5) % 7 < 5)
          + Indicator((w + 6) % 7 < 5) == 5
  {
  }

  /** A week without holidays has exactly five trading days. */
  lemma {:induction false} HolidayFreeWeekHasFiveTradingDays(holidays: Holidays, start: Dates.Date)
    requires forall d :: start <= d <= start + 6 ==> !holidays(d)
    ensures |TradingDatesBetween(holidays, start, start + 6)| == 5
  {
    var w := Dates.Weekday(start);
    WeekCountByDay(holidays, start);
    WeekdayShift(start, 0);
    WeekdayShift(start, 1);
    WeekdayShift(start, 2);
    WeekdayShift(start, 3);
    WeekdayShift(start, 4);
    WeekdayShift(start, 5);
    WeekdayShift(start, 6);
    assert !holidays(start) && !holidays(start + 1) && !holidays(start + 2) && !holidays(start + 3);
    assert !holidays(start + 4) && !holidays(start + 5) && !holidays(start + 6);
    FiveWeekdaysInSeven(w);
  }

  /** No holidays at all. */
  predicate NoHolidays(d: Dates.Date) {
    false
  }

  /** Days of January 2023 as ordinals: 2023-01-01 is day 738521. */
  lemma January2023(day: int)
    ensures Dates.FromYmd(2023, 1, day) == 738520 + day
  {
    assert Dates.DaysBeforeYear(2023) == 738520 by {
      assert 2022 / 4 == 505 && 2022 / 100 == 20 && 2022 / 400 == 5;
    }
    assert Dates.DaysBeforeMonth(2023, 1) == 0;
  }

  /**
   * With no holiday table, 2023-01-03 (a Tuesday) trades, the weekend of
   * 2023-01-07/08 does not, and 2023-01-02 through 2023-01-08 hold five
   * trading days.
   */
  lemma EarlyJanuary2023()
    ensures IsTradingDay(NoHolidays, Dates.FromYmd(2023, 1, 3))
    ensures !IsTradingDay(NoHolidays, Dates.FromYmd(2023, 1, 7))
    ensures !IsTradingDay(NoHolidays, Dates.FromYmd(2023, 1, 8))
    ensures |TradingDatesBetween(NoHolidays, Dates.FromYmd(2023, 1, 2), Dates.FromYmd(2023, 1, 8))| == 5
  {
    January2023(2);
    January2023(3);
    January2023(7);
    January2023(8);
    var monday := 738522;
    assert Dates.Weekday(monday) == 0;
    assert Dates.Weekday(monday + 1) == 1;
    assert Dates.Weekday(monday + 5) == 5 && Dates.Weekday(monday + 6) == 6;
    HolidayFreeWeekHasFiveTradingDays(NoHolidays, monday);
  }

  /** `get_trading_days_in_year`: January 1 through December 31. */
  method GetTradingDaysInYear(holidays: Holidays, year: int) returns (r: seq<Dates.Date>)
    ensures r == TradingDatesBetween(holidays, Dates.YearStart(year), Dates.YearEnd(year))
    ensures forall d :: d in r <==> Dates.YearStart(year) <= d <= Dates.YearEnd(year) && IsTradingDay(holidays, d)
  {
    r := GetTradingDatesBetween(holidays, Dates.YearStart(year), Dates.YearEnd(year));
  }

  /** `get_trading_days_in_month`: the first through the last day of the month. */
  method GetTradingDaysInMonth(holidays: Holidays, year: int, month: int) returns (r: seq<Dates.Date>)
    requires 1 <= month <= 12
    ensures r == TradingDatesBetween(holidays, Dates.FromYmd(year, month, 1), Dates.MonthEnd(year, month))
    ensures forall d :: d in r <==>
              Dates.FromYmd(year, month, 1) <= d <= Dates.MonthEnd(year, month) && IsTradingDay(holidays, d)
  {
    r := GetTradingDatesBetween(holidays, Dates.FromYmd(year, month, 1), Dates.MonthEnd(year, month));
  }

  /**
   * `get_year_start_trading_day`: the next trading day after January 1,
   * so the search starts at January 2 and January 1 is never returned,
   * even when it trades.
   */
  method GetYearStartTradingDay(holidays: Holidays, year: int) returns (r: Dates.Date)
    ensures Dates.YearStart(year) < r <= Dates.YearStart(year) + DefaultSearchDays + 1
    ensures NoTradingDayIn(holidays, Dates.YearStart(year) + 1, r - 1)
    ensures IsTradingDay(holidays, r) || r == Dates.YearStart(year) + DefaultSearchDays + 1
  {
    r := GetNextTradingDay(holidays, Dates.YearStart(year), DefaultSearchDays);
  }

  /**
   * `get_year_end_trading_day`: the previous trading day before
   * December 31, so the search starts at December 30 and December 31 is
   * never returned, even when it trades.
   */
  method GetYearEndTradingDay(holidays: Holidays, year: int) returns (r: Dates.Date)
    ensures Dates.YearEnd(year) - DefaultSearchDays - 1 <= r < Dates.YearEnd(year)
    ensures NoTradingDayIn(holidays, r + 1, Dates.YearEnd(year) - 1)
    ensures IsTradingDay(holidays, r) || r == Dates.YearEnd(year) - DefaultSearchDays - 1
  {
    r := GetPreviousTradingDay(holidays, Dates.YearEnd(year), DefaultSearchDays);
  }

  /** Days of 2024 counted back from December 31, 2024 (ordinal 739251, a Tuesday). */
  lemma December2024(day: int)
    ensures Dates.FromYmd(2024, 12, day) == 739220 + day
  {
    assert Dates.DaysBeforeYear(2024) == 738885 by {
      assert 2023 / 4 == 505 && 2023 / 100 == 20 && 2023 / 400 == 5;
    }
    assert Dates.DaysBeforeMonth(2024, 12) == 335;
  }

  /**
   * December 31, 2024 is a Tuesday and trades when no holiday falls on it,
   * so `GetYearEndTradingDay(holidays, 2024)`, which always answers a day
   * before December 31, misses the last trading day of the year.
   */
  lemma YearEnd2024Trades()
    ensures Dates.YearEnd(2024) == 739251
    ensures Dates.Weekday(Dates.YearEnd(2024)) == 1
    ensures IsTradingDay(NoHolidays, Dates.YearEnd(2024))
  {
    December2024(31);
  }

  /**
   * The last trading day of the year as evidently intended: December 31
   * itself when it trades, otherwise the closest trading day before it
   * within the usual search window.
   */
  method GetLastTradingDayOfYear(holidays: Holidays, year: int) returns (r: Dates.Date)
    ensures IsTradingDay(holidays, Dates.YearEnd(year)) ==> r == Dates.YearEnd(year)
    ensures Dates.YearEnd(year) - DefaultSearchDays - 1 <= r <= Dates.YearEnd(year)
    ensures NoTradingDayIn(holidays, r + 1, Dates.YearEnd(year))
    ensures IsTradingDay(holidays, r) || r == Dates.YearEnd(year) - DefaultSearchDays - 1
  {
    r := GetNearestTradingDay(holidays, Dates.YearEnd(year), true);
  }
}

=== FILE: tx_models.dfy ===
/**
 * Transaction summaries and portfolio snapshots (transaction/models.py):
 * the per-kind totals, codes and date range of a list, and a snapshot
 * that tracks quantity and purchase cost per code as transactions are
 * added one at a time.
 */
module TransactionModels {
  import opened Wrappers
  import opened Seqs
  import opened Models
  import Dates
  import Fifo
  import History
  import Annual
  import Validator
  import Positions
  import TransactionFilter

  // ---------------------------------------------------------------------------
  // TransactionSummary
  // ---------------------------------------------------------------------------

  /** `TransactionSummary` once its statistics are computed. */
  datatype TransactionSummary = TransactionSummary(
    totalTransactions: nat,
    totalBuyValue: real,
    totalSellValue: real,
    totalDividendIncome: real,
    uniqueCodes: set<string>,
    dateRange: Option<(Dates.Date, Dates.Date)>)

  const EmptySummary: TransactionSummary := TransactionSummary(0, 0.0, 0.0, 0.0, {}, None)

  /** `net_cash_flow`: sells and dividends in, buys out. */
  function NetCashFlow(s: TransactionSummary): real {
    -s.totalBuyValue + s.totalSellValue + s.totalDividendIncome
  }

  /** `first_transaction_date`. */
  function FirstTransactionDate(s: TransactionSummary): Option<Dates.Date> {
    if s.dateRange.Some? then Some(s.dateRange.value.0) else None
  }

  /** `last_transaction_date`. */
  function LastTransactionDate(s: TransactionSummary): Option<Dates.Date> {
    if s.dateRange.Some? then Some(s.dateRange.value.1) else None
  }

  /** `get_code_count`. */
  function GetCodeCount(s: TransactionSummary): nat {
    |s.uniqueCodes|
  }

  /** The cash one transaction moves, seen from the investor: out for a buy, in otherwise. */
  function SignedAmount(t: Transaction): real {
    if t.IsBuy() then -t.totalAmount else t.totalAmount
  }

  lemma KindSumsSnoc(txs: seq<Transaction>, t: Transaction)
    ensures History.CalculateTotalInvested(txs + [t])
         == History.CalculateTotalInvested(txs) + (if t.IsBuy() then t.totalAmount else 0.0)
    ensures Annual.CalculateWithdrawals(txs + [t])
         == Annual.CalculateWithdrawals(txs) + (if t.IsSell() then t.totalAmount else 0.0)
    ensures History.CalculateDividendIncome(txs + [t])
         == History.CalculateDividendIncome(txs) + (if t.IsDividend() then t.totalAmount else 0.0)
  {
    assert [t][1..] == [];
    History.TotalInvestedAdds(txs, [t]);
    FilterConcat(txs, [t], Fifo.IsSellTx);
    SumConcat(Filter(txs, Fifo.IsSellTx), Filter([t], Fifo.IsSellTx), TxAmount);
  }

  /** The three kinds together give the net cash flow of the list. */
  lemma {:induction false} NetCashFlowIsSignedSum(txs: seq<Transaction>)
    ensures -History.CalculateTotalInvested(txs) + Annual.CalculateWithdrawals(txs) + History.CalculateDividendIncome(txs)
         == Sum(txs, SignedAmount)
    decreases |txs|
  {
    if |txs| > 0 {
      var init := txs[..|txs| - 1];
      var t := txs[|txs| - 1];
      NetCashFlowIsSignedSum(init);
      assert txs == init + [t];
      KindSumsSnoc(init, t);
      SumSnoc(init, t, SignedAmount);
    }
  }

  lemma {:induction false} DistinctSetSize(s: seq<string>)
    requires NoDuplicates(s)
    ensures |set x | x in s| == |s|
    decreases |s|
  {
    if |s| > 0 {
      var init := s[..|s| - 1];
      DistinctSetSize(init);
      assert s == init + [s[|s| - 1]];
      assert s[|s| - 1] !in init;
      assert (set x | x in s) == (set x | x in init) + {s[|s| - 1]};
    }
  }

  lemma CodeCountIsDistinctCodes(txs: seq<Transaction>)
    ensures |GetCodes(txs)| == |CodesInOrder(txs)|
  {
    var cs := CodesInOrder(txs);
    DistinctSetSize(cs);
    assert GetCodes(txs) == set x | x in cs;
  }

  /** The amounts half of the loop of `_calculate_stats`: each amount goes to its kind's total. */
  method AccumulateTotals(txs: seq<Transaction>) returns (buy: real, sell: real, dividends: real)
    ensures buy == History.CalculateTotalInvested(txs)
    ensures sell == Annual.CalculateWithdrawals(txs)
    ensures dividends == History.CalculateDividendIncome(txs)
  {
    buy, sell, dividends := 0.0, 0.0, 0.0;
    for i := 0 to |txs|
      invariant buy == History.CalculateTotalInvested(txs[..i])
      invariant sell == Annual.CalculateWithdrawals(txs[..i])
      invariant dividends == History.CalculateDividendIncome(txs[..i])
    {
      var t := txs[i];
      assert txs[..i + 1] == txs[..i] + [t];
      KindSumsSnoc(txs[..i], t);
      if t.IsBuy() {
        buy := buy + t.totalAmount;
      } else if t.IsSell() {
        sell := sell + t.totalAmount;
      } else if t.IsDividend() {
        dividends := dividends + t.totalAmount;
      }
    }
    assert txs[..|txs|] == txs;
  }

  /** The other half: the codes seen and the earliest and latest date of a non-empty list. */
  method AccumulateCodesAndDates(txs: seq<Transaction>) returns (codes: set<string>, lo: Dates.Date, hi: Dates.Date)
    requires |txs| > 0
    ensures forall c :: c in codes <==> exists j :: 0 <= j < |txs| && txs[j].code == c
    ensures forall j :: 0 <= j < |txs| ==> lo <= txs[j].date <= hi
    ensures exists j :: 0 <= j < |txs| && txs[j].date == lo
    ensures exists j :: 0 <= j < |txs| && txs[j].date == hi
  {
    codes := {};
    lo, hi := txs[0].date, txs[0].date;
    for i := 0 to |txs|
      invariant forall c :: c in codes <==> exists j :: 0 <= j < i && txs[j].code == c
      invariant forall j :: 0 <= j < i ==> lo <= txs[j].date <= hi
      invariant exists j :: 0 <= j < |txs| && txs[j].date == lo
      invariant exists j :: 0 <= j < |txs| && txs[j].date == hi
    {
      var t := txs[i];
      codes := codes + {t.code};
      if t.date < lo {
        lo := t.date;
      }
      if t.date > hi {
        hi := t.date;
      }
    }
  }

  /**
   * `TransactionSummary._calculate_stats`: one pass over the list adding
   * each amount to its kind's total, collecting codes and the earliest and
   * latest date. The totals agree with the calculators' own sums, the
   * code count with the number of distinct codes, and an empty list gives
   * zeros and no date range.
   */
  method CalculateStats(txs: seq<Transaction>) returns (s: TransactionSummary)
    ensures |txs| == 0 ==> s == EmptySummary
    ensures s.totalTransactions == |txs|
    ensures s.totalBuyValue == History.CalculateTotalInvested(txs)
    ensures s.totalSellValue == Annual.CalculateWithdrawals(txs)
    ensures s.totalDividendIncome == History.CalculateDividendIncome(txs)
    ensures NetCashFlow(s) == Sum(txs, SignedAmount)
    ensures s.uniqueCodes == GetCodes(txs)
    ensures GetCodeCount(s) == |CodesInOrder(txs)|
    ensures s.dateRange == GetDateRange(txs)
    ensures FirstTransactionDate(s).Some? <==> |txs| > 0
    ensures FirstTransactionDate(s).Some? ==> forall i :: 0 <= i < |txs| ==> FirstTransactionDate(s).value <= txs[i].date
    ensures LastTransactionDate(s).Some? ==> forall i :: 0 <= i < |txs| ==> txs[i].date <= LastTransactionDate(s).value
  {
    NetCashFlowIsSignedSum(txs);
    CodeCountIsDistinctCodes(txs);
    if |txs| == 0 {
      assert History.CalculateTotalInvested(txs) == 0.0;
      assert Annual.CalculateWithdrawals(txs) == 0.0;
      assert History.CalculateDividendIncome(txs) == 0.0;
      return EmptySummary;
    }
    var buy, sell, dividends := AccumulateTotals(txs);
    var codes, lo, hi := AccumulateCodesAndDates(txs);
    var range := GetDateRange(txs);
    assert lo == range.value.0 && hi == range.value.1;
    s := TransactionSummary(|txs|, buy, sell, dividends, codes, Some((lo, hi)));
  }

  // ---------------------------------------------------------------------------
  // PortfolioSnapshot
  // ---------------------------------------------------------------------------

  /**
   * `PortfolioSnapshot`. The two dictionaries are kept with their key
   * insertion order (`positionOrder`, `costOrder`), the order in which
   * Python iterates them.
   */
  datatype PortfolioSnapshot = PortfolioSnapshot(
    targetDate: Dates.Date,
    positions: map<string, real>,
    positionOrder: seq<string>,
    costBasis: map<string, real>,
    costOrder: seq<string>,
    transactions: seq<Transaction>)

  /** Each dictionary's order lists its keys, once each. */
  ghost predicate WellFormed(s: PortfolioSnapshot) {
    && NoDuplicates(s.positionOrder)
    && (forall c :: c in s.positions <==> c in s.positionOrder)
    && NoDuplicates(s.costOrder)
    && (forall c :: c in s.costBasis <==> c in s.costOrder)
  }

  /** A fresh snapshot: no positions, no cost, no transactions. */
  function NewSnapshot(targetDate: Dates.Date): (r: PortfolioSnapshot)
    ensures WellFormed(r)
    ensures forall c :: GetPosition(r, c) == 0.0 && GetCostBasis(r, c) == 0.0
    ensures |r.transactions| == 0
  {
    PortfolioSnapshot(targetDate, map[], [], map[], [], [])
  }

  /** `get_position`: the quantity held, 0 for an unknown code. */
  function GetPosition(s: PortfolioSnapshot, code: string): real {
    Lookup(s.positions, code)
  }

  /** `get_cost_basis`: the purchase cost recorded, 0 for an unknown code. */
  function GetCostBasis(s: PortfolioSnapshot, code: string): real {
    Lookup(s.costBasis, code)
  }

  /** Sets `key` to `v`, appending it to the order when it is new. */
  function Store(m: map<string, real>, order: seq<string>, key: string, v: real): (r: (map<string, real>, seq<string>))
    requires NoDuplicates(order) && forall c :: c in m <==> c in order
    ensures NoDuplicates(r.1) && forall c :: c in r.0 <==> c in r.1
    ensures Lookup(r.0, key) == v
    ensures forall c :: c != key ==> Lookup(r.0, c) == Lookup(m, c)
    ensures r.1 == if key in m then order else order + [key]
  {
    (m[key := v], if key in m then order else order + [key])
  }

  /**
   * `add_transaction`: the transaction is recorded; a BUY adds its quantity
   * and its amount to the code's position and cost, a SELL takes its
   * quantity off the position, a DIVIDEND with a positive quantity (a
   * stock dividend) adds shares; nothing else changes.
   */
  function AddTransaction(s: PortfolioSnapshot, t: Transaction): (r: PortfolioSnapshot)
    requires WellFormed(s)
    ensures WellFormed(r)
    ensures r.targetDate == s.targetDate && r.transactions == s.transactions + [t]
    ensures GetPosition(r, t.code) == GetPosition(s, t.code) + Validator.HoldingDelta(t)
    ensures GetCostBasis(r, t.code) == GetCostBasis(s, t.code) + (if t.IsBuy() then t.totalAmount else 0.0)
    ensures forall c :: c != t.code ==> GetPosition(r, c) == GetPosition(s, c) && GetCostBasis(r, c) == GetCostBasis(s, c)
    ensures t.code in r.positions <==>
              t.code in s.positions || t.IsBuy() || t.IsSell() || (t.IsDividend() && t.quantity > 0.0)
    ensures r.costOrder == if t.IsBuy() && t.code !in s.costBasis then s.costOrder + [t.code] else s.costOrder
  {
    var code := t.code;
    var txs := s.transactions + [t];
    if t.IsBuy() then
      var p := Store(s.positions, s.positionOrder, code, GetPosition(s, code) + t.quantity);
      var c := Store(s.costBasis, s.costOrder, code, GetCostBasis(s, code) + t.totalAmount);
      PortfolioSnapshot(s.targetDate, p.0, p.1, c.0, c.1, txs)
    else if t.IsSell() then
      var p := Store(s.positions, s.positionOrder, code, GetPosition(s, code) - t.quantity);
      PortfolioSnapshot(s.targetDate, p.0, p.1, s.costBasis, s.costOrder, txs)
    else if t.quantity > 0.0 then
      var p := Store(s.positions, s.positionOrder, code, GetPosition(s, code) + t.quantity);
      PortfolioSnapshot(s.targetDate, p.0, p.1, s.costBasis, s.costOrder, txs)
    else
      PortfolioSnapshot(s.targetDate, s.positions, s.positionOrder, s.costBasis, s.costOrder, txs)
  }

  /** A fresh snapshot with `txs` added in order. */
  function Build(targetDate: Dates.Date, txs: seq<Transaction>): (r: PortfolioSnapshot)
    ensures WellFormed(r)
    ensures r.transactions == txs
    decreases |txs|
  {
    if |txs| == 0 then NewSnapshot(targetDate)
    else AddTransaction(Build(targetDate, txs[..|txs| - 1]), txs[|txs| - 1])
  }

  /** `get_positions`: the codes with a positive quantity, and those quantities. */
  function GetPositions(s: PortfolioSnapshot): (r: map<string, real>)
    ensures forall c :: c in r <==> GetPosition(s, c) > 0.0
    ensures forall c :: c in r ==> r[c] == GetPosition(s, c)
  {
    map c | c in s.positions && s.positions[c] > 0.0 :: s.positions[c]
  }

  /** `has_position`: a positive quantity, i.e. the code is among `get_positions`. */
  function HasPosition(s: PortfolioSnapshot, code: string): (r: bool)
    ensures r <==> code in GetPositions(s)
  {
    GetPosition(s, code) > 0.0
  }

  /** One code's contribution: its positive position times its price (0 when unpriced), else 0. */
  function HeldWorth(s: PortfolioSnapshot, code: string, prices: map<string, real>): (r: real)
    ensures Lookup(prices, code) >= 0.0 ==> r >= 0.0
    ensures GetPosition(s, code) <= 0.0 ==> r == 0.0
  {
    var q := GetPosition(s, code);
    if q > 0.0 then
      assert Lookup(prices, code) >= 0.0 ==> Positions.Worth(q, Lookup(prices, code)) >= 0.0 by {
        if Lookup(prices, code) >= 0.0 {
          Positions.WorthNonNegative(q, Lookup(prices, code));
        }
      }
      Positions.Worth(q, Lookup(prices, code))
    else 0.0
  }

  /** Σ quantity × price over the codes of `order` held in a positive quantity. */
  function ValueOver(s: PortfolioSnapshot, order: seq<string>, prices: map<string, real>): (r: real)
    ensures (forall c :: c in prices ==> prices[c] >= 0.0) ==> r >= 0.0
    ensures |prices| == 0 ==> r == 0.0
    decreases |order|
  {
    if |order| == 0 then 0.0
    else HeldWorth(s, order[0], prices) + ValueOver(s, order[1..], prices)
  }

  /**
   * `get_total_positions_value`: the held codes valued at their prices, a
   * missing price counting as 0; never negative for non-negative prices.
   */
  function GetTotalPositionsValue(s: PortfolioSnapshot, prices: map<string, real>): (r: real)
    ensures (forall c :: c in prices ==> prices[c] >= 0.0) ==> r >= 0.0
    ensures |prices| == 0 ==> r == 0.0
  {
    ValueOver(s, s.positionOrder, prices)
  }

  /** Prices of codes not held in a positive quantity do not enter the value. */
  lemma {:induction false} ValueOverFrame(s: PortfolioSnapshot, order: seq<string>, p1: map<string, real>, p2: map<string, real>)
    requires forall c :: c in order && GetPosition(s, c) > 0.0 ==> Lookup(p1, c) == Lookup(p2, c)
    ensures ValueOver(s, order, p1) == ValueOver(s, order, p2)
    decreases |order|
  {
    if |order| > 0 {
      assert forall c :: c in order[1..] ==> c in order;
      ValueOverFrame(s, order[1..], p1, p2);
    }
  }

  /** One code's worth moves by its positive position times the change of its price. */
  lemma HeldWorthBump(s: PortfolioSnapshot, key: string, p1: map<string, real>, p2: map<string, real>, d: real)
    requires Lookup(p2, key) == Lookup(p1, key) + d
    ensures HeldWorth(s, key, p2)
         == HeldWorth(s, key, p1) + (if GetPosition(s, key) > 0.0 then GetPosition(s, key) * d else 0.0)
  {
    var q := GetPosition(s, key);
    if q > 0.0 {
      assert q * (Lookup(p1, key) + d) == q * Lookup(p1, key) + q * d;
    }
  }

  /** Raising one listed code's price by `d` raises the value by its position times `d`, when held. */
  lemma {:induction false} ValueOverBump(s: PortfolioSnapshot, order: seq<string>, p1: map<string, real>, p2: map<string, real>,
                                         key: string, d: real)
    requires NoDuplicates(order)
    requires Lookup(p2, key) == Lookup(p1, key) + d
    requires forall c :: c != key ==> Lookup(p2, c) == Lookup(p1, c)
    ensures ValueOver(s, order, p2)
         == ValueOver(s, order, p1) + (if key in order && GetPosition(s, key) > 0.0 then GetPosition(s, key) * d else 0.0)
    decreases |order|
  {
    if |order| > 0 {
      NoDuplicatesTail(order);
      ValueOverBump(s, order[1..], p1, p2, key, d);
      if order[0] == key {
        HeldWorthBump(s, key, p1, p2, d);
      } else {
        assert HeldWorth(s, order[0], p2) == HeldWorth(s, order[0], p1);
        assert key in order <==> key in order[1..];
      }
    }
  }

  /** Only the prices of the positive positions matter to the total value. */
  lemma PositionsValueFrame(s: PortfolioSnapshot, p1: map<string, real>, p2: map<string, real>)
    requires WellFormed(s)
    requires forall c :: c in GetPositions(s) ==> Lookup(p1, c) == Lookup(p2, c)
    ensures GetTotalPositionsValue(s, p1) == GetTotalPositionsValue(s, p2)
  {
    ValueOverFrame(s, s.positionOrder, p1, p2);
  }

  /**
   * The total value is linear in each price: raising the price of `code` by
   * `d` (all other prices equal) raises it by the code's positive position times `d`, and by nothing
   * when the code is not held. With `PositionsValueFrame` and the empty
   * price table (value 0) this fixes the value as Σ position × price over
   * `get_positions`, a missing price counting as 0.
   */
  lemma PositionsValueBump(s: PortfolioSnapshot, p1: map<string, real>, p2: map<string, real>, code: string, d: real)
    requires WellFormed(s)
    requires Lookup(p2, code) == Lookup(p1, code) + d
    requires forall c :: c != code ==> Lookup(p2, c) == Lookup(p1, c)
    ensures GetTotalPositionsValue(s, p2)
         == GetTotalPositionsValue(s, p1) + (if GetPosition(s, code) > 0.0 then GetPosition(s, code) * d else 0.0)
  {
    ValueOverBump(s, s.positionOrder, p1, p2, code, d);
    if GetPosition(s, code) > 0.0 {
      assert code in s.positionOrder;
    }
  }

  /** A snapshot of one BUY lists only its code, holding the bought quantity. */
  lemma SingleBuySnapshot(targetDate: Dates.Date, t: Transaction)
    requires t.IsBuy()
    ensures Build(targetDate, [t]).positionOrder == [t.code]
    ensures GetPosition(Build(targetDate, [t]), t.code) == t.quantity
  {
    assert Build(targetDate, [t]) == AddTransaction(Build(targetDate, []), t) by {
      assert [t][..0] == [];
    }
  }

  /** One BUY of `q` shares is worth `q` times its code's price (0 when unpriced). */
  lemma SingleBuyValue(targetDate: Dates.Date, t: Transaction, prices: map<string, real>)
    requires t.IsBuy() && t.quantity > 0.0
    ensures GetTotalPositionsValue(Build(targetDate, [t]), prices) == t.quantity * Lookup(prices, t.code)
  {
    var s := Build(targetDate, [t]);
    SingleBuySnapshot(targetDate, t);
    assert [t.code][1..] == [];
    assert ValueOver(s, [t.code], prices) == HeldWorth(s, t.code, prices) + ValueOver(s, [], prices);
  }

  /** Σ of the recorded costs of the codes in `order`. */
  function CostOver(m: map<string, real>, order: seq<string>): real
    decreases |order|
  {
    if |order| == 0 then 0.0 else Lookup(m, order[0]) + CostOver(m, order[1..])
  }

  /** `get_total_cost_basis`: the sum of every recorded cost. */
  function GetTotalCostBasis(s: PortfolioSnapshot): real {
    CostOver(s.costBasis, s.costOrder)
  }

  lemma {:induction false} CostOverSnoc(m: map<string, real>, order: seq<string>, key: string)
    ensures CostOver(m, order + [key]) == CostOver(m, order) + Lookup(m, key)
    decreases |order|
  {
    if |order| == 0 {
      assert order + [key] == [key];
      assert [key][1..] == [];
    } else {
      CostOverSnoc(m, order[1..], key);
      assert (order + [key])[1..] == order[1..] + [key];
    }
  }

  /** Costs of codes outside `order` do not enter its sum. */
  lemma {:induction false} CostOverFrame(m: map<string, real>, m': map<string, real>, order: seq<string>)
    requires forall c :: c in order ==> Lookup(m, c) == Lookup(m', c)
    ensures CostOver(m, order) == CostOver(m', order)
    decreases |order|
  {
    if |order| > 0 {
      assert forall c :: c in order[1..] ==> c in order;
      CostOverFrame(m, m', order[1..]);
    }
  }

  /** Changing one listed cost by `d` changes the sum by `d`. */
  lemma {:induction false} CostOverBump(m: map<string, real>, m': map<string, real>, order: seq<string>, key: string, d: real)
    requires NoDuplicates(order)
    requires Lookup(m', key) == Lookup(m, key) + d
    requires forall c :: c != key ==> Lookup(m', c) == Lookup(m, c)
    ensures CostOver(m', order) == CostOver(m, order) + (if key in order then d else 0.0)
    decreases |order|
  {
    if |order| > 0 {
      NoDuplicatesTail(order);
      CostOverBump(m, m', order[1..], key, d);
    }
  }

  /** Adding a transaction raises the total cost by its amount for a BUY and leaves it for anything else. */
  lemma AddTransactionTotalCost(s: PortfolioSnapshot, t: Transaction)
    requires WellFormed(s)
    ensures GetTotalCostBasis(AddTransaction(s, t))
         == GetTotalCostBasis(s) + (if t.IsBuy() then t.totalAmount else 0.0)
  {
    var r := AddTransaction(s, t);
    if t.IsBuy() {
      if t.code in s.costBasis {
        CostOverBump(s.costBasis, r.costBasis, s.costOrder, t.code, t.totalAmount);
      } else {
        CostOverSnoc(r.costBasis, s.costOrder, t.code);
        CostOverFrame(s.costBasis, r.costBasis, s.costOrder);
        assert Lookup(s.costBasis, t.code) == 0.0;
      }
    }
  }

  lemma FilterByCodeSnoc(txs: seq<Transaction>, t: Transaction, code: string)
    ensures FilterByCode(txs + [t], code) == FilterByCode(txs, code) + (if t.code == code then [t] else [])
  {
    TransactionFilter.KeyedByCodeIsFilterByCode(txs + [t], code);
    TransactionFilter.KeyedByCodeIsFilterByCode(txs, code);
    TransactionFilter.KeyedAsSnoc(txs, t, TxCode, code);
  }

  lemma FilterByCodeLast(txs: seq<Transaction>, code: string)
    requires |txs| > 0
    ensures FilterByCode(txs, code)
         == FilterByCode(txs[..|txs| - 1], code) + (if txs[|txs| - 1].code == code then [txs[|txs| - 1]] else [])
  {
    assert txs == txs[..|txs| - 1] + [txs[|txs| - 1]];
    FilterByCodeSnoc(txs[..|txs| - 1], txs[|txs| - 1], code);
  }

  /** The last step of `Build`: the snapshot of all but the last transaction, plus the last. */
  lemma BuildSnoc(targetDate: Dates.Date, txs: seq<Transaction>)
    requires |txs| > 0
    ensures Build(targetDate, txs) == AddTransaction(Build(targetDate, txs[..|txs| - 1]), txs[|txs| - 1])
  {
  }

  /** One `add_transaction` moves the holding of its own code by the validator's delta, and no other. */
  lemma AddTransactionPositionStep(before: PortfolioSnapshot, t: Transaction, f: seq<Transaction>, code: string)
    requires WellFormed(before)
    requires GetPosition(before, code) == Sum(f, Validator.HoldingDelta)
    ensures GetPosition(AddTransaction(before, t), code)
         == Sum(f + (if t.code == code then [t] else []), Validator.HoldingDelta)
  {
    var tail := if t.code == code then [t] else [];
    SumConcat(f, tail, Validator.HoldingDelta);
    assert tail == [] || tail[1..] == [];
  }

  /**
   * A snapshot built from a ledger holds, for every code, the running
   * holding the validator computes: buys and stock dividends in, sells
   * out.
   */
  lemma {:induction false} BuildTracksPosition(targetDate: Dates.Date, txs: seq<Transaction>, code: string)
    ensures GetPosition(Build(targetDate, txs), code) == Sum(FilterByCode(txs, code), Validator.HoldingDelta)
    decreases |txs|
  {
    if |txs| > 0 {
      var init := txs[..|txs| - 1];
      var t := txs[|txs| - 1];
      BuildTracksPosition(targetDate, init, code);
      BuildSnoc(targetDate, txs);
      FilterByCodeLast(txs, code);
      AddTransactionPositionStep(Build(targetDate, init), t, FilterByCode(init, code), code);
    }
  }

  /** One `add_transaction` adds a BUY's amount to the cost of its code, and to no other. */
  lemma AddTransactionCostStep(before: PortfolioSnapshot, t: Transaction, f: seq<Transaction>, code: string)
    requires WellFormed(before)
    requires GetCostBasis(before, code) == History.CalculateTotalInvested(f)
    ensures GetCostBasis(AddTransaction(before, t), code)
         == History.CalculateTotalInvested(f + (if t.code == code then [t] else []))
  {
    if t.code == code {
      History.TotalInvestedAdds(f, [t]);
      History.TotalInvestedSingle(t);
    } else {
      assert f + [] == f;
    }
  }

  /** A snapshot built from a ledger holds, for every code, the code's total purchase amount as its cost. */
  lemma {:induction false} BuildTracksCost(targetDate: Dates.Date, txs: seq<Transaction>, code: string)
    ensures GetCostBasis(Build(targetDate, txs), code) == History.CalculateTotalInvested(FilterByCode(txs, code))
    decreases |txs|
  {
    if |txs| > 0 {
      var init := txs[..|txs| - 1];
      var t := txs[|txs| - 1];
      BuildTracksCost(targetDate, init, code);
      BuildSnoc(targetDate, txs);
      FilterByCodeLast(txs, code);
      AddTransactionCostStep(Build(targetDate, init), t, FilterByCode(init, code), code);
    }
  }

  /** The total cost of a snapshot built from a ledger is the ledger's total BUY amount. */
  lemma {:induction false} BuildTotalCostIsInvested(targetDate: Dates.Date, txs: seq<Transaction>)
    ensures GetTotalCostBasis(Build(targetDate, txs)) == History.CalculateTotalInvested(txs)
    decreases |txs|
  {
    if |txs| > 0 {
      var init := txs[..|txs| - 1];
      var t := txs[|txs| - 1];
      BuildTotalCostIsInvested(targetDate, init);
      AddTransactionTotalCost(Build(targetDate, init), t);
      assert txs == init + [t];
      KindSumsSnoc(init, t);
    }
  }
}

=== FILE: validator.dfy ===
/**
 * Transaction validation (transaction/validator.py): per-transaction checks
 * of the code format and the fields each type needs, warnings that never
 * affect validity, and cross-transaction checks for duplicates, date
 * order, code format and negative holdings. Messages are a datatype
 * carrying what the source interpolates into its strings; "today" is a
 * parameter.
 */
module Validator {
  import opened Wrappers
  import opened Seqs
  import opened Models
  import Text
  import Dates

  datatype Field = Quantity | UnitPrice | TotalAmount

  /** One error or warning; `n` is the 1-based position of the transaction in the list. */
  datatype Message =
    | NoTransactionsFound
    | CodeNotAlphanumeric(n: nat)
    | CodeLength(n: nat)
    | InternationalCode(n: nat)
    | NonStandardCodeLength(n: nat)
    | FutureDate(n: nat)
    | NotPositive(n: nat, kind: TransactionType, field: Field)
    | DividendEmpty(n: nat)
    | HighUnitPrice(n: nat, price: real)
    | LowUnitPrice(n: nat, price: real)
    | LargeQuantity(n: nat, quantity: real)
    | PotentialDuplicate(code: string, date: Dates.Date)
    | NotChronological(reports: seq<OrderReport>)
    | InvalidCode(code: string)
    | NegativeHolding(code: string, date: Dates.Date)

  /** "code on date comes after previous". */
  datatype OrderReport = OrderReport(code: string, date: Dates.Date, previous: Dates.Date)

  datatype ValidationResult = ValidationResult(isValid: bool, errors: seq<Message>, warnings: seq<Message>)

  const HighPriceLimit: real := 10000.0
  const LowPriceLimit: real := 0.01
  const LargeQuantityLimit: real := 1000000.0
  const HoldingTolerance: real := 0.01

  // ---------------------------------------------------------------------------
  // Code format
  // ---------------------------------------------------------------------------

  /** Six digits, or five digits starting with "0" (a Hong Kong code). */
  predicate DomesticLength(code: string) {
    |code| == 6 || (|code| == 5 && Text.StartsWith(code, "0"))
  }

  /** A code the single-transaction check accepts: all letters, or digits of a domestic length. */
  predicate CodeAccepted(code: string) {
    Text.IsAlpha(code) || (Text.IsDigits(code) && DomesticLength(code))
  }

  /**
   * The code-format part of `validate_single_transaction`. The branch that
   * warns about a digit code longer than six characters sits behind the
   * length check that already rejects it, so it never fires.
   */
  function CodeCheck(code: string, n: nat): (r: (seq<Message>, seq<Message>))
    ensures |r.0| == 0 <==> CodeAccepted(code)
    ensures CodeNotAlphanumeric(n) in r.0 <==> !Text.IsDigits(code) && !Text.IsAlpha(code)
    ensures CodeLength(n) in r.0 <==> Text.IsDigits(code) && !DomesticLength(code)
    ensures InternationalCode(n) in r.1 <==> !Text.IsDigits(code) && Text.IsAlpha(code)
    ensures |r.0| <= 1 && |r.1| <= 1
  {
    assert Text.IsDigits(code) ==> !Text.IsAlpha(code) by {
      if Text.IsDigits(code) {
        assert Text.IsDigitChar(code[0]);
      }
    }
    if !Text.IsDigits(code) then
      if !Text.IsAlpha(code) then ([CodeNotAlphanumeric(n)], []) else ([], [InternationalCode(n)])
    else if !DomesticLength(code) then ([CodeLength(n)], [])
    else if |code| > 6 then ([], [NonStandardCodeLength(n)])
    else ([], [])
  }

  /** The "non-standard code length" warning is never produced. */
  lemma NonStandardLengthNeverWarned(code: string, n: nat)
    ensures NonStandardCodeLength(n) !in CodeCheck(code, n).1
  {
  }

  // ---------------------------------------------------------------------------
  // Fields by type
  // ---------------------------------------------------------------------------

  function IfNotPositive(x: real, m: Message): seq<Message> {
    if x <= 0.0 then [m] else []
  }

  /** The fields a transaction of its type must have. */
  predicate FieldsAccepted(t: Transaction) {
    && (t.IsBuy() || t.IsSell() ==> t.quantity > 0.0 && t.unitPrice > 0.0 && t.totalAmount > 0.0)
    && (t.IsDividend() ==> t.quantity > 0.0 || t.totalAmount > 0.0)
  }

  /**
   * The type-specific part of `validate_single_transaction`: BUY and SELL
   * get one error per non-positive quantity, unit price and total amount;
   * a DIVIDEND needs a positive quantity (stock) or a positive amount (cash).
   */
  function FieldCheck(t: Transaction, n: nat): (errors: seq<Message>)
    ensures |errors| == 0 <==> FieldsAccepted(t)
    ensures t.IsBuy() || t.IsSell() ==>
              && (NotPositive(n, t.kind, Quantity) in errors <==> t.quantity <= 0.0)
              && (NotPositive(n, t.kind, UnitPrice) in errors <==> t.unitPrice <= 0.0)
              && (NotPositive(n, t.kind, TotalAmount) in errors <==> t.totalAmount <= 0.0)
    ensures t.IsDividend() ==> (errors == [DividendEmpty(n)] || errors == [])
  {
    if t.IsBuy() || t.IsSell() then
      IfNotPositive(t.quantity, NotPositive(n, t.kind, Quantity))
      + IfNotPositive(t.unitPrice, NotPositive(n, t.kind, UnitPrice))
      + IfNotPositive(t.totalAmount, NotPositive(n, t.kind, TotalAmount))
    else if t.quantity == 0.0 && t.totalAmount > 0.0 then []
    else if t.quantity > 0.0 then []
    else if t.totalAmount > 0.0 then []
    else [DividendEmpty(n)]
  }

  /** The plausibility warnings: a very high or (outside dividends) very low unit price, a very large quantity. */
  function RangeWarnings(t: Transaction, n: nat): (w: seq<Message>)
    ensures HighUnitPrice(n, t.unitPrice) in w <==> t.unitPrice > HighPriceLimit
    ensures LowUnitPrice(n, t.unitPrice) in w <==> t.unitPrice < LowPriceLimit && !t.IsDividend()
    ensures LargeQuantity(n, t.quantity) in w <==> t.quantity > LargeQuantityLimit
  {
    (if t.unitPrice > HighPriceLimit then [HighUnitPrice(n, t.unitPrice)]
     else if t.unitPrice < LowPriceLimit && !t.IsDividend() then [LowUnitPrice(n, t.unitPrice)]
     else [])
    + (if t.quantity > LargeQuantityLimit then [LargeQuantity(n, t.quantity)] else [])
  }

  /**
   * `validate_single_transaction` for the transaction at 0-based `index`:
   * code errors then field errors; code warnings, the future-date warning,
   * then the range warnings. Valid iff there is no error.
   */
  function ValidateSingleTransaction(t: Transaction, index: nat, today: Dates.Date): (r: ValidationResult)
    ensures r.isValid <==> |r.errors| == 0
    ensures r.isValid <==> CodeAccepted(t.code) && FieldsAccepted(t)
    ensures FutureDate(index + 1) in r.warnings <==> t.date > today
    ensures |r.errors| == |CodeCheck(t.code, index + 1).0| + |FieldCheck(t, index + 1)|
  {
    var n := index + 1;
    var code := CodeCheck(t.code, n);
    var errors := code.0 + FieldCheck(t, n);
    var warnings := code.1 + (if t.date > today then [FutureDate(n)] else []) + RangeWarnings(t, n);
    assert FutureDate(n) !in code.1 && FutureDate(n) !in RangeWarnings(t, n);
    ValidationResult(|errors| == 0, errors, warnings)
  }

  // ---------------------------------------------------------------------------
  // Duplicates
  // ---------------------------------------------------------------------------

  /** The fields that make two transactions look the same (the dividend type is not among them). */
  datatype DupKey = DupKey(code: string, date: Dates.Date, kind: TransactionType,
                           quantity: real, unitPrice: real, totalAmount: real)

  function Key(t: Transaction): DupKey {
    DupKey(t.code, t.date, t.kind, t.quantity, t.unitPrice, t.totalAmount)
  }

  /** Transaction `i` repeats the key of an earlier one. */
  predicate IsRepeat(txs: seq<Transaction>, i: nat)
    requires i < |txs|
  {
    exists j :: 0 <= j < i && Key(txs[j]) == Key(txs[i])
  }

  /** Reference: one report per transaction among the first `k` that repeats an earlier key. */
  function DuplicateReports(txs: seq<Transaction>, k: nat): seq<Message>
    requires k <= |txs|
  {
    if k == 0 then []
    else DuplicateReports(txs, k - 1)
         + (if IsRepeat(txs, k - 1) then [PotentialDuplicate(txs[k - 1].code, txs[k - 1].date)] else [])
  }

  /** `_find_duplicate_transactions`: a single pass with the set of keys seen so far. */
  method FindDuplicates(txs: seq<Transaction>) returns (dups: seq<Message>)
    ensures dups == DuplicateReports(txs, |txs|)
  {
    var seen: set<DupKey> := {};
    dups := [];
    var i := 0;
    while i < |txs|
      invariant 0 <= i <= |txs|
      invariant forall key :: key in seen <==> exists j :: 0 <= j < i && Key(txs[j]) == key
      invariant dups == DuplicateReports(txs, i)
    {
      var key := Key(txs[i]);
      if key in seen {
        dups := dups + [PotentialDuplicate(txs[i].code, txs[i].date)];
      } else {
        seen := seen + {key};
      }
      i := i + 1;
    }
  }

  /** No duplicate is reported exactly when all keys are distinct. */
  lemma {:induction false} NoReportsIffDistinct(txs: seq<Transaction>, k: nat)
    requires k <= |txs|
    ensures DuplicateReports(txs, k) == [] <==>
              forall i, j :: 0 <= i < j < k ==> Key(txs[i]) != Key(txs[j])
  {
    if k > 0 {
      NoReportsIffDistinct(txs, k - 1);
      if !IsRepeat(txs, k - 1) {
        assert forall i :: 0 <= i < k - 1 ==> Key(txs[i]) != Key(txs[k - 1]);
      }
    }
  }

  // ---------------------------------------------------------------------------
  // Date order
  // ---------------------------------------------------------------------------

  /** Transaction `i` is dated before its immediate predecessor. */
  predicate IsDescent(txs: seq<Transaction>, i: nat)
    requires i < |txs|
  {
    i > 0 && txs[i].date < txs[i - 1].date
  }

  function UnsortedReports(txs: seq<Transaction>, k: nat): seq<OrderReport>
    requires k <= |txs|
  {
    if k == 0 then []
    else UnsortedReports(txs, k - 1)
         + (if IsDescent(txs, k - 1) then [OrderReport(txs[k - 1].code, txs[k - 1].date, txs[k - 2].date)] else [])
  }

  /** `_find_unsorted_transactions`: compares each date with the previous one. */
  method FindUnsorted(txs: seq<Transaction>) returns (unsorted: seq<OrderReport>)
    ensures unsorted == UnsortedReports(txs, |txs|)
  {
    unsorted := [];
    var previous: Option<Dates.Date> := None;
    var i := 0;
    while i < |txs|
      invariant 0 <= i <= |txs|
      invariant previous == if i == 0 then None else Some(txs[i - 1].date)
      invariant unsorted == UnsortedReports(txs, i)
    {
      var t := txs[i];
      if previous.Some? && t.date < previous.value {
        unsorted := unsorted + [OrderReport(t.code, t.date, previous.value)];
      }
      previous := Some(t.date);
      i := i + 1;
    }
  }

  /** Adjacent pairs in order make the whole prefix sorted. */
  predicate PrefixSorted(txs: seq<Transaction>, k: nat)
    requires k <= |txs|
  {
    forall i, j :: 0 <= i < j < k ==> txs[i].date <= txs[j].date
  }

  /** Nothing is reported out of order exactly when the list is sorted by date. */
  lemma {:induction false} NoUnsortedIffSorted(txs: seq<Transaction>, k: nat)
    requires k <= |txs|
    ensures UnsortedReports(txs, k) == [] <==> PrefixSorted(txs, k)
  {
    if k > 0 {
      NoUnsortedIffSorted(txs, k - 1);
      if UnsortedReports(txs, k) == [] {
        assert PrefixSorted(txs, k - 1);
        if k >= 2 {
          assert txs[k - 2].date <= txs[k - 1].date;
          assert forall i :: 0 <= i < k - 1 ==> txs[i].date <= txs[k - 2].date;
        }
      }
    }
  }

  lemma SortedListHasNoUnsorted(txs: seq<Transaction>)
    ensures UnsortedReports(txs, |txs|) == [] <==> SortedBy(txs, TxDate)
  {
    NoUnsortedIffSorted(txs, |txs|);
  }

  // ---------------------------------------------------------------------------
  // Investment codes
  // ---------------------------------------------------------------------------

  /**
   * A code `_validate_investment_codes` rejects: neither digits nor
   * letters, or digits of a non-domestic length up to six. Longer digit
   * codes are let through here, unlike in the single-transaction check.
   */
  predicate CodeRejected(code: string) {
    if !Text.IsDigits(code) then !Text.IsAlpha(code)
    else !DomesticLength(code) && |code| <= 6
  }

  predicate HasRejectedCode(t: Transaction) {
    CodeRejected(t.code)
  }

  /** `_validate_investment_codes`: the distinct rejected codes (first-occurrence order stands for set order). */
  function InvalidCodes(txs: seq<Transaction>): (r: seq<string>)
    ensures NoDuplicates(r)
    ensures forall c :: c in r <==> CodeRejected(c) && exists t :: t in txs && t.code == c
  {
    var bad := Filter(txs, HasRejectedCode);
    var r := Distinct(Map(bad, TxCode));
    assert forall c :: c in Map(bad, TxCode) <==> exists t :: t in bad && t.code == c by {
      forall c | c in Map(bad, TxCode) ensures exists t :: t in bad && t.code == c {
        var i :| 0 <= i < |bad| && Map(bad, TxCode)[i] == c;
        assert bad[i] in bad;
      }
      forall c | (exists t :: t in bad && t.code == c) ensures c in Map(bad, TxCode) {
        var t :| t in bad && t.code == c;
        var i :| 0 <= i < |bad| && bad[i] == t;
        assert Map(bad, TxCode)[i] == c;
      }
    }
    r
  }

  /** Every code the cross-transaction check rejects also fails the single-transaction check. */
  lemma RejectedCodesFailSingleCheck(code: string, n: nat)
    requires CodeRejected(code)
    ensures |CodeCheck(code, n).0| == 1
  {
  }

  // ---------------------------------------------------------------------------
  // Holdings
  // ---------------------------------------------------------------------------

  /** Signed effect on the holding: BUY and a stock DIVIDEND add, SELL subtracts. */
  function HoldingDelta(t: Transaction): real {
    if t.IsBuy() then t.quantity
    else if t.IsSell() then -t.quantity
    else if t.IsDividend() && t.quantity > 0.0 then t.quantity
    else 0.0
  }

  /** The holding after the first `k` transactions of `s`. */
  function HoldingAfter(s: seq<Transaction>, k: nat): real
    requires k <= |s|
  {
    Sum(s[..k], HoldingDelta)
  }

  /** A SELL after which the holding is below −0.01. */
  predicate OverSold(s: seq<Transaction>, i: nat)
    requires i < |s|
  {
    s[i].IsSell() && HoldingAfter(s, i + 1) < -HoldingTolerance
  }

  /** Reference: one report per oversold SELL among the first `k`. */
  function HoldingReports(s: seq<Transaction>, k: nat): seq<Message>
    requires k <= |s|
  {
    if k == 0 then []
    else HoldingReports(s, k - 1) + (if OverSold(s, k - 1) then [NegativeHolding(s[k - 1].code, s[k - 1].date)] else [])
  }

  /** `_check_code_position_consistency`: a running holding over the date-sorted list. */
  method CheckCodePosition(txs: seq<Transaction>) returns (errors: seq<Message>)
    ensures errors == HoldingReports(SortByDate(txs), |txs|)
  {
    var s := SortByDate(txs);
    var position := 0.0;
    errors := [];
    var i := 0;
    while i < |s|
      invariant 0 <= i <= |s|
      invariant position == HoldingAfter(s, i)
      invariant errors == HoldingReports(s, i)
    {
      var t := s[i];
      assert s[..i + 1] == s[..i] + [t];
      SumSnoc(s[..i], t, HoldingDelta);
      if t.IsBuy() {
        position := position + t.quantity;
      } else if t.IsSell() {
        position := position - t.quantity;
        if position < -HoldingTolerance {
          errors := errors + [NegativeHolding(t.code, t.date)];
        }
      } else if t.IsDividend() && t.quantity > 0.0 {
        position := position + t.quantity;
      }
      i := i + 1;
    }
  }

  /** Holding reports are exactly the oversold SELLs. */
  lemma {:induction false} HoldingReportsAreOverSold(s: seq<Transaction>, k: nat)
    requires k <= |s|
    ensures forall m :: m in HoldingReports(s, k) <==>
              exists i :: 0 <= i < k && OverSold(s, i) && m == NegativeHolding(s[i].code, s[i].date)
  {
    if k > 0 {
      HoldingReportsAreOverSold(s, k - 1);
    }
  }

  /** The per-code reports of `_check_logical_consistency`, code by code. */
  function LogicalIssuesOver(txs: seq<Transaction>, codes: seq<string>): seq<Message>
    decreases |codes|
  {
    if |codes| == 0 then []
    else
      var s := FilterByCode(txs, codes[0]);
      HoldingReports(SortByDate(s), |s|) + LogicalIssuesOver(txs, codes[1..])
  }

  /** `_check_logical_consistency`: the holding check of every code, concatenated. */
  method CheckLogicalConsistency(txs: seq<Transaction>) returns (errors: seq<Message>)
    ensures errors == LogicalIssuesOver(txs, CodesInOrder(txs))
  {
    var codes := CodesInOrder(txs);
    errors := [];
    var i := |codes|;
    while i > 0
      invariant 0 <= i <= |codes|
      invariant errors == LogicalIssuesOver(txs, codes[i..])
    {
      i := i - 1;
      var issues := CheckCodePosition(FilterByCode(txs, codes[i]));
      assert codes[i..][1..] == codes[i + 1..];
      errors := issues + errors;
    }
  }

  /** A report names a code with transactions, and comes from that code's own date-sorted holding. */
  lemma {:induction false} LogicalIssueSource(txs: seq<Transaction>, codes: seq<string>, m: Message)
    requires m in LogicalIssuesOver(txs, codes)
    ensures exists k :: 0 <= k < |codes| && m in HoldingReports(SortByDate(FilterByCode(txs, codes[k])), |FilterByCode(txs, codes[k])|)
    decreases |codes|
  {
    var s := FilterByCode(txs, codes[0]);
    if m !in HoldingReports(SortByDate(s), |s|) {
      LogicalIssueSource(txs, codes[1..], m);
      var k :| 0 <= k < |codes[1..]| && m in HoldingReports(SortByDate(FilterByCode(txs, codes[1..][k])), |FilterByCode(txs, codes[1..][k])|);
      assert codes[1..][k] == codes[k + 1];
    }
  }

  // ---------------------------------------------------------------------------
  // The whole list
  // ---------------------------------------------------------------------------

  function AsInvalidCode(c: string): Message {
    InvalidCode(c)
  }

  /** The error list `validate_transaction_consistency` builds. */
  function ConsistencyErrors(txs: seq<Transaction>): seq<Message> {
    var unsorted := UnsortedReports(txs, |txs|);
    (if |unsorted| > 0 then [NotChronological(unsorted)] else [])
    + Map(InvalidCodes(txs), AsInvalidCode)
    + LogicalIssuesOver(txs, CodesInOrder(txs))
  }

  /**
   * `validate_transaction_consistency`: duplicates as warnings; one error
   * listing every out-of-order transaction, one per rejected code, then
   * the negative-holding errors.
   */
  method ValidateTransactionConsistency(txs: seq<Transaction>) returns (r: ValidationResult)
    ensures r.isValid <==> |r.errors| == 0
    ensures r.errors == ConsistencyErrors(txs)
    ensures r.warnings == DuplicateReports(txs, |txs|)
    ensures r.isValid ==> SortedBy(txs, TxDate)
    ensures r.isValid ==> forall t :: t in txs ==> !CodeRejected(t.code)
  {
    var dups := FindDuplicates(txs);
    var unsorted := FindUnsorted(txs);
    var logical := CheckLogicalConsistency(txs);
    var errors := (if |unsorted| > 0 then [NotChronological(unsorted)] else [])
                  + Map(InvalidCodes(txs), AsInvalidCode) + logical;
    SortedListHasNoUnsorted(txs);
    r := ValidationResult(|errors| == 0, errors, dups);
  }

  /** A transaction passes its own check iff its code and its fields are acceptable. */
  predicate Acceptable(t: Transaction) {
    CodeAccepted(t.code) && FieldsAccepted(t)
  }

  /** The error list of each transaction's own check, in list order. */
  function PerTransactionErrors(txs: seq<Transaction>, today: Dates.Date): (r: seq<seq<Message>>)
    ensures |r| == |txs|
    ensures forall i :: 0 <= i < |txs| ==> r[i] == ValidateSingleTransaction(txs[i], i, today).errors
    ensures forall i :: 0 <= i < |txs| ==> (|r[i]| == 0 <==> Acceptable(txs[i]))
  {
    seq(|txs|, i requires 0 <= i < |txs| => ValidateSingleTransaction(txs[i], i, today).errors)
  }

  /** The warning list of each transaction's own check, in list order. */
  function PerTransactionWarnings(txs: seq<Transaction>, today: Dates.Date): (r: seq<seq<Message>>)
    ensures |r| == |txs|
    ensures forall i :: 0 <= i < |txs| ==> r[i] == ValidateSingleTransaction(txs[i], i, today).warnings
  {
    seq(|txs|, i requires 0 <= i < |txs| => ValidateSingleTransaction(txs[i], i, today).warnings)
  }

  /** The loop over the transactions: their errors and warnings, each list in order. */
  method CollectSingleChecks(txs: seq<Transaction>, today: Dates.Date) returns (errors: seq<Message>, warnings: seq<Message>)
    ensures errors == Flatten(PerTransactionErrors(txs, today))
    ensures warnings == Flatten(PerTransactionWarnings(txs, today))
  {
    ghost var parts := PerTransactionErrors(txs, today);
    ghost var notes := PerTransactionWarnings(txs, today);
    errors := [];
    warnings := [];
    var i := 0;
    while i < |txs|
      invariant 0 <= i <= |txs|
      invariant errors == Flatten(parts[..i])
      invariant warnings == Flatten(notes[..i])
    {
      var single := ValidateSingleTransaction(txs[i], i, today);
      assert parts[..i + 1][..i] == parts[..i];
      assert notes[..i + 1][..i] == notes[..i];
      errors := errors + single.errors;
      warnings := warnings + single.warnings;
      i := i + 1;
    }
    assert parts[..|txs|] == parts;
    assert notes[..|txs|] == notes;
  }

  /** No transaction has an error of its own exactly when every one is acceptable. */
  lemma NoSingleErrorsIffAllAcceptable(txs: seq<Transaction>, today: Dates.Date)
    ensures |Flatten(PerTransactionErrors(txs, today))| == 0 <==> forall i :: 0 <= i < |txs| ==> Acceptable(txs[i])
  {
    FlattenEmpty(PerTransactionErrors(txs, today));
  }

  /**
   * `validate_transactions`: an empty list is invalid with the single error
   * "No transactions found"; otherwise the errors of every transaction,
   * then the consistency errors, and valid iff there are none. Warnings
   * never affect validity.
   */
  method ValidateTransactions(txs: seq<Transaction>, today: Dates.Date) returns (r: ValidationResult)
    ensures |txs| == 0 ==> r == ValidationResult(false, [NoTransactionsFound], [])
    ensures |txs| > 0 ==> r.errors == Flatten(PerTransactionErrors(txs, today)) + ConsistencyErrors(txs)
    ensures |txs| > 0 ==> r.warnings == Flatten(PerTransactionWarnings(txs, today)) + DuplicateReports(txs, |txs|)
    ensures r.isValid <==> |txs| > 0 && |r.errors| == 0
    ensures r.isValid <==> && |txs| > 0
                           && (forall i :: 0 <= i < |txs| ==> Acceptable(txs[i]))
                           && |ConsistencyErrors(txs)| == 0
  {
    if |txs| == 0 {
      return ValidationResult(false, [NoTransactionsFound], []);
    }
    var errors, warnings := CollectSingleChecks(txs, today);
    var consistency := ValidateTransactionConsistency(txs);
    NoSingleErrorsIffAllAcceptable(txs, today);
    r := ValidationResult(|errors + consistency.errors| == 0, errors + consistency.errors, warnings + consistency.warnings);
  }

  // ---------------------------------------------------------------------------
  // Code plausibility
  // ---------------------------------------------------------------------------

  predicate SixDigits(code: string) {
    |code| == 6 && Text.IsDigits(code)
  }

  /** `_is_reasonable_stock_code`: six digits starting with 6 (Shanghai), 0 or 3 (Shenzhen), 8 or 4 (Beijing). */
  function IsReasonableStockCode(code: string): (r: bool)
    ensures r <==> SixDigits(code) && code[0] in {'6', '0', '3', '8', '4'}
  {
    if !SixDigits(code) then false
    else if Text.StartsWith(code, "6") then true
    else if Text.StartsWithAnyChar(code, {'0', '3'}) then true
    else if Text.StartsWithAnyChar(code, {'8', '4'}) then true
    else false
  }

  const FundPrefixes: seq<string> :=
    ["110", "161", "163", "164", "165", "166", "167", "168", "169",
     "501", "502", "503", "504", "505", "506", "507", "508", "509"]

  /** `_is_reasonable_fund_code`: six digits starting with one of the listed fund prefixes. */
  function IsReasonableFundCode(code: string): (r: bool)
    ensures r <==> SixDigits(code) && code[..3] in FundPrefixes
  {
    SixDigits(code) && exists i :: 0 <= i < |FundPrefixes| && Text.StartsWith(code, FundPrefixes[i])
  }

  /** A reasonable fund code starts with "1" or "5", so it is classified as a fund. */
  lemma ReasonableFundCodeIsFund(t: Transaction)
    requires IsReasonableFundCode(t.code)
    ensures t.GetInvestmentType() == Fund
  {
    var i :| 0 <= i < |FundPrefixes| && FundPrefixes[i] == t.code[..3];
    assert t.code[0] == FundPrefixes[i][0];
  }
}

=== FILE: wrappers.dfy ===
/** Failure-carrying wrappers used for the source's `None` returns and raised errors. */
module Wrappers {

  /** A value that may be absent, as Python's `Optional[...]`. */
  datatype Option<+T> = None | Some(value: T) {

    /** The wrapped value, or `default` when absent (Python's `d.get(k, default)`). */
    function GetOr(default: T): T {
      match this
      case Some(v) => v
      case None => default
    }
  }

  /** The outcome of an operation that raises in the source: a value, or the error it raises. */
  datatype Result<+T, +E> = Success(value: T) | Failure(error: E) {

    predicate IsFailure() {
      Failure?
    }

    function PropagateFailure<U>(): Result<U, E>
      requires Failure?
    {
      Failure(error)
    }

    function Extract(): T
      requires Success?
    {
      value
    }
  }
}

=== FILE: xirr.dfy ===
/**
 * Annualised internal rate of return (calculation/xirr.py). The net present
 * value and its derivative need real exponents, so both enter as parameters
 * (amounts, year offsets, rate) -> value; everything around them is modelled:
 * the guards, the zero-flow filter, the year offsets, the clamped Newton
 * iteration, the bisection fallback, and the two cash-flow builders.
 */
module Xirr {
  import opened Wrappers
  import opened Seqs
  import Dates

  datatype CashFlow = CashFlow(date: Dates.Date, amount: real)

  /** A transaction as the builders receive it: date, type name and total amount. */
  datatype TxFlow = TxFlow(date: Dates.Date, kind: string, amount: real)

  /** NPV-like function of (amounts, year offsets, rate). */
  type RateFunction = (seq<real>, seq<real>, real) -> real

  /** The bracket every iterate is kept in. */
  const LowRate: real := -0.99
  const HighRate: real := 10.0

  const DefaultMaxIterations: nat := 100
  const DefaultTolerance: real := 0.000001
  const InitialGuess: real := 0.1
  const FlatDerivative: real := 0.0000000001
  const BisectionSteps: nat := 100

  function Abs(x: real): real {
    if x < 0.0 then -x else x
  }

  /** `max(-0.99, min(x, 10.0))`. */
  function Clamp(x: real): (r: real)
    ensures LowRate <= r <= HighRate
    ensures LowRate <= x <= HighRate ==> r == x
    ensures x > HighRate ==> r == HighRate
    ensures x < LowRate ==> r == LowRate
  {
    var capped := if x < HighRate then x else HighRate;
    if LowRate > capped then LowRate else capped
  }

  predicate NonZero(f: CashFlow) {
    f.amount != 0.0
  }

  function FlowDate(f: CashFlow): int {
    f.date
  }

  function FlowAmount(f: CashFlow): real {
    f.amount
  }

  predicate HasNegative(flows: seq<CashFlow>) {
    exists i :: 0 <= i < |flows| && flows[i].amount < 0.0
  }

  predicate HasPositive(flows: seq<CashFlow>) {
    exists i :: 0 <= i < |flows| && flows[i].amount > 0.0
  }

  /** Years from `start` to each flow's date: whole days ÷ 365. */
  function YearsFrom(flows: seq<CashFlow>, start: Dates.Date): (ys: seq<real>)
    ensures |ys| == |flows|
    ensures forall i :: 0 <= i < |flows| ==> ys[i] == (flows[i].date - start) as real / 365.0
    decreases |flows|
  {
    if |flows| == 0 then [] else [(flows[0].date - start) as real / 365.0] + YearsFrom(flows[1..], start)
  }

  /** Measured from the earliest of date-sorted flows, every year offset is non-negative. */
  lemma YearsFromEarliestNonNegative(sorted: seq<CashFlow>)
    requires |sorted| > 0 && SortedBy(sorted, FlowDate)
    ensures forall i :: 0 <= i < |sorted| ==> YearsFrom(sorted, sorted[0].date)[i] >= 0.0
  {
    forall i | 0 <= i < |sorted| ensures YearsFrom(sorted, sorted[0].date)[i] >= 0.0 {
      assert FlowDate(sorted[0]) <= FlowDate(sorted[i]);
    }
  }

  // ---------------------------------------------------------------------------
  // Newton iteration and bisection
  // ---------------------------------------------------------------------------

  /**
   * The Newton loop with `left` iterations to go: stops (none) when the
   * derivative is flat, clamps every step into the bracket, and succeeds
   * when a step moves less than the tolerance.
   */
  function Newton(f: real -> real, df: real -> real, rate: real, left: nat, tol: real): (r: Option<real>)
    ensures r.Some? ==> LowRate <= r.value <= HighRate
    decreases left
  {
    if left == 0 then None
    else
      var slope := df(rate);
      if Abs(slope) < FlatDerivative then None
      else
        var next := Clamp(rate - f(rate) / slope);
        if Abs(next - rate) < tol then Some(next) else Newton(f, df, next, left - 1, tol)
  }

  /** Every Newton iterate after the first lies in the bracket, so an accepted rate is a clamped step. */
  lemma {:induction false} NewtonConverged(f: real -> real, df: real -> real, rate: real, left: nat, tol: real)
    requires Newton(f, df, rate, left, tol).Some?
    ensures exists prev :: Abs(df(prev)) >= FlatDerivative
                        && Abs(Newton(f, df, rate, left, tol).value - prev) < tol
                        && Newton(f, df, rate, left, tol).value == Clamp(prev - f(prev) / df(prev))
    decreases left
  {
    var slope := df(rate);
    var next := Clamp(rate - f(rate) / slope);
    if Abs(next - rate) >= tol {
      assert Newton(f, df, rate, left, tol) == Newton(f, df, next, left - 1, tol);
      NewtonConverged(f, df, next, left - 1, tol);
    } else {
      assert Newton(f, df, rate, left, tol).value == next;
      assert Abs(df(rate)) >= FlatDerivative;
    }
  }

  /** The bisection loop with `left` halvings to go, on the bracket [low, high]. */
  function Bisect(f: real -> real, tol: real, low: real, high: real, left: nat): (r: real)
    requires low <= high
    ensures low <= r <= high
    decreases left
  {
    var mid := (low + high) / 2.0;
    if left == 0 then mid
    else if Abs(f(mid)) < tol || (high - low) / 2.0 < tol then mid
    else if f(low) * f(mid) < 0.0 then Bisect(f, tol, low, mid, left - 1)
    else Bisect(f, tol, mid, high, left - 1)
  }

  /** `f` changes sign (or vanishes at `hi`) over [lo, hi], with `f(lo)` non-zero. */
  predicate Straddles(f: real -> real, lo: real, hi: real) {
    f(lo) != 0.0 && f(lo) * f(hi) <= 0.0
  }

  lemma SameSignProduct(a: real, b: real, c: real)
    requires a * b > 0.0 && a * c <= 0.0
    ensures b * c <= 0.0
  {
    if a > 0.0 {
      assert b > 0.0;
      assert c <= 0.0;
    } else {
      assert b < 0.0;
      assert c >= 0.0;
    }
  }

  /**
   * Bisection keeps a sign change: the result either has an NPV within the
   * tolerance or is the midpoint of a sub-bracket over which the NPV still
   * changes sign.
   */
  lemma {:induction false} BisectKeepsSignChange(f: real -> real, tol: real, low: real, high: real, left: nat)
    requires low <= high && tol > 0.0 && Straddles(f, low, high)
    ensures var r := Bisect(f, tol, low, high, left);
            Abs(f(r)) < tol || exists lo, hi :: low <= lo <= hi <= high && Straddles(f, lo, hi) && r == (lo + hi) / 2.0
    decreases left
  {
    var mid := (low + high) / 2.0;
    if left == 0 || Abs(f(mid)) < tol || (high - low) / 2.0 < tol {
      assert Bisect(f, tol, low, high, left) == mid;
    } else if f(low) * f(mid) < 0.0 {
      BisectKeepsSignChange(f, tol, low, mid, left - 1);
    } else {
      assert f(mid) != 0.0;
      assert f(low) * f(mid) > 0.0;
      SameSignProduct(f(low), f(mid), f(high));
      BisectKeepsSignChange(f, tol, mid, high, left - 1);
    }
  }

  /** `_bisection_xirr`: 0 when the NPV has the same sign at both ends of the bracket. */
  function BisectionXirr(f: real -> real, tol: real): (r: real)
    ensures LowRate <= r <= HighRate
    ensures f(LowRate) * f(HighRate) > 0.0 ==> r == 0.0
    ensures f(LowRate) * f(HighRate) <= 0.0 && f(LowRate) != 0.0 && tol > 0.0 ==>
              Abs(f(r)) < tol || exists lo, hi :: LowRate <= lo <= hi <= HighRate && Straddles(f, lo, hi) && r == (lo + hi) / 2.0
  {
    if f(LowRate) * f(HighRate) > 0.0 then 0.0
    else
      assert f(LowRate) * f(HighRate) <= 0.0 && f(LowRate) != 0.0 && tol > 0.0 ==>
               Abs(f(Bisect(f, tol, LowRate, HighRate, BisectionSteps))) < tol
               || exists lo, hi :: LowRate <= lo <= hi <= HighRate && Straddles(f, lo, hi)
                                   && Bisect(f, tol, LowRate, HighRate, BisectionSteps) == (lo + hi) / 2.0 by {
        if f(LowRate) * f(HighRate) <= 0.0 && f(LowRate) != 0.0 && tol > 0.0 {
          BisectKeepsSignChange(f, tol, LowRate, HighRate, BisectionSteps);
        }
      }
      Bisect(f, tol, LowRate, HighRate, BisectionSteps)
  }

  // ---------------------------------------------------------------------------
  // calculate_xirr
  // ---------------------------------------------------------------------------

  /** The amounts of the flows, in order. */
  function Amounts(flows: seq<CashFlow>): (r: seq<real>)
    ensures |r| == |flows|
    ensures forall i :: 0 <= i < |flows| ==> r[i] == flows[i].amount
  {
    Map(flows, FlowAmount)
  }

  /**
   * `calculate_xirr`, as a percentage. 0 for fewer than two flows, fewer than
   * two non-zero flows, or non-zero flows all of one sign; otherwise the
   * non-zero flows are sorted by date, turned into year offsets from the
   * earliest, and solved by Newton from 10% with a bisection fallback.
   */
  function CalculateXirr(flows: seq<CashFlow>, maxIterations: int, tol: real, npv: RateFunction, deriv: RateFunction)
    : (r: real)
    ensures |flows| < 2 ==> r == 0.0
    ensures |Filter(flows, NonZero)| < 2 ==> r == 0.0
    ensures !HasNegative(Filter(flows, NonZero)) || !HasPositive(Filter(flows, NonZero)) ==> r == 0.0
    ensures -99.0 <= r <= 1000.0
  {
    if |flows| < 2 then 0.0
    else
      var nonZero := Filter(flows, NonZero);
      if |nonZero| < 2 then 0.0
      else if !HasNegative(nonZero) || !HasPositive(nonZero) then 0.0
      else
        var sorted := SortBy(nonZero, FlowDate);
        var years := YearsFrom(sorted, sorted[0].date);
        var amounts := Amounts(sorted);
        var f := (rate: real) => npv(amounts, years, rate);
        var df := (rate: real) => deriv(amounts, years, rate);
        match Newton(f, df, InitialGuess, if maxIterations > 0 then maxIterations else 0, tol)
        case Some(rate) => rate * 100.0
        case None => BisectionXirr(f, tol) * 100.0
  }

  /** `calculate_xirr` with its default iteration limit and tolerance. */
  function Xirr(flows: seq<CashFlow>, npv: RateFunction, deriv: RateFunction): (r: real)
    ensures -99.0 <= r <= 1000.0
    ensures |Filter(flows, NonZero)| < 2 ==> r == 0.0
  {
    CalculateXirr(flows, DefaultMaxIterations, DefaultTolerance, npv, deriv)
  }

  lemma FilterDropsZeroFlow(flows: seq<CashFlow>, i: nat, d: Dates.Date)
    requires i <= |flows|
    ensures Filter(flows[..i] + [CashFlow(d, 0.0)] + flows[i..], NonZero) == Filter(flows, NonZero)
  {
    FilterSkipsRejected(flows, i, CashFlow(d, 0.0), NonZero);
  }

  /** Inserting a zero-amount flow anywhere does not change the result. */
  lemma ZeroFlowIgnored(flows: seq<CashFlow>, i: nat, d: Dates.Date, maxIterations: int, tol: real,
                        npv: RateFunction, deriv: RateFunction)
    requires i <= |flows|
    ensures CalculateXirr(flows[..i] + [CashFlow(d, 0.0)] + flows[i..], maxIterations, tol, npv, deriv)
         == CalculateXirr(flows, maxIterations, tol, npv, deriv)
  {
    FilterDropsZeroFlow(flows, i, d);
  }

  // ---------------------------------------------------------------------------
  // Cash-flow builders
  // ---------------------------------------------------------------------------

  /** Types that move cash: BUY, SELL and DIVIDEND. */
  predicate IsCashKind(t: TxFlow) {
    t.kind == "BUY" || t.kind == "SELL" || t.kind == "DIVIDEND"
  }

  /** A BUY pays out (negative); a SELL or DIVIDEND pays in (positive). */
  function ToCashFlow(t: TxFlow): (c: CashFlow)
    ensures c.date == t.date
    ensures t.kind == "BUY" ==> c.amount == -t.amount
    ensures t.kind != "BUY" ==> c.amount == t.amount
  {
    if t.kind == "BUY" then CashFlow(t.date, -t.amount) else CashFlow(t.date, t.amount)
  }

  /** The transaction loop shared by both builders; other type names are dropped. */
  function TxCashFlows(txs: seq<TxFlow>): (r: seq<CashFlow>)
    ensures |r| <= |txs|
    decreases |txs|
  {
    if |txs| == 0 then []
    else if txs[0].kind == "BUY" then [CashFlow(txs[0].date, -txs[0].amount)] + TxCashFlows(txs[1..])
    else if txs[0].kind == "SELL" || txs[0].kind == "DIVIDEND" then [CashFlow(txs[0].date, txs[0].amount)] + TxCashFlows(txs[1..])
    else TxCashFlows(txs[1..])
  }

  /** The loop keeps the cash-moving transactions, in order, each turned into its flow. */
  lemma {:induction false} TxCashFlowsAreMapped(txs: seq<TxFlow>)
    ensures TxCashFlows(txs) == Map(Filter(txs, IsCashKind), ToCashFlow)
    decreases |txs|
  {
    if |txs| > 0 {
      TxCashFlowsAreMapped(txs[1..]);
      if IsCashKind(txs[0]) {
        MapCons(txs[0], Filter(txs[1..], IsCashKind), ToCashFlow);
      }
    }
  }

  /**
   * `build_annual_cashflows`: the year-start value as an outflow first when
   * positive, then the transactions' flows in order, then the year-end value
   * as an inflow last when positive.
   */
  function BuildAnnualCashflows(startDate: Dates.Date, endDate: Dates.Date, startValue: real, endValue: real,
                                txs: seq<TxFlow>): (r: seq<CashFlow>)
    ensures var head := if startValue > 0.0 then 1 else 0;
            var tail := if endValue > 0.0 then 1 else 0;
            && |r| == head + |Filter(txs, IsCashKind)| + tail
            && (startValue > 0.0 ==> r[0] == CashFlow(startDate, -startValue))
            && (endValue > 0.0 ==> r[|r| - 1] == CashFlow(endDate, endValue))
            && r[head..|r| - tail] == Map(Filter(txs, IsCashKind), ToCashFlow)
  {
    var opening := if startValue > 0.0 then [CashFlow(startDate, -startValue)] else [];
    var closing := if endValue > 0.0 then [CashFlow(endDate, endValue)] else [];
    TxCashFlowsAreMapped(txs);
    var r := opening + TxCashFlows(txs) + closing;
    assert r[|opening|..|r| - |closing|] == TxCashFlows(txs);
    r
  }

  /** `build_history_cashflows`: the transactions' flows, then the current value as an inflow when positive. */
  function BuildHistoryCashflows(txs: seq<TxFlow>, endDate: Dates.Date, currentValue: real): (r: seq<CashFlow>)
    ensures var tail := if currentValue > 0.0 then 1 else 0;
            && |r| == |Filter(txs, IsCashKind)| + tail
            && (currentValue > 0.0 ==> r[|r| - 1] == CashFlow(endDate, currentValue))
            && r[..|r| - tail] == Map(Filter(txs, IsCashKind), ToCashFlow)
  {
    var closing := if currentValue > 0.0 then [CashFlow(endDate, currentValue)] else [];
    TxCashFlowsAreMapped(txs);
    var r := TxCashFlows(txs) + closing;
    assert r[..|r| - |closing|] == TxCashFlows(txs);
    r
  }

  /** With no positive opening value, the annual flows are the history flows. */
  lemma AnnualWithoutOpeningIsHistory(startDate: Dates.Date, endDate: Dates.Date, startValue: real, endValue: real,
                                      txs: seq<TxFlow>)
    requires startValue <= 0.0
    ensures BuildAnnualCashflows(startDate, endDate, startValue, endValue, txs) == BuildHistoryCashflows(txs, endDate, endValue)
  {
    assert [] + TxCashFlows(txs) == TxCashFlows(txs);
  }
}
